=== FILE: README.md ===
# finance-agent broker, modelled in Dafny

This project models the core of the finance-agent repository in Dafny. That core is an asyncio WebSocket broker (`ccsdk/`) in front of a SQLite and Chroma data layer (`database/`), plus the domain rules inside its plugins (`agent/custom_scripts/`). It covers:

- conversation sessions: turn counter, busy flag, continuation token, subscriber set, and translation of provider messages into client messages;
- the connection and session registry that routes client envelopes by `type`;
- the four hot-reloadable plugin registries (listeners, actions, UI states, components);
- the JSON Lines audit log;
- provider-message decoding and option merging, and the search session's resume-id tracking;
- portfolio and principles schema validation and their repositories, and the watchlist repository;
- the report search query builder, vector-result filtering and relationship scoring;
- the principles-violation check, the report-analyzer listener and the watchlist-monitor listener.

Everything is functional. States are immutable datatypes. Each operation is a pure function from a state (and its inputs) to a new state plus the messages, log lines or rows it emits. These things are inputs to the model:

- what the language-model provider streams back;
- database and vector-store rows;
- directory listings and what executing a plugin file leaves behind;
- JSON parsing (a partial function);
- clocks and generated ids.

JSON values are `Json.Value` (`JNull | JBool | JNum(real) | JStr | JArr | JObj`). Python truthiness is `Json.Truthy`. Python dicts whose insertion order matters are `OrderedMap.Dict`, a sequence of pairs with unique keys.

Where the source has a quirk that callers may rely on, the model follows the code as written, and a lemma shows the behaviour. Where the code is evidently not what its authors meant, "## Findings" lists it, and the model has both the code as written and the corrected definition. Examples of the first kind:

- a listener returning a dict is logged as a failure (`ListenersManager.DictResultIsFailure`);
- `read_logs(limit=0)` returns every entry (`LogWriter.ReadLogs`);
- a failed `set_active_principles` leaves no active profile (`PrinciplesRepository.FailedSetActiveLeavesNone`);
- hybrid search with no candidates drops the id filter (`ReportSearch.NoCandidatesDropsIdFilter`);
- a subscriber whose `send_text` reports failure without raising is never pruned (`Session.FailedSendsKeepSubscribers`).

## Model

| member | source | states |
|---|---|---|
| LogWriter.AppendLog | ccsdk/log_writer.py:54-64 | a successful append adds exactly one record line at the end of the listener's own file, creating it if absent; a failed write changes nothing; every other file is untouched |
| LogWriter.ReadLogs | ccsdk/log_writer.py:82-107 | a missing file gives no entries; limit 0 gives every entry, a positive limit the newest `limit`; the result is the file's entries newest first |
| LogWriter.AppendThenReadOne | ccsdk/log_writer.py:45-104 | after an append, reading one entry returns exactly the appended entry |
| LogWriter.AppendThenRead | ccsdk/log_writer.py:57-104 | after an append, reading `k` entries gives the new entry followed by the `k - 1` newest entries from before |
| LogWriter.EntriesAppend | ccsdk/log_writer.py:93-101 | the entries of two concatenated runs of lines are the entries of each run in turn; blank and unparsable lines are skipped |
| LogWriter.LogFiles | ccsdk/log_writer.py:132 | the files read are exactly the listed names ending in `.jsonl` |
| LogWriter.Tag | ccsdk/log_writer.py:139-142 | tagging succeeds iff every entry is a dict; each entry then gains `listener_id`, and the order and count are kept |
| LogWriter.ReadAllLogs | ccsdk/log_writer.py:123-153 | a failed tagging or timestamp parse gives nothing; otherwise the result is the first `limit` (`[:limit]`) of a newest-first permutation of all the collected tagged entries; so limit 0 gives nothing, a positive limit caps the count, and every entry carries its listener id |
| LogWriter.Collect | ccsdk/log_writer.py:132-142 | every collected entry is a dict with a listener id |
| LogWriter.CollectSome | ccsdk/log_writer.py:135-142 | collecting fails iff tagging some file's entries fails |
| LogWriter.CollectSound | ccsdk/log_writer.py:135-142 | every collected entry comes from some listed file's own read |
| LogWriter.CollectComplete | ccsdk/log_writer.py:135-142 | every entry of every listed file's read is collected |
| LogWriter.ReadAllLogsFromFiles | ccsdk/log_writer.py:132-150 | every merged entry comes from a `.jsonl` file's own read, and when the limit covers all collected entries none is dropped |
| MessageTypes.Construct | ccsdk/message_types.py:493-503 | a dataclass constructor succeeds iff every keyword is declared and every field without a default is given; each field then takes its given value or its default, in declaration order; an undeclared keyword gives Python's unexpected-keyword error naming the first one |
| MessageTypes.ListenerConfigDefaults | ccsdk/message_types.py:493-503 | `ListenerConfig(id, name)` gets description `''`, enabled true and event `report_received` |
| MessageTypes.NewListenerResult | ccsdk/message_types.py:512-521 | a `ListenerResult` is built iff the generic constructor accepts the keywords, failing with its error otherwise; `executed` and `reason` are the given keywords, and `actions` and `components` are the given ones or None |
| MessageTypes.ListenerResultRejectsData | ccsdk/message_types.py:512-521 | passing `data=` to `ListenerResult` always raises the unexpected-keyword error |
| MessageTypes.NewActionResult | ccsdk/message_types.py:574-583 | an `ActionResult` is built iff the generic constructor accepts the keywords, failing with its error otherwise; `success` and `message` are the given keywords, and `data` and `components` are the given ones or None |
| MessageTypes.ActionResultKeywords | ccsdk/message_types.py:574-583 | `ActionResult` accepts exactly the keywords success, message, data and components, and needs success and message |
| MessageTypes.NewActionInstance | ccsdk/message_types.py:557-571 | a new action instance gets the first style, no params, and empty description, session id and creation time |
| MessageTypes.SessionInfoDefaults | ccsdk/message_types.py:322-328 | `WSSessionInfo()` has type `session_info`, an empty session id, message count 0 and is_active false |
| MessageTypes.NewSearchResult | ccsdk/message_types.py:142-155 | a search-result message is built iff every keyword is declared; its results are never None, and an omitted results list becomes `[]` |
| Plugins.Suffix | ccsdk/component_manager.py:74 | the suffix of a file name is empty, or a dot plus at least one non-dot character ending the name |
| Plugins.Load | ccsdk/listeners_manager.py:213-238 | a load clears the registry and keys it uniquely; every entry comes from a listed file the loader accepted; a missing or unlistable directory gives an empty registry |
| Plugins.LoadLastWins | ccsdk/listeners_manager.py:279-282 | a key maps to the value of the last file that contributes it, and is absent iff no file contributes it |
| Plugins.LoadIgnoresRejected | ccsdk/listeners_manager.py:265-292 | inserting a file the loader rejects anywhere in the listing leaves the registry unchanged |
| ListenersManager.Contribution | ccsdk/listeners_manager.py:248-292 | a file registers only if executing it left a `handler` and an enabled `config`; an enabled `ListenerConfig` instance registers under its own id, with the file as its handler; conversely, an enabled dict config whose `id` is text registers under that id, with the file as its handler |
| ListenersManager.Keep | ccsdk/listeners_manager.py:228-229 | only public `.py` scripts (not starting with `_` or `.`) can register, and only with an enabled config |
| ListenersManager.LoadAll | ccsdk/listeners_manager.py:213-238 | the loaded registry has unique ids, holds only enabled listeners from public scripts, and is empty when the directory is missing or unlistable |
| ListenersManager.LoadAllLastWins | ccsdk/listeners_manager.py:279-282 | an id maps to the listener of the last file registering it, and is absent iff no file registers it |
| ListenersManager.LoadAllIgnoresBrokenFiles | ccsdk/listeners_manager.py:265-292 | a file that fails to execute, or has no handler or no config, can be inserted anywhere without changing the registry |
| ListenersManager.Matching | ccsdk/listeners_manager.py:322-328 | the listeners run for an event are exactly the registered ones whose configured event equals it |
| ListenersManager.Normalise | ccsdk/listeners_manager.py:345-379 | a raising handler gives a failed result `Error: <e>` with that error; a result object is kept; a falsy return counts as success; reading the result raises iff the return is truthy and neither a dict nor a result object |
| ListenersManager.DictResultIsFailure | ccsdk/listeners_manager.py:353-361 | any non-empty dict a handler returns is recorded as a failure, because the normaliser passes `data=` to `ListenerResult` |
| ListenersManager.RecordOf | ccsdk/listeners_manager.py:341-389 | a record carries the listener id and name, `report_id` (default `unknown`) and `title` (default `No title`) from the data, the result's executed flag, reason and actions, the error text, the timestamp and the duration |
| ListenersManager.Run | ccsdk/listeners_manager.py:336-399 | listeners run in order, each before its record; without an escaping error every listener is invoked and recorded once; an escaping error ends the run right after the listener that caused it; event data that is not a dict raises at the first listener |
| ListenersManager.RunRecords | ccsdk/listeners_manager.py:336-394 | the i-th record is the i-th listener's: its handler's result could be read, and the record holds that normalised result at clock tick i |
| ListenersManager.RunEscapes | ccsdk/listeners_manager.py:336-379 | the run completes iff there is no listener, or the data is a dict and every handler's result can be read; otherwise the escaping error is that of the first listener whose result cannot be read |
| ListenersManager.CheckEvent | ccsdk/listeners_manager.py:313-331 | no matching listener means nothing runs; the invoked ids are a prefix of the matching listeners' ids, in order, all registered; without an escaping error there is one record per matching listener |
| ListenersManager.CheckEventRecords | ccsdk/listeners_manager.py:322-394 | the i-th record of an event is that of the i-th matching listener, holding its normalised result |
| ListenersManager.CheckEventCompletes | ccsdk/listeners_manager.py:322-379 | an event is handled without an escaping error iff no listener matches, or the data is a dict and every matching handler's result can be read; otherwise the error is the first unreadable one's |
| ListenersManager.BroadcastPayload | ccsdk/listeners_manager.py:401-407 | the broadcast payload is the log entry's fields plus the listener id |
| ListenersManager.Broadcasts | ccsdk/listeners_manager.py:401-407 | with a callback, one payload per record in order; without one, none |
| ListenersManager.Persist | ccsdk/listeners_manager.py:396-399 | persisting records touches no file except those of the recorded listeners |
| ListenersManager.PersistOneLinePerRecord | ccsdk/listeners_manager.py:396-399 | each listener's file gains exactly its own record as one new line |
| ListenersManager.CheckEventAudit | ccsdk/listeners_manager.py:336-399 | when data is a dict and every result can be read, every matching listener is invoked and its log file gains exactly one line, its entry |
| ListenersManager.CountEvents | ccsdk/listeners_manager.py:484-489 | counting by event succeeds iff every config is an object; the per-event counts are uniquely keyed, sum to the number of listeners, and give each event the number of listeners configured for it (an event is a key iff that number is positive) |
| ListenersManager.Bump | ccsdk/listeners_manager.py:489 | one increment adds one to the event's count (from 0 when absent) and leaves every other count as it was |
| ListenersManager.EventCountSnoc | ccsdk/listeners_manager.py:487-489 | the reference count grows by one exactly when the appended listener is configured for the event |
| ListenersManager.EventCountMatching | ccsdk/listeners_manager.py:322-328 | when every config is an object, an event's count is the number of listeners `check_event` would run for it |
| ListenersManager.GetStats | ccsdk/listeners_manager.py:479-495 | stats raise iff some config is not an object; the total is the number of registered listeners; each event's count is the number of listeners configured for it; the enabled count equals the total iff all are enabled and is 0 iff none is |
| ListenersManager.CountEnabled | ccsdk/listeners_manager.py:494 | the enabled count is at most the number of listeners, equals it iff every listener is enabled, and is 0 iff none is |
| ActionsManager.Contribution | ccsdk/actions_manager.py:133-173 | a template registers only from a dict config with id and name plus a handler; icon, description and parameter schema default to `🚀`, `''` and `{}`; conversely, a handler with a dict config holding a text `id` and a `name` always registers under that id |
| ActionsManager.Keep | ccsdk/actions_manager.py:114-116 | only `.py` files not starting with `_` register, each under its config id |
| ActionsManager.LoadAll | ccsdk/actions_manager.py:105-123 | loading replaces the templates only and keeps the instances; templates are uniquely keyed by their config id; a missing or unlistable directory gives no templates |
| ActionsManager.LoadAllLastWins | ccsdk/actions_manager.py:166-167 | a template id maps to the last file defining it, and is absent iff no file defines it |
| ActionsManager.GetTemplate | ccsdk/actions_manager.py:186-187 | a template is found iff it is registered; what is returned is the config stored under that id, and with unique ids it is exactly the config registered for it |
| ActionsManager.RegisterInstance | ccsdk/actions_manager.py:210 | a registered instance is found under its id; the other instances and the templates are unchanged |
| ActionsManager.GetInstance | ccsdk/actions_manager.py:224 | an instance is found iff it is registered |
| ActionsManager.Normalise | ccsdk/actions_manager.py:265-287 | a raising handler gives `Action 执行失败: <e>`; a result object is kept; a dict is a success iff `ActionResult(**d)` accepts it; any other value is wrapped as successful data; for an accepted dict, `success` and `message` are the dict's values and `data` and `components` are the dict's or None |
| ActionsManager.Execute | ccsdk/actions_manager.py:244-306 | an unknown instance or template gives its failure message and no log entry; otherwise the result and error are the template handler's normalised outcome on the instance's params, and exactly one entry records timestamp, instance, template, session, params, result and duration |
| ActionsManager.PersistExecution | ccsdk/actions_manager.py:316-343 | an execution without an entry writes nothing; otherwise the date's log file gains exactly that entry |
| ActionsManager.RegisterThenExecute | ccsdk/actions_manager.py:201-306 | a registered instance of a known template is executed and logged; a raising handler gives a failed result whose entry carries the error |
| ActionsManager.BadDictIsFailure | ccsdk/actions_manager.py:271-273 | a returned dict with an unknown key, or missing success or message, becomes a failed result with an error |
| ActionsManager.GetStats | ccsdk/actions_manager.py:397-404 | the template ids are the registered ids in registration order and the template count is their number; the instance count is the number of running instances |
| UIStateManager.Contribution | ccsdk/ui_state_manager.py:122-167 | a template registers iff the file's config is a dict with a string id and an initial state; the name defaults to the id and the description to `''` |
| UIStateManager.Keep | ccsdk/ui_state_manager.py:102-103 | only public `.py` scripts register, each under its own id |
| UIStateManager.LoadAll | ccsdk/ui_state_manager.py:95-112 | loading replaces the templates only, keyed uniquely by id; callbacks, database and logs are untouched; a missing directory gives no templates |
| UIStateManager.LoadAllLastWins | ccsdk/ui_state_manager.py:161 | a state id maps to the last file defining it, and is absent iff none does |
| UIStateManager.GetState | ccsdk/ui_state_manager.py:198-214 | a stored non-null value is returned as is; a missing, null or undecodable value falls back to the template's initial state, else `None`; a failing database gives `None` |
| UIStateManager.Notices | ccsdk/ui_state_manager.py:334-338 | every registered callback is notified once with the state id and the data |
| UIStateManager.SetState | ccsdk/ui_state_manager.py:225-239 | a persistence failure is re-raised with nothing logged or notified; otherwise the audit file gains exactly one entry (none if the append fails), every callback gets the new data, and the templates and callbacks are kept |
| UIStateManager.SetThenGet | ccsdk/ui_state_manager.py:187-239 | after a set, reading the state gives the data (the fallback for `None`), and every other state reads as before |
| UIStateManager.InitializeIfNeeded | ccsdk/ui_state_manager.py:281-300 | initialisation happens iff the state reads as `None`, a template exists and the database works; it then notifies with the initial state, and otherwise changes nothing |
| UIStateManager.InitializeOnlyNullRepeats | ccsdk/ui_state_manager.py:282-296 | initialisation can happen again right after itself only when the template's initial state is `None` |
| UIStateManager.OnStateUpdate | ccsdk/ui_state_manager.py:317 | subscribing adds exactly the given callback and changes nothing else |
| UIStateManager.Unsubscribe | ccsdk/ui_state_manager.py:320-321 | unsubscribing removes exactly the given callback and changes nothing else |
| UIStateManager.SubscriptionControlsNotices | ccsdk/ui_state_manager.py:317-338 | a subscribed callback is notified of a set and an unsubscribed one is not; subscribing then unsubscribing a new callback restores the state |
| ComponentManager.Contribution | ccsdk/component_manager.py:88-118 | only a `.py` file whose dict config has a truthy string id and a truthy stateId registers; name defaults to the id and description to `''` |
| ComponentManager.Keep | ccsdk/component_manager.py:73-74 | only regular `.py` files not starting with `_` register, each under its id with a truthy stateId |
| ComponentManager.LoadAll | ccsdk/component_manager.py:65-82 | loading replaces the templates only, keyed uniquely by id; a missing directory gives no templates |
| ComponentManager.LoadAllLastWins | ccsdk/component_manager.py:92-115 | a component id maps to the last `.py` file defining it, and is absent iff none does |
| ComponentManager.RegisterInstance | ccsdk/component_manager.py:132-149 | a registered instance is found under its id, others are unchanged, and the table row is added only when the insert succeeds |
| ComponentManager.InstanceId | ccsdk/component_manager.py:188 | generated instance ids start with `comp_` |
| ComponentManager.InstanceIdParts | ccsdk/component_manager.py:188 | two equal instance ids come from the same millisecond and the same first eight hex digits |
| ComponentManager.CreateInstance | ccsdk/component_manager.py:177-199 | the new instance carries the given component, session and state ids and props (empty when none are given), and it is registered |
| ComponentManager.GetComponentData | ccsdk/component_manager.py:262-291 | data is found iff the instance and its template exist; it is that instance, its template and the current value of its UI state |
| ComponentManager.UpdateComponentState | ccsdk/component_manager.py:293-312 | an update succeeds iff the instance exists and the database works; it sets the instance's UI state, and a failed update changes nothing |
| ComponentManager.UpdateThenRead | ccsdk/component_manager.py:262-312 | after a successful non-null update, the component's data shows the new state |
| ComponentManager.CreateThenRead | ccsdk/component_manager.py:177-199 | a created instance of a known component reads back with its template, its state and itself |
| Session.New | ccsdk/session.py:68-89 | a new session has its id, no continuation token, is idle, has no subscribers and a zero message count |
| Session.Subscribe | ccsdk/session.py:187-199 | subscribing adds the client and changes nothing else; the client alone is sent the session info (id, count, busy flag) |
| Session.Unsubscribe | ccsdk/session.py:211 | unsubscribing removes exactly that client and changes nothing else; removing a non-subscriber is a no-op |
| Session.Cleanup | ccsdk/session.py:413 | cleanup leaves no subscribers and changes nothing else |
| Session.SubscribeUnsubscribe | ccsdk/session.py:178-211 | subscribing a new client then unsubscribing it restores the session; while subscribed the session has subscribers |
| Session.EndConversation | ccsdk/session.py:422-423 | ending a conversation drops the continuation token and the busy flag, and keeps id, subscribers and count |
| Session.Broadcast | ccsdk/session.py:359-378 | the message is delivered to exactly the subscribers whose `send_text` does not raise when called; those are the only ones dropped, and nothing else changes |
| Session.FailedSendsKeepSubscribers | ccsdk/session.py:365-378 | a subscriber stays iff calling its `send_text` did not raise, however the send itself later ends, and then it receives the message |
| Session.BroadcastAll | ccsdk/session.py:350-378 | every message is broadcast once, in order; clients whose `send_text` raises when called drop out after the first message, and no messages change nothing |
| Session.TextMessages | ccsdk/session.py:246-292 | content blocks give at most one assistant message each, all carrying the session id; each message is the text of some dict block of type `text`; there are none iff no block is such a dict |
| Session.TextMessagesAppend | ccsdk/session.py:248-290 | the messages of two runs of blocks are those of each run in turn |
| Session.TextMessagesOne | ccsdk/session.py:252-287 | a block gives an assistant message with its text iff it is a dict of type `text`; other blocks give nothing |
| Session.Translate | ccsdk/session.py:228-348 | assistant text becomes an assistant message; assistant blocks become the text messages of their `text` blocks; a success result carries its result, cost and duration, any other result is a failure naming its subtype; system messages pass through; a user message is dropped iff it shows a tool block; no translated message is an error |
| Session.Step | ccsdk/session.py:147-163 | a streamed message replaces the continuation token iff it carries one; it broadcasts exactly its translations and never adds subscribers |
| Session.Steps | ccsdk/session.py:147-169 | streaming broadcasts exactly the translations of the streamed messages, in order; it keeps the session's id, busy flag and count and never adds subscribers |
| Session.TokenAfterSteps | ccsdk/session.py:154-163 | after a stream, the continuation token is the last one the stream carried, else the one held before |
| Session.TurnOptions | ccsdk/session.py:122-140 | the query resumes iff the session holds a token, with that token; a PORTFOLIO intent adds exactly the system prompt, which is the portfolio-adviser prompt, and the allowed tools, which are the default tool list; any other intent adds nothing |
| Session.AddUserMessage | ccsdk/session.py:111-176 | a turn raises the count by one and ends idle in every case; the provider is queried iff classification succeeds, with the user's text, resuming iff a token is held; the broadcast messages are the translations of the reply's stream, followed by the failure's error message when the reply failed, and only the classification error message when classification fails; the query's options are the turn options for the classified intent, `GENERAL` when none is given |
| Session.TranslationsAppend | ccsdk/session.py:147-152 | translating two streams in turn is translating their concatenation |
| Session.BusyDuringTurn | ccsdk/session.py:111-113 | at every point of the stream the session is busy and its count already raised |
| Session.FailureBroadcastOnce | ccsdk/session.py:171-173 | a failed classification or query ends with exactly one error message, last, naming the session and the failure |
| Session.SuccessHasNoError | ccsdk/session.py:145-169 | a successful turn emits no error message |
| Session.TurnResumesIffToken | ccsdk/session.py:122-127 | the options the client finally sends resume with the session's token iff it holds one, else with none |
| Session.TurnToken | ccsdk/session.py:154-163 | after a turn, the token is the last one streamed if classification succeeded and one was streamed, else the old one |
| AiClient.ContentText | ccsdk/ai_client.py:429-446 | a missing block content becomes `''` and text content is kept as is |
| AiClient.BlockDict | ccsdk/ai_client.py:404-448 | a non-tool block object becomes a dict with its type plus exactly its copied attributes and content, attribute values unchanged |
| AiClient.AssistantBlock | ccsdk/ai_client.py:388-448 | a text block becomes `{type: text, text}`; a kept block is never a tool block; a non-tool dict block passes through unchanged |
| AiClient.AssistantBlocks | ccsdk/ai_client.py:386-453 | assistant content keeps at most one dict per block and no tool blocks |
| AiClient.AssistantBlocksSound | ccsdk/ai_client.py:386-453 | every kept dict is the conversion of some block of the content |
| AiClient.AssistantBlocksComplete | ccsdk/ai_client.py:386-453 | every block that converts is kept |
| AiClient.UserText | ccsdk/ai_client.py:495-514 | a user text block gives its text, a string gives itself, and tool blocks (object or dict) give nothing |
| AiClient.UserListText | ccsdk/ai_client.py:492-522 | list content gives the texts joined by newlines when they are all strings and the result is non-empty, and nothing otherwise |
| AiClient.Convert | ccsdk/ai_client.py:369-537 | unknown kinds give nothing, and so does list user content whose blocks give no joinable text; assistant messages always convert, list content into its kept blocks and other content into its text; system messages keep subtype and session; results carry result, cost, duration and session with defaults; plain user text passes through, list user text is its joined texts, and any other user content is its `str`; only user messages become user messages |
| AiClient.AssistantDropsToolBlocks | ccsdk/ai_client.py:396-410 | one tool block in assistant content makes the kept blocks fewer than the given ones |
| AiClient.AssistantKeepsText | ccsdk/ai_client.py:390-394 | assistant text blocks are all kept, in order, as text dicts |
| AiClient.UserToolOnlyIsDropped | ccsdk/ai_client.py:494-522 | a user message made only of tool blocks is not forwarded |
| AiClient.Stream | ccsdk/ai_client.py:336-342 | the stream yields at most one message per raw message, each the conversion of some raw message |
| AiClient.StreamAppend | ccsdk/ai_client.py:318-342 | streaming two runs of raw messages yields the messages of each run in turn |
| AiClient.StreamOne | ccsdk/ai_client.py:337-340 | a raw message yields its conversion when there is one, else nothing |
| AiClient.InitOptions | ccsdk/ai_client.py:97-109 | the client's options are the defaults overridden by every non-`None` caller option; no other keys appear |
| AiClient.StreamOptions | ccsdk/ai_client.py:247-262 | per-query options are the caller's, plus the serialisable defaults that are forwarded and not overridden; caller values win |
| AiClient.AgentOptionsOf | ccsdk/ai_client.py:296-306 | the agent options take resume, max_turns and system_prompt from the merged options, with defaults `None`, 100 and `''`, and the MCP servers and hooks from the default options object |
| AiClient.ResumeFromCaller | ccsdk/ai_client.py:248-305 | the query resumes with exactly the resume id the caller gives, and none otherwise |
| AiClient.McpServersAttachedFromDefaults | ccsdk/ai_client.py:251-303 | the merged option dict never carries the default MCP servers or hooks; every query hands the provider those of the default options object, and a caller's own `mcp_servers` or `hooks` option never reaches it |
| AiClient.QuerySingle | ccsdk/ai_client.py:561-576 | every message is collected; cost and duration come from the last success result, and are 0 without one |
| WebSocketHandler.GeneratedId | ccsdk/websocket_handler.py:292-298 | generated session ids start with `session-` and are longer than the prefix |
| WebSocketHandler.GetOrCreate | ccsdk/websocket_handler.py:301-317 | a non-empty requested id is used, else the generated one; an existing session is returned untouched; otherwise a fresh session is stored under the id; no other session, client or binding changes |
| WebSocketHandler.GetOrCreateIdempotent | ccsdk/websocket_handler.py:301-307 | asking again for the same named session changes nothing and gives the same id |
| WebSocketHandler.Simplify | ccsdk/websocket_handler.py:148-162 | a report is cut down to exactly the listed summary fields, each read with a `None` default |
| WebSocketHandler.RecentReports | ccsdk/websocket_handler.py:139-168 | a failed report query gives an empty list; otherwise one summary per report, in order |
| WebSocketHandler.TemplateSummaries | ccsdk/websocket_handler.py:358-366 | one `{id, name, description}` entry per UI-state template, in order |
| WebSocketHandler.OnOpen | ccsdk/websocket_handler.py:335-372 | a new connection is registered under its client id without touching sessions or bindings; it alone is sent `connected` with the session ids, then the recent reports, then the templates when they can be read |
| WebSocketHandler.FirstKeyOf | ccsdk/websocket_handler.py:437-443 | the key found for a socket is that of its first registration, and none is found iff the socket is not registered |
| WebSocketHandler.OnClose | ccsdk/websocket_handler.py:417-449 | a closing client is unsubscribed from its bound session only, its search session is dropped, its first client registration is removed, its binding is kept, and no session is added or removed |
| WebSocketHandler.OpenThenClose | ccsdk/websocket_handler.py:335-449 | opening then closing a fresh client restores the client registry and the sessions |
| WebSocketHandler.Chat | ccsdk/websocket_handler.py:451-472 | a chat binds the client to the named or generated session and leaves other sessions, clients and searches alone; with `newConversation` the client joins, the token is dropped and the reply ends in the generic failure; otherwise the count goes up by one; an ordinary chat sends the join messages and then exactly the session turn's output, and stores the turn's new session state |
| WebSocketHandler.JoinChat | ccsdk/websocket_handler.py:451-470 | joining a chat binds the client to the session, subscribes it unless already bound there, and leaves every other session unchanged |
| WebSocketHandler.ChatKeepsOldSubscription | ccsdk/websocket_handler.py:461-470 | chatting in another session rebinds the client but leaves it subscribed to the previous one |
| WebSocketHandler.SubscribeTo | ccsdk/websocket_handler.py:474-506 | a missing id or unknown session gives its error and changes nothing; otherwise the client joins the session, leaves the session it was bound to, is rebound, and gets the session info then `subscribed` |
| WebSocketHandler.LeaveBound | ccsdk/websocket_handler.py:491-496 | leaving the bound session removes the client from it only, and never from the target session |
| WebSocketHandler.UnsubscribeFrom | ccsdk/websocket_handler.py:508-525 | unsubscribing from a known session removes the client from it, forgets the client's binding and confirms; an unknown or missing id does nothing |
| WebSocketHandler.SubscribeThenUnsubscribe | ccsdk/websocket_handler.py:474-525 | after subscribe the client is a bound subscriber; after unsubscribe it is neither |
| WebSocketHandler.UnsubscribeOtherForgetsBinding | ccsdk/websocket_handler.py:417-525 | unsubscribing from a different session forgets the binding, so closing afterwards leaves the client subscribed to its real session |
| WebSocketHandler.SubscribeReportAnalysis | ccsdk/websocket_handler.py:538-557 | a named session gets the report-analysis confirmation, a missing one its error |
| WebSocketHandler.UnsubscribeReportAnalysis | ccsdk/websocket_handler.py:559-575 | a confirmation is sent iff the session is named |
| WebSocketHandler.ResumeFor | ccsdk/websocket_handler.py:632-636 | a search session resumes from its id iff the id is non-empty and does not start with `session-` |
| WebSocketHandler.SearchFor | ccsdk/websocket_handler.py:632-648 | a new search session is created for the asking client, resuming as `ResumeFor` says; an existing one is reused |
| WebSocketHandler.Search | ccsdk/websocket_handler.py:599-661 | without a search service or with an empty query the client gets the matching error; otherwise the search session handles the query, is stored, and its output goes to its socket; sessions and bindings are untouched |
| WebSocketHandler.FirstSearchResumesClientId | ccsdk/websocket_handler.py:618-644 | a first search under a client-chosen id that is not a chat session id resumes the provider from that id |
| WebSocketHandler.SearchRepliesToCreator | ccsdk/websocket_handler.py:632-648 | a later search in the same search session replies to the socket that created it, whoever asks |
| WebSocketHandler.OnMessage | ccsdk/websocket_handler.py:374-415 | an envelope is routed by its `type` to the chat, subscribe, unsubscribe, reports, report-analysis and search handlers; unparsable input and unknown types get their errors; the client registry never changes |
| WebSocketHandler.ReadOnlyMessages | ccsdk/websocket_handler.py:374-415 | every message except chat, subscribe, unsubscribe and search leaves the registry unchanged and replies only to the sender |
| WebSocketHandler.Recipients | ccsdk/websocket_handler.py:229-240 | an unscoped broadcast reaches every connected client; a scoped one reaches exactly the connected clients bound to that session |
| WebSocketHandler.BroadcastReports | ccsdk/websocket_handler.py:170-186 | the report list goes to every connected client |
| WebSocketHandler.BroadcastUIState | ccsdk/websocket_handler.py:188-204 | a UI-state update goes to every connected client |
| WebSocketHandler.BroadcastReportAnalysis | ccsdk/websocket_handler.py:206-244 | an analysis update goes to the scope's recipients and names the session, or `''` when unscoped |
| WebSocketHandler.BroadcastAlert | ccsdk/websocket_handler.py:246-290 | an alert goes to the scope's recipients and names the session, or `''` when unscoped |
| WebSocketHandler.SubscriberReceivesScoped | ccsdk/websocket_handler.py:206-244 | a connected client that subscribes to a session receives that session's scoped broadcasts |
| WebSocketHandler.SweepOne | ccsdk/websocket_handler.py:319-331 | the sweep removes a session iff it had no subscribers before the grace period and has none after; it changes no other session |
| WebSocketHandler.SweepKeepsSubscribed | ccsdk/websocket_handler.py:324-331 | a session with a subscriber is never swept |
| SearchSession.IntentData | ccsdk/search_session.py:82-98 | a classification is used as given; a failed one becomes intent GENERAL with the error as reason and confidence 0 |
| SearchSession.BlockChunks | ccsdk/search_session.py:166-186 | every emitted chunk is truthy text; when every block is a chunk block, each one is emitted; only the web path can fail, and only on a block that is not a dict (the exact chunks are `BlockChunksTexts`) |
| SearchSession.BlockChunksTexts | ccsdk/search_session.py:166-186 | the chunks are exactly the texts of the text blocks, in order; the web path stops at the first block that is not a dict and fails on it, the local path reads every block |
| SearchSession.ChunkTextsSound | ccsdk/search_session.py:166-186 | every chunk is the text of some text block, and there are none iff no block is a text block |
| SearchSession.ChunkTextsAppend | ccsdk/search_session.py:166-186 | the chunks of two runs of blocks are the chunks of each run in turn |
| SearchSession.Consume | ccsdk/search_session.py:158-197 | a system or result message with a non-empty session id replaces the resume id; output is only ever appended; the local path never fails; an assistant text message appends exactly its text, an assistant block list appends its block chunks and takes their failure, any other message appends nothing; a result message sets cost and duration |
| SearchSession.DrainChunks | ccsdk/search_session.py:158-197 | draining a stream without a failure appends exactly the chunks of its messages, in order |
| SearchSession.Drain | ccsdk/search_session.py:155-197 | once failed, the rest of the stream is ignored; the local path never fails; output is only ever appended |
| SearchSession.DrainResume | ccsdk/search_session.py:158-197 | after a stream, the resume id is the last non-empty session id of a system or result message, else the old one |
| SearchSession.Finish | ccsdk/search_session.py:196-205 | a clean stream ends with `complete` carrying cost, duration and resume id; a failure in the stream or the query ends with that error |
| SearchSession.PromptError | ccsdk/search_session.py:125-140 | building the report prompt fails iff some top report lacks `report_id` or `title`, or has non-text key drivers; a missing `report_id` is the error |
| SearchSession.Top | ccsdk/search_session.py:127-133 | the prompt uses the first three results, or all when fewer |
| SearchSession.SearchLocal | ccsdk/search_session.py:100-205 | a local search first says it is searching; a raising search gives its error and nothing else; no results give the apology and a zero-cost completion with the state unchanged; a prompt that cannot be built gives the found count and its error without a query; otherwise it queries with the top reports and the local options, streams the found count, the stream's chunks and the completion or first error, and resumes from the stream's last session id |
| SearchSession.LocalUsesTopThree | ccsdk/search_session.py:125-133 | results beyond the top three never change a local search |
| SearchSession.SearchWeb | ccsdk/search_session.py:207-279 | a web search says it is searching, queries with the question and the web options, streams the chunks followed by the completion or first error, and resumes from the stream's last session id |
| SearchSession.HandleQuery | ccsdk/search_session.py:51-80 | a query first reports intent recognition and the intent, then runs the local search for the FINANCE intent and the web search otherwise, resuming with the held id |
| SearchSession.ClassificationFailureGoesToWeb | ccsdk/search_session.py:51-98 | a failed classification reports GENERAL with its error and searches the web |
| SearchSession.NextQueryResumes | ccsdk/search_session.py:140-197 | the next query in a search session resumes from the session id the previous stream reported last, else the earlier one |
| DatabaseManager.EncodeColumn | database/database_manager.py:172-176 | dicts and lists are stored as JSON text; other values unchanged |
| DatabaseManager.DecodeColumn | database/database_manager.py:287-292 | falsy values stay; truthy text is parsed, and kept as text when it does not parse; a truthy non-text value raises |
| DatabaseManager.EncodeReport | database/database_manager.py:171-176 | encoding keeps the keys, serialises exactly the JSON columns and leaves the other columns unchanged |
| DatabaseManager.DecodeReport | database/database_manager.py:266-296 | decoding fails iff some JSON column fails; it keeps the keys, decodes exactly the JSON columns and leaves the others alone |
| DatabaseManager.EncodeThenDecode | database/database_manager.py:171-292 | a report whose JSON columns survive serialisation reads back exactly as written |
| DatabaseManager.JsonTextIsNotKept | database/database_manager.py:171-292 | a JSON column written as the text `[]` reads back as a list, not as the text |
| DatabaseManager.DeleteRelationships | database/database_manager.py:1075-1113 | exactly the relationships matching the given source and target filters are removed, and the count removed is returned |
| DatabaseManager.DeleteRelationshipsIdempotent | database/database_manager.py:1075-1113 | deleting the same relationships again removes nothing |
| DatabaseManager.GetUIState | database/database_manager.py:799-829 | a failing database raises; a non-`None` answer is the stored value; a missing row gives `None` |
| DatabaseManager.SetUIState | database/database_manager.py:831-852 | a failing database raises; otherwise the row for the id is written and every other row is unchanged |
| DatabaseManager.SetThenGetUIState | database/database_manager.py:799-852 | reading a state right after writing it gives the data, and other states read as before |
| ReportSearch.FtsWord | database/database_manager.py:336 | a word with a CJK character gets a trailing `*` prefix marker; other words are kept as they are |
| ReportSearch.FtsWords | database/database_manager.py:335-336 | one rewritten word per whitespace-separated word of the query, in order |
| ReportSearch.CjkQueryHasWords | database/database_manager.py:333-341 | a query with a CJK character has at least one word |
| ReportSearch.FtsQuery | database/database_manager.py:329-342 | a query without CJK characters is passed to FTS5 unchanged; one with them becomes its rewritten words joined by ` OR ` |
| ReportSearch.FtsWordsKeepText | database/database_manager.py:333-342 | the rewrite only adds markers: without them the words spell the query minus its whitespace |
| ReportSearch.Clauses | database/database_manager.py:328-372 | conditions come in the order query, category, action, importance, dates; there is no id condition; there are none iff no filter is given (an importance of 0 counts as given) |
| ReportSearch.ClausesMeaning | database/database_manager.py:343-372 | a row satisfies every condition iff it is wanted by the filters |
| ReportSearch.Window | database/database_manager.py:373-379 | the window starts at the offset (a negative offset counting as 0, a large one as the end) and holds the next `limit` rows, or all remaining ones when the limit is negative or exceeds them; each is the row at its position |
| ReportSearch.Select | database/database_manager.py:372-379 | the selection is the window of exactly the rows that satisfy every condition, in table order; without a limit or offset every such row is selected |
| ReportSearch.SearchReports | database/database_manager.py:297-406 | `search_reports` is the window of exactly the wanted rows, in table order |
| ReportSearch.NoFiltersIsWholeTable | database/database_manager.py:372 | with no filters the search is a window of the whole table |
| ReportSearch.ZeroImportanceCounts | database/database_manager.py:362-364 | a minimum importance of 0 still filters out rows with no importance |
| ReportSearch.UseVector | database/database_manager.py:421 | the vector path is used only when Chroma is available and the setting is present |
| ReportSearch.UseVectorSpellings | database/database_manager.py:421 | any casing of `true` turns the vector path on; other spellings, a missing setting or a missing Chroma turn it off |
| ReportSearch.CloseHits | database/database_manager.py:462-470 | every kept hit is close enough, and no more hits are kept than remain (which and in what order: `CloseHitsRanks`) |
| ReportSearch.Ranks | database/database_manager.py:462-470 | the positions kept are in range, satisfy the test, and ascend strictly |
| ReportSearch.RanksComplete | database/database_manager.py:462-470 | every position from the start that satisfies the test is kept |
| ReportSearch.CloseHitsRanks | database/database_manager.py:462-470 | the kept hits are, in order, the id and distance at each close position |
| ReportSearch.CloseHitsComplete | database/database_manager.py:462-470 | every hit with a distance below the cut-off is kept |
| ReportSearch.SemanticHits | database/database_manager.py:440-488 | a blank query gives no hits; otherwise the first `limit` close hits, each close enough |
| ReportSearch.CollectClose | database/database_manager.py:462-485 | the loop collects exactly the first `limit` close hits |
| ReportSearch.ScanIsTake | database/database_manager.py:462-470 | scanning from a position with a budget is taking that many close hits from there |
| ReportSearch.Candidates | database/database_manager.py:501-524 | without a query the listed ids are the candidates; with one, every candidate is a vector hit, either the first `limit` ids when there are no distances or hits closer than 0.5; with distances the candidates are the first `limit` of the hits closer than 0.5 |
| ReportSearch.Nearby | database/database_manager.py:509-515 | every id kept is a hit with a distance below 0.5 (which and in what order: `NearbyRanks`) |
| ReportSearch.NearbyRanks | database/database_manager.py:509-515 | the kept ids are, in order, those at each position with a distance below 0.5 |
| ReportSearch.NearbyComplete | database/database_manager.py:509-515 | every hit with a distance below 0.5 is kept |
| ReportSearch.HybridClauses | database/database_manager.py:527-547 | an id condition is added iff there are candidates; without candidates only the category, action and importance filters remain |
| ReportSearch.NoCandidatesDropsIdFilter | database/database_manager.py:530-547 | hybrid search with no candidates is the plain filtered search over the whole table |
| ReportSearch.HybridRowsAreCandidates | database/database_manager.py:530-533 | with candidates, every hybrid row is one of them |
| ReportSearch.SmartSearch | database/database_manager.py:408-425 | corrected definition: without the vector path the plain search runs with the caller's limit and offset; a purely semantic query gives the close vector hits; anything else runs the hybrid search; a blank, purely semantic query on the vector path gives no hits |
| ReportSearch.FallbackAsWritten | database/database_manager.py:423-425 | the full-text fallback as written raises iff the limit is non-zero; with a zero limit it returns the search with limit `offset` and offset 0 |
| ReportSearch.SmartSearchAsWritten | database/database_manager.py:408-425 | as written, the full-text path raises iff the limit is non-zero; the vector paths never raise |
| ReportSearch.FallbackDefaultRaises | database/database_manager.py:297-306 | with the default limit 30 the fallback as written raises, where the intended call returns the stored report |
| ReportSearch.FallbackZeroLimitReturnsOffsetRows | database/database_manager.py:297-306 | with limit 0 and offset 1 the fallback as written returns one row, where the intended call returns none |
| ReportSearch.MissingDistanceKeptOnlyBySemantic | database/database_manager.py:462-518 | a hit without a distance is kept by the semantic path but dropped from the hybrid candidates |
| RelationshipAnalyzer.JoinFirst | database/relationship_analyzer.py:123-125 | a list gives its first `cap` texts joined by `; ` and raises if one is not text; text is joined character by character; any other value raises |
| RelationshipAnalyzer.Descriptions | database/relationship_analyzer.py:125 | list items give their descriptions (default `''`) iff all are dicts; an empty string or dict gives none; anything else raises |
| RelationshipAnalyzer.AnalysisOf | database/relationship_analyzer.py:105-112 | a missing analysis is `{}`; text is parsed, and becomes `{}` when it does not parse; any other value is used as is |
| RelationshipAnalyzer.Fields | database/relationship_analyzer.py:105-127 | the embedding fields are read from the report's analysis, and reading raises when the analysis is not a dict |
| RelationshipAnalyzer.FieldsOf | database/relationship_analyzer.py:114-127 | a non-dict analysis raises; otherwise the fields are built iff every section read is a dict and every joined list holds text; the title is report_info's, else the row's; the summary sentence, action and holding period are their sections' entries; core views, key drivers and risk descriptions are the first ten, five and five joined; the category is the row's |
| RelationshipAnalyzer.Layout | database/relationship_analyzer.py:131-143 | the embedding text is stripped at both ends |
| RelationshipAnalyzer.EmbeddingText | database/relationship_analyzer.py:92-143 | the text exists iff the fields can be read, and is their layout |
| RelationshipAnalyzer.UnparsableAnalysisIsEmpty | database/relationship_analyzer.py:105-112 | an analysis that does not parse embeds like an empty analysis |
| RelationshipAnalyzer.FieldsOfSameColumns | database/relationship_analyzer.py:114-127 | the fields depend on the row only through its title and category |
| RelationshipAnalyzer.CoreViewsCapped | database/relationship_analyzer.py:123 | views past the tenth never reach the embedding text |
| RelationshipAnalyzer.Clamp | database/relationship_analyzer.py:206 | similarity is clamped to 0..100 and a value already in range is kept |
| RelationshipAnalyzer.Scan | database/relationship_analyzer.py:195-216 | kept hits are closer than 0.6 with similarity `(1 - d) * 100` clamped, and at most the result budget |
| RelationshipAnalyzer.ScanKeeps | database/relationship_analyzer.py:195-216 | a hit is kept iff it is within the budget and closer than 0.6, with its distance (0 when none are given) and its similarity |
| RelationshipAnalyzer.FindRelated | database/relationship_analyzer.py:145-227 | no vector store, no report or an unreadable report gives nothing; otherwise exactly the scanned hits, most similar first, each above 40 and within the budget |
| RelationshipAnalyzer.BySimilarity | database/relationship_analyzer.py:218 | sorting by similarity gives the same hits, as a multiset, in non-increasing order |
| RelationshipAnalyzer.Loaded | database/relationship_analyzer.py:353-360 | the historical reports are those the database returns as a non-empty row for a candidate: every such report is kept, nothing else is, and there are none iff no candidate has one |
| RelationshipAnalyzer.LoadedAppend | database/relationship_analyzer.py:353-360 | loading two candidate lists in turn is loading their concatenation, so the reports stay in candidate order |
| RelationshipAnalyzer.Prepare | database/relationship_analyzer.py:334-365 | the analysis stops early iff there are no candidates, the new report is missing or empty, or no candidate's report loads; otherwise it carries the new report and the loaded ones |
| RelationshipAnalyzer.Kind | database/relationship_analyzer.py:562-573 | 60% and above validates, 50-60% supplements, 40-50% conflicts, and below 40% is merely related |
| RelationshipAnalyzer.KindMonotone | database/relationship_analyzer.py:562-573 | a more similar candidate never gets a weaker relation kind |
| RelationshipAnalyzer.FirstWithId | database/relationship_analyzer.py:576 | the report found for an id is the first with that id, and none is found iff no report has it |
| RelationshipAnalyzer.FallbackRelations | database/relationship_analyzer.py:541-596 | one relation per candidate in order, with kind and score from its percentage; title, category and action come from the first matching report, else the unknown-report defaults |
| RelationshipAnalyzer.FallbackRelation | database/relationship_analyzer.py:555-592 | a relation targets its candidate, with kind and score from its percentage |
| RelationshipAnalyzer.MissingDistanceUsesScore | database/relationship_analyzer.py:559-562 | without a distance the percentage is the candidate's score |
| RelationshipAnalyzer.FoundNeighboursAreNeverMerelyRelated | database/relationship_analyzer.py:199-573 | every neighbour the vector search finds gets a relation stronger than merely related, with score above 0.4 |
| PortfolioSchema.HoldingJson | database/schemas/portfolio_schema_v1.py:66-87 | a normalised holding always has name, category, market value and percentage, and each optional field exactly when it is set |
| PortfolioSchema.OptionalFloat | database/schemas/portfolio_schema_v1.py:74-81 | a missing or null optional number is absent, a number is kept, and anything present is read with `float()`; it succeeds iff the value is absent, null or converts |
| PortfolioSchema.OptionalStr | database/schemas/portfolio_schema_v1.py:83-87 | an optional text field is present iff its key is, rendered with `str()` |
| PortfolioSchema.ValidateHolding | database/schemas/portfolio_schema_v1.py:56-89 | a holding that is not a dict fails at `.get`; otherwise name, category and percentage default to `''`, `''` and `'0%'`, the market value is a float defaulting to 0, and an optional number is present iff its key holds a non-null value; it succeeds iff the holding is a dict whose market value and present optional numbers convert, and each optional number present is the float of its value |
| PortfolioSchema.ValidateHoldingOfJson | database/schemas/portfolio_schema_v1.py:56-89 | validating a normalised holding gives it back |
| PortfolioSchema.ValidateItems | database/schemas/portfolio_schema_v1.py:121-122 | the list fails iff some holding fails; otherwise each holding is validated in place |
| PortfolioSchema.ValidateHoldings | database/schemas/portfolio_schema_v1.py:121-122 | a list is validated item by item; an empty string or dict iterates to no holdings, other text or dicts fail, and null, numbers and booleans are not iterable |
| PortfolioSchema.ValidateItemsOfJson | database/schemas/portfolio_schema_v1.py:121-122 | validating a list of normalised holdings gives the list back |
| PortfolioSchema.ValidatePortfolio | database/schemas/portfolio_schema_v1.py:92-124 | the first missing required field of total_asset_value, cash_position and holdings is reported; otherwise both totals are floats of the given values and the holdings are validated; it succeeds iff all three keys are present, both totals convert and the holdings validate |
| PortfolioSchema.FillDefaults | database/schemas/portfolio_schema_v1.py:127-147 | missing totals default to 0; holdings are validated only when given as a list and are empty otherwise; it succeeds iff the totals convert and a holding list validates, so a missing key never raises |
| PortfolioSchema.FillDefaultsExtendsValidate | database/schemas/portfolio_schema_v1.py:92-147 | wherever `validate_portfolio` succeeds, `fill_defaults` gives the same portfolio |
| PortfolioSchema.FillDefaultsOfNothing | database/schemas/portfolio_schema_v1.py:137-147 | an empty dict fills to the empty portfolio |
| PortfolioSchema.NormalisedIsFixed | database/schemas/portfolio_schema_v1.py:92-147 | a normalised portfolio is returned unchanged by both validation and default filling |
| PortfolioSchema.ValidateIdempotent | database/schemas/portfolio_schema_v1.py:92-147 | validating a validated portfolio again, or filling its defaults, changes nothing |
| PrinciplesSchema.ValidateThreeLow | database/schemas/principles_schema_v1.py:109-115 | the three-low section is read iff it is a dict, each flag being its truthiness and true when missing |
| PrinciplesSchema.ValidateWeightManagement | database/schemas/principles_schema_v1.py:88-117 | a section that is not a dict fails at `.get`; a dict validates iff each of its seven `float()`/`int()` conversions and the three-low section succeed, and each limit is then read from its key with the defaults 0.02, 0.06, 0.08, 50, 70, 6 and 9 |
| PrinciplesSchema.ValidateDrawdownControl | database/schemas/principles_schema_v1.py:120-137 | a section that is not a dict fails at `.get`; a dict validates iff its four `float()` conversions succeed, and each ratio is then the float of its key with the defaults -0.128, 0.025, 0.2 and 0.1 |
| PrinciplesSchema.ValidatePrinciples | database/schemas/principles_schema_v1.py:140-170 | the first missing field of profile_name, weight_management and drawdown_control is reported; it succeeds iff all three are present and both sections validate, with version `1.0` and last_updated `''` when missing |
| PrinciplesSchema.FillPrinciplesDefaults | database/schemas/principles_schema_v1.py:173-205 | filling never fails: a missing field takes its default and a section that is missing or does not validate takes the default section |
| PrinciplesSchema.WeightManagementOfJson | database/schemas/principles_schema_v1.py:98-117 | a normalised weight section validates to itself |
| PrinciplesSchema.DrawdownControlOfJson | database/schemas/principles_schema_v1.py:130-135 | a normalised drawdown section validates to itself |
| PrinciplesSchema.NormalisedIsFixed | database/schemas/principles_schema_v1.py:140-205 | normalised principles are returned unchanged by both validation and default filling |
| PrinciplesSchema.ValidateIdempotent | database/schemas/principles_schema_v1.py:140-170 | validating validated principles again changes nothing |
| PrinciplesSchema.FillAgreesWithValidate | database/schemas/principles_schema_v1.py:162-186 | for valid input, filling gives the same principles as validating iff last_updated is given, since the two use different defaults for it |
| PrinciplesSchema.FillOfNothing | database/schemas/principles_schema_v1.py:183-190 | an empty dict fills to the default principles |
| PrinciplesSchema.EmptyWeightSectionIsNotDefault | database/schemas/principles_schema_v1.py:56-107 | an empty weight section validates to limits (0.06, 0.08, 50 to 70 positions) that differ from the module's default section (0.1, 0.2, 5 to 10) |
| PrinciplesSchema.EmptyDrawdownSectionIsDefault | database/schemas/principles_schema_v1.py:68-135 | an empty drawdown section validates to the default section |
| PortfolioRepository.Get | database/repositories/portfolio_repository.py:32-74 | a user without a row, or whose stored holdings do not parse, has no portfolio; a portfolio found carries the stored totals, and holdings that are not a list read as none |
| PortfolioRepository.Upsert | database/repositories/portfolio_repository.py:76-124 | the write fails iff the data does not validate; otherwise the user gets a row and every other user's row is untouched |
| PortfolioRepository.Delete | database/repositories/portfolio_repository.py:126-147 | the user's row is removed, the others stay, and it reports whether there was one |
| PortfolioRepository.GetOrDefault | database/repositories/portfolio_repository.py:149-167 | a missing portfolio becomes the empty default, a found one is returned, and an error stays an error |
| PortfolioRepository.UpsertThenGet | database/repositories/portfolio_repository.py:59-122 | after writing valid data, reading gives the validated portfolio |
| PortfolioRepository.UpsertIsolated | database/repositories/portfolio_repository.py:100-123 | writing one user's portfolio does not change what another user reads |
| PortfolioRepository.DeleteThenGet | database/repositories/portfolio_repository.py:126-167 | after a delete the user has no portfolio and reads the default |
| PrinciplesRepository.LatestActive | database/repositories/principles_repository.py:60-71 | without a profile name the row read is the user's most recently updated active row, and there is none iff the user has no active row |
| PrinciplesRepository.Select | database/repositories/principles_repository.py:55-71 | a non-empty profile name selects the user's row of that name, if any; no name or an empty one selects the latest active row |
| PrinciplesRepository.Get | database/repositories/principles_repository.py:32-88 | no selected row, or stored JSON that does not parse, gives nothing; a stored dict gives its principles after default filling; it raises, with the missing `get`, iff the stored JSON parses to something other than a dict |
| PrinciplesRepository.GetActive | database/repositories/principles_repository.py:90-108 | a user without an active row, or whose latest active row does not parse, gets the default principles; a parsed dict gives its filled principles; an error reading the row propagates |
| PrinciplesRepository.Upsert | database/repositories/principles_repository.py:110-165 | the write fails iff the data does not validate; otherwise the validated principles are written under their profile name |
| PrinciplesRepository.Written | database/repositories/principles_repository.py:128-161 | the stored row carries the user, the profile name, the version, the active flag and the normalised JSON |
| PrinciplesRepository.Write | database/repositories/principles_repository.py:139-164 | after the insert-or-update the row is stored under its user and profile, no other row is invented, and rows of other keys are kept |
| PrinciplesRepository.Delete | database/repositories/principles_repository.py:167-203 | exactly the matching rows are removed, and it reports whether any was |
| PrinciplesRepository.Activate | database/repositories/principles_repository.py:264-276 | for the user, only the named profile stays active; other users' rows are unchanged, as are names, JSON and versions |
| PrinciplesRepository.SetActive | database/repositories/principles_repository.py:247-285 | every row is passed through the activation, and success is reported iff the named profile exists |
| PrinciplesRepository.Entries | database/repositories/principles_repository.py:226-245 | every listed entry comes from a row whose JSON parses, newest first |
| PrinciplesRepository.List | database/repositories/principles_repository.py:205-245 | the listing holds only the user's parsable rows, ordered by update time descending |
| PrinciplesRepository.WriteValid | database/repositories/principles_repository.py:150 | the unique (user, profile) key survives a write |
| PrinciplesRepository.UpsertThenGet | database/repositories/principles_repository.py:73-164 | after writing valid principles with a profile name, reading that profile gives them back |
| PrinciplesRepository.SelectWritten | database/repositories/principles_repository.py:55-164 | selecting a written row by its profile name finds it |
| PrinciplesRepository.NoActiveGivesDefault | database/repositories/principles_repository.py:103-108 | a user with no active row reads the default principles |
| PrinciplesRepository.SetActiveLeavesAtMostOne | database/repositories/principles_repository.py:247-285 | after activation at most one of the user's rows is active, only the named one; a failed activation leaves none active |
| PrinciplesRepository.FailedSetActiveLeavesNone | database/repositories/principles_repository.py:247-285 | activating a missing profile fails and leaves the user reading the default principles |
| PrinciplesRepository.DeleteThenGet | database/repositories/principles_repository.py:167-203 | after deleting a profile it can no longer be read |
| PrinciplesRepository.ListKeepsParsable | database/repositories/principles_repository.py:205-245 | every parsable row of the user appears in the listing |
| WatchlistRepo.DecodeConditions | database/repositories/watchlist_repo.py:88-97 | a NULL column reads as None, stored JSON reads back as the value, an empty text stays `''`, and other text is parsed, becoming None when it does not parse |
| WatchlistRepo.ReadItem | database/repositories/watchlist_repo.py:88-97 | a row reads as the same item with its alert conditions decoded |
| WatchlistRepo.Matching | database/repositories/watchlist_repo.py:78-86 | the rows selected are exactly the table rows the WHERE clause keeps, keyed by creation time |
| WatchlistRepo.Query | database/repositories/watchlist_repo.py:64-98 | the result is exactly the kept rows, decoded, ordered by creation time descending |
| WatchlistRepo.GetList | database/repositories/watchlist_repo.py:64-98 | a user's list for a status holds exactly that user's items with that status, newest first |
| WatchlistRepo.GetByType | database/repositories/watchlist_repo.py:205-241 | the list by type holds exactly the user's items with that status and type, newest first |
| WatchlistRepo.GetItem | database/repositories/watchlist_repo.py:100-127 | an item is found iff some row has the id, and it is that row decoded |
| WatchlistRepo.StoreConditions | database/repositories/watchlist_repo.py:51-54 | alert conditions are stored as JSON only when truthy, and as NULL otherwise |
| WatchlistRepo.AddItem | database/repositories/watchlist_repo.py:29-62 | the new row is appended as active with an id above every existing id |
| WatchlistRepo.SetField | database/repositories/watchlist_repo.py:140-155 | setting a whitelisted column never changes the id, the owner or the creation time |
| WatchlistRepo.Updated | database/repositories/watchlist_repo.py:129-167 | each whitelisted key given is written and every other column is kept; dict alert conditions are stored as JSON text, a text value is stored as given, and null clears the column |
| WatchlistRepo.UpdateItem | database/repositories/watchlist_repo.py:129-167 | it reports false, writing nothing, iff no whitelisted key is given; otherwise the rows with the id are updated and the rest are kept |
| WatchlistRepo.RemoveItem | database/repositories/watchlist_repo.py:169-185 | removal is a soft delete that marks the rows with the id inactive, changes nothing else, and always reports success |
| WatchlistRepo.DeleteItem | database/repositories/watchlist_repo.py:187-203 | the rows left are exactly those with another id, and it always reports success |
| WatchlistRepo.AddThenList | database/repositories/watchlist_repo.py:29-98 | an added item can be read by its id and appears in the owner's active list, its conditions read back as given when truthy and None otherwise |
| WatchlistRepo.RemoveThenList | database/repositories/watchlist_repo.py:64-185 | a removed item leaves the active list and appears in the inactive list |
| WatchlistRepo.DeleteThenGet | database/repositories/watchlist_repo.py:100-203 | a deleted item can no longer be read |
| PortfolioAdvice.StripPercent | agent/custom_scripts/portfolio_advice_generator.py:57 | the stripped text has no `%` at either end |
| PortfolioAdvice.StripPercentSlice | agent/custom_scripts/portfolio_advice_generator.py:57 | the stripped text is the slice of the percentage text between a leading and a trailing run of `%` |
| PortfolioAdvice.StripPercentUnique | agent/custom_scripts/portfolio_advice_generator.py:57 | any slice between runs of `%` that does not itself start or end with `%` is exactly what stripping gives |
| PortfolioAdvice.Weight | agent/custom_scripts/portfolio_advice_generator.py:56-57 | a percentage that is not text raises; text gives its number without the `%` signs over 100, and fails iff that is not a float |
| PortfolioAdvice.WeightRule | agent/custom_scripts/portfolio_advice_generator.py:59-70 | a weight above the extreme limit is violated, one above only the normal limit is a warning, and the comparisons are strict |
| PortfolioAdvice.WeightChecks | agent/custom_scripts/portfolio_advice_generator.py:51-70 | the checks raise iff some holding with a non-zero value has an unreadable weight; otherwise there is at most one violation per holding, each about a position |
| PortfolioAdvice.HoldingCheck | agent/custom_scripts/portfolio_advice_generator.py:51-70 | a holding with no market value adds nothing; otherwise its weight must be readable, and it adds its weight rule's entry, if any |
| PortfolioAdvice.WeightChecksAppend | agent/custom_scripts/portfolio_advice_generator.py:51-70 | the checks of two runs of holdings are each run's checks in turn, failing iff one run fails, and one holding's checks are its `HoldingCheck`: every holding is checked in order |
| PortfolioAdvice.Positions | agent/custom_scripts/portfolio_advice_generator.py:73-74 | the position count is at most the number of holdings; it is zero iff no holding has a positive market value, and all of them iff every holding does |
| PortfolioAdvice.PositionsAppend | agent/custom_scripts/portfolio_advice_generator.py:73-74 | the count adds up over a split of the holdings, one per holding with a positive market value |
| PortfolioAdvice.CountRule | agent/custom_scripts/portfolio_advice_generator.py:76-87 | there is a count violation iff the count is outside the target range: too few is violated, too many is a warning |
| PortfolioAdvice.CashRatio | agent/custom_scripts/portfolio_advice_generator.py:90 | the cash ratio is cash over total assets, and 0 when the total is not positive |
| PortfolioAdvice.LiquidityRule | agent/custom_scripts/portfolio_advice_generator.py:90-97 | one liquidity warning is given iff the cash ratio is below 5% |
| PortfolioAdvice.CheckViolations | agent/custom_scripts/portfolio_advice_generator.py:47-99 | it fails iff a weight is unreadable; otherwise the weight, then count, then liquidity violations in that order |
| PortfolioAdvice.NoTotalAlwaysWarns | agent/custom_scripts/portfolio_advice_generator.py:90-97 | a portfolio without positive total assets always ends with a liquidity warning at ratio 0 |
| PortfolioAdvice.NegativeValueCheckedNotCounted | agent/custom_scripts/portfolio_advice_generator.py:51-74 | a holding with a negative value has its weight checked but does not count as a position |
| PortfolioAdvice.DefaultLimits | agent/custom_scripts/portfolio_advice_generator.py:59-70 | under the default limits 15% warns, 25% is violated and 10% passes |
| PortfolioAdvice.ViolationJson | agent/custom_scripts/portfolio_advice_generator.py:501-507 | a violation is shown as a dict of rule, status and details |
| PortfolioAdvice.WithConstraints | agent/custom_scripts/portfolio_advice_generator.py:500-508 | advice whose own constraint check is truthy is kept as is; otherwise it gets one entry per pre-checked violation, and nothing else changes |
| PortfolioAdvice.WithConstraintsIdempotent | agent/custom_scripts/portfolio_advice_generator.py:500-508 | adding the constraint check twice is the same as once |
| PortfolioAdvice.OwnChecksKept | agent/custom_scripts/portfolio_advice_generator.py:500 | a truthy constraint check from the model is never overwritten |
| ReportAnalyzer.BraceSpan | agent/custom_scripts/listeners/report_analyzer.py:296 | the span runs from the first `{` to the last `}` of the reply, and there is none iff no `{` comes before a `}` |
| ReportAnalyzer.Unparsed | agent/custom_scripts/listeners/report_analyzer.py:303 | an unparsable reply becomes a dict of an error and the raw text |
| ReportAnalyzer.ParseResponse | agent/custom_scripts/listeners/report_analyzer.py:291-303 | the reply is the parsed brace span when there is one that parses, and the raw-text error dict otherwise |
| ReportAnalyzer.ObjectInProse | agent/custom_scripts/listeners/report_analyzer.py:296-299 | a JSON object surrounded by prose without braces is found exactly |
| ReportAnalyzer.Guard | agent/custom_scripts/listeners/report_analyzer.py:337-354 | a truthy skip_analysis skips; missing or empty content is too short; truthy content that is not text raises at `.strip()`; processing goes on iff the stripped content has at least 50 characters |
| ReportAnalyzer.LongContentPasses | agent/custom_scripts/listeners/report_analyzer.py:350-354 | content of 50 characters or more passes the guard whatever whitespace surrounds it |
| ReportAnalyzer.JoinLines | agent/custom_scripts/listeners/report_analyzer.py:519-522 | a list of texts is joined with newlines, a text is joined character by character, a dict gives its keys joined in iteration order; a list holding a non-text item, or a value that is none of these, raises, and nothing else does |
| ReportAnalyzer.ReportId | agent/custom_scripts/listeners/report_analyzer.py:509-514 | a truthy given id is used; otherwise an id is made iff report_info is a dict whose category (default `unknown`) is text, and it is `analysis_`, the category with spaces as `_`, `_` and the timestamp |
| ReportAnalyzer.GeneratedIdOfPlainCategory | agent/custom_scripts/listeners/report_analyzer.py:509-514 | a category without spaces appears in the generated id unchanged |
| ReportAnalyzer.GeneratedIdsDiffer | agent/custom_scripts/listeners/report_analyzer.py:509-514 | two generated ids for one category are equal iff their timestamps are |
| ReportAnalyzer.Block | agent/custom_scripts/listeners/report_analyzer.py:519-522 | a section adds its joined lines iff it is truthy |
| ReportAnalyzer.Content | agent/custom_scripts/listeners/report_analyzer.py:516-524 | a text summary that is not a dict raises; without views or facts the content is the analysis dumped as JSON |
| ReportAnalyzer.ContentOfViewsAndFacts | agent/custom_scripts/listeners/report_analyzer.py:517-524 | with both views and facts the content is the views, a blank line, then the facts |
| ReportAnalyzer.Row | agent/custom_scripts/listeners/report_analyzer.py:526-548 | the row has exactly the 21 `reports` columns: the id, the content and its length as file size, the analysis and the file path, the title from report_info or else the filename, and every other column from its entry of report_info, summary, key_metrics or investment_advice (None when absent, empty lists for sources and key drivers) |
| ReportAnalyzer.Transform | agent/custom_scripts/listeners/report_analyzer.py:492-548 | a built row has exactly the 21 `reports` columns; a truthy custom id is kept; the content is the rebuilt text and the file size its length; title, category, importance score and action come from their sections; the analysis and file path are kept; a summary that is not a dict raises; the report id is the one `ReportId` gives |
| ReportAnalyzer.TransformIsRow | agent/custom_scripts/listeners/report_analyzer.py:492-548 | a built row is `Row` of the report id, the rebuilt text and the four sections, all of which are dicts |
| ReportAnalyzer.DashboardEntry | agent/custom_scripts/listeners/report_analyzer.py:400-406 | a dashboard entry has exactly id, title, category, date and importance |
| ReportAnalyzer.UpdateDashboard | agent/custom_scripts/listeners/report_analyzer.py:396-410 | the dashboard update as intended, through `context.ui_state`: it writes iff the state is a truthy dict with a list of recent reports; the new entry goes first, at most ten are kept, and other keys are untouched |
| ReportAnalyzer.NewestFirst | agent/custom_scripts/listeners/report_analyzer.py:399-407 | with the intended update, after two updates the later entry precedes the earlier one |
| ReportAnalyzer.DashboardStepAsWritten | agent/custom_scripts/listeners/report_analyzer.py:396-410 | as written the step reads `context.uiState`: on a context without that attribute nothing is written, since the `AttributeError` is swallowed |
| ReportAnalyzer.ListenerContextNeverWritesDashboard | ccsdk/listeners_manager.py:46-160 | the context the listener manager builds has `ui_state` but no `uiState`, so as written the dashboard is never written |
| ReportAnalyzer.DashboardEntryLostAsWritten | agent/custom_scripts/listeners/report_analyzer.py:396-410 | on an empty dashboard the intended update records the report while the code as written records nothing |
| ReportAnalyzer.Analyzed | agent/custom_scripts/listeners/report_analyzer.py:356-444 | the handler acts iff the analysis has no error and the row can be built, and then reports the row's id, the four actions and the row's importance score; otherwise it reports none of them |
| ReportAnalyzer.Handle | agent/custom_scripts/listeners/report_analyzer.py:310-444 | it raises iff the guard raises; a guard decision is returned without action; acting needs the guard passed and an analysis without error; when the guard passes the answer is the analysis outcome |
| ReportAnalyzer.LongReportIsStored | agent/custom_scripts/listeners/report_analyzer.py:310-444 | long content not marked as analysed, with an error-free analysis that builds a row, is stored: the handler acts and reports the row's id and importance |
| ReportSummary.Pieces | agent/custom_scripts/listeners/report_analyzer.py:60 | splitting on sentence delimiters gives at least one piece and no piece holds a delimiter |
| ReportSummary.PiecesConcat | agent/custom_scripts/listeners/report_analyzer.py:60 | the pieces put back together are the text without its delimiters |
| ReportSummary.LongPieces | agent/custom_scripts/listeners/report_analyzer.py:61 | exactly the pieces longer than ten characters are kept |
| ReportSummary.Sentences | agent/custom_scripts/listeners/report_analyzer.py:57-61 | the sentences are exactly the pieces longer than ten characters of the stripped text without whitespace |
| ReportSummary.WordWindow | agent/custom_scripts/listeners/report_analyzer.py:77-81 | the window is the slice from 50 characters before the first occurrence of the word to 100 after it, clipped to the sentence; it contains the word and is at most 150 characters |
| ReportSummary.Window | agent/custom_scripts/listeners/report_analyzer.py:74-84 | a window is found exactly when some keyword occurs with a window longer than 20 characters, and then it is the window of the first such keyword in list order |
| ReportSummary.WordItem | agent/custom_scripts/listeners/report_analyzer.py:67-84 | a sentence of 21 to 150 characters with a keyword is kept whole; one without a keyword or of 20 characters or fewer is dropped; a longer one gives the window of its first qualifying keyword |
| ReportSummary.FactItem | agent/custom_scripts/listeners/report_analyzer.py:91-107 | a fact needs a number and more than 15 characters; a sentence of at most 150 is kept whole; a longer one gives the slice from 40 before the first number to 110 after it, kept only when longer than 15 |
| ReportSummary.Dedup | agent/custom_scripts/listeners/report_analyzer.py:130-137 | the items kept are exactly the distinct ones longer than ten characters not already seen, each once |
| ReportSummary.Views | agent/custom_scripts/listeners/report_analyzer.py:63-84 | a text is a view exactly when some sentence contributes it; views are distinct, 21 to 150 characters, and contain a judgement word |
| ReportSummary.Framework | agent/custom_scripts/listeners/report_analyzer.py:109-127 | a text is a framework item exactly when some sentence contributes it; items are distinct, 21 to 150 characters, and contain a framework word |
| ReportSummary.Facts | agent/custom_scripts/listeners/report_analyzer.py:86-107 | a text is a fact exactly when some sentence contributes it; facts are distinct and 16 to 150 characters |
| ReportSummary.ExtractTextSummary | agent/custom_scripts/listeners/report_analyzer.py:51-147 | each list is the first 15, 20 or 12 of its de-duplicated list, so every qualifying sentence's item is present unless the list is full; lists have no duplicates and every item has the right length, its kind of word and no whitespace or delimiters |
| ReportSummary.Collect | agent/custom_scripts/listeners/report_analyzer.py:67-127 | the collected items are exactly the contributions of the sentences that contribute one |
| ReportSummary.IndexOf | agent/custom_scripts/listeners/report_analyzer.py:133-137 | the position of the first occurrence of an item |
| ReportSummary.DedupOrder | agent/custom_scripts/listeners/report_analyzer.py:130-137 | de-duplication keeps items in the order of their first occurrences |
| ReportSummary.Capped | agent/custom_scripts/listeners/report_analyzer.py:144-146 | `items[:k]` is a prefix of min(k, length) items, keeps the absence of duplicates, and leaves an item out only when it is full |
| AnalysisCompleteness.WeightTotals | agent/custom_scripts/listeners/report_analyzer.py:754-775 | the required sections weigh 65 points and the recommended ones 55 |
| AnalysisCompleteness.Score | agent/custom_scripts/listeners/report_analyzer.py:781-788 | a section's score is between 0 and its weight, and full for a scalar or a dict with every entry filled |
| AnalysisCompleteness.RequiredOne | agent/custom_scripts/listeners/report_analyzer.py:778-798 | a required section is missing iff not given, weak when given below half its weight, strong at 80%, with one suggestion per missing or weak section; its score is the section's own score (0 when not given); the suggestion names the missing field or asks for more detail |
| AnalysisCompleteness.RequiredTally | agent/custom_scripts/listeners/report_analyzer.py:777-798 | the required tally lists the missing and weak sections in order, scores at most their total weight, and has one suggestion for each |
| AnalysisCompleteness.RequiredTallyScore | agent/custom_scripts/listeners/report_analyzer.py:777-798 | the required score is the sum of each given section's own score |
| AnalysisCompleteness.MissingMeaning | agent/custom_scripts/listeners/report_analyzer.py:778-798 | a section is listed missing iff it is required and not given |
| AnalysisCompleteness.WeakMeaning | agent/custom_scripts/listeners/report_analyzer.py:791-795 | every weak section is a required section that is given |
| AnalysisCompleteness.RecommendedOne | agent/custom_scripts/listeners/report_analyzer.py:801-814 | a recommended section is never missing or weak and gives no suggestion; it scores 0 when not given and is strong at 80% with empty lists worth half; when given it scores the section's own score |
| AnalysisCompleteness.RecommendedTally | agent/custom_scripts/listeners/report_analyzer.py:800-814 | the recommended tally scores at most its total weight and adds no missing, weak or suggestion entries |
| AnalysisCompleteness.RecommendedTallyScore | agent/custom_scripts/listeners/report_analyzer.py:800-814 | the recommended score is the sum of each given section's own score, empty lists earning half |
| AnalysisCompleteness.NothingGivenRequired | agent/custom_scripts/listeners/report_analyzer.py:778-798 | with no required section given, all are missing, each with a suggestion, and the score is 0 |
| AnalysisCompleteness.NothingGivenRecommended | agent/custom_scripts/listeners/report_analyzer.py:801-814 | with no recommended section given, the score is 0 and none is strong |
| AnalysisCompleteness.AnyDetailed | agent/custom_scripts/listeners/report_analyzer.py:820-823 | no target is detailed iff every target is a dict without key metrics, price action or market share; it raises iff a non-dict target comes before any detailed one, and is true iff a detailed dict comes before any non-dict |
| AnalysisCompleteness.TargetsCheck | agent/custom_scripts/listeners/report_analyzer.py:816-827 | the targets hint is given iff recommended targets are listed and none is detailed; it raises iff the section is present and is not a dict, or its truthy `recommended` is not a list or has a non-dict entry before any detailed one |
| AnalysisCompleteness.KeyDataCheck | agent/custom_scripts/listeners/report_analyzer.py:829-834 | one hint is given iff the key data has fewer than five entries, and a value without `len()` raises |
| AnalysisCompleteness.Grade | agent/custom_scripts/listeners/report_analyzer.py:840-849 | 80% and above is excellent, 60-80% good, and below 60% needs improvement |
| AnalysisCompleteness.Validate | agent/custom_scripts/listeners/report_analyzer.py:742-851 | validation raises iff a hint check raises; otherwise the percentage is the overall score out of 120, its grade matches, and every missing or weak section has a suggestion; the overall score is the sum of every given section's own score |
| AnalysisCompleteness.Report | agent/custom_scripts/listeners/report_analyzer.py:774-851 | the report is consistent and lists exactly the missing and weak required sections; its overall score is the sum of every given section's own score |
| AnalysisCompleteness.Hints | agent/custom_scripts/listeners/report_analyzer.py:816-834 | the hints raise iff the targets or key-data check raises |
| AnalysisCompleteness.MissingAndWeak | agent/custom_scripts/listeners/report_analyzer.py:777-798 | in a validation, missing means required and not given, and weak sections are given |
| AnalysisCompleteness.Summarise | agent/custom_scripts/listeners/report_analyzer.py:836-849 | the overall score is the sum of both tallies, missing and weak come from the required tally, and hints follow its suggestions |
| AnalysisCompleteness.Tallies | agent/custom_scripts/listeners/report_analyzer.py:774-814 | the required tally is at most 65 points and the recommended at most 55; each tally's score is the sum of its given sections' own scores |
| AnalysisCompleteness.NothingGiven | agent/custom_scripts/listeners/report_analyzer.py:742-851 | an analysis with nothing given scores 0, needs improvement, and lists all six required sections with six suggestions |
| AnalysisCompleteness.EmptyAnalysis | agent/custom_scripts/listeners/report_analyzer.py:742-851 | an empty analysis validates, needs improvement, and lists every required section as missing |
| AnalysisCompleteness.EmptyRequiredIsMissing | agent/custom_scripts/listeners/report_analyzer.py:778-798 | a required section present but empty counts as missing, not weak |
| WatchlistMonitor.ExtractContext | agent/custom_scripts/listeners/watchlist_monitor.py:215-251 | with whitespace removed, no context is given iff the target does not occur; otherwise it is the slice from `L` characters before the first occurrence to `L` after it, clipped to the content, with `...` prepended exactly when the start was cut and appended exactly when the end was cut |
| WatchlistMonitor.ContextHoldsFirstOccurrence | agent/custom_scripts/listeners/watchlist_monitor.py:232-251 | the first occurrence of the target sits in the context right after the opening mark and the `min(i, L)` characters of content that precede it |
| WatchlistMonitor.ShortContentWhole | agent/custom_scripts/listeners/watchlist_monitor.py:228-251 | content no longer than the window is its own context |
| WatchlistMonitor.TypeText | agent/custom_scripts/listeners/watchlist_monitor.py:254-271 | the four known types get their labels, any other hashable value the generic label, and an unhashable one raises |
| WatchlistMonitor.MentionedFrom | agent/custom_scripts/listeners/watchlist_monitor.py:95-106 | exactly the items from a position on whose name occurs are found, in order |
| WatchlistMonitor.Matches | agent/custom_scripts/listeners/watchlist_monitor.py:95-120 | matching raises iff the content or some name is not text; otherwise exactly the positions of the mentioned items, in list order, each naming a text item |
| WatchlistMonitor.ActsIffMentioned | agent/custom_scripts/listeners/watchlist_monitor.py:95-127 | there is a match iff some item is mentioned |
| WatchlistMonitor.BlankNameAlwaysMentioned | agent/custom_scripts/listeners/watchlist_monitor.py:101-105 | a name of only whitespace is mentioned in every report |
| WatchlistMonitor.NamesText | agent/custom_scripts/listeners/watchlist_monitor.py:137-140 | up to three names are all listed, joined by `、`; more give the first three joined, then ` 等 N 个标的` with the total count |
| WatchlistMonitor.Notification | agent/custom_scripts/listeners/watchlist_monitor.py:130-154 | several matches always give the summary message over the names; one match gives the message naming its type label and name iff its type can be labelled |
| WatchlistMonitor.Detail | agent/custom_scripts/listeners/watchlist_monitor.py:109-117 | a mention carries the item's id, name and type, the report title, and the 50-character context around the name |
| WatchlistMonitor.UpdateTracker | agent/custom_scripts/listeners/watchlist_monitor.py:157-196 | the tracker updates iff its effective state is a dict with a list of alerts; the alert is appended to the last 50, the time is set and other keys are untouched |
| WatchlistMonitor.Record | agent/custom_scripts/listeners/watchlist_monitor.py:178-188 | recording sets the alerts and time and keeps every other key |
| WatchlistMonitor.Effective | agent/custom_scripts/listeners/watchlist_monitor.py:159-171 | a truthy state is used, else the initialised state, else an empty tracker |
| WatchlistMonitor.Recent | agent/custom_scripts/listeners/watchlist_monitor.py:187 | the last 50 alerts are kept, or all when fewer |
| WatchlistMonitor.UpdateKeepsNewest | agent/custom_scripts/listeners/watchlist_monitor.py:178-187 | after an update the newest alert is last and at most 50 are kept |
| WatchlistMonitor.FullTrackerDropsOldest | agent/custom_scripts/listeners/watchlist_monitor.py:186-187 | a full tracker drops its oldest alert to take the new one |
| WatchlistMonitor.Handle | agent/custom_scripts/listeners/watchlist_monitor.py:64-208 | a failed lookup or an empty watchlist does nothing; matching errors are raised; the handler acts iff some item is mentioned, and then reports the count, one detail per match, the notification for the matched items and the tracker updated with the alert; a watchlist with no match does nothing, with reason `未检测到关注标的` |
| WatchlistMonitor.NoMentionNoAlert | agent/custom_scripts/listeners/watchlist_monitor.py:95-127 | text content naming no watchlist item ends the handler unexecuted with the no-match reason |
| WatchlistMonitor.MentionIsReported | agent/custom_scripts/listeners/watchlist_monitor.py:95-117 | an item the content names makes the handler act, and its detail is among the mentions |
| WatchlistMonitor.Matched | agent/custom_scripts/listeners/watchlist_monitor.py:95-106 | the matched items are the watchlist items at the found positions, in order |
| WatchlistMonitor.Alert | agent/custom_scripts/listeners/watchlist_monitor.py:179-185 | the alert records the date, the report id (`unknown` when absent), the title, the mention details and their count |
| WatchlistMonitor.Mention | agent/custom_scripts/listeners/watchlist_monitor.py:129-208 | acting on matches reports one detail per match, in order, and the count; the notification is the one for the matched items and the tracker is updated with their alert |

## Left out

- Concurrency: locks, `asyncio.create_task`, `gather`, the five-second broadcast loop, the sixty-second grace period before cleanup, and file watchers. Each turn is modelled as a sequence of pure steps.
- Calls to the language-model provider (`classify_intent`, `call_agent`, `call_ai_for_advice` with its JSON repair heuristics, the relationship prompt and its reply parsing, and the AI analysis in the report analyzer with its `text_summary` fallback at agent/custom_scripts/listeners/report_analyzer.py:474-489): their replies are inputs.
- The SQLite/aiosqlite and ChromaDB engines. FTS5 matching is a parameter. `ORDER BY` is taken as rows already arriving in that order. Chroma's `where` conditions only shape the answer the model is given. The vector path returns `(id, distance)` hits without metadata.
- Dynamic import, `sys.modules` and the filesystem: directory listings and what a plugin file defines are inputs.
- JSON parsing and `json.dumps` are abstract functions, and so is the iteration order of a parsed dict's keys (the `keyOrder` parameter of the report analyzer); regular expressions are abstract too (the `numberAt` parameter of the fact extractor).
- Floating point: `round(..., 2)`, `%` and f-string number formatting, `principles_to_readable_text` and `get_report_stats` are not modelled. Numbers are reals.
- Timestamps, uuids and generated ids are parameters.
- Logging and `print`, including the debug slice `title[:50]` in `_prepare_embedding_text`.
- `str()` of numbers, lists and dicts is a placeholder rendering (`Json.PyStr`). Only the rendering of text is exact.
- Read errors on an existing but unreadable log file in `read_logs`.
- Plugin configs whose id is not a string are treated as not registered. Python would key the registry by that value.
- The search session's error branch for an exception raised inside `handle_query`.
- `_store_relationship_analysis` and `get_report_relationships`: plain storage calls with no logic of their own.
- The wiring files `server/*`, `custom_tools`, `action_context`, `agent_tools`, the plugin actions and `search_a_share_reports.py`, the UI-state constants, and the scripts. They connect the core to the outside and decide nothing.
- The notifications and relationship analysis that the report-analyzer handler triggers after storing a report. `upsert_report` failures other than those raised while building the row are also left out.
- WatchlistRepo.SetField: only dict alert conditions are serialised. Numbers and booleans are bound as they are; reading them back then calls `json.loads` on a non-string, which raises `TypeError`, and the `except json.JSONDecodeError` handler does not catch it. The model stores such values as if serialised. Its contract also states only that id, owner and creation time are kept; `Updated` states the column values.
- ListenersManager.Broadcasts: a `log_broadcast_callback` that raises (ccsdk/listeners_manager.py:402-403) is not modelled. The callback is taken to return normally.
- RelationshipAnalyzer.BySimilarity: Python's sort is stable, so equal similarities keep their input order. The model states only the multiset and the non-increasing order.
- PortfolioRepository.Get: states that the stored totals are returned and that non-list holdings read as none; it does not restate how list holdings are validated.
- RelationshipAnalyzer.Layout: states only that the text is stripped. The exact line layout is in the body.
- ReportAnalyzer.Content: states the error case and the cases with no sections and with both sections. The one-section cases follow from `Block`.
- ReportAnalyzer.DashboardEntry: states only the keys of the entry.
- PrinciplesRepository.Entries and PrinciplesRepository.List: state that every entry comes from a parsable row, newest first. The other direction is `PrinciplesRepository.ListKeepsParsable`.
- ListenerLogEntry and ActionResult `ToJson` are datatype members. They only build dicts and get no rows.
- Session.BroadcastError gets no row because its contract only restates its body.

## Findings

| source | as written | input that shows it | evidently intended | confidence | as-written member | corrected member |
|---|---|---|---|---|---|---|
| database/database_manager.py:425 | `search_reports(query, category, action, min_importance, limit, offset)` passes `limit` into the `date_range` parameter and `offset` into `limit` (signature at database/database_manager.py:297-306) | any non-zero `limit`, such as the default 30, with the vector store off: `date_range[0]` is taken of an integer and raises `TypeError` | `search_reports(..., limit=limit, offset=offset)`, the window of the wanted rows | high, not executed | ReportSearch.FallbackAsWritten, ReportSearch.FallbackDefaultRaises | ReportSearch.SmartSearch |
| agent/custom_scripts/listeners/report_analyzer.py:397 | the dashboard step calls `context.uiState.get(...)` and `context.uiState.set(...)`, but the `ListenerContext` built for every listener (ccsdk/listeners_manager.py:46-160) names the accessor `ui_state` | any analysed report, whatever the dashboard state: the lookup raises `AttributeError`, the `except Exception` around the step swallows it, and the dashboard is never written | `context.ui_state.get(...)` and `context.ui_state.set(...)`, as the watchlist monitor writes them, with the new report first and at most ten kept | high, not executed | ReportAnalyzer.DashboardStepAsWritten, ReportAnalyzer.DashboardEntryLostAsWritten | ReportAnalyzer.UpdateDashboard |


=== FILE: actions_manager.dfy ===
/**
 * The action registry: templates loaded from plugin files, instances the
 * agent registers during a conversation, and the execution of an instance
 * with result normalisation and one audit entry per resolved execution.
 */
module ActionsManager {
  import opened Wrappers
  import opened Json
  import OrderedMap
  import Strings
  import Plugins
  import MessageTypes
  import LogWriter

  /** A loaded template and the file whose `handler` executes it. */
  datatype ActionModule = ActionModule(config: MessageTypes.ActionTemplate, handler: string)

  datatype State = State(
    templates: OrderedMap.Dict<string, ActionModule>,
    instances: OrderedMap.Dict<string, MessageTypes.ActionInstance>)

  /** The action loader's filter: a `.py` file not starting with `_` (dot-files are not excluded). */
  predicate ActionScript(name: string) {
    Strings.EndsWith(name, ".py") && !Strings.StartsWith(name, "_")
  }

  /**
   * `_load_template`: a module with `config` and `handler` whose config is a
   * dict with `id` and `name` becomes a template; description, icon and
   * parameter schema default to `''`, the rocket emoji and `{}`.
   */
  function Contribution(e: Plugins.Entry): (r: Option<(string, ActionModule)>)
    ensures r.Some? ==> e.loaded.Some? && e.loaded.value.hasHandler && e.loaded.value.config.Some?
    ensures r.Some? ==> e.loaded.value.config.value.DictConfig?
    ensures r.Some? ==> var f := e.loaded.value.config.value.fields;
      "id" in f && "name" in f && f["id"] == JStr(r.value.0) && r.value.1.config.name == f["name"]
      && r.value.1.config.id == r.value.0 && r.value.1.handler == e.name
    ensures r.Some? ==> var f := e.loaded.value.config.value.fields;
      r.value.1.config.icon == GetOr(f, "icon", JStr("🚀"))
      && r.value.1.config.description == GetOr(f, "description", JStr(""))
      && r.value.1.config.parameterSchema == GetOr(f, "parameterSchema", JObj(map[]))
    ensures (e.loaded.Some? && e.loaded.value.hasHandler && e.loaded.value.config.Some?
             && e.loaded.value.config.value.DictConfig?
             && var f := e.loaded.value.config.value.fields; "id" in f && "name" in f && f["id"].JStr?)
            ==> r.Some? && r.value.0 == e.loaded.value.config.value.fields["id"].s
  {
    match e.loaded
    case None => None
    case Some(m) =>
      if !m.hasHandler || m.config.None? || !m.config.value.DictConfig? then None
      else
        var f := m.config.value.fields;
        if "id" !in f || "name" !in f || !f["id"].JStr? then None
        else
          var t := MessageTypes.ActionTemplate(f["id"].s, f["name"], GetOr(f, "description", JStr("")),
            GetOr(f, "icon", JStr("🚀")), GetOr(f, "parameterSchema", JObj(map[])));
          Some((t.id, ActionModule(t, e.name)))
  }

  /** What the loader takes from one directory entry: action scripts only. */
  function Keep(e: Plugins.Entry): (r: Option<(string, ActionModule)>)
    ensures r.Some? ==> ActionScript(r.value.1.handler) && r.value.1.config.id == r.value.0
    ensures !ActionScript(e.name) ==> r.None?
  {
    if ActionScript(e.name) then Contribution(e) else None
  }

  /**
   * `load_all_templates`: templates are cleared, then every action script
   * is loaded in listing order; a missing or unlistable directory leaves
   * none. Instances are kept.
   */
  function LoadAll(s: State, dir: Plugins.Directory): (r: State)
    ensures r.instances == s.instances
    ensures OrderedMap.UniqueKeys(r.templates)
    ensures forall i :: 0 <= i < |r.templates| ==>
      r.templates[i].1.config.id == r.templates[i].0 && ActionScript(r.templates[i].1.handler)
    ensures !dir.Listed? ==> r.templates == []
  {
    s.(templates := Plugins.Load(dir, Keep))
  }

  /**
   * A template id maps to the module of the last action script declaring
   * it, and an id no valid script declares is not registered.
   */
  lemma LoadAllLastWins(s: State, es: seq<Plugins.Entry>, id: string)
    ensures GetTemplate(LoadAll(s, Plugins.Listed(es)), id).None? <==> Plugins.NoneFor(es, Keep, id)
    ensures OrderedMap.Get(LoadAll(s, Plugins.Listed(es)).templates, id).Some? ==>
      exists j :: Plugins.LastFor(es, Keep, id, OrderedMap.Get(LoadAll(s, Plugins.Listed(es)).templates, id).value, j)
  {
    Plugins.LoadLastWins(es, Keep, id);
  }

  /** `get_template(id)`: the template's config, or `None` for an unknown id. */
  function GetTemplate(s: State, id: string): (r: Option<MessageTypes.ActionTemplate>)
    ensures r.Some? <==> OrderedMap.Has(s.templates, id)
    ensures r.Some? ==> exists i :: 0 <= i < |s.templates| && s.templates[i].0 == id && s.templates[i].1.config == r.value
    ensures OrderedMap.UniqueKeys(s.templates) ==>
      forall i :: 0 <= i < |s.templates| && s.templates[i].0 == id ==> r == Some(s.templates[i].1.config)
  {
    match OrderedMap.Get(s.templates, id)
    case Some(m) =>
      assert forall i :: 0 <= i < |s.templates| && s.templates[i].0 == id && OrderedMap.UniqueKeys(s.templates) ==> s.templates[i].1 == m by {
        forall i | 0 <= i < |s.templates| && s.templates[i].0 == id && OrderedMap.UniqueKeys(s.templates) ensures s.templates[i].1 == m {
          OrderedMap.GetUnique(s.templates, i);
        }
      }
      Some(m.config)
    case None => None
  }

  /** `register_instance`: stores the instance under its id, replacing any earlier one. */
  function RegisterInstance(s: State, inst: MessageTypes.ActionInstance): (r: State)
    requires OrderedMap.UniqueKeys(s.instances)
    ensures OrderedMap.UniqueKeys(r.instances)
    ensures r.templates == s.templates
    ensures GetInstance(r, inst.instanceId) == Some(inst)
    ensures forall id :: id != inst.instanceId ==> GetInstance(r, id) == GetInstance(s, id)
  {
    s.(instances := OrderedMap.Put(s.instances, inst.instanceId, inst))
  }

  /** `get_instance(id)`, `None` for an unknown id. */
  function GetInstance(s: State, id: string): (r: Option<MessageTypes.ActionInstance>)
    ensures r.Some? <==> OrderedMap.Has(s.instances, id)
  {
    OrderedMap.Get(s.instances, id)
  }

  /** A value a handler returns that is not a dict. */
  type NonDict = v: Value | !v.JObj? witness JNull

  /** What an action handler returns: an `ActionResult`, a dict (its items in order), or any other value. */
  datatype Returned = ResultObject(res: MessageTypes.ActionResult) | DictResult(items: MessageTypes.Kwargs) | OtherResult(v: NonDict)

  /** The outcome of `execute_action`: the result, and the audit entry when one is written. */
  datatype Execution = Execution(result: MessageTypes.ActionResult, log: Option<MessageTypes.ActionLogEntry>)

  const NoInstanceMessage: string := "Action 实例不存在"

  function NoTemplateMessage(templateId: string): string {
    "Action 模板 '" + templateId + "' 不存在"
  }

  function FailureMessage(e: string): string {
    "Action 执行失败: " + e
  }

  /**
   * The result and error text of one handler call; `outcome` is
   * `Err(str(e))` when the handler raised `e`. A dict is passed to
   * `ActionResult(**d)` inside the `try`, so bad keys become a failure.
   */
  function Normalise(outcome: Result<Returned, string>): (r: (MessageTypes.ActionResult, Option<string>))
    ensures outcome.Err? ==> r == (MessageTypes.Outcome(false, FailureMessage(outcome.error)), Some(outcome.error))
    ensures outcome.Ok? && outcome.value.ResultObject? ==> r == (outcome.value.res, None)
    ensures outcome.Ok? && outcome.value.OtherResult? ==>
      r == (MessageTypes.ActionResult(JBool(true), JStr("执行完成"), outcome.value.v, JNull), None)
    ensures outcome.Ok? && outcome.value.DictResult? ==>
      (r.1.None? <==> MessageTypes.NewActionResult(outcome.value.items).Ok?)
    ensures outcome.Ok? && outcome.value.DictResult? && r.1.None? ==> var items := outcome.value.items;
      && OrderedMap.Get(items, "success") == Some(r.0.success)
      && OrderedMap.Get(items, "message") == Some(r.0.message)
      && r.0.data == OrderedMap.Get(items, "data").GetOr(JNull)
      && r.0.components == OrderedMap.Get(items, "components").GetOr(JNull)
    ensures r.1.Some? ==> r.0 == MessageTypes.Outcome(false, FailureMessage(r.1.value))
  {
    match outcome
    case Err(e) => (MessageTypes.Outcome(false, FailureMessage(e)), Some(e))
    case Ok(ResultObject(res)) => (res, None)
    case Ok(OtherResult(v)) => (MessageTypes.ActionResult(JBool(true), JStr("执行完成"), v, JNull), None)
    case Ok(DictResult(items)) =>
      match MessageTypes.NewActionResult(items)
      case Ok(res) => (res, None)
      case Err(e) => (MessageTypes.Outcome(false, FailureMessage(e)), Some(e))
  }

  /** `instance.params or {}`. */
  function ParamsOf(inst: MessageTypes.ActionInstance): map<string, Value> {
    if inst.params.Some? then inst.params.value else map[]
  }

  /**
   * `execute_action(instance_id)`: an unknown instance or template gives a
   * failure and writes nothing; otherwise the handler runs on the
   * instance's params and exactly one entry records ids, params, result,
   * duration and error.
   */
  function Execute(s: State, instanceId: string, run: (string, map<string, Value>) -> Result<Returned, string>,
                   timestamp: string, durationMs: int): (r: Execution)
    ensures GetInstance(s, instanceId).None? ==> r == Execution(MessageTypes.Outcome(false, NoInstanceMessage), None)
    ensures GetInstance(s, instanceId).Some? && !OrderedMap.Has(s.templates, GetInstance(s, instanceId).value.templateId) ==>
      r == Execution(MessageTypes.Outcome(false, NoTemplateMessage(GetInstance(s, instanceId).value.templateId)), None)
    ensures r.log.Some? <==> GetInstance(s, instanceId).Some? && OrderedMap.Has(s.templates, GetInstance(s, instanceId).value.templateId)
    ensures r.log.Some? ==> var inst := GetInstance(s, instanceId).value;
      r.log.value.instanceId == inst.instanceId && r.log.value.templateId == inst.templateId
      && r.log.value.sessionId == inst.sessionId && r.log.value.params == ParamsOf(inst)
      && r.log.value.result == r.result && r.log.value.duration == durationMs
      && r.log.value.timestamp == timestamp
    ensures r.log.Some? ==> var inst := GetInstance(s, instanceId).value;
      OrderedMap.Get(s.templates, inst.templateId).Some?
      && (r.result, r.log.value.error) == Normalise(run(OrderedMap.Get(s.templates, inst.templateId).value.handler, ParamsOf(inst)))
  {
    match GetInstance(s, instanceId)
    case None => Execution(MessageTypes.Outcome(false, NoInstanceMessage), None)
    case Some(inst) =>
      match OrderedMap.Get(s.templates, inst.templateId)
      case None => Execution(MessageTypes.Outcome(false, NoTemplateMessage(inst.templateId)), None)
      case Some(m) =>
        var params := ParamsOf(inst);
        var (result, error) := Normalise(run(m.handler, params));
        Execution(result, Some(MessageTypes.ActionLogEntry(timestamp, inst.instanceId, inst.templateId,
          inst.sessionId, params, result, durationMs, error)))
  }

  /** The execution's entry appended to the day's `<date>.jsonl` file (a failing write is swallowed). */
  function PersistExecution(dir: LogWriter.LogDir, date: string, e: Execution, writable: bool): (d: LogWriter.LogDir)
    ensures e.log.None? ==> d == dir
    ensures e.log.Some? && writable ==>
      LogWriter.LinesOf(d, LogWriter.FileName(date)) == LogWriter.LinesOf(dir, LogWriter.FileName(date)) + [LogWriter.Record(JObj(e.log.value.ToJson()))]
  {
    if e.log.Some? then LogWriter.AppendLog(dir, date, JObj(e.log.value.ToJson()), writable) else dir
  }

  /**
   * An instance registered against a loaded template executes and is
   * audited under its own ids; a raising handler yields `success: false`
   * with the error both in the message and in the entry.
   */
  lemma RegisterThenExecute(s: State, inst: MessageTypes.ActionInstance, run: (string, map<string, Value>) -> Result<Returned, string>,
                            timestamp: string, durationMs: int)
    requires OrderedMap.UniqueKeys(s.instances)
    requires OrderedMap.Has(s.templates, inst.templateId)
    ensures var r := Execute(RegisterInstance(s, inst), inst.instanceId, run, timestamp, durationMs);
      r.log.Some? && r.log.value.instanceId == inst.instanceId && r.log.value.templateId == inst.templateId
    ensures var out := run(OrderedMap.Get(s.templates, inst.templateId).value.handler, ParamsOf(inst));
      var r := Execute(RegisterInstance(s, inst), inst.instanceId, run, timestamp, durationMs);
      out.Err? ==> (r.result.success == JBool(false) && r.log.value.error == Some(out.error))
  {
  }

  /**
   * A dict with a key `ActionResult` does not declare, or without
   * `success` and `message`, turns into a failure whose error is recorded.
   */
  lemma BadDictIsFailure(items: MessageTypes.Kwargs)
    requires !(forall i :: 0 <= i < |items| ==> items[i].0 in {"success", "message", "data", "components"})
             || !OrderedMap.Has(items, "success") || !OrderedMap.Has(items, "message")
    ensures Normalise(Ok(DictResult(items))).1.Some?
    ensures Normalise(Ok(DictResult(items))).0.success == JBool(false)
  {
    MessageTypes.ActionResultKeywords(items);
  }

  /** `get_stats()` without the watcher flag. */
  datatype Stats = Stats(totalTemplates: nat, templateIds: seq<string>, totalInstances: nat)

  function GetStats(s: State): (r: Stats)
    ensures |r.templateIds| == r.totalTemplates
    ensures forall id :: id in r.templateIds <==> GetTemplate(s, id).Some?
    ensures |r.templateIds| == |s.templates| && forall i :: 0 <= i < |s.templates| ==> r.templateIds[i] == s.templates[i].0
    ensures r.totalInstances == |s.instances|
  {
    var ids := OrderedMap.Keys(s.templates);
    assert forall id :: id in ids <==> OrderedMap.Has(s.templates, id) by {
      forall id ensures id in ids <==> OrderedMap.Has(s.templates, id) {
        if id in ids {
          var i :| 0 <= i < |ids| && ids[i] == id;
          assert s.templates[i].0 == id;
        }
        if OrderedMap.Has(s.templates, id) {
          var i :| 0 <= i < |s.templates| && s.templates[i].0 == id;
          assert ids[i] == id;
        }
      }
    }
    Stats(|s.templates|, ids, |s.instances|)
  }
}

=== FILE: ai_client.dfy ===
/**
 * The provider adapter: conversion of the provider's messages into the four
 * message kinds the broker handles, the merging of query options, and the
 * aggregation of a single query. The provider itself is not modelled: its
 * messages are inputs.
 */
module AiClient {
  import opened Wrappers
  import opened Json
  import Strings

  // ------------------------------------------------------ provider messages

  /** A content block as the provider delivers it. */
  datatype RawBlock =
      /** The provider's text block (it has a `text` attribute and no `type`). */
    | TextBlock(text: string)
      /** Any other block object: its `type` attribute if it has one, and its other attributes by name. */
    | ObjBlock(btype: Option<string>, attrs: map<string, Value>)
      /** A plain value inside the content list: a dict, a string, or anything else. */
    | ValBlock(v: Value)

  /** Message content: a list of blocks, or any other value. */
  datatype RawContent = Blocks(items: seq<RawBlock>) | Plain(v: Value)

  /**
   * A provider message with the attributes the converter reads; `None`
   * stands for a missing attribute, which `getattr` replaces by its default.
   */
  datatype Raw =
    | RawAssistant(content: RawContent)
    | RawSystem(subtype: Option<string>, sessionId: Option<string>)
    | RawResult(result: Option<Value>, cost: Option<real>, duration: Option<int>, sessionId: Option<string>)
    | RawUser(content: RawContent)
    | RawOther

  /** Whether content is a Python list, and its elements as blocks when it is one. */
  predicate IsList(c: RawContent) {
    c.Blocks? || c.v.JArr?
  }

  function Items(c: RawContent): (r: seq<RawBlock>)
    requires IsList(c)
    ensures c.Plain? ==> |r| == |c.v.items| && forall i :: 0 <= i < |r| ==> r[i] == ValBlock(c.v.items[i])
  {
    match c
    case Blocks(bs) => bs
    case Plain(v) => seq(|v.items|, i requires 0 <= i < |v.items| => ValBlock(v.items[i]))
  }

  // ------------------------------------------------------ converted messages

  /** Assistant content after conversion: plain text, or a list of block dicts. */
  datatype AssistantContent = AText(text: string) | ABlocks(blocks: seq<Value>)

  /** The broker's message kinds (`SDKAssistantMessage`, `SDKSystemMessage`, `SDKResultMessage`, `SDKUserMessage`). */
  datatype Msg =
    | Assistant(body: AssistantContent)
    | System(subtype: string, sessionId: Option<string>, data: Value)
    | Result(subtype: string, result: Value, totalCostUsd: real, durationMs: int, error: Option<string>,
             sessionId: Option<string>)
    | User(text: string)

  /** `block_type in ['tool_use', 'tool_result']`. */
  predicate IsToolType(t: Value) {
    t == JStr("tool_use") || t == JStr("tool_result")
  }

  /** The dict block's `type`, `None` when absent. */
  function DictType(f: map<string, Value>): Value {
    GetOr(f, "type", JNull)
  }

  /** The attributes copied from a non-tool block object, besides `type` and `content`. */
  const CopiedAttributes: set<string> := {"name", "id", "input", "tool_use_id", "is_error"}

  /**
   * The conversion of a block object's `content` attribute: the `text` of a
   * list's first element when it has one, the JSON text of any other list,
   * `''` for `None`, and `str(value)` otherwise.
   */
  function ContentText(v: Value, dumps: Value -> string): (r: Value)
    ensures v == JNull ==> r == JStr("")
    ensures v.JStr? ==> r == v
  {
    match v
    case JArr(items) =>
      if |items| > 0 && items[0].JObj? && "text" in items[0].fields then items[0].fields["text"]
      else JStr(dumps(v))
    case JNull => JStr("")
    case _ => JStr(PyStr(v))
  }

  /** The dict built from a non-tool block object. */
  function BlockDict(t: string, attrs: map<string, Value>, dumps: Value -> string): (r: map<string, Value>)
    ensures "type" in r && r["type"] == JStr(t)
    ensures forall k :: k in r <==> k == "type" || (k in attrs && (k in CopiedAttributes || k == "content"))
    ensures forall k :: k in attrs && k in CopiedAttributes ==> r[k] == attrs[k]
  {
    var copied := map k | k in attrs && k in CopiedAttributes :: attrs[k];
    var withContent := if "content" in attrs then copied["content" := ContentText(attrs["content"], dumps)] else copied;
    withContent["type" := JStr(t)]
  }

  /** One block of an assistant message: kept (as a dict) or dropped. */
  function AssistantBlock(b: RawBlock, dumps: Value -> string): (r: Option<Value>)
    ensures b.TextBlock? ==> r == Some(JObj(map["type" := JStr("text"), "text" := JStr(b.text)]))
    ensures r.Some? ==> r.value.JObj? && !IsToolType(DictType(r.value.fields))
    ensures b.ValBlock? && b.v.JObj? && !IsToolType(DictType(b.v.fields)) ==> r == Some(b.v)
  {
    match b
    case TextBlock(t) => Some(JObj(map["type" := JStr("text"), "text" := JStr(t)]))
    case ValBlock(v) =>
      if v.JObj? && !IsToolType(DictType(v.fields)) then Some(v) else None
    case ObjBlock(bt, attrs) =>
      if bt.None? || IsToolType(JStr(bt.value)) then None
      else Some(JObj(BlockDict(bt.value, attrs, dumps)))
  }

  function AssistantBlocks(bs: seq<RawBlock>, dumps: Value -> string): (r: seq<Value>)
    ensures |r| <= |bs|
    ensures forall i :: 0 <= i < |r| ==> r[i].JObj? && !IsToolType(DictType(r[i].fields))
  {
    if |bs| == 0 then []
    else
      var rest := AssistantBlocks(bs[1..], dumps);
      match AssistantBlock(bs[0], dumps)
      case Some(v) => [v] + rest
      case None => rest
  }

  /**
   * The texts a user message's list contributes, in order: tool blocks are
   * skipped, and a block contributes its `text` (attribute or key) or itself
   * when it is a string.
   */
  function UserText(b: RawBlock): (r: Option<Value>)
    ensures b.TextBlock? ==> r == Some(JStr(b.text))
    ensures b.ObjBlock? && b.btype.Some? && IsToolType(JStr(b.btype.value)) ==> r.None?
    ensures b.ValBlock? && b.v.JObj? && IsToolType(DictType(b.v.fields)) ==> r.None?
    ensures b.ValBlock? && b.v.JStr? ==> r == Some(b.v)
  {
    match b
    case TextBlock(t) => Some(JStr(t))
    case ObjBlock(bt, attrs) =>
      if bt.Some? && IsToolType(JStr(bt.value)) then None
      else if "text" in attrs then Some(attrs["text"]) else None
    case ValBlock(v) =>
      match v
      case JObj(f) => if IsToolType(DictType(f)) then None else if "text" in f then Some(f["text"]) else None
      case JStr(_) => Some(v)
      case _ => None
  }

  function UserTexts(bs: seq<RawBlock>): (r: seq<Value>)
    ensures |r| <= |bs|
  {
    if |bs| == 0 then []
    else
      var rest := UserTexts(bs[1..]);
      match UserText(bs[0])
      case Some(v) => [v] + rest
      case None => rest
  }

  /** All values are strings, and their strings. */
  predicate AllStrings(vs: seq<Value>) {
    forall i :: 0 <= i < |vs| ==> vs[i].JStr?
  }

  function Strs(vs: seq<Value>): (r: seq<string>)
    requires AllStrings(vs)
    ensures |r| == |vs| && forall i :: 0 <= i < |r| ==> vs[i] == JStr(r[i])
  {
    seq(|vs|, i requires 0 <= i < |vs| => vs[i].s)
  }

  /**
   * The text of a user message's non-empty list: the texts joined by a line
   * break; `None` when nothing remains or when a text is not a string (the
   * join raises and the converter answers `None`).
   */
  function UserListText(bs: seq<RawBlock>): (r: Option<string>)
    ensures r.Some? ==> |r.value| > 0 && AllStrings(UserTexts(bs))
    ensures r.Some? ==> r.value == Strings.Join("\n", Strs(UserTexts(bs)))
    ensures AllStrings(UserTexts(bs)) && Strings.Join("\n", Strs(UserTexts(bs))) != "" ==> r.Some?
  {
    var texts := UserTexts(bs);
    if !AllStrings(texts) then None
    else
      var joined := Strings.Join("\n", Strs(texts));
      if joined == "" then None else Some(joined)
  }

  /** `str(content)` for a user message that is neither a string nor a non-empty list. */
  function UserPlainText(c: RawContent): string {
    if IsList(c) then "[]" else PyStr(c.v)
  }

  /** `_convert_sdk_message`: `None` for an unknown kind and for a conversion that raises. */
  function Convert(raw: Raw, dumps: Value -> string): (r: Option<Msg>)
    ensures r.None? <==> (raw.RawOther? || (raw.RawUser? && IsList(raw.content) && |Items(raw.content)| > 0
      && UserListText(Items(raw.content)).None?))
    ensures raw.RawAssistant? ==> r.Some? && r.value.Assistant?
    ensures raw.RawAssistant? && IsList(raw.content) ==>
      r == Some(Assistant(ABlocks(AssistantBlocks(Items(raw.content), dumps))))
    ensures raw.RawAssistant? && !IsList(raw.content) ==> r == Some(Assistant(AText(PyStr(raw.content.v))))
    ensures raw.RawSystem? ==> r == Some(System(raw.subtype.GetOr(""), raw.sessionId, JNull))
    ensures raw.RawResult? ==> (r.Some? && r.value.Result? && r.value.subtype == "success"
      && r.value.result == raw.result.GetOr(JNull) && r.value.totalCostUsd == raw.cost.GetOr(0.0)
      && r.value.durationMs == raw.duration.GetOr(0) && r.value.sessionId == raw.sessionId
      && r.value.error.None?)
    ensures raw.RawUser? && raw.content.Plain? && raw.content.v.JStr? ==> r == Some(User(raw.content.v.s))
    ensures raw.RawUser? && IsList(raw.content) && |Items(raw.content)| > 0 && UserListText(Items(raw.content)).Some? ==>
      r == Some(User(UserListText(Items(raw.content)).value))
    ensures (raw.RawUser? && !(raw.content.Plain? && raw.content.v.JStr?)
             && !(IsList(raw.content) && |Items(raw.content)| > 0)) ==>
      r == Some(User(UserPlainText(raw.content)))
    ensures r.Some? && r.value.User? ==> raw.RawUser?
  {
    match raw
    case RawAssistant(c) =>
      if IsList(c) then Some(Assistant(ABlocks(AssistantBlocks(Items(c), dumps))))
      else Some(Assistant(AText(PyStr(c.v))))
    case RawSystem(subtype, sid) => Some(System(subtype.GetOr(""), sid, JNull))
    case RawResult(result, cost, duration, sid) =>
      Some(Result("success", result.GetOr(JNull), cost.GetOr(0.0), duration.GetOr(0), None, sid))
    case RawUser(c) =>
      if c.Plain? && c.v.JStr? then Some(User(c.v.s))
      else if IsList(c) && |Items(c)| > 0 then
        match UserListText(Items(c))
        case Some(t) => Some(User(t))
        case None => None
      else Some(User(UserPlainText(c)))
    case RawOther => None
  }

  /** Assistant list content never carries a tool block, whatever shape the provider used. */
  lemma {:induction false} AssistantDropsToolBlocks(bs: seq<RawBlock>, dumps: Value -> string, i: nat)
    requires i < |bs|
    requires (bs[i].ObjBlock? && bs[i].btype.Some? && IsToolType(JStr(bs[i].btype.value)))
      || (bs[i].ValBlock? && bs[i].v.JObj? && IsToolType(DictType(bs[i].v.fields)))
    ensures |AssistantBlocks(bs, dumps)| < |bs|
  {
    if i == 0 {
      assert AssistantBlock(bs[0], dumps).None?;
    } else {
      AssistantDropsToolBlocks(bs[1..], dumps, i - 1);
    }
  }

  /** Each element of the converted list is the conversion of some block. */
  lemma {:induction false} AssistantBlocksSound(bs: seq<RawBlock>, dumps: Value -> string, i: nat)
    requires i < |AssistantBlocks(bs, dumps)|
    ensures exists j :: 0 <= j < |bs| && AssistantBlock(bs[j], dumps) == Some(AssistantBlocks(bs, dumps)[i])
  {
    var rest := AssistantBlocks(bs[1..], dumps);
    var r := AssistantBlocks(bs, dumps);
    if AssistantBlock(bs[0], dumps).Some? && i == 0 {
      assert AssistantBlock(bs[0], dumps) == Some(r[0]);
    } else {
      var k := if AssistantBlock(bs[0], dumps).Some? then i - 1 else i;
      assert r[i] == rest[k];
      AssistantBlocksSound(bs[1..], dumps, k);
      var j :| 0 <= j < |bs[1..]| && AssistantBlock(bs[1..][j], dumps) == Some(rest[k]);
      assert AssistantBlock(bs[j + 1], dumps) == Some(r[i]);
    }
  }

  /** Every block that converts is kept in the converted list. */
  lemma {:induction false} AssistantBlocksComplete(bs: seq<RawBlock>, dumps: Value -> string, j: nat)
    requires j < |bs| && AssistantBlock(bs[j], dumps).Some?
    ensures AssistantBlock(bs[j], dumps).value in AssistantBlocks(bs, dumps)
  {
    if j > 0 {
      AssistantBlocksComplete(bs[1..], dumps, j - 1);
      assert bs[1..][j - 1] == bs[j];
    }
  }

  /** Text blocks survive the assistant conversion in order: a list of text blocks converts block for block. */
  lemma {:induction false} AssistantKeepsText(ts: seq<string>, dumps: Value -> string)
    ensures AssistantBlocks(seq(|ts|, i requires 0 <= i < |ts| => TextBlock(ts[i])), dumps)
      == seq(|ts|, i requires 0 <= i < |ts| => JObj(map["type" := JStr("text"), "text" := JStr(ts[i])]))
  {
    var bs := seq(|ts|, i requires 0 <= i < |ts| => TextBlock(ts[i]));
    if |ts| > 0 {
      AssistantKeepsText(ts[1..], dumps);
      assert bs[1..] == seq(|ts[1..]|, i requires 0 <= i < |ts[1..]| => TextBlock(ts[1..][i]));
    }
  }

  /** A user message made only of tool blocks is not emitted at all. */
  lemma {:induction false} UserToolOnlyIsDropped(bs: seq<RawBlock>, dumps: Value -> string)
    requires |bs| > 0
    requires forall i :: 0 <= i < |bs| ==> bs[i].ObjBlock? && bs[i].btype.Some? && IsToolType(JStr(bs[i].btype.value))
    ensures Convert(RawUser(Blocks(bs)), dumps).None?
  {
    UserTextsOfTools(bs);
  }

  lemma {:induction false} UserTextsOfTools(bs: seq<RawBlock>)
    requires forall i :: 0 <= i < |bs| ==> bs[i].ObjBlock? && bs[i].btype.Some? && IsToolType(JStr(bs[i].btype.value))
    ensures UserTexts(bs) == []
  {
    if |bs| > 0 {
      UserTextsOfTools(bs[1..]);
    }
  }

  // ----------------------------------------------------------- query_stream

  /** `query_stream`'s output: the conversions that are not `None`, in order. */
  function Stream(raws: seq<Raw>, dumps: Value -> string): (r: seq<Msg>)
    ensures |r| <= |raws|
    ensures forall i :: 0 <= i < |r| ==> exists j :: 0 <= j < |raws| && Convert(raws[j], dumps) == Some(r[i])
  {
    if |raws| == 0 then []
    else
      var rest := Stream(raws[1..], dumps);
      assert forall i :: 0 <= i < |rest| ==> exists j :: 0 <= j < |raws| && Convert(raws[j], dumps) == Some(rest[i]) by {
        forall i | 0 <= i < |rest| ensures exists j :: 0 <= j < |raws| && Convert(raws[j], dumps) == Some(rest[i]) {
          var j :| 0 <= j < |raws[1..]| && Convert(raws[1..][j], dumps) == Some(rest[i]);
          assert Convert(raws[j + 1], dumps) == Some(rest[i]);
        }
      }
      match Convert(raws[0], dumps)
      case Some(m) => [m] + rest
      case None => rest
  }

  /** The stream distributes over concatenation: a message is yielded exactly when it converts. */
  lemma {:induction false} StreamAppend(a: seq<Raw>, b: seq<Raw>, dumps: Value -> string)
    ensures Stream(a + b, dumps) == Stream(a, dumps) + Stream(b, dumps)
  {
    if |a| > 0 {
      assert (a + b)[1..] == a[1..] + b;
      StreamAppend(a[1..], b, dumps);
    } else {
      assert a + b == b;
    }
  }

  /** One raw message yields its conversion, or nothing when that is `None`. */
  lemma StreamOne(x: Raw, dumps: Value -> string)
    ensures Stream([x], dumps) == if Convert(x, dumps).Some? then [Convert(x, dumps).value] else []
  {
    assert [x][1..] == [];
  }

  // ----------------------------------------------------------------- queries

  /** What a query asks: the user's text, or the local-search prompt built from a question and the top reports. */
  datatype Prompt = Text(text: string) | ReportPrompt(question: string, reports: seq<map<string, Value>>)

  /** One call of `query_stream(prompt, options)`. */
  datatype Query = Query(prompt: Prompt, options: map<string, Value>)

  /** The provider's answer to one query: the messages streamed, then possibly the text of the exception that ended the stream. */
  datatype Reply = Reply(msgs: seq<Msg>, failure: Option<string>)

  // ----------------------------------------------------------------- options

  /** An option value: a Python value with a JSON shape, or some other object (callables, server handles). */
  datatype OptValue = Basic(v: Value) | Foreign

  /** `isinstance(value, (str, int, bool, list, dict, type(None)))`: a float is not kept. */
  predicate Serialisable(o: OptValue) {
    o.Basic? && (o.v.JNum? ==> o.v.n.Floor as real == o.v.n)
  }

  /** The option names `query_stream` never forwards from the defaults. */
  const Unforwarded: set<string> := {"mcp_servers", "hooks"}

  /**
   * `AIQueryOptions` with its defaults; the working directory, the system
   * prompt and the MCP servers are computed at start-up and are parameters.
   */
  function DefaultOptions(cwd: string, systemPrompt: string, mcpServers: OptValue, allowedTools: seq<string>)
    : map<string, OptValue>
  {
    map["max_turns" := Basic(JNum(100.0)), "cwd" := Basic(JStr(cwd)),
        "allowed_tools" := Basic(JArr(seq(|allowedTools|, i requires 0 <= i < |allowedTools| => JStr(allowedTools[i])))),
        "system_prompt" := Basic(JStr(systemPrompt)), "mcp_servers" := mcpServers, "hooks" := Basic(JNull),
        "resume" := Basic(JNull),
        "setting_sources" := Basic(JArr([JStr("local"), JStr("project")]))]
  }

  /**
   * `AIClient.__init__`: every field of the caller's options that is not
   * `None` overrides the default.
   */
  function InitOptions(defaults: map<string, OptValue>, caller: Option<map<string, OptValue>>): (r: map<string, OptValue>)
    ensures forall k :: k in r <==> k in defaults || (caller.Some? && k in caller.value && caller.value[k] != Basic(JNull))
    ensures forall k :: caller.Some? && k in caller.value && caller.value[k] != Basic(JNull) ==> r[k] == caller.value[k]
    ensures forall k :: k in defaults && (caller.None? || k !in caller.value || caller.value[k] == Basic(JNull)) ==>
      r[k] == defaults[k]
  {
    match caller
    case None => defaults
    case Some(c) => defaults + map k | k in c && c[k] != Basic(JNull) :: c[k]
  }

  /**
   * `query_stream`'s merged options: the defaults except `mcp_servers`,
   * `hooks` and values of other types, then the caller's options on top.
   */
  function StreamOptions(defaults: map<string, OptValue>, caller: map<string, Value>): (r: map<string, Value>)
    ensures forall k :: k in r <==> k in caller || (k in defaults && k !in Unforwarded && Serialisable(defaults[k]))
    ensures forall k :: k in caller ==> r[k] == caller[k]
    ensures forall k :: k !in caller && k in r ==> Basic(r[k]) == defaults[k]
  {
    (map k | k in defaults && k !in Unforwarded && Serialisable(defaults[k]) :: defaults[k].v) + caller
  }

  /** An attribute of the default options object; every `AIQueryOptions` has one, `None` by default. */
  function Attribute(defaults: map<string, OptValue>, key: string): OptValue {
    if key in defaults then defaults[key] else Basic(JNull)
  }

  /**
   * The provider options of `query_stream`: turns, tools, setting sources
   * and resume come from the merged options; the MCP servers and hooks are
   * taken from the default options object directly (the working directory
   * is fixed in the source).
   */
  datatype AgentOptions = AgentOptions(maxTurns: Value, allowedTools: Value, systemPrompt: Value,
                                       settingSources: Value, resume: Value, mcpServers: OptValue, hooks: OptValue)

  function AgentOptionsOf(defaults: map<string, OptValue>, merged: map<string, Value>): (r: AgentOptions)
    ensures r.resume == GetOr(merged, "resume", JNull)
    ensures r.maxTurns == GetOr(merged, "max_turns", JNum(100.0))
    ensures r.systemPrompt == GetOr(merged, "system_prompt", JStr(""))
    ensures r.mcpServers == Attribute(defaults, "mcp_servers") && r.hooks == Attribute(defaults, "hooks")
  {
    AgentOptions(GetOr(merged, "max_turns", JNum(100.0)), GetOr(merged, "allowed_tools", JNull),
      GetOr(merged, "system_prompt", JStr("")),
      GetOr(merged, "setting_sources", JArr([JStr("user"), JStr("project")])), GetOr(merged, "resume", JNull),
      Attribute(defaults, "mcp_servers"), Attribute(defaults, "hooks"))
  }

  /**
   * With default options, the provider resumes exactly the conversation the
   * caller names, and starts a fresh one when the caller names none.
   */
  lemma ResumeFromCaller(cwd: string, systemPrompt: string, mcp: OptValue, tools: seq<string>, caller: map<string, Value>)
    ensures var d := DefaultOptions(cwd, systemPrompt, mcp, tools);
      AgentOptionsOf(d, StreamOptions(d, caller)).resume == GetOr(caller, "resume", JNull)
  {
    var d := DefaultOptions(cwd, systemPrompt, mcp, tools);
    assert "resume" in d && d["resume"] == Basic(JNull) && Serialisable(d["resume"]);
  }

  /**
   * The merged option dict never carries the default MCP servers or hooks;
   * the provider receives them from the default options object on every
   * query, and a caller's own `mcp_servers` or `hooks` option never reaches it.
   */
  lemma McpServersAttachedFromDefaults(defaults: map<string, OptValue>, caller: map<string, Value>)
    ensures "mcp_servers" !in caller ==> "mcp_servers" !in StreamOptions(defaults, caller)
    ensures "hooks" !in caller ==> "hooks" !in StreamOptions(defaults, caller)
    ensures AgentOptionsOf(defaults, StreamOptions(defaults, caller)).mcpServers == Attribute(defaults, "mcp_servers")
    ensures AgentOptionsOf(defaults, StreamOptions(defaults, caller)).hooks == Attribute(defaults, "hooks")
  {
  }

  // ------------------------------------------------------------ query_single

  /** A result message whose subtype is `success`. */
  predicate IsSuccess(m: Msg) {
    m.Result? && m.subtype == "success"
  }

  /** What `query_single` returns. */
  datatype Single = Single(messages: seq<Msg>, cost: real, duration: int)

  /** `query_single`: every message, with cost and duration from the last successful result, 0 without one. */
  function QuerySingle(msgs: seq<Msg>): (r: Single)
    ensures r.messages == msgs
    ensures (forall i :: 0 <= i < |msgs| ==> !IsSuccess(msgs[i])) ==> r.cost == 0.0 && r.duration == 0
    ensures (exists i :: 0 <= i < |msgs| && IsSuccess(msgs[i])) ==>
      exists i :: (0 <= i < |msgs| && IsSuccess(msgs[i]) && r.cost == msgs[i].totalCostUsd
        && r.duration == msgs[i].durationMs && forall j :: i < j < |msgs| ==> !IsSuccess(msgs[j]))
  {
    if |msgs| == 0 then Single([], 0.0, 0)
    else
      var init := QuerySingle(msgs[..|msgs| - 1]);
      var last := msgs[|msgs| - 1];
      assert msgs[..|msgs| - 1] + [last] == msgs;
      if IsSuccess(last) then Single(msgs, last.totalCostUsd, last.durationMs)
      else
        assert forall i :: 0 <= i < |msgs| - 1 ==> msgs[i] == msgs[..|msgs| - 1][i];
        Single(msgs, init.cost, init.duration)
  }
}

=== FILE: analysis_completeness.dfy ===
/**
 * The completeness report the report analyzer can produce for an
 * analysis: each expected section is scored against its weight, required
 * sections that are absent or empty are named with a suggestion, and the
 * share of the maximum score decides the grade.
 */
module AnalysisCompleteness {
  import opened Wrappers
  import opened Json
  import Strings

  /** A section of the analysis and the points it is worth. */
  datatype Section = Section(name: string, weight: nat)

  const Required: seq<Section> := Build(6, RequiredSection)

  /** The required sections, in the order they are checked. */
  function RequiredSection(i: int): Section {
    match i
    case 0 => Section("report_info", 10)
    case 1 => Section("summary", 10)
    case 2 => Section("key_data", 15)
    case 3 => Section("main_points", 10)
    case 4 => Section("investment_advice", 15)
    case _ => Section("key_metrics", 5)
  }

  const Recommended: seq<Section> := Build(7, RecommendedSection)

  /** The sections `f(0)`, ..., `f(n - 1)`. */
  function Build(n: nat, f: int -> Section): (r: seq<Section>)
    ensures |r| == n && forall i :: 0 <= i < n ==> r[i] == f(i)
  {
    seq(n, i => f(i))
  }

  /** The recommended sections, in the order they are checked. */
  function RecommendedSection(i: int): Section {
    match i
    case 0 => Section("historical_context", 10)
    case 1 => Section("investment_targets", 15)
    case 2 => Section("risk_warnings", 10)
    case 3 => Section("timeline_events", 5)
    case 4 => Section("industry_structure", 5)
    case 5 => Section("quantitative_metrics", 5)
    case _ => Section("text_summary", 5)
  }

  function Weights(ss: seq<Section>): nat
    decreases |ss|
  {
    if |ss| == 0 then 0 else ss[0].weight + Weights(ss[1..])
  }

  /** The required sections are worth 65 points and the recommended ones 55. */
  lemma WeightTotals()
    ensures Weights(Required) == 65 && Weights(Recommended) == 55
  {
    assert Weights(Required[6..]) == 0;
    assert Weights(Required[5..]) == 5;
    assert Weights(Required[4..]) == 20;
    assert Weights(Required[3..]) == 30;
    assert Weights(Required[2..]) == 45;
    assert Weights(Required[1..]) == 55;
    assert Weights(Recommended[7..]) == 0;
    assert Weights(Recommended[6..]) == 5;
    assert Weights(Recommended[5..]) == 10;
    assert Weights(Recommended[4..]) == 15;
    assert Weights(Recommended[3..]) == 20;
    assert Weights(Recommended[2..]) == 30;
    assert Weights(Recommended[1..]) == 45;
  }

  /** The best possible score, every required and every recommended section in full (see WeightTotals). */
  const MaxPoints: real := 120.0

  /** A section counts as given when its key is there and its value is not empty. */
  predicate Given(a: map<string, Value>, name: string) {
    name in a && Truthy(a[name])
  }

  /** A dict entry counts as filled when it is not empty and not the text `N/A`. */
  predicate Filled(v: Value) {
    Truthy(v) && v != JStr("N/A")
  }

  function FilledCount(d: map<string, Value>): (n: nat)
    ensures n <= |d|
  {
    var filled := set k | k in d && Filled(d[k]);
    SubsetCard(filled, d.Keys);
    |filled|
  }

  lemma SubsetCard<T>(a: set<T>, b: set<T>)
    requires a <= b
    ensures |a| <= |b|
    decreases b
  {
    if a != {} {
      var x :| x in a;
      SubsetCard(a - {x}, b - {x});
    }
  }

  /**
   * The points a given section earns: a dict earns its weight times the
   * share of filled entries, a list its weight when non-empty (and
   * `emptyList` otherwise), anything else its whole weight.
   */
  function Score(v: Value, w: nat, emptyList: real): (s: real)
    requires 0.0 <= emptyList <= w as real
    ensures 0.0 <= s <= w as real
    ensures !v.JObj? && !v.JArr? ==> s == w as real
    ensures v.JObj? && FilledCount(v.fields) == |v.fields| && |v.fields| > 0 ==> s == w as real
  {
    match v
    case JObj(d) =>
      var n := if |d| > 0 then |d| else 1;
      var c := FilledCount(d);
      Scaled(w, Share(c, n))
    case JArr(items) => if |items| > 0 then w as real else emptyList
    case _ => w as real
  }

  /** `c / n` for a count of filled entries out of `n`. */
  function Share(c: nat, n: nat): (q: real)
    requires 0 < n && c <= n
    ensures 0.0 <= q <= 1.0
    ensures c == n ==> q == 1.0
  {
    (c as real) / (n as real)
  }

  /** `w * q` for a share `q`. */
  function Scaled(w: nat, q: real): (r: real)
    requires 0.0 <= q <= 1.0
    ensures 0.0 <= r <= w as real
    ensures q == 1.0 ==> r == w as real
  {
    (w as real) * q
  }

  /** What the sections so far have contributed. */
  datatype Tally = Tally(score: real, missing: seq<string>, weak: seq<string>, strong: seq<string>,
                         suggestions: seq<string>)

  predicate Strong(v: Value, w: nat, emptyList: real)
    requires 0.0 <= emptyList <= w as real
  {
    Score(v, w, emptyList) >= (w as real) * 0.8
  }

  predicate Weak(v: Value, w: nat)
  {
    Score(v, w, 0.0) < (w as real) * 0.5
  }

  /** One required section: missing, weak (with a suggestion each), strong, or neither. */
  function RequiredOne(a: map<string, Value>, s: Section): (t: Tally)
    ensures t.missing == (if Given(a, s.name) then [] else [s.name])
    ensures t.weak == (if Given(a, s.name) && Weak(a[s.name], s.weight) then [s.name] else [])
    ensures t.strong == (if Given(a, s.name) && Strong(a[s.name], s.weight, 0.0) then [s.name] else [])
    ensures 0.0 <= t.score <= s.weight as real
    ensures t.score == if Given(a, s.name) then Score(a[s.name], s.weight, 0.0) else 0.0
    ensures |t.suggestions| == |t.missing| + |t.weak|
    ensures !Given(a, s.name) ==> t.suggestions == ["缺少必需字段：" + s.name]
    ensures t.weak != [] ==> t.suggestions == [s.name + "字段信息不够完整，建议补充更多细节"]
  {
    if !Given(a, s.name) then Tally(0.0, [s.name], [], [], ["缺少必需字段：" + s.name])
    else
      var score := Score(a[s.name], s.weight, 0.0);
      if score >= (s.weight as real) * 0.8 then Tally(score, [], [], [s.name], [])
      else if score < (s.weight as real) * 0.5 then
        Tally(score, [], [s.name], [], [s.name + "字段信息不够完整，建议补充更多细节"])
      else Tally(score, [], [], [], [])
  }

  function Then(x: Tally, y: Tally): Tally {
    Tally(x.score + y.score, x.missing + y.missing, x.weak + y.weak, x.strong + y.strong, x.suggestions + y.suggestions)
  }

  /** The names of the sections that are not given, in order. */
  function Missing(a: map<string, Value>, ss: seq<Section>): seq<string>
    decreases |ss|
  {
    if |ss| == 0 then [] else (if Given(a, ss[0].name) then [] else [ss[0].name]) + Missing(a, ss[1..])
  }

  /** The names of the sections that are given but score under half their weight, in order. */
  function WeakOnes(a: map<string, Value>, ss: seq<Section>): seq<string>
    decreases |ss|
  {
    if |ss| == 0 then []
    else (if Given(a, ss[0].name) && Weak(a[ss[0].name], ss[0].weight) then [ss[0].name] else [])
         + WeakOnes(a, ss[1..])
  }

  /** The required sections in order. */
  function RequiredTally(a: map<string, Value>, ss: seq<Section>): (t: Tally)
    ensures t.missing == Missing(a, ss) && t.weak == WeakOnes(a, ss)
    ensures 0.0 <= t.score <= Weights(ss) as real
    ensures |t.suggestions| == |t.missing| + |t.weak|
    decreases |ss|
  {
    if |ss| == 0 then Tally(0.0, [], [], [], [])
    else Then(RequiredOne(a, ss[0]), RequiredTally(a, ss[1..]))
  }

  /** A name is listed as missing exactly when it names a section that is not given. */
  lemma {:induction false} MissingMeaning(a: map<string, Value>, ss: seq<Section>)
    ensures forall x :: x in Missing(a, ss) <==> x in SectionNames(ss) && !Given(a, x)
    decreases |ss|
  {
    if |ss| > 0 {
      MissingMeaning(a, ss[1..]);
      NamesCons(ss);
    }
  }

  /** Every name listed as weak names a section that is given. */
  lemma {:induction false} WeakMeaning(a: map<string, Value>, ss: seq<Section>)
    ensures forall x :: x in WeakOnes(a, ss) ==> x in SectionNames(ss) && Given(a, x)
    decreases |ss|
  {
    if |ss| > 0 {
      WeakMeaning(a, ss[1..]);
      NamesCons(ss);
    }
  }

  function SectionNames(ss: seq<Section>): set<string> {
    set i | 0 <= i < |ss| :: ss[i].name
  }

  lemma NamesCons(ss: seq<Section>)
    requires |ss| > 0
    ensures SectionNames(ss) == {ss[0].name} + SectionNames(ss[1..])
  {
    forall x | x in SectionNames(ss) ensures x in {ss[0].name} + SectionNames(ss[1..]) {
      var i :| 0 <= i < |ss| && ss[i].name == x;
      if i > 0 {
        assert ss[1..][i - 1].name == x;
      }
    }
    forall x | x in SectionNames(ss[1..]) ensures x in SectionNames(ss) {
      var i :| 0 <= i < |ss[1..]| && ss[1..][i].name == x;
      assert ss[i + 1].name == x;
    }
  }

  /** One recommended section: it only adds points and, when they reach 80%, a strong mark. */
  function RecommendedOne(a: map<string, Value>, s: Section): (t: Tally)
    ensures t.missing == [] && t.weak == [] && t.suggestions == []
    ensures t.strong == (if Given(a, s.name) && Strong(a[s.name], s.weight, (s.weight as real) * 0.5)
                         then [s.name] else [])
    ensures 0.0 <= t.score <= s.weight as real
    ensures !Given(a, s.name) ==> t.score == 0.0
    ensures Given(a, s.name) ==> t.score == Score(a[s.name], s.weight, (s.weight as real) * 0.5)
  {
    if !Given(a, s.name) then Tally(0.0, [], [], [], [])
    else
      var score := Score(a[s.name], s.weight, (s.weight as real) * 0.5);
      Tally(score, [], [], if score >= (s.weight as real) * 0.8 then [s.name] else [], [])
  }

  /** The recommended sections in order. */
  function RecommendedTally(a: map<string, Value>, ss: seq<Section>): (t: Tally)
    ensures t.missing == [] && t.weak == [] && t.suggestions == []
    ensures 0.0 <= t.score <= Weights(ss) as real
    decreases |ss|
  {
    if |ss| == 0 then Tally(0.0, [], [], [], [])
    else Then(RecommendedOne(a, ss[0]), RecommendedTally(a, ss[1..]))
  }

  /** The points the sections earn, each scored on its own: what a section not given earns is nothing. */
  function Points(a: map<string, Value>, ss: seq<Section>, required: bool): real
    decreases |ss|
  {
    if |ss| == 0 then 0.0
    else
      var s := ss[0];
      var here := if !Given(a, s.name) then 0.0
                  else Score(a[s.name], s.weight, if required then 0.0 else (s.weight as real) * 0.5);
      here + Points(a, ss[1..], required)
  }

  /** The required tally's score is the sum of each section's own score. */
  lemma {:induction false} RequiredTallyScore(a: map<string, Value>, ss: seq<Section>)
    ensures RequiredTally(a, ss).score == Points(a, ss, true)
    decreases |ss|
  {
    if |ss| > 0 {
      RequiredTallyScore(a, ss[1..]);
    }
  }

  /** The recommended tally's score is the sum of each section's own score, an empty list earning half. */
  lemma {:induction false} RecommendedTallyScore(a: map<string, Value>, ss: seq<Section>)
    ensures RecommendedTally(a, ss).score == Points(a, ss, false)
    decreases |ss|
  {
    if |ss| > 0 {
      RecommendedTallyScore(a, ss[1..]);
    }
  }

  /** With none of the sections given, the required ones are all missing, each with its suggestion. */
  lemma {:induction false} NothingGivenRequired(a: map<string, Value>, ss: seq<Section>)
    requires forall i :: 0 <= i < |ss| ==> !Given(a, ss[i].name)
    ensures var t := RequiredTally(a, ss);
      t.score == 0.0 && |t.missing| == |ss| && t.weak == [] && t.strong == [] && |t.suggestions| == |ss|
    decreases |ss|
  {
    if |ss| > 0 {
      assert !Given(a, ss[0].name);
      NothingGivenRequired(a, ss[1..]);
    }
  }

  /** With none of the sections given, the recommended ones add nothing. */
  lemma {:induction false} NothingGivenRecommended(a: map<string, Value>, ss: seq<Section>)
    requires forall i :: 0 <= i < |ss| ==> !Given(a, ss[i].name)
    ensures RecommendedTally(a, ss).score == 0.0 && RecommendedTally(a, ss).strong == []
    decreases |ss|
  {
    if |ss| > 0 {
      assert !Given(a, ss[0].name);
      NothingGivenRecommended(a, ss[1..]);
    }
  }

  // ---------------------------------------------------------------- special checks

  /** Whether some recommended company carries financial, price or market-share detail; a non-dict entry raises. */
  function AnyDetailed(targets: seq<Value>): (r: Result<bool, string>)
    ensures r == Ok(false) <==> forall i :: 0 <= i < |targets| ==> targets[i].JObj? && !Detailed(targets[i].fields)
    ensures r.Err? <==> exists i :: 0 <= i < |targets| && !targets[i].JObj? && PlainBefore(targets, i)
    ensures r == Ok(true) <==>
              exists i :: 0 <= i < |targets| && targets[i].JObj? && Detailed(targets[i].fields) && PlainBefore(targets, i)
    decreases |targets|
  {
    if |targets| == 0 then Ok(false)
    else if !targets[0].JObj? then Err(NoAttribute(targets[0], "get"))
    else if Detailed(targets[0].fields) then Ok(true)
    else
      var tail := targets[1..];
      assert forall i :: 1 <= i < |targets| ==> targets[i] == tail[i - 1];
      PlainBeforeShift(targets);
      AnyDetailed(tail)
  }

  /** Past a dict without detail, the entries before `i` are those before `i - 1` in the rest. */
  lemma PlainBeforeShift(targets: seq<Value>)
    requires |targets| > 0 && targets[0].JObj? && !Detailed(targets[0].fields)
    ensures forall i :: 1 <= i <= |targets| ==> (PlainBefore(targets, i) <==> PlainBefore(targets[1..], i - 1))
  {
    var tail := targets[1..];
    forall i | 1 <= i <= |targets|
      ensures PlainBefore(targets, i) <==> PlainBefore(tail, i - 1)
    {
      assert forall j :: 1 <= j < i ==> targets[j] == tail[j - 1];
    }
  }

  /** Every entry before position `i` is a dict without detail, so `any` reaches entry `i`. */
  predicate PlainBefore(targets: seq<Value>, i: nat)
    requires i <= |targets|
  {
    forall j :: 0 <= j < i ==> targets[j].JObj? && !Detailed(targets[j].fields)
  }

  predicate Detailed(t: map<string, Value>) {
    HasTruthy(t, "key_metrics") || HasTruthy(t, "price_action") || HasTruthy(t, "market_share")
  }

  const TargetsHint := "推荐标的缺少详细的财务数据、股价表现或市场份额信息"

  /**
   * The check on `investment_targets`, whenever the key is there (empty or
   * not): its recommended list must name some detail, or a hint is added.
   */
  function TargetsCheck(a: map<string, Value>): (r: Result<seq<string>, string>)
    ensures "investment_targets" !in a ==> r == Ok([])
    ensures "investment_targets" in a && !a["investment_targets"].JObj? ==> r.Err?
    ensures r.Err? <==>
              "investment_targets" in a
              && (!a["investment_targets"].JObj?
                  || (HasTruthy(a["investment_targets"].fields, "recommended")
                      && var rec := a["investment_targets"].fields["recommended"];
                         !rec.JArr? || AnyDetailed(rec.items).Err?))
    ensures r.Ok? ==> r.value == [] || r.value == [TargetsHint]
    ensures r == Ok([TargetsHint]) <==>
              "investment_targets" in a && a["investment_targets"].JObj?
              && HasTruthy(a["investment_targets"].fields, "recommended")
              && var rec := a["investment_targets"].fields["recommended"];
                 rec.JArr? && AnyDetailed(rec.items) == Ok(false)
  {
    if "investment_targets" !in a then Ok([])
    else
      var targets := a["investment_targets"];
      if !targets.JObj? then Err(NoAttribute(targets, "get"))
      else if !HasTruthy(targets.fields, "recommended") then Ok([])
      else
        var rec := targets.fields["recommended"];
        if !rec.JArr? then Err("'" + TypeName(rec) + "' entries have no attribute 'get'")
        else
          var detailed :- AnyDetailed(rec.items);
          Ok(if detailed then [] else [TargetsHint])
  }

  /** `len(v)`: lists, dicts and text have one; other values raise. */
  function Len(v: Value): (r: Result<nat, string>)
    ensures r.Ok? <==> v.JArr? || v.JObj? || v.JStr?
  {
    match v
    case JArr(items) => Ok(|items|)
    case JObj(d) => Ok(|d|)
    case JStr(s) => Ok(|s|)
    case _ => Err("object of type '" + TypeName(v) + "' has no len()")
  }

  /** The check on `key_data`, whenever the key is there: fewer than five data points get a hint. */
  function KeyDataCheck(a: map<string, Value>): (r: Result<seq<string>, string>)
    ensures "key_data" !in a ==> r == Ok([])
    ensures "key_data" in a ==> (r.Ok? <==> Len(a["key_data"]).Ok?)
    ensures r.Ok? ==> (|r.value| == 1 <==> "key_data" in a && Len(a["key_data"]).value < 5) && |r.value| <= 1
  {
    if "key_data" !in a then Ok([])
    else
      var n :- Len(a["key_data"]);
      Ok(if n < 5 then ["key_data仅有" + Strings.NatToString(n) + "个数据点，建议提取更多关键数字"] else [])
  }

  // ---------------------------------------------------------------- report

  datatype Validation = Validation(overall: real, percentage: real, missing: seq<string>, weak: seq<string>,
                                   strong: seq<string>, suggestions: seq<string>, grade: string, summary: string)

  /** The grade and its sentence for a percentage. */
  function Grade(p: real): (r: (string, string))
    ensures r.0 == "优秀" <==> p >= 80.0
    ensures r.0 == "良好" <==> 60.0 <= p < 80.0
    ensures r.0 == "需改进" <==> p < 60.0
  {
    if p >= 80.0 then ("优秀", "分析非常全面详细，包含了绝大多数关键信息")
    else if p >= 60.0 then ("良好", "分析质量较好，但还有改进空间")
    else ("需改进", "分析信息不够完整，建议重新分析或补充更多细节")
  }

  /**
   * `validate_analysis_completeness(analysis)`: the tallies of the required
   * and the recommended sections, the two special checks, and the grade of
   * the share of the maximum score. A malformed `investment_targets` or a
   * `key_data` without a length raises.
   */
  function Validate(a: map<string, Value>): (r: Result<Validation, string>)
    ensures r.Err? <==> TargetsCheck(a).Err? || KeyDataCheck(a).Err?
    ensures r.Ok? ==> Consistent(r.value)
    ensures r.Ok? ==> |r.value.suggestions| >= |r.value.missing| + |r.value.weak|
    ensures r.Ok? ==> r.value.overall == Points(a, Required, true) + Points(a, Recommended, false)
  {
    var hints := Hints(a);
    if hints.Err? then Err(hints.error) else Ok(Report(a, hints.value))
  }

  /** The report of an analysis whose special checks passed with the given hints. */
  function Report(a: map<string, Value>, hints: seq<string>): (v: Validation)
    ensures Consistent(v)
    ensures |v.suggestions| >= |v.missing| + |v.weak|
    ensures v.missing == Missing(a, Required) && v.weak == WeakOnes(a, Required)
    ensures v.overall == Points(a, Required, true) + Points(a, Recommended, false)
  {
    var t := Tallies(a);
    Summarise(t.0, t.1, hints)
  }

  /** The hints of the two special checks, in order; either can raise. */
  function Hints(a: map<string, Value>): (r: Result<seq<string>, string>)
    ensures r.Err? <==> TargetsCheck(a).Err? || KeyDataCheck(a).Err?
  {
    var targets :- TargetsCheck(a);
    var keyData :- KeyDataCheck(a);
    Ok(targets + keyData)
  }

  /**
   * A report's numbers agree: the score lies within the maximum, the
   * percentage is its share of 120, and the grade is the percentage's.
   */
  predicate Consistent(v: Validation) {
    0.0 <= v.overall <= MaxPoints && 0.0 <= v.percentage <= 100.0
    && v.percentage * MaxPoints == v.overall * 100.0
    && v.grade == Grade(v.percentage).0
  }

  /**
   * The required sections a valid report calls missing are exactly those
   * absent or empty; the ones it calls weak are all given.
   */
  lemma MissingAndWeak(a: map<string, Value>)
    requires Validate(a).Ok?
    ensures forall x :: x in Validate(a).value.missing <==> x in SectionNames(Required) && !Given(a, x)
    ensures forall x :: x in Validate(a).value.weak ==> x in SectionNames(Required) && Given(a, x)
  {
    MissingMeaning(a, Required);
    WeakMeaning(a, Required);
  }

  /** The report from the two tallies and the hints of the special checks. */
  function Summarise(req: Tally, rec: Tally, hints: seq<string>): (v: Validation)
    requires 0.0 <= req.score <= 65.0 && 0.0 <= rec.score <= 55.0
    ensures Consistent(v)
    ensures v.overall == req.score + rec.score
    ensures v.missing == req.missing && v.weak == req.weak && v.strong == req.strong + rec.strong
    ensures v.suggestions == req.suggestions + hints
    ensures |v.suggestions| >= |req.suggestions|
  {
    var total := req.score + rec.score;
    var pct := total / MaxPoints * 100.0;
    var (grade, summary) := Grade(pct);
    Validation(total, pct, req.missing, req.weak, req.strong + rec.strong, req.suggestions + hints, grade, summary)
  }

  /** Both tallies of an analysis. */
  function Tallies(a: map<string, Value>): (r: (Tally, Tally))
    ensures r.0.missing == Missing(a, Required) && r.0.weak == WeakOnes(a, Required)
    ensures 0.0 <= r.0.score <= 65.0 && 0.0 <= r.1.score <= 55.0
    ensures |r.0.suggestions| == |r.0.missing| + |r.0.weak|
    ensures r.0.score == Points(a, Required, true) && r.1.score == Points(a, Recommended, false)
  {
    WeightTotals();
    RequiredTallyScore(a, Required);
    RecommendedTallyScore(a, Recommended);
    (RequiredTally(a, Required), RecommendedTally(a, Recommended))
  }

  /**
   * An analysis without any expected section scores nothing: every
   * required section is missing, with one suggestion each and no other.
   */
  lemma NothingGiven(a: map<string, Value>)
    requires forall i :: 0 <= i < |Required| ==> !Given(a, Required[i].name)
    requires forall i :: 0 <= i < |Recommended| ==> !Given(a, Recommended[i].name)
    requires "investment_targets" !in a && "key_data" !in a
    ensures Validate(a).Ok?
    ensures var v := Validate(a).value;
      v.overall == 0.0 && v.grade == "需改进" && |v.missing| == 6 && |v.suggestions| == 6 && v.strong == []
  {
    NothingTallied(a);
    ValidateWithoutHints(a);
    var v := Report(a, []);
    assert v.overall == 0.0;
    assert v.percentage == 0.0;
  }

  lemma ValidateWithoutHints(a: map<string, Value>)
    requires "investment_targets" !in a && "key_data" !in a
    ensures Validate(a) == Ok(Report(a, []))
  {
    assert TargetsCheck(a) == Ok([]) && KeyDataCheck(a) == Ok([]);
  }

  lemma NothingTallied(a: map<string, Value>)
    requires forall i :: 0 <= i < |Required| ==> !Given(a, Required[i].name)
    requires forall i :: 0 <= i < |Recommended| ==> !Given(a, Recommended[i].name)
    ensures var t := Tallies(a);
      t.0.score == 0.0 && t.1.score == 0.0 && |t.0.missing| == 6 && |t.0.suggestions| == 6
      && t.0.strong == [] && t.1.strong == []
  {
    NothingGivenRequired(a, Required);
    NothingGivenRecommended(a, Recommended);
  }

  /** In particular, an empty analysis. */
  lemma EmptyAnalysis(a: map<string, Value>)
    requires a.Keys == {}
    ensures Validate(a).Ok? && Validate(a).value.grade == "需改进"
    ensures forall s :: s in Required ==> s.name in Validate(a).value.missing
  {
    assert forall k :: !Given(a, k) by {
      forall k ensures !Given(a, k) { assert k !in a.Keys; }
    }
    NothingGiven(a);
    MissingAndWeak(a);
    NoneGivenAllMissing(a, Validate(a).value.missing);
  }

  /** When nothing is given, a list holding exactly the required sections not given names every required section. */
  lemma NoneGivenAllMissing(a: map<string, Value>, missing: seq<string>)
    requires forall k :: !Given(a, k)
    requires forall x :: x in missing <==> x in SectionNames(Required) && !Given(a, x)
    ensures forall s :: s in Required ==> s.name in missing
  {
    forall s | s in Required ensures s.name in missing {
      var i :| 0 <= i < |Required| && Required[i] == s;
      assert s.name in SectionNames(Required);
    }
  }

  /** A required section with an empty value is reported missing, not weak. */
  lemma EmptyRequiredIsMissing(a: map<string, Value>, name: string)
    requires name in SectionNames(Required) && name in a && !Truthy(a[name])
    requires Validate(a).Ok?
    ensures name in Validate(a).value.missing && name !in Validate(a).value.weak
  {
    MissingAndWeak(a);
  }
}

=== FILE: component_manager.dfy ===
/**
 * The component registry: component templates loaded from plugin files,
 * instances bound to a UI state, and the reads and writes that go through
 * the UI-state manager.
 */
module ComponentManager {
  import opened Wrappers
  import opened Json
  import OrderedMap
  import Strings
  import PySeq
  import Plugins
  import MessageTypes
  import UIStateManager

  datatype State = State(
    templates: OrderedMap.Dict<string, MessageTypes.ComponentTemplate>,
    instances: OrderedMap.Dict<string, MessageTypes.ComponentInstance>,
    /** The `component_instances` table, in insertion order. */
    table: seq<MessageTypes.ComponentInstance>,
    ui: UIStateManager.State)

  // ------------------------------------------------------------- templates

  /** The file filter of `load_all_templates`: a file with suffix `.py`, `.ts` or `.tsx` not starting with `_`. */
  predicate Candidate(e: Plugins.Entry) {
    e.isFile && Plugins.Suffix(e.name) in {".py", ".ts", ".tsx"} && !Strings.StartsWith(e.name, "_")
  }

  /**
   * `load_template(filename)`: only a `.py` module is executed; its `config`
   * must be a dict with truthy `id` and `stateId`. The name defaults to the
   * id and the description to `''`; TypeScript files are skipped.
   */
  function Contribution(e: Plugins.Entry): (r: Option<(string, MessageTypes.ComponentTemplate)>)
    ensures r.Some? ==> Plugins.Suffix(e.name) == ".py"
    ensures r.Some? <==> (Plugins.Suffix(e.name) == ".py" && e.loaded.Some? && e.loaded.value.config.Some?
      && e.loaded.value.config.value.DictConfig?
      && HasTruthy(e.loaded.value.config.value.fields, "id") && HasTruthy(e.loaded.value.config.value.fields, "stateId")
      && e.loaded.value.config.value.fields["id"].JStr?)
    ensures r.Some? ==> var f := e.loaded.value.config.value.fields;
      r.value.0 == r.value.1.id && f["id"] == JStr(r.value.0) && |r.value.0| > 0
      && r.value.1.stateId == f["stateId"] && Truthy(r.value.1.stateId)
      && r.value.1.name == GetOr(f, "name", f["id"])
      && r.value.1.description == GetOr(f, "description", JStr(""))
  {
    if Plugins.Suffix(e.name) != ".py" then None
    else
      match e.loaded
      case None => None
      case Some(m) =>
        match m.config
        case Some(DictConfig(f)) =>
          if HasTruthy(f, "id") && HasTruthy(f, "stateId") && f["id"].JStr? then
            var t := MessageTypes.ComponentTemplate(f["id"].s, GetOr(f, "name", f["id"]),
              GetOr(f, "description", JStr("")), f["stateId"]);
            Some((t.id, t))
          else None
        case _ => None
  }

  /** What the loader takes from one directory entry. */
  function Keep(e: Plugins.Entry): (r: Option<(string, MessageTypes.ComponentTemplate)>)
    ensures r.Some? ==> e.isFile && Plugins.Suffix(e.name) == ".py" && !Strings.StartsWith(e.name, "_")
    ensures r.Some? ==> r.value.0 == r.value.1.id && Truthy(r.value.1.stateId)
  {
    if Candidate(e) then Contribution(e) else None
  }

  /**
   * `load_all_templates`: the templates are cleared and every candidate
   * file is considered in listing order; a missing directory yields none.
   * Instances are kept.
   */
  function LoadAll(s: State, dir: Plugins.Directory): (r: State)
    ensures r.instances == s.instances && r.table == s.table && r.ui == s.ui
    ensures OrderedMap.UniqueKeys(r.templates)
    ensures forall i :: 0 <= i < |r.templates| ==> r.templates[i].1.id == r.templates[i].0 && Truthy(r.templates[i].1.stateId)
    ensures !dir.Listed? ==> r.templates == []
  {
    s.(templates := Plugins.Load(dir, Keep))
  }

  /** A component id maps to the template of the last `.py` file declaring it; TypeScript files never contribute. */
  lemma LoadAllLastWins(s: State, es: seq<Plugins.Entry>, id: string)
    ensures OrderedMap.Get(LoadAll(s, Plugins.Listed(es)).templates, id).None? <==> Plugins.NoneFor(es, Keep, id)
    ensures OrderedMap.Get(LoadAll(s, Plugins.Listed(es)).templates, id).Some? ==>
      exists j :: (Plugins.LastFor(es, Keep, id, OrderedMap.Get(LoadAll(s, Plugins.Listed(es)).templates, id).value, j)
        && Plugins.Suffix(es[j].name) == ".py")
  {
    Plugins.LoadLastWins(es, Keep, id);
  }

  // ------------------------------------------------------------- instances

  /**
   * `register_instance`: the instance is stored in memory under its id
   * whether or not the database insert succeeds (`inserted` is false when
   * it raises).
   */
  function RegisterInstance(s: State, inst: MessageTypes.ComponentInstance, inserted: bool): (r: State)
    requires OrderedMap.UniqueKeys(s.instances)
    ensures OrderedMap.UniqueKeys(r.instances)
    ensures OrderedMap.Get(r.instances, inst.instanceId) == Some(inst)
    ensures forall id :: id != inst.instanceId ==> OrderedMap.Get(r.instances, id) == OrderedMap.Get(s.instances, id)
    ensures r.table == if inserted then s.table + [inst] else s.table
    ensures r.templates == s.templates && r.ui == s.ui
  {
    s.(instances := OrderedMap.Put(s.instances, inst.instanceId, inst),
       table := if inserted then s.table + [inst] else s.table)
  }

  /** `f"comp_{ms}_{uuid_hex[:8]}"`. */
  function InstanceId(ms: nat, uuidHex: string): (r: string)
    ensures Strings.StartsWith(r, "comp_")
  {
    "comp_" + Strings.NatToString(ms) + "_" + PySeq.To(uuidHex, 8)
  }

  /** An instance id determines the millisecond stamp's digits and the hex part it was built from. */
  lemma InstanceIdParts(ms1: nat, hex1: string, ms2: nat, hex2: string)
    requires InstanceId(ms1, hex1) == InstanceId(ms2, hex2)
    ensures Strings.NatToString(ms1) == Strings.NatToString(ms2)
    ensures PySeq.To(hex1, 8) == PySeq.To(hex2, 8)
  {
    var a, b := Strings.NatToString(ms1), Strings.NatToString(ms2);
    var x, y := PySeq.To(hex1, 8), PySeq.To(hex2, 8);
    var s := InstanceId(ms1, hex1);
    assert s == "comp_" + a + "_" + x;
    assert s == "comp_" + b + "_" + y;
    assert s[5 + |a|] == '_' && s[5 + |b|] == '_';
    assert a == s[5..5 + |a|] == b;
    assert x == s[6 + |a|..] == y;
  }

  /**
   * `create_instance`: a fresh instance under a generated id with props
   * `props or {}` (an absent or empty dict gives `{}`), registered and
   * returned.
   */
  function CreateInstance(s: State, componentId: string, sessionId: string, stateId: string,
                          props: Option<map<string, Value>>, ms: nat, uuidHex: string, inserted: bool)
    : (r: (State, MessageTypes.ComponentInstance))
    requires OrderedMap.UniqueKeys(s.instances)
    ensures r.1.instanceId == InstanceId(ms, uuidHex)
    ensures r.1.componentId == componentId && r.1.sessionId == sessionId && r.1.stateId == stateId
    ensures r.1.props.Some? && (props.Some? ==> r.1.props.value == props.value)
    ensures props.None? ==> r.1.props == Some(map[])
    ensures r.0 == RegisterInstance(s, r.1, inserted)
  {
    var inst := MessageTypes.ComponentInstance(InstanceId(ms, uuidHex), componentId, stateId, sessionId,
      Some(if props.Some? && |props.value| > 0 then props.value else map[]), "");
    (RegisterInstance(s, inst, inserted), inst)
  }

  // ----------------------------------------------------------- component data

  /** What `get_component_data` returns: the template, the current state and the instance. */
  datatype ComponentData = ComponentData(template: MessageTypes.ComponentTemplate, state: Value,
                                         instance: MessageTypes.ComponentInstance)

  /**
   * `get_component_data(instance_id)`: `None` for an unknown instance or an
   * instance whose component has no template; otherwise the state is read
   * through the UI-state manager (which never raises).
   */
  function GetComponentData(s: State, instanceId: string): (r: Option<ComponentData>)
    ensures r.Some? <==> (OrderedMap.Has(s.instances, instanceId)
      && OrderedMap.Has(s.templates, OrderedMap.Get(s.instances, instanceId).value.componentId))
    ensures r.Some? ==> (Some(r.value.instance) == OrderedMap.Get(s.instances, instanceId)
      && Some(r.value.template) == OrderedMap.Get(s.templates, r.value.instance.componentId)
      && r.value.state == UIStateManager.GetState(s.ui, r.value.instance.stateId))
  {
    match OrderedMap.Get(s.instances, instanceId)
    case None => None
    case Some(inst) =>
      match OrderedMap.Get(s.templates, inst.componentId)
      case None => None
      case Some(t) => Some(ComponentData(t, UIStateManager.GetState(s.ui, inst.stateId), inst))
  }

  /**
   * `update_component_state(instance_id, new_state)`: false for an unknown
   * instance or a write that raises (nothing changes then), true after a
   * write of the instance's state; the notifications come back too.
   */
  function UpdateComponentState(s: State, instanceId: string, newState: Value, env: UIStateManager.Env)
    : (r: (State, bool, set<UIStateManager.Notice>))
    ensures r.1 <==> OrderedMap.Has(s.instances, instanceId) && s.ui.db.fault.None?
    ensures !r.1 ==> r.0 == s && r.2 == {}
    ensures r.0.templates == s.templates && r.0.instances == s.instances && r.0.table == s.table
    ensures r.1 ==> r.0.ui == UIStateManager.SetState(s.ui, OrderedMap.Get(s.instances, instanceId).value.stateId, newState, env).value.0
  {
    match OrderedMap.Get(s.instances, instanceId)
    case None => (s, false, {})
    case Some(inst) =>
      match UIStateManager.SetState(s.ui, inst.stateId, newState, env)
      case Err(_) => (s, false, {})
      case Ok((ui, notices)) => (s.(ui := ui), true, notices)
  }

  /** A successful update of a non-null state is what the component's data shows next. */
  lemma UpdateThenRead(s: State, instanceId: string, newState: Value, env: UIStateManager.Env)
    requires newState != JNull
    requires UpdateComponentState(s, instanceId, newState, env).1
    requires GetComponentData(s, instanceId).Some?
    ensures GetComponentData(UpdateComponentState(s, instanceId, newState, env).0, instanceId).Some?
    ensures GetComponentData(UpdateComponentState(s, instanceId, newState, env).0, instanceId).value.state == newState
  {
    var inst := OrderedMap.Get(s.instances, instanceId).value;
    UIStateManager.SetThenGet(s.ui, inst.stateId, newState, env, inst.stateId);
  }

  /** A created instance of a loaded component is found at once, with its template. */
  lemma CreateThenRead(s: State, componentId: string, sessionId: string, stateId: string,
                       props: Option<map<string, Value>>, ms: nat, uuidHex: string, inserted: bool)
    requires OrderedMap.UniqueKeys(s.instances)
    requires OrderedMap.Has(s.templates, componentId)
    ensures var (s', inst) := CreateInstance(s, componentId, sessionId, stateId, props, ms, uuidHex, inserted);
      GetComponentData(s', inst.instanceId) == Some(ComponentData(OrderedMap.Get(s.templates, componentId).value,
        UIStateManager.GetState(s.ui, stateId), inst))
  {
  }
}

=== FILE: database_manager.dfy ===
/**
 * The pure parts of the database manager: the JSON columns of `reports`,
 * the branching of relationship deletion, and the `ui_states` table as the
 * UI-state manager sees it. Tables are maps keyed by their conflict
 * target; a store whose `fault` is set raises that error on every access.
 */
module DatabaseManager {
  import opened Wrappers
  import opened Json
  import ReportSearch

  // ------------------------------------------------------------- reports: JSON columns

  /** The `reports` columns that hold JSON text. */
  const JsonColumns: seq<string> := ["analysis_json", "sources", "key_drivers"]

  /** JSON serialisation and parsing, as given functions; parsing fails with a decode error. */
  datatype Codec = Codec(dumps: Value -> string, loads: string -> Option<Value>)

  /** `upsert_report` serialises a column's value only when it is a dict or a list. */
  function EncodeColumn(v: Value, c: Codec): (r: Value)
    ensures v.JObj? || v.JArr? ==> r == JStr(c.dumps(v))
    ensures !(v.JObj? || v.JArr?) ==> r == v
  {
    if v.JObj? || v.JArr? then JStr(c.dumps(v)) else v
  }

  /**
   * The read side for one column: a falsy value stays; text is parsed and
   * stays as it is when it does not parse; any other truthy value makes
   * `json.loads` raise a type error, which is not caught.
   */
  function DecodeColumn(v: Value, c: Codec): (r: Result<Value, string>)
    ensures !Truthy(v) ==> r == Ok(v)
    ensures r.Err? <==> Truthy(v) && !v.JStr?
    ensures v.JStr? && Truthy(v) && c.loads(v.s).None? ==> r == Ok(v)
    ensures v.JStr? && Truthy(v) && c.loads(v.s).Some? ==> r == Ok(c.loads(v.s).value)
  {
    if !Truthy(v) then Ok(v)
    else if v.JStr? then Ok(c.loads(v.s).GetOr(v))
    else Err("the JSON object must be str, bytes or bytearray, not " + TypeName(v))
  }

  /** The row `upsert_report` binds: the JSON columns serialised, every other field as given. */
  function EncodeReport(d: map<string, Value>, c: Codec): (r: map<string, Value>)
    ensures r.Keys == d.Keys
    ensures forall k :: k in d && k !in JsonColumns ==> r[k] == d[k]
    ensures forall k :: k in d && k in JsonColumns ==> r[k] == EncodeColumn(d[k], c)
  {
    map k | k in d :: if k in JsonColumns then EncodeColumn(d[k], c) else d[k]
  }

  function DecodeKey(d: map<string, Value>, k: string, c: Codec): (r: Result<map<string, Value>, string>)
    ensures k !in d ==> r == Ok(d)
    ensures k in d ==> (r.Err? <==> DecodeColumn(d[k], c).Err?)
    ensures k in d && r.Ok? ==> r.value == d[k := DecodeColumn(d[k], c).value]
  {
    if k !in d then Ok(d)
    else
      var v :- DecodeColumn(d[k], c);
      Ok(d[k := v])
  }

  /** `get_report(report_id)` on a found row: the JSON columns parsed back, in column order. */
  function DecodeReport(d: map<string, Value>, c: Codec): (r: Result<map<string, Value>, string>)
    ensures r.Err? <==> exists k :: k in d && k in JsonColumns && DecodeColumn(d[k], c).Err?
    ensures r.Ok? ==> r.value.Keys == d.Keys
    ensures r.Ok? ==> forall k :: k in d && k !in JsonColumns ==> r.value[k] == d[k]
    ensures r.Ok? ==> forall k :: k in d && k in JsonColumns ==> r.value[k] == DecodeColumn(d[k], c).value
  {
    var a :- DecodeKey(d, "analysis_json", c);
    var b :- DecodeKey(a, "sources", c);
    DecodeKey(b, "key_drivers", c)
  }

  /** Serialisation undoes itself for the shapes the writer serialises, and for falsy values. */
  predicate Restorable(v: Value, c: Codec) {
    if v.JObj? || v.JArr? then |c.dumps(v)| > 0 && c.loads(c.dumps(v)) == Some(v) else !Truthy(v)
  }

  /**
   * Round trip: when every JSON column holds a dict, a list or a falsy
   * value, and parsing undoes serialisation on it, reading the written row
   * gives back the report.
   */
  lemma EncodeThenDecode(d: map<string, Value>, c: Codec)
    requires forall k :: k in d && k in JsonColumns ==> Restorable(d[k], c)
    ensures DecodeReport(EncodeReport(d, c), c) == Ok(d)
  {
    var e := EncodeReport(d, c);
    forall k | k in e && k in JsonColumns ensures DecodeColumn(e[k], c) == Ok(d[k]) {
    }
    var r := DecodeReport(e, c);
    assert r.Ok?;
    assert r.value == d;
  }

  /**
   * A string that happens to be JSON is stored verbatim but read back
   * parsed: the columns do not round-trip text.
   */
  lemma JsonTextIsNotKept(c: Codec)
    requires c.loads("[]") == Some(JArr([]))
    ensures DecodeReport(EncodeReport(map["sources" := JStr("[]")], c), c) == Ok(map["sources" := JArr([])])
  {
    var e := EncodeReport(map["sources" := JStr("[]")], c);
    assert e == map["sources" := JStr("[]")];
    assert Truthy(JStr("[]"));
    assert DecodeKey(e, "analysis_json", c) == Ok(e);
    assert DecodeColumn(JStr("[]"), c) == Ok(JArr([]));
    assert e["sources" := JArr([])] == map["sources" := JArr([])];
    assert DecodeKey(e, "sources", c) == Ok(map["sources" := JArr([])]);
  }

  // ------------------------------------------------------------- report_relationships

  datatype Relationship = Relationship(source: string, target: string, details: Value)

  /**
   * Which rows a deletion means: each id that is given must match, so with
   * neither given every row goes.
   */
  predicate Doomed(x: Relationship, source: Option<string>, target: Option<string>) {
    (ReportSearch.Given(source) ==> x.source == source.value)
    && (ReportSearch.Given(target) ==> x.target == target.value)
  }

  function Keep(t: seq<Relationship>, gone: Relationship -> bool): (r: seq<Relationship>)
    ensures |r| <= |t|
    ensures forall x :: x in r <==> x in t && !gone(x)
    decreases |t|
  {
    if |t| == 0 then []
    else
      assert forall x :: x in t <==> x == t[0] || x in t[1..];
      (if gone(t[0]) then [] else [t[0]]) + Keep(t[1..], gone)
  }

  /**
   * `delete_report_relationships(source, target)`: the pair, the source's
   * rows, the target's rows or all rows, by which ids are given; returns
   * the remaining table and the deleted-row count.
   */
  function DeleteRelationships(t: seq<Relationship>, source: Option<string>, target: Option<string>)
    : (r: (seq<Relationship>, nat))
    ensures forall x :: x in r.0 <==> x in t && !Doomed(x, source, target)
    ensures r.1 == |t| - |r.0|
  {
    var s := ReportSearch.Given(source);
    var g := ReportSearch.Given(target);
    var kept :=
      if s && g then Keep(t, (x: Relationship) => x.source == source.value && x.target == target.value)
      else if s then Keep(t, (x: Relationship) => x.source == source.value)
      else if g then Keep(t, (x: Relationship) => x.target == target.value)
      else [];
    (kept, |t| - |kept|)
  }

  /** Deleting again removes nothing more. */
  lemma DeleteRelationshipsIdempotent(t: seq<Relationship>, source: Option<string>, target: Option<string>)
    ensures var once := DeleteRelationships(t, source, target).0;
      DeleteRelationships(once, source, target) == (once, 0)
  {
    var once := DeleteRelationships(t, source, target).0;
    var s := ReportSearch.Given(source);
    var g := ReportSearch.Given(target);
    if s && g {
      KeepAll(once, (x: Relationship) => x.source == source.value && x.target == target.value);
    } else if s {
      KeepAll(once, (x: Relationship) => x.source == source.value);
    } else if g {
      KeepAll(once, (x: Relationship) => x.target == target.value);
    }
  }

  /** Nothing is dropped when the predicate holds of no row. */
  lemma {:induction false} KeepAll(t: seq<Relationship>, gone: Relationship -> bool)
    requires forall x :: x in t ==> !gone(x)
    ensures Keep(t, gone) == t
    decreases |t|
  {
    if |t| > 0 {
      assert forall x :: x in t[1..] ==> x in t;
      KeepAll(t[1..], gone);
      assert t == [t[0]] + t[1..];
    }
  }

  // ------------------------------------------------------------- ui_states

  /** A `ui_states` row: its `data_json` text decodes to a value, or it does not. */
  datatype UIRow = Stored(v: Value) | Undecodable

  datatype UIStateStore = UIStateStore(rows: map<string, UIRow>, fault: Option<string>)

  /**
   * `get_ui_state(state_id)`, the synchronous definition (a later method of
   * the same name replaces the earlier asynchronous one): the decoded
   * value, or `None` for a missing row or text that does not decode. A
   * stored JSON `null` also reads as `None`.
   */
  function GetUIState(db: UIStateStore, id: string): (r: Result<Value, string>)
    ensures r.Err? <==> db.fault.Some?
    ensures r.Ok? && r.value != JNull ==> id in db.rows && db.rows[id] == Stored(r.value)
    ensures r.Ok? && id !in db.rows ==> r.value == JNull
  {
    if db.fault.Some? then Err(db.fault.value)
    else if id in db.rows && db.rows[id].Stored? then Ok(db.rows[id].v)
    else Ok(JNull)
  }

  /** `set_ui_state(state_id, data)`: an upsert keyed by `state_id`. */
  function SetUIState(db: UIStateStore, id: string, data: Value): (r: Result<UIStateStore, string>)
    ensures r.Err? <==> db.fault.Some?
    ensures r.Ok? ==> r.value.fault.None? && id in r.value.rows
    ensures r.Ok? ==> forall other :: other != id ==> (other in r.value.rows <==> other in db.rows)
    ensures r.Ok? ==> forall other :: other != id && other in db.rows ==> r.value.rows[other] == db.rows[other]
  {
    if db.fault.Some? then Err(db.fault.value)
    else Ok(db.(rows := db.rows[id := Stored(data)]))
  }

  /** What is stored is read back, and no other state changes. */
  lemma SetThenGetUIState(db: UIStateStore, id: string, data: Value, other: string)
    requires SetUIState(db, id, data).Ok?
    ensures GetUIState(SetUIState(db, id, data).value, id) == Ok(data)
    ensures other != id ==> GetUIState(SetUIState(db, id, data).value, other) == GetUIState(db, other)
  {
  }
}

=== FILE: json.dfy ===
/** JSON values as Python's `json` module produces them, with Python truthiness. */
module Json {
  import opened Wrappers

  /** A decoded JSON document; objects are dicts keyed by strings. */
  datatype Value =
    | JNull
    | JBool(b: bool)
    | JNum(n: real)
    | JStr(s: string)
    | JArr(items: seq<Value>)
    | JObj(fields: map<string, Value>)

  /** `bool(v)` in Python: None, False, 0, "", [] and {} are falsy. */
  predicate Truthy(v: Value) {
    match v
    case JNull => false
    case JBool(b) => b
    case JNum(n) => n != 0.0
    case JStr(s) => |s| > 0
    case JArr(a) => |a| > 0
    case JObj(m) => |m| > 0
  }

  /** `d.get(key)` on a dict; a missing key gives `None` (not a JSON null). */
  function Get(d: map<string, Value>, key: string): (r: Option<Value>)
    ensures r.Some? <==> key in d
    ensures r.Some? ==> r.value == d[key]
  {
    if key in d then Some(d[key]) else None
  }

  /** `d.get(key, default)` on a dict. */
  function GetOr(d: map<string, Value>, key: string, default: Value): (r: Value)
    ensures key in d ==> r == d[key]
    ensures key !in d ==> r == default
  {
    if key in d then d[key] else default
  }

  /** A present and truthy entry: `d.get(key)` is truthy. */
  predicate HasTruthy(d: map<string, Value>, key: string) {
    key in d && Truthy(d[key])
  }

  /** The string of a JSON string value, if it is one. */
  function AsString(v: Value): (r: Option<string>)
    ensures r.Some? <==> v.JStr?
  {
    if v.JStr? then Some(v.s) else None
  }

  /**
   * `str(v)` for the values whose rendering the model relies on: strings
   * are unchanged, `None` is "None", booleans are "True"/"False". Numbers,
   * lists and dicts are rendered by a fixed placeholder (see README).
   */
  function PyStr(v: Value): (r: string)
    ensures v.JStr? ==> r == v.s
    ensures v.JNull? ==> r == "None"
  {
    match v
    case JStr(s) => s
    case JNull => "None"
    case JBool(b) => if b then "True" else "False"
    case JNum(_) => "<number>"
    case JArr(_) => "<list>"
    case JObj(_) => "<dict>"
  }

  /** `type(v).__name__`; a number is an `int` when it is integral. */
  function TypeName(v: Value): string {
    match v
    case JNull => "NoneType"
    case JBool(_) => "bool"
    case JNum(n) => if n.Floor as real == n then "int" else "float"
    case JStr(_) => "str"
    case JArr(_) => "list"
    case JObj(_) => "dict"
  }

  /** The text of the `AttributeError` raised by `v.<attr>` on a value lacking it. */
  function NoAttribute(v: Value, attr: string): string {
    "'" + TypeName(v) + "' object has no attribute '" + attr + "'"
  }
}

=== FILE: listeners_manager.dfy ===
/**
 * The listener registry: loading listener plugins from their directory,
 * dispatching an event to the listeners registered for it, normalising
 * what each handler returns, and writing one audit entry per invocation.
 */
module ListenersManager {
  import opened Wrappers
  import opened Json
  import OrderedMap
  import Plugins
  import MessageTypes
  import LogWriter

  /** A registered listener: its config and the file whose `handler` it runs. */
  datatype Listener = Listener(config: Plugins.Config, handler: string)

  /** `self.listeners`: listener id to listener, in registration order. */
  type Registry = OrderedMap.Dict<string, Listener>

  /** `config.get('enabled', True)` on a dict, `config.enabled` on a `ListenerConfig`. */
  predicate Enabled(c: Plugins.Config) {
    match c
    case DictConfig(f) => Truthy(GetOr(f, "enabled", JBool(true)))
    case ObjectConfig(_, _, enabled, _) => enabled
    case OtherConfig => false
  }

  /**
   * What loading one file adds to the registry: its id and listener, or
   * nothing when executing it raises, it lacks `config` or `handler`, the
   * listener is disabled, or reading its id raises.
   */
  function Contribution(e: Plugins.Entry): (r: Option<(string, Listener)>)
    ensures r.Some? ==> r.value.1.handler == e.name && Enabled(r.value.1.config)
    ensures r.Some? ==> e.loaded.Some? && e.loaded.value.hasHandler && e.loaded.value.config == Some(r.value.1.config)
    ensures e.loaded.Some? && e.loaded.value.hasHandler && e.loaded.value.config.Some?
            && e.loaded.value.config.value.ObjectConfig? && e.loaded.value.config.value.enabled
            ==> r == Some((e.loaded.value.config.value.id, Listener(e.loaded.value.config.value, e.name)))
    ensures (e.loaded.Some? && e.loaded.value.hasHandler && e.loaded.value.config.Some?
             && e.loaded.value.config.value.DictConfig? && Enabled(e.loaded.value.config.value)
             && var f := e.loaded.value.config.value.fields; "id" in f && f["id"].JStr?)
            ==> r == Some((e.loaded.value.config.value.fields["id"].s, Listener(e.loaded.value.config.value, e.name)))
  {
    match e.loaded
    case None => None
    case Some(m) =>
      if !m.hasHandler || m.config.None? then None
      else
        var c := m.config.value;
        if !Enabled(c) then None
        else
          match c
          case DictConfig(f) =>
            if "id" in f && f["id"].JStr? then Some((f["id"].s, Listener(c, e.name))) else None
          case ObjectConfig(id, _, _, _) => Some((id, Listener(c, e.name)))
          case OtherConfig => None
  }

  /** What the loader takes from one directory entry: public scripts only. */
  function Keep(e: Plugins.Entry): (r: Option<(string, Listener)>)
    ensures r.Some? ==> Enabled(r.value.1.config) && Plugins.PublicScript(r.value.1.handler)
    ensures !Plugins.PublicScript(e.name) ==> r.None?
  {
    if Plugins.PublicScript(e.name) then Contribution(e) else None
  }

  /**
   * `load_all_listeners`: the registry is cleared, then every public `.py`
   * file is loaded in listing order. A missing directory is created empty;
   * a listing failure leaves the registry empty.
   */
  function LoadAll(dir: Plugins.Directory): (r: Registry)
    ensures OrderedMap.UniqueKeys(r)
    ensures forall i :: 0 <= i < |r| ==> Enabled(r[i].1.config) && Plugins.PublicScript(r[i].1.handler)
    ensures !dir.Listed? ==> r == []
  {
    Plugins.Load(dir, Keep)
  }

  /**
   * A listener id maps to the listener of the last loadable file declaring
   * it: a later file with the same id overwrites an earlier one, and an id
   * no public, enabled, complete module declares is not registered.
   */
  lemma LoadAllLastWins(es: seq<Plugins.Entry>, id: string)
    ensures OrderedMap.Get(LoadAll(Plugins.Listed(es)), id).None? <==> Plugins.NoneFor(es, Keep, id)
    ensures OrderedMap.Get(LoadAll(Plugins.Listed(es)), id).Some? ==>
      exists j :: Plugins.LastFor(es, Keep, id, OrderedMap.Get(LoadAll(Plugins.Listed(es)), id).value, j)
  {
    Plugins.LoadLastWins(es, Keep, id);
  }

  /** Inserting a file that fails to load (raises, or lacks `config`/`handler`) changes nothing. */
  lemma LoadAllIgnoresBrokenFiles(es: seq<Plugins.Entry>, broken: Plugins.Entry, k: nat)
    requires k <= |es|
    requires broken.loaded.None? || !broken.loaded.value.hasHandler || broken.loaded.value.config.None?
    ensures LoadAll(Plugins.Listed(es[..k] + [broken] + es[k..])) == LoadAll(Plugins.Listed(es))
  {
    Plugins.LoadIgnoresRejected(es, broken, k, Keep);
  }

  // ------------------------------------------------------------ check_event

  /** What a handler returns: a plain value, or a `ListenerResult` object. */
  datatype Returned = Plain(v: Value) | ResultObject(res: MessageTypes.ListenerResult)

  /** The `event` a listener listens to, as `check_event` reads it. */
  function EventOf(c: Plugins.Config): Option<Value> {
    match c
    case DictConfig(f) => Get(f, "event")
    case ObjectConfig(_, _, _, event) => Some(JStr(event))
    case OtherConfig => None
  }

  /** The registered listeners whose event equals `event`, in registration order. */
  function Matching(reg: Registry, event: string): (r: seq<(string, Listener)>)
    ensures forall i :: 0 <= i < |r| ==> r[i] in reg && EventOf(r[i].1.config) == Some(JStr(event))
    ensures forall i :: 0 <= i < |reg| && EventOf(reg[i].1.config) == Some(JStr(event)) ==> reg[i] in r
    decreases |reg|
  {
    if |reg| == 0 then []
    else
      var rest := Matching(reg[1..], event);
      assert forall i :: 1 <= i < |reg| ==> reg[i] == reg[1..][i - 1];
      if EventOf(reg[0].1.config) == Some(JStr(event)) then [reg[0]] + rest else rest
  }

  /** Distinct listener ids stay distinct among the matching ones. */
  lemma {:induction false} MatchingUnique(reg: Registry, event: string)
    requires OrderedMap.UniqueKeys(reg)
    ensures OrderedMap.UniqueKeys(Matching(reg, event))
    decreases |reg|
  {
    if |reg| > 0 {
      var rest := Matching(reg[1..], event);
      assert OrderedMap.UniqueKeys(reg[1..]) by {
        assert forall i :: 0 <= i < |reg[1..]| ==> reg[1..][i] == reg[i + 1];
      }
      MatchingUnique(reg[1..], event);
      forall i | 0 <= i < |rest| ensures rest[i].0 != reg[0].0 {
        var j :| 0 <= j < |reg[1..]| && reg[1..][j] == rest[i];
        assert reg[j + 1] == rest[i];
      }
      assert Matching(reg, event) == (if EventOf(reg[0].1.config) == Some(JStr(event)) then [reg[0]] + rest else rest);
    }
  }

  /** `ListenerResult(executed=..., reason=...)` with the other fields at their defaults. */
  function Simple(executed: bool, reason: string): MessageTypes.ListenerResult {
    MessageTypes.ListenerResult(JBool(executed), JStr(reason), JNull, JNull)
  }

  /** The keyword arguments `check_event` passes when a handler returns a dict. */
  function DictKwargs(f: map<string, Value>): MessageTypes.Kwargs {
    [("executed", GetOr(f, "executed", JBool(true))), ("reason", GetOr(f, "reason", JStr("Success"))),
     ("data", GetOr(f, "data", JNull)), ("actions", GetOr(f, "actions", JNull))]
  }

  /**
   * The result recorded for one invocation and the error text, or `Err`
   * when reading the result raises outside the `try` (a truthy value that
   * is neither a dict nor a `ListenerResult`). `outcome` is `Err(str(e))`
   * when the handler raised `e`.
   */
  function Normalise(outcome: Result<Returned, string>): (r: Result<(MessageTypes.ListenerResult, Option<string>), string>)
    ensures outcome.Err? ==> r == Ok((Simple(false, "Error: " + outcome.error), Some(outcome.error)))
    ensures outcome.Ok? && outcome.value.ResultObject? ==> r == Ok((outcome.value.res, None))
    ensures outcome.Ok? && outcome.value.Plain? && !Truthy(outcome.value.v) ==> r == Ok((Simple(true, "Listener completed successfully"), None))
    ensures r.Err? <==> outcome.Ok? && outcome.value.Plain? && Truthy(outcome.value.v) && !outcome.value.v.JObj?
  {
    match outcome
    case Err(e) => Ok((Simple(false, "Error: " + e), Some(e)))
    case Ok(ResultObject(res)) => Ok((res, None))
    case Ok(Plain(v)) =>
      if !Truthy(v) then Ok((Simple(true, "Listener completed successfully"), None))
      else if v.JObj? then
        match MessageTypes.NewListenerResult(DictKwargs(v.fields))
        case Err(msg) => Ok((Simple(false, "Error: " + msg), Some(msg)))
        case Ok(res) => Ok((res, None))
      else Err(NoAttribute(v, "executed"))
  }

  /**
   * A handler that returns a dict is always recorded as a failure:
   * `ListenerResult` has no `data` field, so rebuilding the result raises
   * inside the `try`.
   */
  lemma DictResultIsFailure(f: map<string, Value>)
    requires |f| > 0
    ensures Normalise(Ok(Plain(JObj(f)))) == Ok((Simple(false, "Error: " + MessageTypes.DataKeywordError), Some(MessageTypes.DataKeywordError)))
  {
    var kw := DictKwargs(f);
    assert |kw| == 4 && kw[0].0 == "executed" && kw[1].0 == "reason" && kw[2].0 == "data";
    MessageTypes.ListenerResultRejectsData(kw);
    assert Truthy(JObj(f));
  }

  /** The clock readings of one invocation: its ISO timestamp and elapsed milliseconds. */
  datatype Stamp = Stamp(iso: string, elapsedMs: int)

  /** One written audit record: the listener, its `name` as read from the config, and the entry. */
  datatype Record = Record(listenerId: string, listenerName: Value, entry: MessageTypes.ListenerLogEntry)

  /**
   * The outcome of `check_event`: the listeners invoked in order, the
   * records written, and the text of an exception that escaped and ended
   * the dispatch early.
   */
  datatype Dispatch = Dispatch(invoked: seq<string>, records: seq<Record>, escaped: Option<string>)

  function NameOf(c: Plugins.Config): Value {
    match c
    case DictConfig(f) => GetOr(f, "name", JNull)
    case ObjectConfig(_, name, _, _) => JStr(name)
    case OtherConfig => JNull
  }

  /** The log entry of one invocation whose result reading did not raise. */
  function EntryOf(data: map<string, Value>, res: MessageTypes.ListenerResult, err: Option<string>, t: Stamp): MessageTypes.ListenerLogEntry {
    MessageTypes.ListenerLogEntry(t.iso, GetOr(data, "report_id", JStr("unknown")), GetOr(data, "title", JStr("No title")),
      res.executed, res.reason, res.actions, t.elapsedMs, err)
  }

  /**
   * The record of one listener whose result was read: its id, its name,
   * and the entry with the report id (`unknown` when absent), the title
   * (`No title` when absent), the normalised result and the error text
   * only when the handler raised.
   */
  function RecordOf(l: (string, Listener), data: map<string, Value>, normalised: (MessageTypes.ListenerResult, Option<string>),
                    t: Stamp): (r: Record)
    ensures r.listenerId == l.0 && r.listenerName == NameOf(l.1.config)
    ensures r.entry.reportId == GetOr(data, "report_id", JStr("unknown")) && r.entry.reportTitle == GetOr(data, "title", JStr("No title"))
    ensures r.entry.executed == normalised.0.executed && r.entry.reason == normalised.0.reason
    ensures r.entry.actions == normalised.0.actions && r.entry.error == normalised.1
    ensures r.entry.timestamp == t.iso && r.entry.executionTimeMs == t.elapsedMs
  {
    Record(l.0, NameOf(l.1.config), EntryOf(data, normalised.0, normalised.1, t))
  }

  /**
   * Run the listeners `ls` in order. Each is invoked; then the entry is
   * built, which raises when `data` is not a dict (`data.get`) or the
   * result is a truthy non-dict value (`result.executed`), ending the run.
   */
  function Run(ls: seq<(string, Listener)>, data: Value, run: (string, Value) -> Result<Returned, string>, clock: nat -> Stamp, n: nat): (r: Dispatch)
    ensures |r.records| <= |r.invoked| <= |ls|
    ensures r.escaped.None? ==> |r.invoked| == |ls| && |r.records| == |ls|
    ensures r.escaped.None? ==> forall i :: 0 <= i < |ls| ==> r.invoked[i] == ls[i].0 && r.records[i].listenerId == ls[i].0
    ensures r.escaped.Some? ==> |r.invoked| == |r.records| + 1
    ensures forall i :: 0 <= i < |r.invoked| ==> r.invoked[i] == ls[i].0
    ensures forall i :: 0 <= i < |r.records| ==> r.records[i].listenerId == ls[i].0
    ensures !data.JObj? && |ls| > 0 ==> r == Dispatch([ls[0].0], [], Some(NoAttribute(data, "get")))
    decreases |ls|
  {
    if |ls| == 0 then Dispatch([], [], None)
    else
      var (id, l) := ls[0];
      var outcome := run(l.handler, data);
      if !data.JObj? then Dispatch([id], [], Some(NoAttribute(data, "get")))
      else
        match Normalise(outcome)
        case Err(e) => Dispatch([id], [], Some(e))
        case Ok((res, err)) =>
          var rec := RecordOf(ls[0], data.fields, (res, err), clock(n));
          var rest := Run(ls[1..], data, run, clock, n + 1);
          Dispatch([id] + rest.invoked, [rec] + rest.records, rest.escaped)
  }

  /**
   * Each record is the one for its listener's normalised result, stamped
   * with its own clock reading.
   */
  lemma {:induction false} RunRecords(ls: seq<(string, Listener)>, data: Value, run: (string, Value) -> Result<Returned, string>,
                                      clock: nat -> Stamp, n: nat, i: nat)
    requires i < |Run(ls, data, run, clock, n).records|
    ensures data.JObj? && i < |ls| && Normalise(run(ls[i].1.handler, data)).Ok?
    ensures Run(ls, data, run, clock, n).records[i]
            == RecordOf(ls[i], data.fields, Normalise(run(ls[i].1.handler, data)).value, clock(n + i))
  {
    RunRecordsAt(ls, data, run, clock, n, i, n + i);
  }

  /** `RunRecords` with the clock reading's index fixed as `k`. */
  lemma {:induction false} RunRecordsAt(ls: seq<(string, Listener)>, data: Value,
                                        run: (string, Value) -> Result<Returned, string>, clock: nat -> Stamp,
                                        n: nat, i: nat, k: nat)
    requires i < |Run(ls, data, run, clock, n).records| && k == n + i
    ensures data.JObj? && i < |ls| && Normalise(run(ls[i].1.handler, data)).Ok?
    ensures Run(ls, data, run, clock, n).records[i]
            == RecordOf(ls[i], data.fields, Normalise(run(ls[i].1.handler, data)).value, clock(k))
    decreases |ls|
  {
    RunHead(ls, data, run, clock, n);
    if i > 0 {
      var recs := Run(ls, data, run, clock, n).records;
      var tail := Run(ls[1..], data, run, clock, n + 1).records;
      assert recs[1..] == tail;
      assert ls[1..][i - 1] == ls[i];
      RunRecordsAt(ls[1..], data, run, clock, n + 1, i - 1, k);
      assert recs[i] == tail[i - 1];
    }
  }

  /** A run that records anything recorded its first listener, then ran the rest. */
  lemma RunHead(ls: seq<(string, Listener)>, data: Value, run: (string, Value) -> Result<Returned, string>,
                clock: nat -> Stamp, n: nat)
    requires |Run(ls, data, run, clock, n).records| > 0
    ensures |ls| > 0 && data.JObj? && Normalise(run(ls[0].1.handler, data)).Ok?
    ensures Run(ls, data, run, clock, n).records
            == [RecordOf(ls[0], data.fields, Normalise(run(ls[0].1.handler, data)).value, clock(n))]
               + Run(ls[1..], data, run, clock, n + 1).records
  {
  }

  /**
   * The run ends early iff the data is not a dict or some listener's result
   * cannot be read; the error is then the first such listener's.
   */
  lemma RunEscapes(ls: seq<(string, Listener)>, data: Value, run: (string, Value) -> Result<Returned, string>,
                   clock: nat -> Stamp, n: nat)
    ensures Run(ls, data, run, clock, n).escaped.None?
            <==> |ls| == 0 || (data.JObj? && forall i :: 0 <= i < |ls| ==> Normalise(run(ls[i].1.handler, data)).Ok?)
    ensures var r := Run(ls, data, run, clock, n);
      r.escaped.Some? && data.JObj? ==>
        |r.records| < |ls| && Normalise(run(ls[|r.records|].1.handler, data)).Err?
        && r.escaped == Some(Normalise(run(ls[|r.records|].1.handler, data)).error)
  {
    if |ls| > 0 && data.JObj? && forall i :: 0 <= i < |ls| ==> Normalise(run(ls[i].1.handler, data)).Ok? {
      RunCompletes(ls, data, run, clock, n);
    }
    if |ls| > 0 && Run(ls, data, run, clock, n).escaped.None? {
      RunCompletedReadAll(ls, data, run, clock, n);
    } else if data.JObj? && Run(ls, data, run, clock, n).escaped.Some? {
      RunEscapeCause(ls, data, run, clock, n);
    }
  }

  lemma {:induction false} RunCompletedReadAll(ls: seq<(string, Listener)>, data: Value,
                                               run: (string, Value) -> Result<Returned, string>, clock: nat -> Stamp, n: nat)
    requires |ls| > 0 && Run(ls, data, run, clock, n).escaped.None?
    ensures data.JObj? && forall i :: 0 <= i < |ls| ==> Normalise(run(ls[i].1.handler, data)).Ok?
    decreases |ls|
  {
    assert data.JObj? && Normalise(run(ls[0].1.handler, data)).Ok?;
    if |ls| > 1 {
      RunCompletedReadAll(ls[1..], data, run, clock, n + 1);
      forall i | 1 <= i < |ls| ensures Normalise(run(ls[i].1.handler, data)).Ok? {
        assert ls[i] == ls[1..][i - 1];
      }
    }
  }

  lemma {:induction false} RunEscapeCause(ls: seq<(string, Listener)>, data: Value,
                                          run: (string, Value) -> Result<Returned, string>, clock: nat -> Stamp, n: nat)
    requires data.JObj? && Run(ls, data, run, clock, n).escaped.Some?
    ensures var r := Run(ls, data, run, clock, n);
      |r.records| < |ls| && Normalise(run(ls[|r.records|].1.handler, data)).Err?
      && r.escaped == Some(Normalise(run(ls[|r.records|].1.handler, data)).error)
    decreases |ls|
  {
    var r := Run(ls, data, run, clock, n);
    if Normalise(run(ls[0].1.handler, data)).Ok? {
      var rest := Run(ls[1..], data, run, clock, n + 1);
      assert r.records == [r.records[0]] + rest.records && r.escaped == rest.escaped;
      RunEscapeCause(ls[1..], data, run, clock, n + 1);
      assert ls[|r.records|] == ls[1..][|rest.records|];
    } else {
      assert |r.records| == 0;
    }
  }

  /**
   * `check_event(event, data)`: the matching listeners run in registration
   * order; with none, nothing is invoked, written or broadcast.
   */
  function CheckEvent(reg: Registry, event: string, data: Value, run: (string, Value) -> Result<Returned, string>, clock: nat -> Stamp): (r: Dispatch)
    ensures |Matching(reg, event)| == 0 ==> r == Dispatch([], [], None)
    ensures r.escaped.None? ==> |r.records| == |Matching(reg, event)|
    ensures forall i :: 0 <= i < |r.invoked| ==> OrderedMap.Has(reg, r.invoked[i])
    ensures |r.invoked| <= |Matching(reg, event)| && forall i :: 0 <= i < |r.invoked| ==> r.invoked[i] == Matching(reg, event)[i].0
  {
    var ms := Matching(reg, event);
    var r := Run(ms, data, run, clock, 0);
    forall i | 0 <= i < |r.invoked| ensures OrderedMap.Has(reg, r.invoked[i]) {
      var j :| 0 <= j < |reg| && reg[j] == ms[i];
    }
    r
  }

  /**
   * The i-th record of `check_event` belongs to the i-th matching listener
   * and carries that listener's normalised result, read at clock tick i.
   */
  lemma CheckEventRecords(reg: Registry, event: string, data: Value, run: (string, Value) -> Result<Returned, string>,
                          clock: nat -> Stamp, i: nat)
    requires i < |CheckEvent(reg, event, data, run, clock).records|
    ensures data.JObj? && i < |Matching(reg, event)| && Normalise(run(Matching(reg, event)[i].1.handler, data)).Ok?
    ensures CheckEvent(reg, event, data, run, clock).records[i]
            == RecordOf(Matching(reg, event)[i], data.fields, Normalise(run(Matching(reg, event)[i].1.handler, data)).value, clock(i))
  {
    CheckEventIsRun(reg, event, data, run, clock);
    RunRecords(Matching(reg, event), data, run, clock, 0, i);
  }

  lemma CheckEventIsRun(reg: Registry, event: string, data: Value, run: (string, Value) -> Result<Returned, string>,
                        clock: nat -> Stamp)
    ensures CheckEvent(reg, event, data, run, clock) == Run(Matching(reg, event), data, run, clock, 0)
  {
  }

  /**
   * `check_event` finishes without an escaping error iff no listener
   * matches, or the data is a dict and every matching listener's result is
   * readable; otherwise the error is the first unreadable listener's.
   */
  lemma CheckEventCompletes(reg: Registry, event: string, data: Value, run: (string, Value) -> Result<Returned, string>,
                            clock: nat -> Stamp)
    ensures var m := Matching(reg, event);
      CheckEvent(reg, event, data, run, clock).escaped.None?
      <==> |m| == 0 || (data.JObj? && forall i :: 0 <= i < |m| ==> Normalise(run(m[i].1.handler, data)).Ok?)
    ensures var m := Matching(reg, event);
      var r := CheckEvent(reg, event, data, run, clock);
      r.escaped.Some? && data.JObj? ==>
        |r.records| < |m| && Normalise(run(m[|r.records|].1.handler, data)).Err?
        && r.escaped == Some(Normalise(run(m[|r.records|].1.handler, data)).error)
  {
    var m := Matching(reg, event);
    RunEscapes(m, data, run, clock, 0);
    assert CheckEvent(reg, event, data, run, clock) == Run(m, data, run, clock, 0);
  }

  /** The payload sent to the log-broadcast callback: the entry plus the listener's id and name. */
  function BroadcastPayload(rec: Record): (r: map<string, Value>)
    ensures "listener_id" in r && r["listener_id"] == JStr(rec.listenerId)
    ensures forall k :: k in rec.entry.ToJson() ==> k in r
  {
    rec.entry.ToJson()["listener_id" := JStr(rec.listenerId)]["listener_name" := rec.listenerName]
  }

  /** The callback's payloads, one per record, when a callback is set. */
  function Broadcasts(records: seq<Record>, hasCallback: bool): (r: seq<map<string, Value>>)
    ensures hasCallback ==> |r| == |records| && forall i :: 0 <= i < |r| ==> r[i] == BroadcastPayload(records[i])
    ensures !hasCallback ==> r == []
  {
    if hasCallback then seq(|records|, i requires 0 <= i < |records| => BroadcastPayload(records[i])) else []
  }

  /** Each record appended to its listener's `.jsonl` file, in order. */
  function Persist(dir: LogWriter.LogDir, records: seq<Record>, writable: bool): (d: LogWriter.LogDir)
    ensures forall f :: (forall i :: 0 <= i < |records| ==> LogWriter.FileName(records[i].listenerId) != f) ==>
      LogWriter.LinesOf(d, f) == LogWriter.LinesOf(dir, f)
    decreases |records|
  {
    if |records| == 0 then dir
    else
      var rec := records[|records| - 1];
      LogWriter.AppendLog(Persist(dir, records[..|records| - 1], writable), rec.listenerId, JObj(rec.entry.ToJson()), writable)
  }

  /**
   * When the listeners' ids are distinct, each record lands as exactly one
   * new line at the end of its own listener's file.
   */
  lemma {:induction false} PersistOneLinePerRecord(dir: LogWriter.LogDir, records: seq<Record>, i: nat)
    requires i < |records|
    requires forall a, b :: 0 <= a < b < |records| ==> records[a].listenerId != records[b].listenerId
    ensures LogWriter.LinesOf(Persist(dir, records, true), LogWriter.FileName(records[i].listenerId))
         == LogWriter.LinesOf(dir, LogWriter.FileName(records[i].listenerId)) + [LogWriter.Record(JObj(records[i].entry.ToJson()))]
    decreases |records|
  {
    var n := |records| - 1;
    var last := records[n];
    var f := LogWriter.FileName(records[i].listenerId);
    var mid := Persist(dir, records[..n], true);
    PersistStep(dir, records);
    if i < n {
      DistinctPrefix(records);
      PersistOneLinePerRecord(dir, records[..n], i);
      OtherFile(records, i);
      AppendElsewhere(mid, last.listenerId, JObj(last.entry.ToJson()), f);
    } else {
      PersistBeforeLast(dir, records);
    }
  }

  /** Appending to one listener's file leaves every other file's lines as they were. */
  lemma AppendElsewhere(dir: LogWriter.LogDir, listenerId: string, entry: Value, f: string)
    requires f != LogWriter.FileName(listenerId)
    ensures LogWriter.LinesOf(LogWriter.AppendLog(dir, listenerId, entry, true), f) == LogWriter.LinesOf(dir, f)
  {
  }

  /** The last record is appended after the ones before it. */
  lemma PersistStep(dir: LogWriter.LogDir, records: seq<Record>)
    requires |records| > 0
    ensures var last := records[|records| - 1];
      Persist(dir, records, true)
      == LogWriter.AppendLog(Persist(dir, records[..|records| - 1], true), last.listenerId, JObj(last.entry.ToJson()), true)
  {
  }

  lemma DistinctPrefix(records: seq<Record>)
    requires |records| > 0
    requires forall a, b :: 0 <= a < b < |records| ==> records[a].listenerId != records[b].listenerId
    ensures var init := records[..|records| - 1];
      forall a, b :: 0 <= a < b < |init| ==> init[a].listenerId != init[b].listenerId
  {
    var init := records[..|records| - 1];
    assert forall a :: 0 <= a < |init| ==> init[a] == records[a];
  }

  /** With distinct ids, an earlier record's file is not the last record's file. */
  lemma OtherFile(records: seq<Record>, i: nat)
    requires i < |records| - 1
    requires forall a, b :: 0 <= a < b < |records| ==> records[a].listenerId != records[b].listenerId
    ensures records[..|records| - 1][i] == records[i]
    ensures LogWriter.FileName(records[|records| - 1].listenerId) != LogWriter.FileName(records[i].listenerId)
  {
    if LogWriter.FileName(records[|records| - 1].listenerId) == LogWriter.FileName(records[i].listenerId) {
      LogWriter.FileNameInjective(records[|records| - 1].listenerId, records[i].listenerId);
    }
  }

  /** The records before the last one leave the last one's file as it was. */
  lemma PersistBeforeLast(dir: LogWriter.LogDir, records: seq<Record>)
    requires |records| > 0
    requires forall a, b :: 0 <= a < b < |records| ==> records[a].listenerId != records[b].listenerId
    ensures var f := LogWriter.FileName(records[|records| - 1].listenerId);
      LogWriter.LinesOf(Persist(dir, records[..|records| - 1], true), f) == LogWriter.LinesOf(dir, f)
  {
    var n := |records| - 1;
    var init := records[..n];
    var f := LogWriter.FileName(records[n].listenerId);
    forall j | 0 <= j < |init| ensures LogWriter.FileName(init[j].listenerId) != f {
      assert init[j] == records[j];
      if LogWriter.FileName(init[j].listenerId) == f {
        LogWriter.FileNameInjective(init[j].listenerId, records[n].listenerId);
      }
    }
  }

  /**
   * With a dict as event data and no handler result that breaks the
   * dispatch, every matching listener is invoked and gets exactly one
   * audit line; a raising handler does not stop the ones after it.
   */
  lemma CheckEventAudit(reg: Registry, event: string, data: Value, run: (string, Value) -> Result<Returned, string>,
                        clock: nat -> Stamp, dir: LogWriter.LogDir, i: nat)
    requires OrderedMap.UniqueKeys(reg)
    requires data.JObj?
    requires forall j :: 0 <= j < |Matching(reg, event)| ==> Normalise(run(Matching(reg, event)[j].1.handler, data)).Ok?
    requires i < |Matching(reg, event)|
    ensures CheckEvent(reg, event, data, run, clock).escaped.None?
    ensures CheckEvent(reg, event, data, run, clock).invoked[i] == Matching(reg, event)[i].0
    ensures var recs := CheckEvent(reg, event, data, run, clock).records;
      LogWriter.LinesOf(Persist(dir, recs, true), LogWriter.FileName(Matching(reg, event)[i].0))
      == LogWriter.LinesOf(dir, LogWriter.FileName(Matching(reg, event)[i].0)) + [LogWriter.Record(JObj(recs[i].entry.ToJson()))]
  {
    var ms := Matching(reg, event);
    MatchingUnique(reg, event);
    RunCompletes(ms, data, run, clock, 0);
    var d := Run(ms, data, run, clock, 0);
    assert CheckEvent(reg, event, data, run, clock) == d;
    DistinctRecords(ms, d.records);
    PersistOneLinePerRecord(dir, d.records, i);
  }

  /** Records named after listeners with distinct ids have distinct ids. */
  lemma DistinctRecords(ms: seq<(string, Listener)>, recs: seq<Record>)
    requires OrderedMap.UniqueKeys(ms)
    requires |recs| == |ms| && forall a :: 0 <= a < |recs| ==> recs[a].listenerId == ms[a].0
    ensures forall a, b :: 0 <= a < b < |recs| ==> recs[a].listenerId != recs[b].listenerId
  {
  }

  lemma {:induction false} RunCompletes(ls: seq<(string, Listener)>, data: Value, run: (string, Value) -> Result<Returned, string>, clock: nat -> Stamp, n: nat)
    requires data.JObj?
    requires forall j :: 0 <= j < |ls| ==> Normalise(run(ls[j].1.handler, data)).Ok?
    ensures Run(ls, data, run, clock, n).escaped.None?
    decreases |ls|
  {
    if |ls| > 0 {
      assert forall j :: 0 <= j < |ls[1..]| ==> ls[1..][j] == ls[j + 1];
      RunCompletes(ls[1..], data, run, clock, n + 1);
    }
  }

  // -------------------------------------------------------------- get_stats

  /** `get_stats()`: totals per event and of enabled listeners. */
  datatype Stats = Stats(total: nat, byEvent: OrderedMap.Dict<string, nat>, enabled: nat)

  predicate AllObjectConfigs(ls: seq<(string, Listener)>) {
    forall i :: 0 <= i < |ls| ==> ls[i].1.config.ObjectConfig?
  }

  /**
   * Per-event counts in first-appearance order; `Err` when a listener's
   * config is not a `ListenerConfig` object, because `config.event` is read
   * as an attribute and a dict has none.
   */
  function CountEvents(ls: seq<(string, Listener)>): (r: Result<OrderedMap.Dict<string, nat>, string>)
    ensures r.Ok? <==> AllObjectConfigs(ls)
    ensures r.Ok? ==> OrderedMap.UniqueKeys(r.value) && SumCounts(r.value) == |ls|
    ensures r.Ok? ==> forall e :: OrderedMap.Get(r.value, e).GetOr(0) == EventCount(ls, e)
    ensures r.Ok? ==> forall e :: OrderedMap.Has(r.value, e) <==> EventCount(ls, e) > 0
    decreases |ls|
  {
    if |ls| == 0 then Ok([])
    else
      var init := ls[..|ls| - 1];
      var c := ls[|ls| - 1].1.config;
      assert ls == init + [ls[|ls| - 1]];
      assert AllObjectConfigs(ls) <==> AllObjectConfigs(init) && c.ObjectConfig? by {
        assert forall i :: 0 <= i < |init| ==> init[i] == ls[i];
      }
      match CountEvents(init)
      case Err(e) => Err(e)
      case Ok(counts) =>
        if !c.ObjectConfig? then Err(NoAttribute(JObj(map[]), "event"))
        else
          var r := Bump(counts, c.event);
          forall e ensures OrderedMap.Get(r, e).GetOr(0) == EventCount(ls, e) {
            EventCountSnoc(init, ls[|ls| - 1], e);
          }
          Ok(r)
  }

  /** How many listeners are configured with event `e` (reference count). */
  function EventCount(ls: seq<(string, Listener)>, e: string): nat
    decreases |ls|
  {
    if |ls| == 0 then 0
    else (if ls[0].1.config.ObjectConfig? && ls[0].1.config.event == e then 1 else 0) + EventCount(ls[1..], e)
  }

  lemma {:induction false} EventCountSnoc(ls: seq<(string, Listener)>, x: (string, Listener), e: string)
    ensures EventCount(ls + [x], e) == EventCount(ls, e) + (if x.1.config.ObjectConfig? && x.1.config.event == e then 1 else 0)
    decreases |ls|
  {
    if |ls| == 0 {
      assert EventCount([x], e) == (if x.1.config.ObjectConfig? && x.1.config.event == e then 1 else 0) + EventCount([], e);
    } else {
      assert (ls + [x])[1..] == ls[1..] + [x];
      EventCountSnoc(ls[1..], x, e);
    }
  }

  /**
   * When every config is a `ListenerConfig`, the count for `e` is the number
   * of listeners `check_event(e, …)` would run.
   */
  lemma {:induction false} EventCountMatching(reg: Registry, e: string)
    requires AllObjectConfigs(reg)
    ensures EventCount(reg, e) == |Matching(reg, e)|
    decreases |reg|
  {
    if |reg| > 0 {
      assert AllObjectConfigs(reg[1..]) by {
        assert forall i :: 1 <= i < |reg| ==> reg[i] == reg[1..][i - 1];
      }
      EventCountMatching(reg[1..], e);
      assert reg[0].1.config.ObjectConfig?;
    }
  }

  /** `by_event[e] = by_event.get(e, 0) + 1`. */
  function Bump(counts: OrderedMap.Dict<string, nat>, e: string): (r: OrderedMap.Dict<string, nat>)
    requires OrderedMap.UniqueKeys(counts)
    ensures OrderedMap.UniqueKeys(r)
    ensures SumCounts(r) == SumCounts(counts) + 1
    ensures OrderedMap.Get(r, e) == Some(OrderedMap.Get(counts, e).GetOr(0) + 1)
    ensures forall k :: k != e ==> OrderedMap.Get(r, k) == OrderedMap.Get(counts, k)
  {
    var before := OrderedMap.Get(counts, e).GetOr(0);
    var r := OrderedMap.Put(counts, e, before + 1);
    SumPut(counts, e, before + 1);
    assert OrderedMap.Get(r, e) == Some(before + 1);
    r
  }

  function SumCounts(d: OrderedMap.Dict<string, nat>): nat
    decreases |d|
  {
    if |d| == 0 then 0 else d[0].1 + SumCounts(d[1..])
  }

  /** Setting a count changes the sum by the difference with the old count (0 when absent). */
  lemma {:induction false} SumPut(d: OrderedMap.Dict<string, nat>, k: string, v: nat)
    requires OrderedMap.UniqueKeys(d)
    ensures SumCounts(OrderedMap.Put(d, k, v)) == SumCounts(d) - OrderedMap.Get(d, k).GetOr(0) + v
  {
    var i := OrderedMap.IndexOf(d, k);
    if i.Some? {
      SumUpdate(d, i.value, (k, v));
    } else {
      SumAppend(d, (k, v));
    }
  }

  lemma {:induction false} SumUpdate(d: OrderedMap.Dict<string, nat>, i: nat, x: (string, nat))
    requires i < |d|
    ensures SumCounts(d[i := x]) == SumCounts(d) - d[i].1 + x.1
    decreases |d|
  {
    if i > 0 {
      assert d[i := x][1..] == d[1..][i - 1 := x];
      SumUpdate(d[1..], i - 1, x);
    }
  }

  lemma {:induction false} SumAppend(d: OrderedMap.Dict<string, nat>, x: (string, nat))
    ensures SumCounts(d + [x]) == SumCounts(d) + x.1
    decreases |d|
  {
    if |d| == 0 {
      assert SumCounts([x]) == x.1 + SumCounts([x][1..]);
    } else {
      assert (d + [x])[1..] == d[1..] + [x];
      SumAppend(d[1..], x);
    }
  }

  function GetStats(reg: Registry): (r: Result<Stats, string>)
    ensures r.Ok? <==> AllObjectConfigs(reg)
    ensures r.Ok? ==> r.value.total == |reg| && SumCounts(r.value.byEvent) == |reg|
    ensures r.Ok? ==> r.value.enabled <= |reg|
    ensures r.Ok? ==> forall e :: OrderedMap.Get(r.value.byEvent, e).GetOr(0) == EventCount(reg, e)
    ensures r.Ok? ==> (r.value.enabled == |reg| <==> forall i :: 0 <= i < |reg| ==> Enabled(reg[i].1.config))
    ensures r.Ok? ==> (r.value.enabled == 0 <==> forall i :: 0 <= i < |reg| ==> !Enabled(reg[i].1.config))
  {
    match CountEvents(reg)
    case Err(e) => Err(e)
    case Ok(byEvent) => Ok(Stats(|reg|, byEvent, CountEnabled(reg)))
  }

  function CountEnabled(ls: seq<(string, Listener)>): (r: nat)
    ensures r <= |ls|
    ensures r == |ls| <==> forall i :: 0 <= i < |ls| ==> Enabled(ls[i].1.config)
    ensures r == 0 <==> forall i :: 0 <= i < |ls| ==> !Enabled(ls[i].1.config)
    decreases |ls|
  {
    if |ls| == 0 then 0
    else
      assert forall i :: 1 <= i < |ls| ==> ls[i] == ls[1..][i - 1];
      (if Enabled(ls[0].1.config) then 1 else 0) + CountEnabled(ls[1..])
  }
}

=== FILE: log_writer.dfy ===
/**
 * The JSON Lines audit log of the listener plugins: one file
 * `<listener_id>.jsonl` per listener, appended to and read back newest first.
 */
module LogWriter {
  import opened Wrappers
  import opened Json
  import Strings
  import PySeq
  import OrderedMap

  /**
   * One line of a log file, as `json.loads(line.strip())` sees it: a
   * decoded document, a blank line, or text that does not decode.
   */
  datatype Line = Record(entry: Value) | Blank | Unparsable(text: string)

  /** The `.logs` directory: file name to the file's lines. */
  type LogDir = map<string, seq<Line>>

  function FileName(listenerId: string): (r: string)
    ensures Strings.EndsWith(r, ".jsonl")
  {
    listenerId + ".jsonl"
  }

  /** Distinct listeners write to distinct files. */
  lemma FileNameInjective(a: string, b: string)
    requires FileName(a) == FileName(b)
    ensures a == b
  {
    assert |a| == |b|;
    assert a == FileName(a)[..|a|] && b == FileName(b)[..|b|];
  }

  /** The lines of a file, or none when it does not exist. */
  function LinesOf(dir: LogDir, name: string): seq<Line> {
    if name in dir then dir[name] else []
  }

  /**
   * `append_log`: one more line at the end of the listener's file, created
   * if absent. A failing write (`writable` false) is swallowed and changes nothing.
   */
  function AppendLog(dir: LogDir, listenerId: string, entry: Value, writable: bool): (d: LogDir)
    ensures writable ==> FileName(listenerId) in d
    ensures writable ==> d[FileName(listenerId)] == LinesOf(dir, FileName(listenerId)) + [Record(entry)]
    ensures !writable ==> d == dir
    ensures forall f :: f != FileName(listenerId) ==> (f in d <==> f in dir)
    ensures forall f :: f != FileName(listenerId) && f in dir ==> d[f] == dir[f]
  {
    if writable then dir[FileName(listenerId) := LinesOf(dir, FileName(listenerId)) + [Record(entry)]]
    else dir
  }

  /** The decoded documents of a file in file order; blank and undecodable lines are skipped. */
  function Entries(lines: seq<Line>): (r: seq<Value>)
    ensures |r| <= |lines|
    decreases |lines|
  {
    if |lines| == 0 then []
    else
      Entries(lines[..|lines| - 1])
      + (match lines[|lines| - 1] case Record(e) => [e] case _ => [])
  }

  lemma {:induction false} EntriesAppend(a: seq<Line>, b: seq<Line>)
    ensures Entries(a + b) == Entries(a) + Entries(b)
    decreases |b|
  {
    if |b| == 0 {
      assert a + b == a;
    } else {
      assert (a + b)[..|a + b| - 1] == a + b[..|b| - 1];
      EntriesAppend(a, b[..|b| - 1]);
    }
  }

  /**
   * `read_logs(listener_id, limit)`: `reversed(entries[-limit:])`. A missing
   * file gives `[]`. A positive limit keeps the last `limit` entries, a zero
   * limit keeps all of them, and a negative one drops the first `-limit`.
   */
  function ReadLogs(dir: LogDir, listenerId: string, limit: int): (r: seq<Value>)
    ensures FileName(listenerId) !in dir ==> r == []
    ensures limit == 0 ==> |r| == |Entries(LinesOf(dir, FileName(listenerId)))|
    ensures limit > 0 ==> |r| == Min(limit, |Entries(LinesOf(dir, FileName(listenerId)))|)
    ensures NewestFirst(r, Entries(LinesOf(dir, FileName(listenerId))))
  {
    if FileName(listenerId) !in dir then []
    else
      var es := Entries(dir[FileName(listenerId)]);
      PySeq.TailShape(es, limit);
      PySeq.Reverse(PySeq.From(es, -limit))
  }

  /** `r` lists the last `|r|` elements of `es`, newest first. */
  predicate NewestFirst(r: seq<Value>, es: seq<Value>) {
    |r| <= |es| && forall i :: 0 <= i < |r| ==> r[i] == es[|es| - 1 - i]
  }

  function Min(a: int, b: int): int {
    if a <= b then a else b
  }

  /** After an append, `read_logs(id, 1)` is exactly the appended entry. */
  lemma AppendThenReadOne(dir: LogDir, listenerId: string, entry: Value)
    ensures ReadLogs(AppendLog(dir, listenerId, entry, true), listenerId, 1) == [entry]
  {
    var name := FileName(listenerId);
    EntriesAppend(LinesOf(dir, name), [Record(entry)]);
    assert Entries([Record(entry)]) == [entry] by {
      assert [Record(entry)][..0] == [];
    }
  }

  /**
   * After an append, reading `k >= 2` entries gives the new entry followed by
   * the `k - 1` newest earlier ones. The bound matters: for `k == 1` the
   * earlier read would be `read_logs(id, 0)`, which returns everything.
   */
  lemma AppendThenRead(dir: LogDir, listenerId: string, entry: Value, k: int)
    requires k >= 2
    ensures ReadLogs(AppendLog(dir, listenerId, entry, true), listenerId, k)
         == [entry] + ReadLogs(dir, listenerId, k - 1)
  {
    var name := FileName(listenerId);
    var before := Entries(LinesOf(dir, name));
    EntriesAppend(LinesOf(dir, name), [Record(entry)]);
    assert Entries([Record(entry)]) == [entry] by {
      assert [Record(entry)][..0] == [];
    }
    PySeq.TailSnoc(before, entry, k);
  }

  /** `file.replace('.jsonl', '')`: the listener id a log file name stands for. */
  function ListenerIdOf(file: string): string {
    Strings.ReplaceAll(file, ".jsonl", "")
  }

  /** The names `read_all_logs` reads: the directory listing filtered on the `.jsonl` suffix. */
  function LogFiles(listing: seq<string>): (r: seq<string>)
    ensures forall i :: 0 <= i < |r| ==> Strings.EndsWith(r[i], ".jsonl")
    ensures forall f :: f in listing && Strings.EndsWith(f, ".jsonl") ==> f in r
    ensures forall f :: f in r ==> f in listing
    decreases |listing|
  {
    if |listing| == 0 then []
    else
      (if Strings.EndsWith(listing[0], ".jsonl") then [listing[0]] else [])
      + LogFiles(listing[1..])
  }

  /**
   * `entry['listener_id'] = listener_id` on every entry; an entry that is not
   * a dict makes the assignment raise (`None`).
   */
  function Tag(entries: seq<Value>, listenerId: string): (r: Option<seq<Value>>)
    ensures r.Some? <==> forall i :: 0 <= i < |entries| ==> entries[i].JObj?
    ensures r.Some? ==> |r.value| == |entries|
    ensures r.Some? ==> forall i :: 0 <= i < |entries| ==>
      r.value[i] == JObj(entries[i].fields["listener_id" := JStr(listenerId)])
    decreases |entries|
  {
    if |entries| == 0 then Some([])
    else
      var rest := Tag(entries[1..], listenerId);
      if !entries[0].JObj? then None
      else if rest.None? then
        assert !entries[1..][0].JObj? || exists i :: 0 <= i < |entries[1..]| && !entries[1..][i].JObj?;
        None
      else Some([JObj(entries[0].fields["listener_id" := JStr(listenerId)])] + rest.value)
  }

  /** One file's newest `limit` entries, tagged with its listener id. */
  function FileEntries(dir: LogDir, file: string, limit: int): Option<seq<Value>> {
    Tag(ReadLogs(dir, ListenerIdOf(file), limit), ListenerIdOf(file))
  }

  /** Every file's newest `limit` entries, tagged, in listing order. */
  function Collect(dir: LogDir, files: seq<string>, limit: int): (r: Option<seq<Value>>)
    ensures r.Some? ==> AllTagged(r.value)
    decreases |files|
  {
    if |files| == 0 then Some([])
    else
      var tagged := FileEntries(dir, files[0], limit);
      var rest := Collect(dir, files[1..], limit);
      if tagged.None? || rest.None? then None else Some(tagged.value + rest.value)
  }

  /** Collecting fails iff tagging some file's entries fails. */
  lemma CollectSome(dir: LogDir, files: seq<string>, limit: int)
    ensures Collect(dir, files, limit).Some? <==> forall i :: 0 <= i < |files| ==> FileEntries(dir, files[i], limit).Some?
  {
    if Collect(dir, files, limit).Some? {
      CollectSomeReadsAll(dir, files, limit);
    } else if forall i :: 0 <= i < |files| ==> FileEntries(dir, files[i], limit).Some? {
      CollectReadsAllSome(dir, files, limit);
    }
  }

  lemma {:induction false} CollectSomeReadsAll(dir: LogDir, files: seq<string>, limit: int)
    requires Collect(dir, files, limit).Some?
    ensures forall i :: 0 <= i < |files| ==> FileEntries(dir, files[i], limit).Some?
    decreases |files|
  {
    if |files| > 0 {
      assert FileEntries(dir, files[0], limit).Some? && Collect(dir, files[1..], limit).Some?;
      CollectSomeReadsAll(dir, files[1..], limit);
      forall i | 1 <= i < |files| ensures FileEntries(dir, files[i], limit).Some? {
        assert files[i] == files[1..][i - 1];
      }
    }
  }

  lemma {:induction false} CollectReadsAllSome(dir: LogDir, files: seq<string>, limit: int)
    requires forall i :: 0 <= i < |files| ==> FileEntries(dir, files[i], limit).Some?
    ensures Collect(dir, files, limit).Some?
    decreases |files|
  {
    if |files| > 0 {
      forall i | 0 <= i < |files[1..]| ensures FileEntries(dir, files[1..][i], limit).Some? {
        assert files[1..][i] == files[i + 1];
      }
      CollectReadsAllSome(dir, files[1..], limit);
      assert FileEntries(dir, files[0], limit).Some?;
    }
  }

  /** Every collected entry comes from some file's own read. */
  lemma {:induction false} CollectSound(dir: LogDir, files: seq<string>, limit: int, x: Value)
    requires Collect(dir, files, limit).Some? && x in Collect(dir, files, limit).value
    ensures exists i :: 0 <= i < |files| && FileEntries(dir, files[i], limit).Some? && x in FileEntries(dir, files[i], limit).value
    decreases |files|
  {
    var head := FileEntries(dir, files[0], limit);
    var rest := Collect(dir, files[1..], limit);
    assert Collect(dir, files, limit).value == head.value + rest.value;
    if x !in head.value {
      CollectSound(dir, files[1..], limit, x);
      var i :| 0 <= i < |files[1..]| && FileEntries(dir, files[1..][i], limit).Some?
               && x in FileEntries(dir, files[1..][i], limit).value;
      assert files[1..][i] == files[i + 1];
    }
  }

  /** Every entry of every listed file's read is collected. */
  lemma {:induction false} CollectComplete(dir: LogDir, files: seq<string>, limit: int, f: string, x: Value)
    requires Collect(dir, files, limit).Some? && f in files
    requires FileEntries(dir, f, limit).Some? && x in FileEntries(dir, f, limit).value
    ensures x in Collect(dir, files, limit).value
    decreases |files|
  {
    if f == files[0] {
      CollectHead(dir, files, limit, x);
    } else {
      CollectTail(dir, files, limit, x);
      assert f in files[1..];
      CollectComplete(dir, files[1..], limit, f, x);
    }
  }

  lemma CollectHead(dir: LogDir, files: seq<string>, limit: int, x: Value)
    requires |files| > 0 && Collect(dir, files, limit).Some?
    requires FileEntries(dir, files[0], limit).Some? && x in FileEntries(dir, files[0], limit).value
    ensures x in Collect(dir, files, limit).value
  {
  }

  lemma CollectTail(dir: LogDir, files: seq<string>, limit: int, x: Value)
    requires |files| > 0 && Collect(dir, files, limit).Some?
    ensures Collect(dir, files[1..], limit).Some?
    ensures x in Collect(dir, files[1..], limit).value ==> x in Collect(dir, files, limit).value
  {
  }

  /** Every entry is a dict carrying a `listener_id`. */
  predicate AllTagged(r: seq<Value>) {
    forall i :: 0 <= i < |r| ==> r[i].JObj? && "listener_id" in r[i].fields
  }

  /** The default `timestamp` of an entry that has none. */
  const Epoch: string := "1970-01-01T00:00:00"

  /**
   * The sort key `datetime.fromisoformat(x.get('timestamp', Epoch))`, with
   * `iso` standing for `fromisoformat` as an order-preserving map to
   * numbers; `None` when the value is not a string or does not parse.
   */
  function TimeKey(e: Value, iso: string -> Option<int>): Option<real> {
    if !e.JObj? then None
    else
      var ts := GetOr(e.fields, "timestamp", JStr(Epoch));
      if ts.JStr? && iso(ts.s).Some? then Some(iso(ts.s).value as real) else None
  }

  /** The entries paired with their sort keys, or `None` if any key raises. */
  function Keyed(es: seq<Value>, iso: string -> Option<int>): (r: Option<seq<(real, Value)>>)
    ensures r.Some? ==> |r.value| == |es|
    ensures r.Some? ==> forall i :: 0 <= i < |es| ==>
      r.value[i].1 == es[i] && TimeKey(es[i], iso) == Some(r.value[i].0)
    decreases |es|
  {
    if |es| == 0 then Some([])
    else
      var k := TimeKey(es[0], iso);
      var rest := Keyed(es[1..], iso);
      if k.None? || rest.None? then None else Some([(k.value, es[0])] + rest.value)
  }

  /** Entries carry their sort key and are in non-increasing key order. */
  predicate NewestFirstByTime(r: seq<Value>, iso: string -> Option<int>) {
    (forall i :: 0 <= i < |r| ==> TimeKey(r[i], iso).Some?)
    && (forall i, j :: 0 <= i < j < |r| ==> TimeKey(r[i], iso).value >= TimeKey(r[j], iso).value)
  }

  /**
   * `read_all_logs(limit)`: the newest `limit` entries of every `.jsonl` file,
   * tagged with their listener id, merged newest first and cut to `limit`
   * (`[:limit]`, so a zero limit gives `[]`). Any raise gives `[]`.
   */
  function ReadAllLogs(dir: LogDir, listing: seq<string>, limit: int, iso: string -> Option<int>): (r: seq<Value>)
    ensures limit == 0 ==> r == []
    ensures AllTagged(r)
    ensures NewestFirstByTime(r, iso)
    ensures limit > 0 ==> |r| <= limit
    ensures Collect(dir, LogFiles(listing), limit).None? ==> r == []
    ensures Collect(dir, LogFiles(listing), limit).Some? && Keyed(Collect(dir, LogFiles(listing), limit).value, iso).None?
            ==> r == []
    ensures Collect(dir, LogFiles(listing), limit).Some? && Keyed(Collect(dir, LogFiles(listing), limit).value, iso).Some?
            ==> exists s :: NewestFirstOf(s, Collect(dir, LogFiles(listing), limit).value, iso) && r == PySeq.To(s, limit)
  {
    var collected := Collect(dir, LogFiles(listing), limit);
    if collected.None? then []
    else
      var keyed := Keyed(collected.value, iso);
      if keyed.None? then []
      else
        var sorted := PySeq.SortDesc(keyed.value);
        SortedKeysAreTimes(keyed.value, sorted, collected.value, iso);
        NewestFirstPrefix(OrderedMap.Values(sorted), PySeq.SliceStart(|sorted|, limit), iso);
        OrderedMap.ValuesMultiset(sorted, keyed.value);
        assert OrderedMap.Values(keyed.value) == collected.value;
        assert NewestFirstOf(OrderedMap.Values(sorted), collected.value, iso);
        PySeq.To(OrderedMap.Values(sorted), limit)
  }

  /**
   * Every merged entry is an entry of some `.jsonl` file's own read, and when
   * the limit covers all the collected entries none of them is dropped.
   */
  lemma ReadAllLogsFromFiles(dir: LogDir, listing: seq<string>, limit: int, iso: string -> Option<int>, x: Value)
    requires Collect(dir, LogFiles(listing), limit).Some?
    requires Keyed(Collect(dir, LogFiles(listing), limit).value, iso).Some?
    ensures x in ReadAllLogs(dir, listing, limit, iso) ==>
              exists f :: f in listing && Strings.EndsWith(f, ".jsonl") && FileEntries(dir, f, limit).Some?
                          && x in FileEntries(dir, f, limit).value
    ensures limit >= |Collect(dir, LogFiles(listing), limit).value| ==>
              forall f :: (f in listing && Strings.EndsWith(f, ".jsonl") && FileEntries(dir, f, limit).Some?
                           && x in FileEntries(dir, f, limit).value) ==> x in ReadAllLogs(dir, listing, limit, iso)
  {
    var files := LogFiles(listing);
    var es := Collect(dir, files, limit).value;
    var r := ReadAllLogs(dir, listing, limit, iso);
    var s :| NewestFirstOf(s, es, iso) && r == PySeq.To(s, limit);
    assert |s| == |es| by {
      assert |multiset(s)| == |multiset(es)|;
    }
    if x in r {
      assert x in multiset(s);
      CollectSound(dir, files, limit, x);
      var i :| 0 <= i < |files| && FileEntries(dir, files[i], limit).Some? && x in FileEntries(dir, files[i], limit).value;
      assert files[i] in files;
    }
    if limit >= |es| {
      assert r == s;
      forall f | f in listing && Strings.EndsWith(f, ".jsonl") && FileEntries(dir, f, limit).Some?
                 && x in FileEntries(dir, f, limit).value
        ensures x in r
      {
        CollectComplete(dir, files, limit, f, x);
        assert x in multiset(es);
      }
    }
  }

  /** `s` holds exactly the entries `es`, newest first. */
  predicate NewestFirstOf(s: seq<Value>, es: seq<Value>, iso: string -> Option<int>) {
    multiset(s) == multiset(es) && NewestFirstByTime(s, iso)
  }

  /** The sorted pairs still carry each entry's own key, so their values are newest first. */
  lemma SortedKeysAreTimes(keyed: seq<(real, Value)>, sorted: seq<(real, Value)>, es: seq<Value>, iso: string -> Option<int>)
    requires |keyed| == |es|
    requires forall i :: 0 <= i < |es| ==> keyed[i].1 == es[i] && TimeKey(es[i], iso) == Some(keyed[i].0)
    requires multiset(sorted) == multiset(keyed)
    requires PySeq.SortedDesc(sorted)
    requires AllTagged(es)
    ensures NewestFirstByTime(OrderedMap.Values(sorted), iso)
    ensures AllTagged(OrderedMap.Values(sorted))
  {
    forall i | 0 <= i < |sorted|
      ensures TimeKey(sorted[i].1, iso) == Some(sorted[i].0) && sorted[i].1 in es
    {
      assert sorted[i] in multiset(keyed);
      var j :| 0 <= j < |keyed| && keyed[j] == sorted[i];
    }
    var v := OrderedMap.Values(sorted);
    assert forall i :: 0 <= i < |v| ==> TimeKey(v[i], iso) == Some(sorted[i].0);
  }

  lemma NewestFirstPrefix(r: seq<Value>, k: nat, iso: string -> Option<int>)
    requires NewestFirstByTime(r, iso) && AllTagged(r)
    requires k <= |r|
    ensures NewestFirstByTime(r[..k], iso) && AllTagged(r[..k])
  {
  }
}

=== FILE: message_types.dfy ===
/**
 * The dataclass shapes of the broker: configs, results and log entries of
 * the plugin registries and the few WebSocket messages whose defaults the
 * model relies on. A dataclass is described by its ordered fields and their
 * defaults, and keyword construction is modelled as Python binds keyword
 * arguments: an unknown keyword or a missing required field raises
 * `TypeError`.
 */
module MessageTypes {
  import opened Wrappers
  import opened Json
  import OrderedMap
  import Strings

  /** Keyword arguments or an instance's `__dict__`, in insertion order. */
  type Kwargs = OrderedMap.Dict<string, Value>

  /** A dataclass field; `default` is `None` for a required field. */
  datatype Field = Field(name: string, default: Option<Value>)

  datatype DataClass = DataClass(name: string, fields: seq<Field>)

  predicate Declares(c: DataClass, name: string) {
    exists i | 0 <= i < |c.fields| :: c.fields[i].name == name
  }

  /** Every keyword names a field of the class. */
  predicate AllDeclared(c: DataClass, kwargs: Kwargs) {
    forall i :: 0 <= i < |kwargs| ==> Declares(c, kwargs[i].0)
  }

  /** Every field without a default is given a value. */
  predicate AllRequiredGiven(c: DataClass, kwargs: Kwargs) {
    forall i :: 0 <= i < |c.fields| && c.fields[i].default.None? ==> OrderedMap.Has(kwargs, c.fields[i].name)
  }

  /** The first keyword, in argument order, that names no field. */
  function FirstUnexpected(c: DataClass, kwargs: Kwargs): (r: Option<string>)
    ensures r.None? <==> AllDeclared(c, kwargs)
    ensures r.Some? ==> !Declares(c, r.value)
    ensures r.Some? ==> exists i :: 0 <= i < |kwargs| && kwargs[i].0 == r.value && AllDeclared(c, kwargs[..i])
    decreases |kwargs|
  {
    if |kwargs| == 0 then None
    else if !Declares(c, kwargs[0].0) then
      assert kwargs[0].0 == kwargs[0].0 && AllDeclared(c, kwargs[..0]);
      Some(kwargs[0].0)
    else
      var rest := FirstUnexpected(c, kwargs[1..]);
      if rest.Some? then
        var i :| 0 <= i < |kwargs[1..]| && kwargs[1..][i].0 == rest.value && AllDeclared(c, kwargs[1..][..i]);
        assert kwargs[..i + 1] == [kwargs[0]] + kwargs[1..][..i];
        rest
      else
        assert forall i :: 1 <= i < |kwargs| ==> kwargs[i] == kwargs[1..][i - 1];
        rest
  }

  /** The names of the required fields the keywords leave out, in declaration order. */
  function MissingNames(fields: seq<Field>, kwargs: Kwargs): (r: seq<string>)
    ensures forall n :: n in r <==> exists i :: 0 <= i < |fields| && fields[i].name == n && fields[i].default.None? && !OrderedMap.Has(kwargs, n)
    decreases |fields|
  {
    if |fields| == 0 then []
    else
      var rest := MissingNames(fields[1..], kwargs);
      assert forall i :: 1 <= i < |fields| ==> fields[i] == fields[1..][i - 1];
      if fields[0].default.None? && !OrderedMap.Has(kwargs, fields[0].name) then [fields[0].name] + rest
      else rest
  }

  /** Python's listing of missing names: `'a'`, `'a' and 'b'`, `'a', 'b', and 'c'`. */
  function QuotedList(names: seq<string>): string {
    if |names| == 0 then ""
    else if |names| == 1 then "'" + names[0] + "'"
    else if |names| == 2 then "'" + names[0] + "' and '" + names[1] + "'"
    else "'" + names[0] + "', " + QuotedList(names[1..])
  }
  // Python writes three or more names as `'a', 'b', and 'c'`; no class here
  // has three required fields, so that form is never reached and the last
  // case above does not reproduce the final ", and".

  function UnexpectedMessage(c: DataClass, k: string): string {
    c.name + ".__init__() got an unexpected keyword argument '" + k + "'"
  }

  function MissingMessage(c: DataClass, names: seq<string>): string {
    c.name + ".__init__() missing " + Strings.NatToString(|names|) + " required positional "
    + (if |names| == 1 then "argument: " else "arguments: ") + QuotedList(names)
  }

  /** The unexpected keyword Python reports is the first undeclared one. */
  lemma {:induction false} FirstUnexpectedAt(c: DataClass, kwargs: Kwargs, i: nat)
    requires i < |kwargs|
    requires AllDeclared(c, kwargs[..i])
    requires !Declares(c, kwargs[i].0)
    ensures FirstUnexpected(c, kwargs) == Some(kwargs[i].0)
    decreases i
  {
    if i > 0 {
      assert kwargs[0] == kwargs[..i][0];
      assert kwargs[1..][..i - 1] == kwargs[1..i];
      assert forall j :: 0 <= j < i - 1 ==> kwargs[1..i][j] == kwargs[..i][j + 1];
      FirstUnexpectedAt(c, kwargs[1..], i - 1);
    }
  }

  /** The value of each field: the keyword's when given, else the default. */
  function Bind(fields: seq<Field>, kwargs: Kwargs): (r: Kwargs)
    requires forall i :: 0 <= i < |fields| && fields[i].default.None? ==> OrderedMap.Has(kwargs, fields[i].name)
    ensures |r| == |fields|
    ensures forall i :: 0 <= i < |fields| ==> r[i].0 == fields[i].name
    ensures forall i :: 0 <= i < |fields| && OrderedMap.Has(kwargs, fields[i].name) ==> OrderedMap.Get(kwargs, fields[i].name) == Some(r[i].1)
    ensures forall i :: 0 <= i < |fields| && !OrderedMap.Has(kwargs, fields[i].name) ==> fields[i].default == Some(r[i].1)
    decreases |fields|
  {
    if |fields| == 0 then []
    else
      var f := fields[0];
      var v := match OrderedMap.Get(kwargs, f.name)
        case Some(x) => x
        case None => f.default.GetOr(JNull);
      assert forall i :: 1 <= i < |fields| ==> fields[i] == fields[1..][i - 1];
      [(f.name, v)] + Bind(fields[1..], kwargs)
  }

  /**
   * `C(**kwargs)` for a dataclass `C`: the instance's `__dict__` in field
   * order, or the `TypeError` text. Unknown keywords are reported before
   * missing ones, the first unknown keyword in argument order.
   */
  function Construct(c: DataClass, kwargs: Kwargs): (r: Result<Kwargs, string>)
    ensures r.Ok? <==> AllDeclared(c, kwargs) && AllRequiredGiven(c, kwargs)
    ensures r.Ok? ==> |r.value| == |c.fields|
    ensures r.Ok? ==> forall i :: 0 <= i < |c.fields| ==> r.value[i].0 == c.fields[i].name
    ensures r.Ok? ==> forall i :: 0 <= i < |c.fields| && OrderedMap.Has(kwargs, c.fields[i].name) ==> OrderedMap.Get(kwargs, c.fields[i].name) == Some(r.value[i].1)
    ensures r.Ok? ==> forall i :: 0 <= i < |c.fields| && !OrderedMap.Has(kwargs, c.fields[i].name) ==> c.fields[i].default == Some(r.value[i].1)
    ensures FirstUnexpected(c, kwargs).Some? ==> r == Err(UnexpectedMessage(c, FirstUnexpected(c, kwargs).value))
  {
    match FirstUnexpected(c, kwargs)
    case Some(k) => Err(UnexpectedMessage(c, k))
    case None =>
      var missing := MissingNames(c.fields, kwargs);
      if |missing| > 0 then
        assert missing[0] in missing;
        Err(MissingMessage(c, missing))
      else
        Ok(Bind(c.fields, kwargs))
  }

  /** `getattr(instance, name)` on a constructed instance (`None` for an absent field). */
  function Attr(inst: Kwargs, name: string): Value {
    OrderedMap.Get(inst, name).GetOr(JNull)
  }

  /**
   * Reading a field of an instance finds the bound value when no earlier
   * field has the same name: the keyword's value when it was given, the
   * default otherwise.
   */
  lemma AttrOfConstruct(c: DataClass, kwargs: Kwargs, i: nat)
    requires i < |c.fields| && Construct(c, kwargs).Ok?
    requires forall j :: 0 <= j < i ==> c.fields[j].name != c.fields[i].name
    ensures OrderedMap.Has(kwargs, c.fields[i].name) ==> OrderedMap.Get(kwargs, c.fields[i].name) == Some(Attr(Construct(c, kwargs).value, c.fields[i].name))
    ensures !OrderedMap.Has(kwargs, c.fields[i].name) ==> c.fields[i].default == Some(Attr(Construct(c, kwargs).value, c.fields[i].name))
  {
    var inst := Construct(c, kwargs).value;
    var k := inst[i].0;
    assert OrderedMap.Has(inst, k);
    var x := OrderedMap.IndexOf(inst, k);
    assert x == Some(i);
  }

  // ---------------------------------------------------------------- listeners

  /** The names of the `EventType` literal; nothing checks them at run time. */
  const EventTypes: seq<string> := ["report_received", "report_analyzed", "price_alert", "daily_summary", "user_query"]

  const ListenerConfigClass := DataClass("ListenerConfig", [
    Field("id", None), Field("name", None), Field("description", Some(JStr(""))),
    Field("enabled", Some(JBool(true))), Field("event", Some(JStr("report_received")))])

  /**
   * A `ListenerConfig` given only its id and name takes its defaults for
   * the rest: no description, enabled, and listening for `report_received`.
   */
  lemma ListenerConfigDefaults(id: Value, name: Value)
    ensures var r := Construct(ListenerConfigClass, [("id", id), ("name", name)]);
      r.Ok? && |r.value| == 5 && r.value[0] == ("id", id) && r.value[1] == ("name", name)
      && r.value[2] == ("description", JStr("")) && r.value[3] == ("enabled", JBool(true))
      && r.value[4] == ("event", JStr("report_received"))
  {
    var kw := [("id", id), ("name", name)];
    ListenerConfigAccepts(kw);
    OnlyRequiredGiven(ListenerConfigClass, kw);
  }

  /**
   * A five-field class constructed from its first two fields alone: those
   * two keep the given values and the other three take their defaults.
   */
  lemma OnlyRequiredGiven(c: DataClass, kw: Kwargs)
    requires Construct(c, kw).Ok? && |c.fields| == 5 && |kw| == 2
    requires kw[0].0 == c.fields[0].name && kw[1].0 == c.fields[1].name && kw[0].0 != kw[1].0
    requires forall i :: 2 <= i < 5 ==> !OrderedMap.Has(kw, c.fields[i].name)
    ensures var r := Construct(c, kw).value;
      r[0] == kw[0] && r[1] == kw[1]
      && forall i :: 2 <= i < 5 ==> c.fields[i].default.Some? && r[i] == (c.fields[i].name, c.fields[i].default.value)
  {
    assert OrderedMap.Has(kw, kw[0].0) && OrderedMap.Has(kw, kw[1].0);
    assert OrderedMap.Get(kw, kw[0].0) == Some(kw[0].1);
    assert OrderedMap.Get(kw, kw[1].0) == Some(kw[1].1);
  }

  lemma ListenerConfigAccepts(kw: Kwargs)
    requires |kw| == 2 && kw[0].0 == "id" && kw[1].0 == "name"
    ensures Construct(ListenerConfigClass, kw).Ok?
    ensures forall i :: 2 <= i < 5 ==> !OrderedMap.Has(kw, ListenerConfigClass.fields[i].name)
  {
    var c := ListenerConfigClass;
    var fs := c.fields;
    assert Declares(c, kw[0].0) by { assert fs[0].name == kw[0].0; }
    assert Declares(c, kw[1].0) by { assert fs[1].name == kw[1].0; }
    assert AllRequiredGiven(c, kw) by {
      assert kw[0].0 == fs[0].name && kw[1].0 == fs[1].name;
    }
    forall i | 2 <= i < 5 ensures !OrderedMap.Has(kw, fs[i].name) {
      assert |fs[i].name| != 2 && |fs[i].name| != 4;
    }
  }

  const ListenerResultClass := DataClass("ListenerResult", [
    Field("executed", None), Field("reason", None),
    Field("actions", Some(JNull)), Field("components", Some(JNull))])

  /** A `ListenerResult` instance; fields hold whatever the constructor was given. */
  datatype ListenerResult = ListenerResult(executed: Value, reason: Value, actions: Value, components: Value)

  lemma FourNames(c: DataClass)
    requires |c.fields| == 4 && c.fields[0].name != c.fields[1].name
    requires c.fields[2].name != c.fields[0].name && c.fields[2].name != c.fields[1].name
    requires c.fields[3].name != c.fields[0].name && c.fields[3].name != c.fields[1].name && c.fields[3].name != c.fields[2].name
    ensures forall i, j :: 0 <= j < i < 4 ==> c.fields[j].name != c.fields[i].name
  {
  }

  /**
   * For a four-field class whose first two fields are required and last two
   * default to `None`: each field of the instance is the keyword's value,
   * the optional ones `None` when not given.
   */
  lemma BoundFields(c: DataClass, kwargs: Kwargs)
    requires |c.fields| == 4 && Construct(c, kwargs).Ok?
    requires c.fields[0].name != c.fields[1].name
    requires c.fields[2].name != c.fields[0].name && c.fields[2].name != c.fields[1].name
    requires c.fields[3].name != c.fields[0].name && c.fields[3].name != c.fields[1].name && c.fields[3].name != c.fields[2].name
    requires c.fields[0].default.None? && c.fields[1].default.None?
    requires c.fields[2].default == Some(JNull) && c.fields[3].default == Some(JNull)
    ensures var inst := Construct(c, kwargs).value;
      && OrderedMap.Get(kwargs, c.fields[0].name) == Some(Attr(inst, c.fields[0].name))
      && OrderedMap.Get(kwargs, c.fields[1].name) == Some(Attr(inst, c.fields[1].name))
      && Attr(inst, c.fields[2].name) == OrderedMap.Get(kwargs, c.fields[2].name).GetOr(JNull)
      && Attr(inst, c.fields[3].name) == OrderedMap.Get(kwargs, c.fields[3].name).GetOr(JNull)
  {
    FourNames(c);
    AttrOfConstruct(c, kwargs, 0);
    AttrOfConstruct(c, kwargs, 1);
    AttrOfConstruct(c, kwargs, 2);
    AttrOfConstruct(c, kwargs, 3);
  }

  lemma ListenerResultBound(kwargs: Kwargs)
    requires Construct(ListenerResultClass, kwargs).Ok?
    ensures var inst := Construct(ListenerResultClass, kwargs).value;
      && OrderedMap.Get(kwargs, "executed") == Some(Attr(inst, "executed"))
      && OrderedMap.Get(kwargs, "reason") == Some(Attr(inst, "reason"))
      && Attr(inst, "actions") == OrderedMap.Get(kwargs, "actions").GetOr(JNull)
      && Attr(inst, "components") == OrderedMap.Get(kwargs, "components").GetOr(JNull)
  {
    var c := ListenerResultClass;
    assert c.fields[0].name == "executed" && c.fields[1].name == "reason";
    assert c.fields[2].name == "actions" && c.fields[3].name == "components";
    BoundFields(c, kwargs);
  }

  /** `ListenerResult(**kwargs)`. */
  function NewListenerResult(kwargs: Kwargs): (r: Result<ListenerResult, string>)
    ensures r.Ok? <==> Construct(ListenerResultClass, kwargs).Ok?
    ensures r.Err? ==> r.error == Construct(ListenerResultClass, kwargs).error
    ensures r.Ok? ==> r.value.executed == Attr(Construct(ListenerResultClass, kwargs).value, "executed")
    ensures r.Ok? ==> OrderedMap.Get(kwargs, "executed") == Some(r.value.executed)
    ensures r.Ok? ==> OrderedMap.Get(kwargs, "reason") == Some(r.value.reason)
    ensures r.Ok? ==> r.value.actions == OrderedMap.Get(kwargs, "actions").GetOr(JNull)
    ensures r.Ok? ==> r.value.components == OrderedMap.Get(kwargs, "components").GetOr(JNull)
  {
    match Construct(ListenerResultClass, kwargs)
    case Err(e) => Err(e)
    case Ok(inst) =>
      ListenerResultBound(kwargs);
      Ok(ListenerResult(Attr(inst, "executed"), Attr(inst, "reason"), Attr(inst, "actions"), Attr(inst, "components")))
  }

  /**
   * The `TypeError` text of `ListenerResult(..., data=...)`:
   * "ListenerResult.__init__() got an unexpected keyword argument 'data'".
   */
  const DataKeywordError: string := UnexpectedMessage(ListenerResultClass, "data")

  /**
   * `ListenerResult(executed=..., reason=..., data=..., ...)` always raises:
   * the class declares no `data` field.
   */
  lemma ListenerResultRejectsData(kwargs: Kwargs)
    requires |kwargs| >= 3
    requires kwargs[0].0 == "executed" && kwargs[1].0 == "reason" && kwargs[2].0 == "data"
    ensures NewListenerResult(kwargs) == Err(DataKeywordError)
  {
    var c := ListenerResultClass;
    assert Declares(c, kwargs[0].0) by { assert c.fields[0].name == kwargs[0].0; }
    assert Declares(c, kwargs[1].0) by { assert c.fields[1].name == kwargs[1].0; }
    assert kwargs[..2] == [kwargs[0], kwargs[1]];
    assert !Declares(c, "data") by {
      assert forall i :: 0 <= i < |c.fields| ==> c.fields[i].name in {"executed", "reason", "actions", "components"};
    }
    FirstUnexpectedAt(c, kwargs, 2);
  }

  /** The listener audit entry, one JSON line of `<listener_id>.jsonl`. */
  datatype ListenerLogEntry = ListenerLogEntry(
    timestamp: string,
    reportId: Value,
    reportTitle: Value,
    executed: Value,
    reason: Value,
    actions: Value,
    executionTimeMs: int,
    error: Option<string>)
  {
    /** `entry.__dict__` as `json.dumps` writes it. */
    function ToJson(): (r: map<string, Value>)
      ensures r.Keys == {"timestamp", "report_id", "report_title", "executed", "reason", "actions", "execution_time_ms", "error"}
      ensures r["executed"] == executed && r["reason"] == reason
      ensures r["error"] == (if error.Some? then JStr(error.value) else JNull)
    {
      map["timestamp" := JStr(timestamp), "report_id" := reportId, "report_title" := reportTitle,
          "executed" := executed, "reason" := reason, "actions" := actions,
          "execution_time_ms" := JNum(executionTimeMs as real),
          "error" := if error.Some? then JStr(error.value) else JNull]
    }
  }

  // ------------------------------------------------------------------ actions

  const ActionResultClass := DataClass("ActionResult", [
    Field("success", None), Field("message", None),
    Field("data", Some(JNull)), Field("components", Some(JNull))])

  datatype ActionResult = ActionResult(success: Value, message: Value, data: Value, components: Value) {
    function ToJson(): (r: map<string, Value>)
      ensures r.Keys == {"success", "message", "data", "components"}
    {
      map["success" := success, "message" := message, "data" := data, "components" := components]
    }
  }

  lemma ActionResultBound(kwargs: Kwargs)
    requires Construct(ActionResultClass, kwargs).Ok?
    ensures var inst := Construct(ActionResultClass, kwargs).value;
      && OrderedMap.Get(kwargs, "success") == Some(Attr(inst, "success"))
      && OrderedMap.Get(kwargs, "message") == Some(Attr(inst, "message"))
      && Attr(inst, "data") == OrderedMap.Get(kwargs, "data").GetOr(JNull)
      && Attr(inst, "components") == OrderedMap.Get(kwargs, "components").GetOr(JNull)
  {
    var c := ActionResultClass;
    assert c.fields[0].name == "success" && c.fields[1].name == "message";
    assert c.fields[2].name == "data" && c.fields[3].name == "components";
    BoundFields(c, kwargs);
  }

  /** `ActionResult(**kwargs)`. */
  function NewActionResult(kwargs: Kwargs): (r: Result<ActionResult, string>)
    ensures r.Ok? <==> Construct(ActionResultClass, kwargs).Ok?
    ensures r.Err? ==> r.error == Construct(ActionResultClass, kwargs).error
    ensures r.Ok? ==> OrderedMap.Get(kwargs, "success") == Some(r.value.success)
    ensures r.Ok? ==> OrderedMap.Get(kwargs, "message") == Some(r.value.message)
    ensures r.Ok? ==> r.value.data == OrderedMap.Get(kwargs, "data").GetOr(JNull)
    ensures r.Ok? ==> r.value.components == OrderedMap.Get(kwargs, "components").GetOr(JNull)
  {
    match Construct(ActionResultClass, kwargs)
    case Err(e) => Err(e)
    case Ok(inst) =>
      ActionResultBound(kwargs);
      Ok(ActionResult(Attr(inst, "success"), Attr(inst, "message"), Attr(inst, "data"), Attr(inst, "components")))
  }

  /**
   * `ActionResult(**d)` succeeds exactly when `d` has `success` and
   * `message` and no key outside the four fields.
   */
  lemma ActionResultKeywords(kwargs: Kwargs)
    ensures NewActionResult(kwargs).Ok? <==>
      (forall i :: 0 <= i < |kwargs| ==> kwargs[i].0 in {"success", "message", "data", "components"})
      && OrderedMap.Has(kwargs, "success") && OrderedMap.Has(kwargs, "message")
  {
    var c := ActionResultClass;
    assert forall n :: Declares(c, n) <==> n in {"success", "message", "data", "components"} by {
      forall n ensures Declares(c, n) <==> n in {"success", "message", "data", "components"} {
        if n in {"success", "message", "data", "components"} {
          assert n == c.fields[0].name || n == c.fields[1].name || n == c.fields[2].name || n == c.fields[3].name;
        }
      }
    }
    assert AllRequiredGiven(c, kwargs) <==> OrderedMap.Has(kwargs, "success") && OrderedMap.Has(kwargs, "message") by {
      assert c.fields[0].default.None? && c.fields[1].default.None?;
    }
  }

  /** An `ActionResult` with only the two required fields given. */
  function Outcome(success: bool, message: string): (r: ActionResult)
    ensures r.data == JNull && r.components == JNull
  {
    ActionResult(JBool(success), JStr(message), JNull, JNull)
  }

  /** `ActionTemplate`; `parameterSchema` is the loader's value (`{}` when the config has none). */
  datatype ActionTemplate = ActionTemplate(id: string, name: Value, description: Value, icon: Value, parameterSchema: Value)

  /** The button styles the `style` literal names; nothing checks them at run time. */
  const ActionStyles: seq<string> := ["primary", "secondary", "danger"]

  /** `ActionInstance`; `params` is `None` unless given. */
  datatype ActionInstance = ActionInstance(
    instanceId: string,
    templateId: string,
    labelText: string,
    description: string,
    params: Option<map<string, Value>>,
    style: string,
    sessionId: string,
    createdAt: string)

  /** An `ActionInstance` built from its three required fields; every other field takes its default. */
  function NewActionInstance(instanceId: string, templateId: string, labelText: string): (r: ActionInstance)
    ensures r.style == ActionStyles[0]
    ensures r.params.None? && r.description == "" && r.sessionId == "" && r.createdAt == ""
  {
    ActionInstance(instanceId, templateId, labelText, "", None, "primary", "", "")
  }

  /** The action audit entry written to `<date>.jsonl`. */
  datatype ActionLogEntry = ActionLogEntry(
    timestamp: string,
    instanceId: string,
    templateId: string,
    sessionId: string,
    params: map<string, Value>,
    result: ActionResult,
    duration: int,
    error: Option<string>)
  {
    function ToJson(): (r: map<string, Value>)
      ensures r.Keys == {"timestamp", "instanceId", "templateId", "sessionId", "params", "result", "duration", "error"}
      ensures r["result"] == JObj(result.ToJson())
      ensures r["params"] == JObj(params)
    {
      map["timestamp" := JStr(timestamp), "instanceId" := JStr(instanceId), "templateId" := JStr(templateId),
          "sessionId" := JStr(sessionId), "params" := JObj(params), "result" := JObj(result.ToJson()),
          "duration" := JNum(duration as real), "error" := if error.Some? then JStr(error.value) else JNull]
    }
  }

  // ------------------------------------------------------- UI states, components

  datatype UIStateTemplate = UIStateTemplate(id: string, name: Value, description: Value, initialState: Value)

  /** One line of the UI-state audit log; `dataSize` is the length of the serialised state. */
  datatype UIStateLogEntry = UIStateLogEntry(timestamp: string, stateId: string, action: string, dataSize: nat)
  {
    function ToJson(): (r: map<string, Value>)
      ensures r.Keys == {"timestamp", "stateId", "action", "dataSize"}
      ensures r["stateId"] == JStr(stateId) && r["dataSize"] == JNum(dataSize as real)
    {
      map["timestamp" := JStr(timestamp), "stateId" := JStr(stateId), "action" := JStr(action),
          "dataSize" := JNum(dataSize as real)]
    }
  }

  datatype ComponentTemplate = ComponentTemplate(id: string, name: Value, description: Value, stateId: Value)

  datatype ComponentInstance = ComponentInstance(
    instanceId: string,
    componentId: string,
    stateId: string,
    sessionId: string,
    props: Option<map<string, Value>>,
    createdAt: string)

  // --------------------------------------------------------- WebSocket messages

  const WSSessionInfoClass := DataClass("WSSessionInfo", [
    Field("type", Some(JStr("session_info"))), Field("session_id", Some(JStr(""))),
    Field("message_count", Some(JNum(0.0))), Field("is_active", Some(JBool(false)))])

  /** A `WSSessionInfo` built with no arguments reports no messages and no activity. */
  lemma SessionInfoDefaults()
    ensures var r := Construct(WSSessionInfoClass, []);
      r.Ok? && r.value == [("type", JStr("session_info")), ("session_id", JStr("")), ("message_count", JNum(0.0)),
                           ("is_active", JBool(false))]
  {
    var fs := WSSessionInfoClass.fields;
    assert fs[0].default.Some? && fs[1].default.Some? && fs[2].default.Some? && fs[3].default.Some?;
  }

  const WSSearchResultClass := DataClass("WSSearchResultMessage", [
    Field("type", Some(JStr("search_result"))), Field("search_type", Some(JStr(""))),
    Field("results", Some(JNull))])

  /** A `WSSearchResultMessage` after `__post_init__`. */
  datatype SearchResultMessage = SearchResultMessage(searchType: Value, results: Value)

  /** `WSSearchResultMessage(**kwargs)` including `__post_init__`, which turns missing results into `[]`. */
  function NewSearchResult(kwargs: Kwargs): (r: Result<SearchResultMessage, string>)
    ensures r.Ok? <==> AllDeclared(WSSearchResultClass, kwargs)
    ensures r.Ok? ==> r.value.results != JNull
    ensures r.Ok? && OrderedMap.Get(kwargs, "results") == None ==> r.value.results == JArr([])
  {
    var c := WSSearchResultClass;
    assert forall i :: 0 <= i < |c.fields| ==> c.fields[i].default.Some?;
    match Construct(c, kwargs)
    case Err(e) => Err(e)
    case Ok(inst) =>
      assert inst[2].0 == "results";
      var results := inst[2].1;
      Ok(SearchResultMessage(inst[1].1, if results == JNull then JArr([]) else results))
  }

  // ------------------------------------------------------------ client traffic

  /** A connected WebSocket, by identity. */
  type ClientId = nat

  /**
   * The JSON messages sent to clients, one constructor per `type`. The
   * errors of the router carry no session id; those of a session do.
   */
  datatype WSMessage =
    | AssistantMessage(content: Value, sessionId: string)
    | ResultMessage(success: bool, result: Value, cost: real, duration: int, failure: Option<string>, sessionId: string)
    | SystemMessage(subtype: string, sessionId: string, data: Value)
    | UserMessage(text: string, sessionId: string)
    | ErrorMessage(error: string, session: Option<string>)
    | SessionInfo(sessionId: string, messageCount: nat, isActive: bool)
    | Connected(availableSessions: seq<string>)
    | ReportsUpdate(reports: seq<Value>)
    | UIStateTemplates(templates: seq<Value>)
    | UIStateUpdate(stateId: string, data: Value)
    | Subscribed(sessionId: string)
    | Unsubscribed(sessionId: string)
    | SubscribedReportAnalysis(sessionId: string)
    | UnsubscribedReportAnalysis(sessionId: string)
    | ReportAnalysisUpdate(reportId: string, title: string, analysis: Value, timestamp: string, sessionId: string)
    | AlertTriggered(alertId: string, title: string, message: string, severity: string, data: Value,
                     timestamp: string, sessionId: string)
    | SearchStatus(status: string, message: string)
    | SearchIntent(intent: Value, reason: Value, confidence: Value)
    | SearchChunk(chunk: Value)
    | SearchComplete(cost: real, durationMs: int, resumeId: Option<string>)
    | SearchError(error: string, message: string)

  /** One message handed to a set of clients (each send is attempted once). */
  datatype Outgoing = Outgoing(to: set<ClientId>, msg: WSMessage)
}

=== FILE: ordered_map.dfy ===
/**
 * Python's insertion-ordered `dict`: a sequence of (key, value) pairs with
 * distinct keys. Assigning to an existing key keeps its position; a new key
 * goes to the end; `del` removes the pair.
 */
module OrderedMap {
  import opened Wrappers

  type Dict<K, V> = seq<(K, V)>

  predicate UniqueKeys<K(==), V>(d: Dict<K, V>) {
    forall i, j :: 0 <= i < j < |d| ==> d[i].0 != d[j].0
  }

  /** `k in d`. */
  predicate Has<K(==), V>(d: Dict<K, V>, k: K) {
    exists i :: 0 <= i < |d| && d[i].0 == k
  }

  /** The keys in insertion order: `list(d.keys())`. */
  function Keys<K(==), V>(d: Dict<K, V>): (r: seq<K>)
    ensures |r| == |d|
    ensures forall i :: 0 <= i < |d| ==> r[i] == d[i].0
  {
    seq(|d|, i requires 0 <= i < |d| => d[i].0)
  }

  /** The values in insertion order: `list(d.values())`. */
  function Values<K(==), V>(d: Dict<K, V>): (r: seq<V>)
    ensures |r| == |d|
    ensures forall i :: 0 <= i < |d| ==> r[i] == d[i].1
  {
    seq(|d|, i requires 0 <= i < |d| => d[i].1)
  }

  /** The position of `k`, if present. */
  function IndexOf<K(==), V>(d: Dict<K, V>, k: K): (r: Option<nat>)
    ensures r.Some? ==> r.value < |d| && d[r.value].0 == k
    ensures r.Some? ==> forall j :: 0 <= j < r.value ==> d[j].0 != k
    ensures r.None? <==> !Has(d, k)
    decreases |d|
  {
    if |d| == 0 then None
    else if d[0].0 == k then Some(0)
    else
      var rest := IndexOf(d[1..], k);
      if rest.None? then
        assert forall j :: 1 <= j < |d| ==> d[j].0 == d[1..][j - 1].0;
        None
      else Some(rest.value + 1)
  }

  /** `d.get(k)`. */
  function Get<K(==), V>(d: Dict<K, V>, k: K): (r: Option<V>)
    ensures r.Some? <==> Has(d, k)
    ensures r.Some? ==> exists i :: 0 <= i < |d| && d[i] == (k, r.value)
  {
    var i := IndexOf(d, k);
    if i.Some? then Some(d[i.value].1) else None
  }

  /** `d[k] = v`. */
  function Put<K(==,!new), V>(d: Dict<K, V>, k: K, v: V): (r: Dict<K, V>)
    requires UniqueKeys(d)
    ensures UniqueKeys(r)
    ensures Get(r, k) == Some(v)
    ensures Has(d, k) ==> |r| == |d| && Keys(r) == Keys(d)
    ensures !Has(d, k) ==> r == d + [(k, v)]
    ensures forall k' :: k' != k ==> Get(r, k') == Get(d, k')
    ensures forall k' :: Has(r, k') <==> Has(d, k') || k' == k
    ensures forall j :: 0 <= j < |r| ==> r[j] in d || r[j] == (k, v)
  {
    var i := IndexOf(d, k);
    if i.Some? then
      var r := d[i.value := (k, v)];
      assert Keys(r) == Keys(d);
      assert forall j :: 0 <= j < |r| ==> r[j].0 == d[j].0;
      UpdateKeepsKeys(d, i.value, v);
      GetUnique(r, i.value);
      forall k' | k' != k ensures Get(r, k') == Get(d, k') {
        GetAfterUpdate(d, i.value, v, k');
      }
      r
    else
      var r := d + [(k, v)];
      HasSnoc(d, (k, v));
      GetUnique(r, |d|);
      forall k' | k' != k ensures Get(r, k') == Get(d, k') {
        GetAppend(d, k, v, k');
      }
      r
  }

  lemma GetUnique<K, V>(d: Dict<K, V>, i: nat)
    requires UniqueKeys(d)
    requires i < |d|
    ensures Get(d, d[i].0) == Some(d[i].1)
  {
    var j := IndexOf(d, d[i].0);
  }

  lemma {:induction false} IndexOfSameKeys<K, V>(d1: Dict<K, V>, d2: Dict<K, V>, k: K)
    requires |d1| == |d2|
    requires forall j :: 0 <= j < |d1| ==> d1[j].0 == d2[j].0
    ensures IndexOf(d1, k) == IndexOf(d2, k)
    decreases |d1|
  {
    if |d1| > 0 {
      IndexOfSameKeys(d1[1..], d2[1..], k);
    }
  }

  lemma {:induction false} IndexOfAppend<K, V>(d: Dict<K, V>, x: (K, V), k: K)
    requires x.0 != k
    ensures IndexOf(d + [x], k) == IndexOf(d, k)
    decreases |d|
  {
    if |d| == 0 {
      assert IndexOf([x], k) == IndexOf([x][1..], k) == None;
    } else {
      assert (d + [x])[1..] == d[1..] + [x];
      IndexOfAppend(d[1..], x, k);
    }
  }

  lemma HasCons<K, V>(x: (K, V), d: Dict<K, V>, k: K)
    ensures Has([x] + d, k) <==> x.0 == k || Has(d, k)
  {
    if Has([x] + d, k) && x.0 != k {
      var i :| 0 <= i < |[x] + d| && ([x] + d)[i].0 == k;
      assert d[i - 1].0 == k;
    }
    if Has(d, k) {
      var i :| 0 <= i < |d| && d[i].0 == k;
      assert ([x] + d)[i + 1].0 == k;
    }
    if x.0 == k {
      assert ([x] + d)[0].0 == k;
    }
  }

  lemma UpdateKeepsKeys<K, V>(d: Dict<K, V>, i: nat, v: V)
    requires i < |d|
    ensures forall k' :: Has(d[i := (d[i].0, v)], k') <==> Has(d, k')
  {
    var r := d[i := (d[i].0, v)];
    forall k' ensures Has(r, k') <==> Has(d, k') {
      if Has(r, k') {
        var j :| 0 <= j < |r| && r[j].0 == k';
        assert d[j].0 == k';
      }
      if Has(d, k') {
        var j :| 0 <= j < |d| && d[j].0 == k';
        assert r[j].0 == k';
      }
    }
  }

  lemma HasSnoc<K, V>(d: Dict<K, V>, x: (K, V))
    ensures forall k' :: Has(d + [x], k') <==> Has(d, k') || k' == x.0
  {
    forall k' ensures Has(d + [x], k') <==> Has(d, k') || k' == x.0 {
      if Has(d + [x], k') && k' != x.0 {
        var j :| 0 <= j < |d + [x]| && (d + [x])[j].0 == k';
        assert d[j].0 == k';
      }
      if Has(d, k') {
        var j :| 0 <= j < |d| && d[j].0 == k';
        assert (d + [x])[j].0 == k';
      }
      assert (d + [x])[|d|] == x;
    }
  }

  lemma GetAfterUpdate<K, V>(d: Dict<K, V>, i: nat, v: V, k': K)
    requires UniqueKeys(d)
    requires i < |d|
    requires k' != d[i].0
    ensures Get(d[i := (d[i].0, v)], k') == Get(d, k')
  {
    var r := d[i := (d[i].0, v)];
    IndexOfSameKeys(r, d, k');
  }

  lemma GetAppend<K, V>(d: Dict<K, V>, k: K, v: V, k': K)
    requires k' != k
    ensures Get(d + [(k, v)], k') == Get(d, k')
  {
    IndexOfAppend(d, (k, v), k');
    var a := IndexOf(d + [(k, v)], k');
    if a.Some? {
      assert (d + [(k, v)])[a.value] == d[a.value];
    }
  }

  /** `del d[k]` (or nothing when `k` is absent). */
  function Remove<K(==,!new), V>(d: Dict<K, V>, k: K): (r: Dict<K, V>)
    requires UniqueKeys(d)
    ensures UniqueKeys(r)
    ensures !Has(r, k)
    ensures forall k' :: k' != k ==> (Has(r, k') <==> Has(d, k'))
    ensures forall i :: 0 <= i < |r| ==> r[i] in d
    ensures |r| == if Has(d, k) then |d| - 1 else |d|
    decreases |d|
  {
    if |d| == 0 then []
    else if d[0].0 == k then
      assert forall j :: 1 <= j < |d| ==> d[j].0 != k;
      d[1..]
    else
      var rest := Remove(d[1..], k);
      assert d == [d[0]] + d[1..];
      forall k' ensures Has(d, k') <==> d[0].0 == k' || Has(d[1..], k') {
        HasCons(d[0], d[1..], k');
      }
      forall k' ensures Has([d[0]] + rest, k') <==> d[0].0 == k' || Has(rest, k') {
        HasCons(d[0], rest, k');
      }
      assert forall i :: 0 <= i < |rest| ==> rest[i].0 != d[0].0 by {
        forall i | 0 <= i < |rest| ensures rest[i].0 != d[0].0 {
          assert rest[i] in d[1..];
        }
      }
      [d[0]] + rest
  }

  /** The value of the last pair with key `k`, as repeated `d[k] = v` leaves it. */
  function LastValue<K(==), V>(kvs: seq<(K, V)>, k: K): (r: Option<V>)
    ensures r.None? <==> forall i :: 0 <= i < |kvs| ==> kvs[i].0 != k
    ensures r.Some? ==> exists i :: 0 <= i < |kvs| && kvs[i] == (k, r.value) && forall j :: i < j < |kvs| ==> kvs[j].0 != k
    decreases |kvs|
  {
    if |kvs| == 0 then None
    else if kvs[|kvs| - 1].0 == k then Some(kvs[|kvs| - 1].1)
    else
      var r := LastValue(kvs[..|kvs| - 1], k);
      LastValueSkip(kvs, k, r);
      r
  }

  /** A last pair with another key leaves the last value of `k` where it was. */
  lemma LastValueSkip<K, V>(kvs: seq<(K, V)>, k: K, r: Option<V>)
    requires |kvs| > 0 && kvs[|kvs| - 1].0 != k
    requires var init := kvs[..|kvs| - 1];
      && (r.None? <==> forall i :: 0 <= i < |init| ==> init[i].0 != k)
      && (r.Some? ==> exists i :: 0 <= i < |init| && init[i] == (k, r.value) && forall j :: i < j < |init| ==> init[j].0 != k)
    ensures r.None? <==> forall i :: 0 <= i < |kvs| ==> kvs[i].0 != k
    ensures r.Some? ==> exists i :: 0 <= i < |kvs| && kvs[i] == (k, r.value) && forall j :: i < j < |kvs| ==> kvs[j].0 != k
  {
    var init := kvs[..|kvs| - 1];
    assert forall i :: 0 <= i < |init| ==> init[i] == kvs[i];
    if r.Some? {
      var i :| 0 <= i < |init| && init[i] == (k, r.value) && forall j :: i < j < |init| ==> init[j].0 != k;
      assert kvs[i] == (k, r.value);
    }
  }

  /** `d = {}; for k, v in kvs: d[k] = v`. */
  function FromPairs<K(==,!new), V>(kvs: seq<(K, V)>): (r: Dict<K, V>)
    ensures UniqueKeys(r)
    ensures forall j :: 0 <= j < |r| ==> r[j] in kvs
    decreases |kvs|
  {
    if |kvs| == 0 then []
    else
      var init := FromPairs(kvs[..|kvs| - 1]);
      assert forall x :: x in kvs[..|kvs| - 1] ==> x in kvs;
      Put(init, kvs[|kvs| - 1].0, kvs[|kvs| - 1].1)
  }

  /** Registering pairs one by one keeps, for each key, the last value given. */
  lemma {:induction false} FromPairsGet<K(!new), V>(kvs: seq<(K, V)>, k: K)
    ensures Get(FromPairs(kvs), k) == LastValue(kvs, k)
    decreases |kvs|
  {
    if |kvs| > 0 {
      FromPairsGet(kvs[..|kvs| - 1], k);
    }
  }

  /** The keys of `FromPairs(kvs)` are the keys of `kvs` in first-appearance order. */
  lemma {:induction false} FromPairsHas<K(!new), V>(kvs: seq<(K, V)>, k: K)
    ensures Has(FromPairs(kvs), k) <==> exists i :: 0 <= i < |kvs| && kvs[i].0 == k
    decreases |kvs|
  {
    if |kvs| > 0 {
      var init := kvs[..|kvs| - 1];
      FromPairsHas(init, k);
      if exists i :: 0 <= i < |init| && init[i].0 == k {
        var i :| 0 <= i < |init| && init[i].0 == k;
        assert kvs[i].0 == k;
      }
      if exists i :: 0 <= i < |kvs| && kvs[i].0 == k {
        var i :| 0 <= i < |kvs| && kvs[i].0 == k;
        if i < |kvs| - 1 {
          assert init[i].0 == k;
        }
      }
    }
  }

  /** Every key/value pair satisfies `p`. */
  predicate All<K(==), V>(d: Dict<K, V>, p: (K, V) -> bool) {
    forall i :: 0 <= i < |d| ==> p(d[i].0, d[i].1)
  }

  lemma ValuesAppend<K, V>(a: Dict<K, V>, b: Dict<K, V>)
    ensures Values(a + b) == Values(a) + Values(b)
  {
    assert forall i :: 0 <= i < |a + b| ==> Values(a + b)[i] == (Values(a) + Values(b))[i];
  }

  /** Pair lists that are a permutation of each other have values that are too. */
  lemma {:induction false} ValuesMultiset<K, V>(a: Dict<K, V>, b: Dict<K, V>)
    requires multiset(a) == multiset(b)
    ensures multiset(Values(a)) == multiset(Values(b))
    decreases |a|
  {
    if |a| == 0 {
      assert |multiset(b)| == 0;
    } else {
      assert a[0] in multiset(b);
      var j :| 0 <= j < |b| && b[j] == a[0];
      var rest := b[..j] + b[j + 1..];
      PermutationRest(a, b, j);
      ValuesMultiset(a[1..], rest);
      ValuesMultisetStep(a, b, j);
    }
  }

  /** Taking a shared element out of two permutations leaves permutations. */
  lemma PermutationRest<T>(a: seq<T>, b: seq<T>, j: nat)
    requires |a| > 0 && j < |b| && b[j] == a[0] && multiset(a) == multiset(b)
    ensures multiset(a[1..]) == multiset(b[..j] + b[j + 1..])
  {
    RemoveAt(b, j);
    assert a == [a[0]] + a[1..];
    assert multiset(a) == multiset{a[0]} + multiset(a[1..]);
  }

  lemma ValuesMultisetStep<K, V>(a: Dict<K, V>, b: Dict<K, V>, j: nat)
    requires |a| > 0 && j < |b| && b[j] == a[0]
    requires multiset(Values(a[1..])) == multiset(Values(b[..j] + b[j + 1..]))
    ensures multiset(Values(a)) == multiset(Values(b))
  {
    var rest := b[..j] + b[j + 1..];
    ValuesRemoveAt(b, j);
    assert multiset(Values(b)) == multiset{a[0].1} + multiset(Values(rest));
    ValuesCons(a);
  }

  lemma ValuesCons<K, V>(a: Dict<K, V>)
    requires |a| > 0
    ensures multiset(Values(a)) == multiset{a[0].1} + multiset(Values(a[1..]))
  {
    assert a == [a[0]] + a[1..];
    ValuesAppend([a[0]], a[1..]);
    assert Values([a[0]]) == [a[0].1];
  }

  lemma RemoveAt<T>(b: seq<T>, j: nat)
    requires j < |b|
    ensures multiset(b[..j] + b[j + 1..]) == multiset(b) - multiset{b[j]}
  {
    assert b == b[..j] + [b[j]] + b[j + 1..];
  }

  lemma ValuesRemoveAt<K, V>(b: Dict<K, V>, j: nat)
    requires j < |b|
    ensures multiset(Values(b)) == multiset{b[j].1} + multiset(Values(b[..j] + b[j + 1..]))
  {
    assert b == b[..j] + ([b[j]] + b[j + 1..]);
    ValuesAppend(b[..j], [b[j]] + b[j + 1..]);
    ValuesAppend([b[j]], b[j + 1..]);
    ValuesAppend(b[..j], b[j + 1..]);
    assert Values([b[j]]) == [b[j].1];
  }
}

=== FILE: plugins.dfy ===
/**
 * What the hot-reloadable registries see of a plugin directory: the file
 * names in listing order and, for each file, what executing it as a module
 * leaves behind. Dynamic import itself is not modelled; a file whose
 * execution raises has no module.
 */
module Plugins {
  import opened Wrappers
  import opened Json
  import Strings
  import OrderedMap

  /** A module's `config`: a dict, a `ListenerConfig` instance, or any other object. */
  datatype Config =
    | DictConfig(fields: map<string, Value>)
    | ObjectConfig(id: string, name: string, enabled: bool, event: string)
    | OtherConfig

  /** An executed module: its `config` attribute if any, and whether it defines `handler`. */
  datatype Module = Module(config: Option<Config>, hasHandler: bool)

  /** A directory entry; `loaded` is `None` when executing the file raises. */
  datatype Entry = Entry(name: string, isFile: bool, loaded: Option<Module>)

  /** A plugin directory: missing, failing to list, or listed. */
  datatype Directory = Absent | Unreadable | Listed(entries: seq<Entry>)

  /** The listener and UI-state filter: a `.py` file not starting with `_` or `.`. */
  predicate PublicScript(name: string) {
    Strings.EndsWith(name, ".py") && !Strings.StartsWith(name, "_") && !Strings.StartsWith(name, ".")
  }

  /** The last index of `c` in `s`, or -1 (`str.rfind`). */
  function RFind(s: string, c: char): (r: int)
    ensures -1 <= r < |s|
    ensures r >= 0 ==> s[r] == c
    ensures forall j :: r < j < |s| ==> s[j] != c
    decreases |s|
  {
    if |s| == 0 then -1
    else if s[|s| - 1] == c then |s| - 1
    else RFind(s[..|s| - 1], c)
  }

  /**
   * `PurePath(name).suffix`: from the last dot to the end, unless that dot
   * starts the name or ends it (then `''`).
   */
  function Suffix(name: string): (r: string)
    ensures r == "" || (r[0] == '.' && Strings.EndsWith(name, r) && |r| >= 2)
    ensures forall j :: 1 <= j < |r| ==> r[j] != '.'
  {
    var i := RFind(name, '.');
    if 0 < i < |name| - 1 then
      assert name[i..] == name[|name| - |name[i..]|..];
      name[i..]
    else ""
  }

  /**
   * The key/value pairs a loader registers, in listing order: `keep` is
   * the loader's file filter and validation applied to one entry, `None`
   * for an entry it skips or fails to load.
   */
  function Collect<T(==)>(entries: seq<Entry>, keep: Entry -> Option<(string, T)>): (r: seq<(string, T)>)
    ensures |r| <= |entries|
    ensures forall x :: x in r ==> exists e :: e in entries && keep(e) == Some(x)
    decreases |entries|
  {
    if |entries| == 0 then []
    else
      var init := entries[..|entries| - 1];
      var c := keep(entries[|entries| - 1]);
      assert forall e :: e in init ==> e in entries;
      Collect(init, keep) + (if c.Some? then [c.value] else [])
  }

  /**
   * A load: the registry is cleared and every entry is loaded in listing
   * order, a later entry with the same key replacing an earlier one. A
   * missing directory (created on the spot) or a failing listing leaves
   * the registry empty.
   */
  function Load<T(==)>(dir: Directory, keep: Entry -> Option<(string, T)>): (r: OrderedMap.Dict<string, T>)
    ensures OrderedMap.UniqueKeys(r)
    ensures forall i :: 0 <= i < |r| ==> dir.Listed? && exists e :: e in dir.entries && keep(e) == Some(r[i])
    ensures !dir.Listed? ==> r == []
  {
    match dir
    case Listed(es) =>
      var r := OrderedMap.FromPairs(Collect(es, keep));
      assert forall i :: 0 <= i < |r| ==> r[i] in Collect(es, keep);
      r
    case _ => []
  }

  /** No entry contributes key `k`. */
  predicate NoneFor<T(==)>(es: seq<Entry>, keep: Entry -> Option<(string, T)>, k: string) {
    forall j :: 0 <= j < |es| ==> keep(es[j]).None? || keep(es[j]).value.0 != k
  }

  /** Entry `j` contributes `(k, v)` and no later entry contributes `k`. */
  predicate LastFor<T(==)>(es: seq<Entry>, keep: Entry -> Option<(string, T)>, k: string, v: T, j: int) {
    0 <= j < |es| && keep(es[j]) == Some((k, v)) && NoneFor(es[j + 1..], keep, k)
  }

  /** A key maps to the value of the last entry that contributes it, and is absent when no entry does. */
  lemma LoadLastWins<T>(es: seq<Entry>, keep: Entry -> Option<(string, T)>, k: string)
    ensures OrderedMap.Get(Load(Listed(es), keep), k).None? <==> NoneFor(es, keep, k)
    ensures OrderedMap.Get(Load(Listed(es), keep), k).Some? ==>
      exists j :: LastFor(es, keep, k, OrderedMap.Get(Load(Listed(es), keep), k).value, j)
  {
    OrderedMap.FromPairsGet(Collect(es, keep), k);
    CollectLast(es, keep, k);
  }

  lemma {:induction false} CollectLast<T>(es: seq<Entry>, keep: Entry -> Option<(string, T)>, k: string)
    ensures OrderedMap.LastValue(Collect(es, keep), k).None? <==> NoneFor(es, keep, k)
    ensures OrderedMap.LastValue(Collect(es, keep), k).Some? ==>
      exists j :: LastFor(es, keep, k, OrderedMap.LastValue(Collect(es, keep), k).value, j)
    decreases |es|
  {
    if |es| > 0 {
      var n := |es| - 1;
      var c := keep(es[n]);
      if c.Some? && c.value.0 == k {
        CollectLastHit(es, keep, k);
      } else {
        CollectLast(es[..n], keep, k);
        CollectLastMiss(es[..n], es[n], keep, k);
        assert es[..n] + [es[n]] == es;
      }
    }
  }

  /** The last entry contributes `k`. */
  lemma CollectLastHit<T>(es: seq<Entry>, keep: Entry -> Option<(string, T)>, k: string)
    requires |es| > 0 && keep(es[|es| - 1]).Some? && keep(es[|es| - 1]).value.0 == k
    ensures OrderedMap.LastValue(Collect(es, keep), k) == Some(keep(es[|es| - 1]).value.1)
    ensures !NoneFor(es, keep, k)
    ensures LastFor(es, keep, k, keep(es[|es| - 1]).value.1, |es| - 1)
  {
    var n := |es| - 1;
    var c := keep(es[n]);
    assert Collect(es, keep) == Collect(es[..n], keep) + [c.value];
    assert es[n + 1..] == [];
  }

  /** An entry appended without contributing `k` changes nothing about `k`. */
  lemma CollectLastMiss<T>(init: seq<Entry>, e: Entry, keep: Entry -> Option<(string, T)>, k: string)
    requires keep(e).None? || keep(e).value.0 != k
    requires OrderedMap.LastValue(Collect(init, keep), k).None? <==> NoneFor(init, keep, k)
    requires OrderedMap.LastValue(Collect(init, keep), k).Some? ==>
      exists j :: LastFor(init, keep, k, OrderedMap.LastValue(Collect(init, keep), k).value, j)
    ensures OrderedMap.LastValue(Collect(init + [e], keep), k).None? <==> NoneFor(init + [e], keep, k)
    ensures OrderedMap.LastValue(Collect(init + [e], keep), k).Some? ==>
      exists j :: LastFor(init + [e], keep, k, OrderedMap.LastValue(Collect(init + [e], keep), k).value, j)
  {
    var c := keep(e);
    CollectSnoc(init, e, keep);
    LastValueSkip(Collect(init, keep), c, k);
    NoneForSnoc(init, e, keep, k);
    var lv := OrderedMap.LastValue(Collect(init, keep), k);
    if lv.Some? {
      var j :| LastFor(init, keep, k, lv.value, j);
      LastForSnoc(init, e, keep, k, lv.value, j);
    }
  }

  lemma CollectSnoc<T>(init: seq<Entry>, e: Entry, keep: Entry -> Option<(string, T)>)
    ensures Collect(init + [e], keep) == Collect(init, keep) + (if keep(e).Some? then [keep(e).value] else [])
  {
    assert (init + [e])[..|init|] == init;
  }

  /** An entry that does not contribute `k` keeps "no entry contributes `k`" as it was. */
  lemma NoneForSnoc<T>(init: seq<Entry>, e: Entry, keep: Entry -> Option<(string, T)>, k: string)
    requires keep(e).None? || keep(e).value.0 != k
    ensures NoneFor(init + [e], keep, k) <==> NoneFor(init, keep, k)
  {
    assert forall j :: 0 <= j < |init| ==> (init + [e])[j] == init[j];
  }

  /** The last contributor of `k` stays the last one when an entry that does not contribute `k` is appended. */
  lemma LastForSnoc<T>(init: seq<Entry>, e: Entry, keep: Entry -> Option<(string, T)>, k: string, v: T, j: int)
    requires keep(e).None? || keep(e).value.0 != k
    requires LastFor(init, keep, k, v, j)
    ensures LastFor(init + [e], keep, k, v, j)
  {
    assert (init + [e])[j] == init[j];
    assert (init + [e])[j + 1..] == init[j + 1..] + [e];
    NoneForSnoc(init[j + 1..], e, keep, k);
  }

  lemma LastValueSkip<T>(pairs: seq<(string, T)>, c: Option<(string, T)>, k: string)
    requires c.None? || c.value.0 != k
    ensures OrderedMap.LastValue(pairs + (if c.Some? then [c.value] else []), k) == OrderedMap.LastValue(pairs, k)
  {
    if c.Some? {
      assert (pairs + [c.value])[..|pairs|] == pairs;
    } else {
      assert pairs + [] == pairs;
    }
  }

  /** An entry the loader rejects can be inserted anywhere in the listing without changing the registry. */
  lemma {:induction false} LoadIgnoresRejected<T>(es: seq<Entry>, x: Entry, k: nat, keep: Entry -> Option<(string, T)>)
    requires k <= |es|
    requires keep(x).None?
    ensures Load(Listed(es[..k] + [x] + es[k..]), keep) == Load(Listed(es), keep)
  {
    CollectSplice(es, x, k, keep);
  }

  lemma {:induction false} CollectSplice<T>(es: seq<Entry>, x: Entry, k: nat, keep: Entry -> Option<(string, T)>)
    requires k <= |es|
    requires keep(x).None?
    ensures Collect(es[..k] + [x] + es[k..], keep) == Collect(es, keep)
    decreases |es| - k
  {
    var s := es[..k] + [x] + es[k..];
    if k == |es| {
      assert s[..|s| - 1] == es;
      assert es[k..] == [];
    } else {
      CollectSplice(es[..|es| - 1], x, k, keep);
      assert s[..|s| - 1] == es[..|es| - 1][..k] + [x] + es[..|es| - 1][k..];
      assert s[|s| - 1] == es[|es| - 1];
    }
  }
}

=== FILE: portfolio_advice.dfy ===
/**
 * The rule checks that run before portfolio advice is asked for: single
 * position weights, the number of positions and the cash share, checked
 * against the weight-management section of the investment principles;
 * and the substitution of those checks into advice that lacks its own.
 * The advice itself comes from a language model and is an input.
 */
module PortfolioAdvice {
  import opened Wrappers
  import opened Json
  import PyConv
  import PortfolioSchema
  import PrinciplesSchema

  /** What a violation is about; the human-readable details are rendered from it. */
  datatype Subject = Position(name: Value, weight: real) | PositionCount(count: nat) | Cash(ratio: real)

  datatype Violation = Violation(rule: string, status: string, about: Subject)

  /** `s.strip('%')`: percent signs removed from both ends. */
  function StripPercent(s: string): (r: string)
    ensures |r| > 0 ==> r[0] != '%' && r[|r| - 1] != '%'
    decreases |s|
  {
    if |s| > 0 && s[0] == '%' then StripPercent(s[1..])
    else if |s| > 0 && s[|s| - 1] == '%' then StripPercent(s[..|s| - 1])
    else s
  }

  /** What `strip` keeps is a slice of the text between a run of leading and a run of trailing `%`. */
  lemma {:induction false} StripPercentSlice(s: string)
    ensures exists a, b :: PercentTrim(s, a, b) && StripPercent(s) == s[a..b]
    decreases |s|
  {
    if |s| > 0 && s[0] == '%' {
      StripPercentSlice(s[1..]);
      var a, b :| PercentTrim(s[1..], a, b) && StripPercent(s[1..]) == s[1..][a..b];
      assert s[1..][a..b] == s[a + 1..b + 1];
      assert forall i :: 0 <= i < a + 1 ==> s[i] == '%' by {
        forall i | 0 <= i < a + 1 ensures s[i] == '%' {
          if i > 0 { assert s[i] == s[1..][i - 1]; }
        }
      }
      assert forall i :: b + 1 <= i < |s| ==> s[i] == '%' by {
        forall i | b + 1 <= i < |s| ensures s[i] == '%' {
          assert s[i] == s[1..][i - 1];
        }
      }
      assert PercentTrim(s, a + 1, b + 1);
    } else if |s| > 0 && s[|s| - 1] == '%' {
      var t := s[..|s| - 1];
      StripPercentSlice(t);
      var a, b :| PercentTrim(t, a, b) && StripPercent(t) == t[a..b];
      assert t[a..b] == s[a..b];
      assert a == 0 by { assert t[0] == s[0]; }
      assert forall i :: b <= i < |s| ==> s[i] == '%' by {
        forall i | b <= i < |s| ensures s[i] == '%' {
          if i < |s| - 1 { assert s[i] == t[i]; }
        }
      }
      assert PercentTrim(s, a, b);
    } else {
      assert PercentTrim(s, 0, |s|);
    }
  }

  /** `s[..a]` and `s[b..]` consist of percent signs only. */
  ghost predicate PercentTrim(s: string, a: int, b: int) {
    0 <= a <= b <= |s| && (forall i :: 0 <= i < a ==> s[i] == '%') && (forall i :: b <= i < |s| ==> s[i] == '%')
  }

  /** What `strip` keeps is unique: a middle with no `%` at either end, between runs of `%`. */
  lemma {:induction false} StripPercentUnique(s: string, a: int, b: int)
    requires PercentTrim(s, a, b)
    requires a < b ==> s[a] != '%' && s[b - 1] != '%'
    ensures StripPercent(s) == s[a..b]
    decreases |s|
  {
    if |s| > 0 && s[0] == '%' {
      if a == b {
        StripPercentUnique(s[1..], 0, 0);
      } else {
        StripPercentUnique(s[1..], a - 1, b - 1);
        assert s[1..][a - 1..b - 1] == s[a..b];
      }
    } else if |s| > 0 && s[|s| - 1] == '%' {
      StripPercentUnique(s[..|s| - 1], a, b);
      assert s[..|s| - 1][a..b] == s[a..b];
    }
  }

  /**
   * A holding's weight as a fraction: the percentage text without its
   * percent signs, as a float, over 100. A non-string percentage or text
   * that is not a number raises.
   */
  function Weight(h: PortfolioSchema.Holding, p: PyConv.Parsers): (r: Result<real, string>)
    ensures !h.percentage.JStr? ==> r.Err?
    ensures h.percentage.JStr? ==>
              (r.Ok? <==> p.toFloat(StripPercent(h.percentage.s)).Some?)
              && (r.Ok? ==> r.value == p.toFloat(StripPercent(h.percentage.s)).value / 100.0)
  {
    if !h.percentage.JStr? then Err(NoAttribute(h.percentage, "strip"))
    else
      var x :- PyConv.Float(JStr(StripPercent(h.percentage.s)), p);
      Ok(x / 100.0)
  }

  /**
   * The weight rule for one holding: above the extreme limit is a
   * violation, above the normal limit a warning; a limit itself is not a
   * breach, and a holding with zero market value is not looked at.
   */
  function WeightRule(name: Value, w: real, wm: PrinciplesSchema.WeightManagement): (r: Option<Violation>)
    ensures r.Some? <==> w > wm.maxExtreme || w > wm.maxNormal
    ensures w > wm.maxExtreme ==> r == Some(Violation("single_position_max_extreme", "violated", Position(name, w)))
    ensures wm.maxNormal < w <= wm.maxExtreme ==>
              r == Some(Violation("single_position_max_normal", "warning", Position(name, w)))
  {
    if w > wm.maxExtreme then Some(Violation("single_position_max_extreme", "violated", Position(name, w)))
    else if w > wm.maxNormal then Some(Violation("single_position_max_normal", "warning", Position(name, w)))
    else None
  }

  /** The weight entries of the holdings, in holding order; the first unreadable weight raises. */
  function WeightChecks(hs: seq<PortfolioSchema.Holding>, wm: PrinciplesSchema.WeightManagement, p: PyConv.Parsers)
    : (r: Result<seq<Violation>, string>)
    ensures r.Err? <==> exists i :: 0 <= i < |hs| && hs[i].marketValue != 0.0 && Weight(hs[i], p).Err?
    ensures r.Ok? ==> |r.value| <= |hs|
    ensures r.Ok? ==> forall v :: v in r.value ==> v.about.Position?
    decreases |hs|
  {
    if |hs| == 0 then Ok([])
    else
      var here :- if hs[0].marketValue == 0.0 then Ok(None)
                  else
                    var w :- Weight(hs[0], p);
                    Ok(WeightRule(hs[0].name, w, wm));
      var rest := WeightChecks(hs[1..], wm, p);
      if rest.Err? then
        assert exists i :: 0 <= i < |hs[1..]| && hs[1..][i].marketValue != 0.0 && Weight(hs[1..][i], p).Err?;
        rest
      else
        assert forall i :: 1 <= i < |hs| ==> hs[i] == hs[1..][i - 1];
        Ok((if here.Some? then [here.value] else []) + rest.value)
  }

  /** The check of one holding: nothing for a zero market value, otherwise its weight rule's entry if any. */
  function HoldingCheck(h: PortfolioSchema.Holding, wm: PrinciplesSchema.WeightManagement, p: PyConv.Parsers)
    : (r: Result<seq<Violation>, string>)
    ensures h.marketValue == 0.0 ==> r == Ok([])
    ensures h.marketValue != 0.0 ==> (r.Ok? <==> Weight(h, p).Ok?)
    ensures h.marketValue != 0.0 && r.Ok? ==>
              r.value == if WeightRule(h.name, Weight(h, p).value, wm).Some?
                         then [WeightRule(h.name, Weight(h, p).value, wm).value] else []
  {
    if h.marketValue == 0.0 then Ok([])
    else
      var w :- Weight(h, p);
      var v := WeightRule(h.name, w, wm);
      Ok(if v.Some? then [v.value] else [])
  }

  /** A non-empty list is checked head first: its first holding's check, then the rest's. */
  lemma WeightChecksCons(hs: seq<PortfolioSchema.Holding>, wm: PrinciplesSchema.WeightManagement, p: PyConv.Parsers)
    requires |hs| > 0
    ensures WeightChecks(hs, wm, p).Ok? <==> HoldingCheck(hs[0], wm, p).Ok? && WeightChecks(hs[1..], wm, p).Ok?
    ensures WeightChecks(hs, wm, p).Ok? ==>
              WeightChecks(hs, wm, p).value == HoldingCheck(hs[0], wm, p).value + WeightChecks(hs[1..], wm, p).value
  {
  }

  /**
   * The checks of a split holding list are the checks of each part in turn:
   * every holding contributes its own `HoldingCheck`, in holding order, and
   * the list fails exactly when a part does.
   */
  lemma {:induction false} WeightChecksAppend(xs: seq<PortfolioSchema.Holding>, ys: seq<PortfolioSchema.Holding>,
                                              wm: PrinciplesSchema.WeightManagement, p: PyConv.Parsers)
    ensures WeightChecks(xs + ys, wm, p).Ok? <==> WeightChecks(xs, wm, p).Ok? && WeightChecks(ys, wm, p).Ok?
    ensures WeightChecks(xs + ys, wm, p).Ok? ==>
              WeightChecks(xs + ys, wm, p).value == WeightChecks(xs, wm, p).value + WeightChecks(ys, wm, p).value
    ensures |xs| == 1 ==> WeightChecks(xs, wm, p) == HoldingCheck(xs[0], wm, p)
    decreases |xs|
  {
    if |xs| > 0 {
      var t := xs[1..];
      assert (xs + ys)[0] == xs[0] && (xs + ys)[1..] == t + ys;
      WeightChecksAppend(t, ys, wm, p);
      WeightChecksCons(xs + ys, wm, p);
      WeightChecksCons(xs, wm, p);
      var h := HoldingCheck(xs[0], wm, p);
      var l := WeightChecks(t, wm, p);
      var rr := WeightChecks(ys, wm, p);
      if h.Ok? && l.Ok? && rr.Ok? {
        assert h.value + (l.value + rr.value) == (h.value + l.value) + rr.value;
      }
      if |xs| == 1 {
        assert |t| == 0;
        assert l == Ok([]);
        assert h.Ok? ==> h.value + l.value == h.value;
      }
    } else {
      assert xs + ys == ys;
      assert WeightChecks(xs, wm, p) == Ok([]);
    }
  }

  /** The holdings that count as positions: positive market value only. */
  function Positions(hs: seq<PortfolioSchema.Holding>): (n: nat)
    ensures n <= |hs|
    ensures n == 0 <==> forall i :: 0 <= i < |hs| ==> hs[i].marketValue <= 0.0
    ensures n == |hs| <==> forall i :: 0 <= i < |hs| ==> hs[i].marketValue > 0.0
    decreases |hs|
  {
    if |hs| == 0 then 0
    else
      var rest := Positions(hs[1..]);
      assert forall i :: 1 <= i < |hs| ==> hs[i] == hs[1..][i - 1];
      (if hs[0].marketValue > 0.0 then 1 else 0) + rest
  }

  /** Counting positions distributes over a split of the holdings: one per positive holding. */
  lemma {:induction false} PositionsAppend(xs: seq<PortfolioSchema.Holding>, ys: seq<PortfolioSchema.Holding>)
    ensures Positions(xs + ys) == Positions(xs) + Positions(ys)
    ensures |xs| == 1 ==> Positions(xs) == if xs[0].marketValue > 0.0 then 1 else 0
    decreases |xs|
  {
    if |xs| > 0 {
      assert (xs + ys)[0] == xs[0] && (xs + ys)[1..] == xs[1..] + ys;
      PositionsAppend(xs[1..], ys);
      assert Positions(xs + ys) == (if xs[0].marketValue > 0.0 then 1 else 0) + Positions(xs[1..] + ys);
      assert Positions(xs) == (if xs[0].marketValue > 0.0 then 1 else 0) + Positions(xs[1..]);
    } else {
      assert xs + ys == ys;
    }
  }

  /** The count rule: below the minimum is a violation, above the maximum a warning. */
  function CountRule(n: nat, wm: PrinciplesSchema.WeightManagement): (r: seq<Violation>)
    ensures |r| == 0 <==> wm.positionMin <= n <= wm.positionMax
    ensures n < wm.positionMin ==> r == [Violation("target_position_count_min", "violated", PositionCount(n))]
    ensures wm.positionMin <= n && n > wm.positionMax ==>
              r == [Violation("target_position_count_max", "warning", PositionCount(n))]
  {
    if n < wm.positionMin then [Violation("target_position_count_min", "violated", PositionCount(n))]
    else if n > wm.positionMax then [Violation("target_position_count_max", "warning", PositionCount(n))]
    else []
  }

  /** The cash share of the total; zero when the total is not positive. */
  function CashRatio(pf: PortfolioSchema.Portfolio): (r: real)
    ensures pf.totalAssetValue <= 0.0 ==> r == 0.0
    ensures pf.totalAssetValue > 0.0 ==> r * pf.totalAssetValue == pf.cashPosition
  {
    if pf.totalAssetValue > 0.0 then pf.cashPosition / pf.totalAssetValue else 0.0
  }

  /** The liquidity rule: a warning when cash is under 5% of the total. */
  function LiquidityRule(pf: PortfolioSchema.Portfolio): (r: seq<Violation>)
    ensures |r| <= 1
    ensures |r| == 1 <==> CashRatio(pf) < 0.05
    ensures |r| == 1 ==> r[0] == Violation("liquidity", "warning", Cash(CashRatio(pf)))
  {
    if CashRatio(pf) < 0.05 then [Violation("liquidity", "warning", Cash(CashRatio(pf)))] else []
  }

  /**
   * `check_principles_violations(portfolio, principles)`: the weight
   * entries in holding order, then the count entry, then liquidity.
   */
  function CheckViolations(pf: PortfolioSchema.Portfolio, pr: PrinciplesSchema.Principles, p: PyConv.Parsers)
    : (r: Result<seq<Violation>, string>)
    ensures r.Err? <==> exists i :: 0 <= i < |pf.holdings| && pf.holdings[i].marketValue != 0.0
                                    && Weight(pf.holdings[i], p).Err?
    ensures r.Ok? ==> r.value == WeightChecks(pf.holdings, pr.weightManagement, p).value
                                 + CountRule(Positions(pf.holdings), pr.weightManagement) + LiquidityRule(pf)
  {
    var weights :- WeightChecks(pf.holdings, pr.weightManagement, p);
    Ok(weights + CountRule(Positions(pf.holdings), pr.weightManagement) + LiquidityRule(pf))
  }

  /** A portfolio with no positive total always gets the liquidity warning, last. */
  lemma NoTotalAlwaysWarns(pf: PortfolioSchema.Portfolio, pr: PrinciplesSchema.Principles, p: PyConv.Parsers)
    requires pf.totalAssetValue <= 0.0
    requires CheckViolations(pf, pr, p).Ok?
    ensures var vs := CheckViolations(pf, pr, p).value;
      |vs| > 0 && vs[|vs| - 1] == Violation("liquidity", "warning", Cash(0.0))
  {
  }

  /**
   * A holding with negative market value is weight-checked but is not a
   * position: it can add a weight entry without raising the count.
   */
  lemma NegativeValueCheckedNotCounted(h: PortfolioSchema.Holding, wm: PrinciplesSchema.WeightManagement,
                                       p: PyConv.Parsers)
    requires h.marketValue < 0.0
    ensures Positions([h]) == 0
    ensures WeightChecks([h], wm, p).Ok? && Weight(h, p).Ok? ==>
              WeightChecks([h], wm, p).value
              == (if WeightRule(h.name, Weight(h, p).value, wm).Some?
                  then [WeightRule(h.name, Weight(h, p).value, wm).value] else [])
  {
    assert [h][1..] == [];
  }

  /** With the default limits, a 15% position is a warning and a 25% position a violation. */
  lemma DefaultLimits(name: Value)
    ensures WeightRule(name, 0.15, PrinciplesSchema.DefaultWeightManagement)
            == Some(Violation("single_position_max_normal", "warning", Position(name, 0.15)))
    ensures WeightRule(name, 0.25, PrinciplesSchema.DefaultWeightManagement)
            == Some(Violation("single_position_max_extreme", "violated", Position(name, 0.25)))
    ensures WeightRule(name, 0.1, PrinciplesSchema.DefaultWeightManagement) == None
  {
  }

  // ---------------------------------------------------------------- advice fallback

  function ViolationJson(v: Violation, details: Subject -> string): (r: Value)
    ensures r.JObj? && r.fields.Keys == {"rule", "status", "details"}
    ensures r.fields["rule"] == JStr(v.rule) && r.fields["status"] == JStr(v.status)
  {
    JObj(map["rule" := JStr(v.rule), "status" := JStr(v.status), "details" := JStr(details(v.about))])
  }

  /**
   * The last step of `generate_portfolio_advice`: when the advice has no
   * `constraints_check`, or an empty one, the rule checks take its place.
   */
  function WithConstraints(advice: map<string, Value>, pre: seq<Violation>, details: Subject -> string)
    : (r: map<string, Value>)
    ensures r.Keys == advice.Keys + {"constraints_check"}
    ensures forall k :: k in advice && k != "constraints_check" ==> r[k] == advice[k]
    ensures HasTruthy(advice, "constraints_check") ==> r == advice
    ensures !HasTruthy(advice, "constraints_check") ==>
              r["constraints_check"].JArr? && |r["constraints_check"].items| == |pre|
              && forall i :: 0 <= i < |pre| ==> r["constraints_check"].items[i] == ViolationJson(pre[i], details)
  {
    if HasTruthy(advice, "constraints_check") then advice
    else advice["constraints_check" := JArr(seq(|pre|, i requires 0 <= i < |pre| => ViolationJson(pre[i], details)))]
  }

  /** Filling in the checks twice is filling them in once. */
  lemma WithConstraintsIdempotent(advice: map<string, Value>, pre: seq<Violation>, details: Subject -> string)
    ensures WithConstraints(WithConstraints(advice, pre, details), pre, details) == WithConstraints(advice, pre, details)
  {
  }

  /** The model's own non-empty checks are never overwritten. */
  lemma OwnChecksKept(advice: map<string, Value>, pre: seq<Violation>, details: Subject -> string)
    requires "constraints_check" in advice && Truthy(advice["constraints_check"])
    ensures WithConstraints(advice, pre, details)["constraints_check"] == advice["constraints_check"]
  {
  }
}

=== FILE: portfolio_repository.dfy ===
/**
 * The user-portfolio table: one row per user holding the two totals and
 * the holdings as JSON text, written only after validation and read back
 * through the lenient default filling.
 */
module PortfolioRepository {
  import opened Wrappers
  import opened Json
  import PyConv
  import PortfolioSchema

  /** The holdings column: JSON text that parses to a value, or text that does not parse. */
  datatype Stored = Parsed(value: Value) | Unparsable

  datatype Row = Row(totalAssetValue: real, cashPosition: real, holdings: Stored)

  /** `user_portfolios`, keyed by its conflict target `user_id`. */
  type Table = map<string, Row>

  /**
   * `get_user_portfolio(user_id)`: none for a missing row or unparsable
   * holdings; otherwise the row's fields through `fill_defaults`, which may
   * still raise on a value that does not convert.
   */
  function Get(t: Table, user: string, p: PyConv.Parsers): (r: Result<Option<PortfolioSchema.Portfolio>, string>)
    ensures user !in t ==> r == Ok(None)
    ensures user in t && t[user].holdings.Unparsable? ==> r == Ok(None)
    ensures r.Ok? && r.value.Some? ==> (user in t && t[user].holdings.Parsed?
      && r.value.value.totalAssetValue == t[user].totalAssetValue
      && r.value.value.cashPosition == t[user].cashPosition
      && (!t[user].holdings.value.JArr? ==> r.value.value.holdings == []))
  {
    if user !in t || t[user].holdings.Unparsable? then Ok(None)
    else
      var row := t[user];
      var d := map["total_asset_value" := JNum(row.totalAssetValue), "cash_position" := JNum(row.cashPosition),
                   "holdings" := row.holdings.value];
      var v :- PortfolioSchema.FillDefaults(d, p);
      Ok(Some(v))
  }

  /**
   * `upsert_user_portfolio(user_id, data)`: validation runs first, so
   * invalid data raises before anything is written; otherwise the user's
   * row is inserted or replaced.
   */
  function Upsert(t: Table, user: string, data: map<string, Value>, p: PyConv.Parsers): (r: Result<Table, string>)
    ensures r.Err? <==> PortfolioSchema.ValidatePortfolio(data, p).Err?
    ensures r.Ok? ==> (r.value.Keys == t.Keys + {user}
      && forall u :: u in t && u != user ==> r.value[u] == t[u])
  {
    var v :- PortfolioSchema.ValidatePortfolio(data, p);
    Ok(t[user := Row(v.totalAssetValue, v.cashPosition, Parsed(JArr(PortfolioSchema.HoldingsJson(v.holdings))))])
  }

  /** `delete_user_portfolio(user_id)`: true exactly when a row existed. */
  function Delete(t: Table, user: string): (r: (Table, bool))
    ensures r.1 <==> user in t
    ensures user !in r.0 && forall u :: u in t && u != user ==> u in r.0 && r.0[u] == t[u]
  {
    (t - {user}, user in t)
  }

  /** `get_or_create_default_portfolio(user_id)`: the stored portfolio, or the default; nothing is written. */
  function GetOrDefault(t: Table, user: string, p: PyConv.Parsers): (r: Result<PortfolioSchema.Portfolio, string>)
    ensures Get(t, user, p) == Ok(None) ==> r == Ok(PortfolioSchema.DefaultPortfolio)
    ensures Get(t, user, p).Ok? && Get(t, user, p).value.Some? ==> r == Ok(Get(t, user, p).value.value)
    ensures Get(t, user, p).Err? ==> r.Err?
  {
    var stored :- Get(t, user, p);
    Ok(stored.GetOr(PortfolioSchema.DefaultPortfolio))
  }

  /**
   * Round trip: after an upsert, reading the same user gives back the
   * validated portfolio (which filling defaults leaves unchanged).
   */
  lemma UpsertThenGet(t: Table, user: string, data: map<string, Value>, p: PyConv.Parsers)
    requires PortfolioSchema.ValidatePortfolio(data, p).Ok?
    ensures Upsert(t, user, data, p).Ok?
    ensures Get(Upsert(t, user, data, p).value, user, p) == Ok(Some(PortfolioSchema.ValidatePortfolio(data, p).value))
  {
    var v := PortfolioSchema.ValidatePortfolio(data, p).value;
    PortfolioSchema.NormalisedIsFixed(v, p);
    assert PortfolioSchema.PortfolioJson(v) == map["total_asset_value" := JNum(v.totalAssetValue),
      "cash_position" := JNum(v.cashPosition), "holdings" := JArr(PortfolioSchema.HoldingsJson(v.holdings))];
  }

  /** An upsert for one user leaves every other user's reading unchanged. */
  lemma UpsertIsolated(t: Table, user: string, other: string, data: map<string, Value>, p: PyConv.Parsers)
    requires Upsert(t, user, data, p).Ok? && other != user
    ensures Get(Upsert(t, user, data, p).value, other, p) == Get(t, other, p)
  {
  }

  /** After a delete the user reads as absent and gets the default portfolio. */
  lemma DeleteThenGet(t: Table, user: string, p: PyConv.Parsers)
    ensures Get(Delete(t, user).0, user, p) == Ok(None)
    ensures GetOrDefault(Delete(t, user).0, user, p) == Ok(PortfolioSchema.DefaultPortfolio)
  {
  }
}

=== FILE: portfolio_schema.dfy ===
/**
 * The portfolio document: a holding list with totals, its validation
 * (required keys, numeric conversion, optional fields) and the lenient
 * default filling used when reading it back.
 */
module PortfolioSchema {
  import opened Wrappers
  import opened Json
  import PyConv

  /**
   * A normalised holding. Name, category and percentage are taken as
   * given; the optional numbers are present only when given and not null;
   * status and note are stringified whenever their key is present.
   */
  datatype Holding = Holding(name: Value, category: Value, marketValue: real, percentage: Value,
                             costPrice: Option<real>, currentPrice: Option<real>, quantity: Option<real>,
                             status: Option<string>, note: Option<string>)

  datatype Portfolio = Portfolio(totalAssetValue: real, cashPosition: real, holdings: seq<Holding>)

  /** `DEFAULT_PORTFOLIO`. */
  const DefaultPortfolio: Portfolio := Portfolio(0.0, 0.0, [])

  // ---------------------------------------------------------------- JSON form

  function PutNum(m: map<string, Value>, key: string, x: Option<real>): map<string, Value> {
    if x.Some? then m[key := JNum(x.value)] else m
  }

  function PutStr(m: map<string, Value>, key: string, x: Option<string>): map<string, Value> {
    if x.Some? then m[key := JStr(x.value)] else m
  }

  /** The dict a normalised holding is: the optional fields appear exactly when set. */
  function HoldingJson(h: Holding): (r: map<string, Value>)
    ensures "name" in r && r["name"] == h.name
    ensures "category" in r && r["category"] == h.category
    ensures "market_value" in r && r["market_value"] == JNum(h.marketValue)
    ensures "percentage" in r && r["percentage"] == h.percentage
    ensures ("cost_price" in r <==> h.costPrice.Some?) && (h.costPrice.Some? ==> r["cost_price"] == JNum(h.costPrice.value))
    ensures ("current_price" in r <==> h.currentPrice.Some?) && (h.currentPrice.Some? ==> r["current_price"] == JNum(h.currentPrice.value))
    ensures ("quantity" in r <==> h.quantity.Some?) && (h.quantity.Some? ==> r["quantity"] == JNum(h.quantity.value))
    ensures ("status" in r <==> h.status.Some?) && (h.status.Some? ==> r["status"] == JStr(h.status.value))
    ensures ("note" in r <==> h.note.Some?) && (h.note.Some? ==> r["note"] == JStr(h.note.value))
  {
    var m0 := map["name" := h.name, "category" := h.category, "market_value" := JNum(h.marketValue), "percentage" := h.percentage];
    var m1 := PutNum(m0, "cost_price", h.costPrice);
    var m2 := PutNum(m1, "current_price", h.currentPrice);
    var m3 := PutNum(m2, "quantity", h.quantity);
    var m4 := PutStr(m3, "status", h.status);
    PutStr(m4, "note", h.note)
  }

  function HoldingsJson(hs: seq<Holding>): (r: seq<Value>)
    ensures |r| == |hs|
    ensures forall i :: 0 <= i < |hs| ==> r[i] == JObj(HoldingJson(hs[i]))
  {
    seq(|hs|, i requires 0 <= i < |hs| => JObj(HoldingJson(hs[i])))
  }

  /** The dict a normalised portfolio is. */
  function PortfolioJson(p: Portfolio): (r: map<string, Value>)
    ensures r.Keys == {"total_asset_value", "cash_position", "holdings"}
  {
    map["total_asset_value" := JNum(p.totalAssetValue), "cash_position" := JNum(p.cashPosition),
        "holdings" := JArr(HoldingsJson(p.holdings))]
  }

  // ---------------------------------------------------------------- validation

  /** An optional number is acceptable when it is absent, null, or converts with `float()`. */
  predicate Converts(f: map<string, Value>, key: string, p: PyConv.Parsers) {
    key !in f || f[key] == JNull || PyConv.Float(f[key], p).Ok?
  }

  /** An optional number: absent or null gives none; otherwise it must convert. */
  function OptionalFloat(f: map<string, Value>, key: string, p: PyConv.Parsers): (r: Result<Option<real>, string>)
    ensures r.Ok? <==> Converts(f, key, p)
    ensures key !in f || f[key] == JNull ==> r == Ok(None)
    ensures key in f && f[key].JNum? ==> r == Ok(Some(f[key].n))
    ensures r.Ok? && r.value.Some? ==> key in f && PyConv.Float(f[key], p) == Ok(r.value.value)
  {
    if key in f && f[key] != JNull then
      var x :- PyConv.Float(f[key], p);
      Ok(Some(x))
    else Ok(None)
  }

  /** An optional text: `str(value)` whenever the key is present. */
  function OptionalStr(f: map<string, Value>, key: string): (r: Option<string>)
    ensures r.Some? <==> key in f
    ensures r.Some? ==> r.value == PyStr(f[key])
  {
    if key in f then Some(PyStr(f[key])) else None
  }

  /**
   * `validate_holding(holding)`: the four main fields with their defaults
   * (`''`, `''`, 0.0, `'0%'`), then the optional ones. A holding that is not
   * a dict, or a value that does not convert, raises.
   */
  function ValidateHolding(h: Value, p: PyConv.Parsers): (r: Result<Holding, string>)
    ensures !h.JObj? ==> r == Err(NoAttribute(h, "get"))
    ensures r.Ok? ==> h.JObj? && var f := h.fields;
      && r.value.name == GetOr(f, "name", JStr("")) && r.value.category == GetOr(f, "category", JStr(""))
      && r.value.percentage == GetOr(f, "percentage", JStr("0%"))
      && PyConv.Float(GetOr(f, "market_value", JNum(0.0)), p) == Ok(r.value.marketValue)
      && (r.value.costPrice.Some? <==> "cost_price" in f && f["cost_price"] != JNull)
      && (r.value.currentPrice.Some? <==> "current_price" in f && f["current_price"] != JNull)
      && (r.value.quantity.Some? <==> "quantity" in f && f["quantity"] != JNull)
      && r.value.status == OptionalStr(f, "status") && r.value.note == OptionalStr(f, "note")
    ensures r.Ok? ==> var f := h.fields;
      && (r.value.costPrice.Some? ==> PyConv.Float(f["cost_price"], p) == Ok(r.value.costPrice.value))
      && (r.value.currentPrice.Some? ==> PyConv.Float(f["current_price"], p) == Ok(r.value.currentPrice.value))
      && (r.value.quantity.Some? ==> PyConv.Float(f["quantity"], p) == Ok(r.value.quantity.value))
    ensures h.JObj? ==> var f := h.fields;
      (r.Ok? <==> PyConv.Float(GetOr(f, "market_value", JNum(0.0)), p).Ok?
                  && Converts(f, "cost_price", p) && Converts(f, "current_price", p) && Converts(f, "quantity", p))
  {
    if !h.JObj? then Err(NoAttribute(h, "get"))
    else
      var f := h.fields;
      var mv :- PyConv.Float(GetOr(f, "market_value", JNum(0.0)), p);
      var cost :- OptionalFloat(f, "cost_price", p);
      var current :- OptionalFloat(f, "current_price", p);
      var quantity :- OptionalFloat(f, "quantity", p);
      Ok(Holding(GetOr(f, "name", JStr("")), GetOr(f, "category", JStr("")), mv, GetOr(f, "percentage", JStr("0%")),
                 cost, current, quantity, OptionalStr(f, "status"), OptionalStr(f, "note")))
  }

  /** A normalised holding validates to itself: `validate_holding` is idempotent. */
  lemma ValidateHoldingOfJson(h: Holding, p: PyConv.Parsers)
    ensures ValidateHolding(JObj(HoldingJson(h)), p) == Ok(h)
  {
    var f := HoldingJson(h);
    assert OptionalFloat(f, "cost_price", p) == Ok(h.costPrice);
    assert OptionalFloat(f, "current_price", p) == Ok(h.currentPrice);
    assert OptionalFloat(f, "quantity", p) == Ok(h.quantity);
  }

  /** The items of a holding list, validated in order; the first failure raises. */
  function ValidateItems(items: seq<Value>, p: PyConv.Parsers): (r: Result<seq<Holding>, string>)
    ensures r.Ok? ==> |r.value| == |items| && forall i :: 0 <= i < |items| ==> ValidateHolding(items[i], p) == Ok(r.value[i])
    ensures r.Err? <==> exists i :: 0 <= i < |items| && ValidateHolding(items[i], p).Err?
    decreases |items|
  {
    if |items| == 0 then Ok([])
    else
      var h :- ValidateHolding(items[0], p);
      var rest := ValidateItems(items[1..], p);
      if rest.Err? then
        var i :| 0 <= i < |items[1..]| && ValidateHolding(items[1..][i], p).Err?;
        assert items[i + 1] == items[1..][i];
        rest
      else
        var r := [h] + rest.value;
        assert forall i :: 1 <= i < |items| ==> items[i] == items[1..][i - 1];
        Ok(r)
  }

  /**
   * `for holding in portfolio['holdings']`: a list is validated item by item;
   * a string or dict iterates its characters or keys, which are not dicts
   * (so only an empty one passes); anything else is not iterable.
   */
  function ValidateHoldings(v: Value, p: PyConv.Parsers): (r: Result<seq<Holding>, string>)
    ensures v.JArr? ==> r == ValidateItems(v.items, p)
    ensures v.JStr? ==> (r.Ok? <==> |v.s| == 0)
    ensures v.JObj? ==> (r.Ok? <==> |v.fields| == 0)
    ensures v.JNull? || v.JNum? || v.JBool? ==> r.Err?
    ensures r.Ok? && !v.JArr? ==> r.value == []
  {
    match v
    case JArr(items) => ValidateItems(items, p)
    case JStr(s) => if |s| == 0 then Ok([]) else Err(NoAttribute(JStr(s[..1]), "get"))
    case JObj(m) => if |m| == 0 then Ok([]) else Err(NoAttribute(JStr(""), "get"))
    case _ => Err("'" + TypeName(v) + "' object is not iterable")
  }

  /**
   * `validate_portfolio(portfolio)`: the first missing key among
   * `total_asset_value`, `cash_position`, `holdings` raises; then the totals
   * are converted and every holding validated, in order.
   */
  function ValidatePortfolio(d: map<string, Value>, p: PyConv.Parsers): (r: Result<Portfolio, string>)
    ensures "total_asset_value" !in d ==> r == Err("缺少必填字段: total_asset_value")
    ensures "total_asset_value" in d && "cash_position" !in d ==> r == Err("缺少必填字段: cash_position")
    ensures "total_asset_value" in d && "cash_position" in d && "holdings" !in d ==> r == Err("缺少必填字段: holdings")
    ensures r.Ok? ==> (PyConv.Float(d["total_asset_value"], p) == Ok(r.value.totalAssetValue)
      && PyConv.Float(d["cash_position"], p) == Ok(r.value.cashPosition)
      && ValidateHoldings(d["holdings"], p) == Ok(r.value.holdings))
    ensures r.Ok? <==> && "total_asset_value" in d && "cash_position" in d && "holdings" in d
                       && PyConv.Float(d["total_asset_value"], p).Ok? && PyConv.Float(d["cash_position"], p).Ok?
                       && ValidateHoldings(d["holdings"], p).Ok?
  {
    if "total_asset_value" !in d then Err("缺少必填字段: total_asset_value")
    else if "cash_position" !in d then Err("缺少必填字段: cash_position")
    else if "holdings" !in d then Err("缺少必填字段: holdings")
    else
      var total :- PyConv.Float(d["total_asset_value"], p);
      var cash :- PyConv.Float(d["cash_position"], p);
      var hs :- ValidateHoldings(d["holdings"], p);
      Ok(Portfolio(total, cash, hs))
  }

  /**
   * `fill_defaults(portfolio)`: missing totals are 0.0 and the holdings are
   * validated only when they are a list, otherwise none. A missing key never
   * raises; a value that does not convert still does.
   */
  function FillDefaults(d: map<string, Value>, p: PyConv.Parsers): (r: Result<Portfolio, string>)
    ensures r.Ok? ==> (PyConv.Float(GetOr(d, "total_asset_value", JNum(0.0)), p) == Ok(r.value.totalAssetValue)
      && PyConv.Float(GetOr(d, "cash_position", JNum(0.0)), p) == Ok(r.value.cashPosition))
    ensures r.Ok? && !("holdings" in d && d["holdings"].JArr?) ==> r.value.holdings == []
    ensures "holdings" in d && d["holdings"].JArr? && r.Ok? ==> ValidateItems(d["holdings"].items, p) == Ok(r.value.holdings)
    ensures r.Ok? <==> && PyConv.Float(GetOr(d, "total_asset_value", JNum(0.0)), p).Ok?
                       && PyConv.Float(GetOr(d, "cash_position", JNum(0.0)), p).Ok?
                       && ("holdings" in d && d["holdings"].JArr? ==> ValidateItems(d["holdings"].items, p).Ok?)
  {
    var total :- PyConv.Float(GetOr(d, "total_asset_value", JNum(0.0)), p);
    var cash :- PyConv.Float(GetOr(d, "cash_position", JNum(0.0)), p);
    var hs :- if "holdings" in d && d["holdings"].JArr? then ValidateItems(d["holdings"].items, p) else Ok([]);
    Ok(Portfolio(total, cash, hs))
  }

  /**
   * The lenient reader agrees with the strict one wherever the strict one
   * accepts: a portfolio `validate_portfolio` takes is filled to the same result.
   */
  lemma FillDefaultsExtendsValidate(d: map<string, Value>, p: PyConv.Parsers)
    requires ValidatePortfolio(d, p).Ok?
    ensures FillDefaults(d, p) == ValidatePortfolio(d, p)
  {
  }

  /** With nothing given, filling defaults yields the default portfolio. */
  lemma FillDefaultsOfNothing(p: PyConv.Parsers)
    ensures FillDefaults(map[], p) == Ok(DefaultPortfolio)
  {
  }

  /** The holdings of a normalised portfolio validate back to themselves. */
  lemma ValidateItemsOfJson(hs: seq<Holding>, p: PyConv.Parsers)
    ensures ValidateItems(HoldingsJson(hs), p) == Ok(hs)
  {
    var items := HoldingsJson(hs);
    forall i | 0 <= i < |hs| ensures ValidateHolding(items[i], p) == Ok(hs[i]) {
      ValidateHoldingOfJson(hs[i], p);
    }
    var r := ValidateItems(items, p);
    assert r.Ok?;
    assert r.value == hs;
  }

  /**
   * A normalised portfolio is a fixed point of both functions: validating
   * it again, or filling its defaults, changes nothing.
   */
  lemma NormalisedIsFixed(v: Portfolio, p: PyConv.Parsers)
    ensures ValidatePortfolio(PortfolioJson(v), p) == Ok(v)
    ensures FillDefaults(PortfolioJson(v), p) == Ok(v)
  {
    ValidateItemsOfJson(v.holdings, p);
  }

  /** `validate_portfolio` is idempotent, and `fill_defaults` after it changes nothing. */
  lemma ValidateIdempotent(d: map<string, Value>, p: PyConv.Parsers)
    requires ValidatePortfolio(d, p).Ok?
    ensures ValidatePortfolio(PortfolioJson(ValidatePortfolio(d, p).value), p) == ValidatePortfolio(d, p)
    ensures FillDefaults(PortfolioJson(ValidatePortfolio(d, p).value), p) == ValidatePortfolio(d, p)
  {
    NormalisedIsFixed(ValidatePortfolio(d, p).value, p);
  }
}

=== FILE: principles_repository.dfy ===
/**
 * The investment-principles table: rows keyed by (user, profile), any number
 * of them flagged active, with active-profile selection by latest update.
 */
module PrinciplesRepository {
  import opened Wrappers
  import opened Json
  import PyConv
  import PrinciplesSchema
  import PySeq

  /** The JSON column: text that parses to a value, or text that does not parse. */
  datatype Stored = Parsed(value: Value) | Unparsable

  datatype Row = Row(user: string, profile: string, json: Stored, version: string, active: bool, updatedAt: nat)

  /** `user_investment_principles`, in storage order. */
  type Table = seq<Row>

  /** The conflict target `(user_id, profile_name)` is a key. */
  predicate Valid(t: Table) {
    forall i, j :: 0 <= i < j < |t| ==> t[i].user != t[j].user || t[i].profile != t[j].profile
  }

  /** A listing entry of `list_user_principles`. */
  datatype Entry = Entry(profile: string, version: string, active: bool, updatedAt: nat, principles: Value)

  // ---------------------------------------------------------------- lookup

  /** The position of the (user, profile) row. */
  function Find(t: Table, user: string, profile: string): (r: Option<nat>)
    ensures r.Some? ==> r.value < |t| && t[r.value].user == user && t[r.value].profile == profile
    ensures r.Some? ==> forall j :: r.value < j < |t| ==> !(t[j].user == user && t[j].profile == profile)
    ensures r.None? <==> forall i :: 0 <= i < |t| ==> !(t[i].user == user && t[i].profile == profile)
    decreases |t|
  {
    if |t| == 0 then None
    else if t[|t| - 1].user == user && t[|t| - 1].profile == profile then Some(|t| - 1)
    else Find(t[..|t| - 1], user, profile)
  }

  predicate IsActiveOf(row: Row, user: string) {
    row.user == user && row.active
  }

  /**
   * `WHERE user_id = ? AND is_active = 1 ORDER BY updated_at DESC LIMIT 1`:
   * an active row of the user with the latest update; among equal times the
   * earliest stored.
   */
  function LatestActive(t: Table, user: string): (r: Option<Row>)
    ensures r.None? <==> forall i :: 0 <= i < |t| ==> !IsActiveOf(t[i], user)
    ensures r.Some? ==> r.value in t && IsActiveOf(r.value, user)
    ensures r.Some? ==> forall i :: 0 <= i < |t| && IsActiveOf(t[i], user) ==> t[i].updatedAt <= r.value.updatedAt
    decreases |t|
  {
    if |t| == 0 then None
    else
      var rest := LatestActive(t[1..], user);
      assert forall i :: 1 <= i < |t| ==> t[i] == t[1..][i - 1];
      if !IsActiveOf(t[0], user) then rest
      else if rest.Some? && rest.value.updatedAt > t[0].updatedAt then rest
      else Some(t[0])
  }

  /** The row a lookup selects: by a non-empty profile name, else the latest active one. */
  function Select(t: Table, user: string, profile: Option<string>): (r: Option<Row>)
    ensures profile.Some? && |profile.value| > 0 ==>
              (r.Some? <==> Find(t, user, profile.value).Some?)
    ensures profile.Some? && |profile.value| > 0 && r.Some? ==> r.value == t[Find(t, user, profile.value).value]
    ensures !(profile.Some? && |profile.value| > 0) ==> r == LatestActive(t, user)
  {
    if profile.Some? && |profile.value| > 0 then
      var i := Find(t, user, profile.value);
      if i.Some? then Some(t[i.value]) else None
    else LatestActive(t, user)
  }

  /**
   * `get_user_principles(user_id, profile_name)`: none when no row is
   * selected or its JSON does not parse; otherwise the stored dict through
   * `fill_principles_defaults`. Stored JSON that is not a dict has no `get`.
   */
  function Get(t: Table, user: string, profile: Option<string>, p: PyConv.Parsers)
    : (r: Result<Option<PrinciplesSchema.Principles>, string>)
    ensures Select(t, user, profile).None? ==> r == Ok(None)
    ensures Select(t, user, profile).Some? && Select(t, user, profile).value.json.Unparsable? ==> r == Ok(None)
    ensures r.Ok? && r.value.Some? ==> (Select(t, user, profile).Some? && Select(t, user, profile).value.json.Parsed?
      && Select(t, user, profile).value.json.value.JObj?
      && r.value.value == PrinciplesSchema.FillPrinciplesDefaults(Select(t, user, profile).value.json.value.fields, p))
    ensures (Select(t, user, profile).Some? && Select(t, user, profile).value.json.Parsed?
             && Select(t, user, profile).value.json.value.JObj?) ==>
      r == Ok(Some(PrinciplesSchema.FillPrinciplesDefaults(Select(t, user, profile).value.json.value.fields, p)))
    ensures r.Err? <==> (Select(t, user, profile).Some? && Select(t, user, profile).value.json.Parsed?
                        && !Select(t, user, profile).value.json.value.JObj?)
    ensures r.Err? ==> r.error == NoAttribute(Select(t, user, profile).value.json.value, "get")
  {
    var row := Select(t, user, profile);
    if row.None? || row.value.json.Unparsable? then Ok(None)
    else
      var v := row.value.json.value;
      if !v.JObj? then Err(NoAttribute(v, "get"))
      else Ok(Some(PrinciplesSchema.FillPrinciplesDefaults(v.fields, p)))
  }

  /** `get_active_principles(user_id)`: the active profile, or the default profile. */
  function GetActive(t: Table, user: string, p: PyConv.Parsers): (r: Result<PrinciplesSchema.Principles, string>)
    ensures (forall i :: 0 <= i < |t| ==> !IsActiveOf(t[i], user)) ==> r == Ok(PrinciplesSchema.DefaultPrinciples)
    ensures Get(t, user, None, p).Ok? && Get(t, user, None, p).value.Some? ==> r == Ok(Get(t, user, None, p).value.value)
    ensures Get(t, user, None, p).Err? ==> r == Err(Get(t, user, None, p).error)
    ensures (LatestActive(t, user).Some? && LatestActive(t, user).value.json.Unparsable?) ==>
      r == Ok(PrinciplesSchema.DefaultPrinciples)
    ensures (LatestActive(t, user).Some? && LatestActive(t, user).value.json.Parsed?
             && LatestActive(t, user).value.json.value.JObj?) ==>
      r == Ok(PrinciplesSchema.FillPrinciplesDefaults(LatestActive(t, user).value.json.value.fields, p))
  {
    var stored :- Get(t, user, None, p);
    Ok(stored.GetOr(PrinciplesSchema.DefaultPrinciples))
  }

  // ---------------------------------------------------------------- writes

  /**
   * `upsert_user_principles(user_id, data, is_active)`: validation first;
   * then the (user, validated profile name) row gets the normalised JSON,
   * version, active flag and update time, or is appended. Other rows keep
   * their flags.
   */
  function Upsert(t: Table, user: string, data: map<string, Value>, active: bool, now: nat, p: PyConv.Parsers)
    : (r: Result<Table, string>)
    ensures r.Err? <==> PrinciplesSchema.ValidatePrinciples(data, p).Err?
    ensures r.Ok? ==> r.value == Write(t, Written(user, PrinciplesSchema.ValidatePrinciples(data, p).value, active, now))
  {
    var v :- PrinciplesSchema.ValidatePrinciples(data, p);
    Ok(Write(t, Written(user, v, active, now)))
  }

  /** The row an upsert writes: the normalised JSON under the validated profile name. */
  function Written(user: string, v: PrinciplesSchema.Principles, active: bool, now: nat): (r: Row)
    ensures r.user == user && r.profile == v.profileName && r.version == v.version && r.active == active
    ensures r.json == Parsed(JObj(PrinciplesSchema.PrinciplesJson(v)))
  {
    Row(user, v.profileName, Parsed(JObj(PrinciplesSchema.PrinciplesJson(v))), v.version, active, now)
  }

  /**
   * `INSERT ... ON CONFLICT(user_id, profile_name) DO UPDATE`: the row with
   * the same key is replaced in place, or the row is appended; every row
   * with another key stays.
   */
  function Write(t: Table, row: Row): (r: Table)
    ensures Find(r, row.user, row.profile).Some? && r[Find(r, row.user, row.profile).value] == row
    ensures forall i :: 0 <= i < |r| && r[i] != row ==> r[i] in t
    ensures forall i :: 0 <= i < |t| && !(t[i].user == row.user && t[i].profile == row.profile) ==> t[i] in r
  {
    match Find(t, row.user, row.profile)
    case Some(i) =>
      var r := t[i := row];
      assert forall j :: 0 <= j < |t| && j != i ==> r[j] == t[j];
      FindAt(r, row.user, row.profile, i);
      r
    case None =>
      var r := t + [row];
      assert r[|t|] == row;
      r
  }

  /** `delete_user_principles(user_id, profile_name)`: one profile when named, else all of the user's. */
  predicate Deleted(row: Row, user: string, profile: Option<string>) {
    row.user == user && (profile.Some? && |profile.value| > 0 ==> row.profile == profile.value)
  }

  function Delete(t: Table, user: string, profile: Option<string>): (r: (Table, bool))
    ensures forall i :: 0 <= i < |r.0| ==> !Deleted(r.0[i], user, profile) && r.0[i] in t
    ensures forall i :: 0 <= i < |t| && !Deleted(t[i], user, profile) ==> t[i] in r.0
    ensures r.1 <==> exists i :: 0 <= i < |t| && Deleted(t[i], user, profile)
    decreases |t|
  {
    if |t| == 0 then ([], false)
    else
      var rest := Delete(t[1..], user, profile);
      assert forall i :: 1 <= i < |t| ==> t[i] == t[1..][i - 1];
      if Deleted(t[0], user, profile) then (rest.0, true)
      else ([t[0]] + rest.0, rest.1)
  }

  /** One row after `set_active_principles`: the user's rows are all switched off, then the named one on. */
  function Activate(row: Row, user: string, profile: string, now: nat): (r: Row)
    ensures r.user == row.user && r.profile == row.profile && r.json == row.json && r.version == row.version
    ensures row.user == user ==> (r.active <==> row.profile == profile)
    ensures row.user != user ==> r == row
  {
    if row.user != user then row
    else if row.profile == profile then row.(active := true, updatedAt := now)
    else row.(active := false)
  }

  /**
   * `set_active_principles(user_id, profile_name)`: true exactly when the
   * named profile exists. Afterwards it is the user's only active profile,
   * and when it does not exist the user has none.
   */
  function SetActive(t: Table, user: string, profile: string, now: nat): (r: (Table, bool))
    ensures |r.0| == |t|
    ensures forall i :: 0 <= i < |t| ==> r.0[i] == Activate(t[i], user, profile, now)
    ensures r.1 <==> Find(t, user, profile).Some?
  {
    (seq(|t|, i requires 0 <= i < |t| => Activate(t[i], user, profile, now)), Find(t, user, profile).Some?)
  }

  /** `list_user_principles(user_id)`: the user's rows, latest update first, skipping unparsable JSON. */
  function Entries(rows: seq<(real, Row)>): (r: seq<Entry>)
    requires forall k :: 0 <= k < |rows| ==> rows[k].0 == rows[k].1.updatedAt as real
    requires PySeq.SortedDesc(rows)
    ensures |r| <= |rows|
    ensures forall e :: e in r ==> exists i :: 0 <= i < |rows| && rows[i].1.json.Parsed? && EntryOf(rows[i].1) == e
    ensures forall i, j :: 0 <= i < j < |r| ==> r[i].updatedAt >= r[j].updatedAt
    decreases |rows|
  {
    if |rows| == 0 then []
    else
      var rest := Entries(rows[1..]);
      assert forall i :: 1 <= i < |rows| ==> rows[i] == rows[1..][i - 1];
      if rows[0].1.json.Unparsable? then rest
      else
        assert forall e :: e in rest ==> e.updatedAt <= rows[0].1.updatedAt;
        [EntryOf(rows[0].1)] + rest
  }

  function EntryOf(row: Row): Entry
    requires row.json.Parsed?
  {
    Entry(row.profile, row.version, row.active, row.updatedAt, row.json.value)
  }

  function OfUser(t: Table, user: string): (r: seq<(real, Row)>)
    ensures forall x :: x in r <==> x.1 in t && x.1.user == user && x.0 == x.1.updatedAt as real
    decreases |t|
  {
    if |t| == 0 then []
    else
      var rest := OfUser(t[1..], user);
      assert forall x :: x in t <==> x == t[0] || x in t[1..];
      if t[0].user == user then [(t[0].updatedAt as real, t[0])] + rest else rest
  }

  function List(t: Table, user: string): (r: seq<Entry>)
    ensures forall e :: e in r ==> exists row :: row in t && row.user == user && row.json.Parsed? && EntryOf(row) == e
    ensures forall i, j :: 0 <= i < j < |r| ==> r[i].updatedAt >= r[j].updatedAt
  {
    var sorted := PySeq.SortDesc(OfUser(t, user));
    PySeq.SortDescMembers(OfUser(t, user));
    assert forall k :: 0 <= k < |sorted| ==> sorted[k] in OfUser(t, user);
    Entries(sorted)
  }

  // ---------------------------------------------------------------- properties

  /** The key positions of a valid table are unique: the only match is the one found. */
  lemma FindUnique(t: Table, user: string, profile: string, i: nat)
    requires Valid(t) && i < |t| && t[i].user == user && t[i].profile == profile
    ensures Find(t, user, profile) == Some(i)
  {
  }

  /** The last row with the key is the one found. */
  lemma {:induction false} FindAt(t: Table, user: string, profile: string, i: nat)
    requires i < |t| && t[i].user == user && t[i].profile == profile
    requires forall j :: i < j < |t| ==> !(t[j].user == user && t[j].profile == profile)
    ensures Find(t, user, profile) == Some(i)
  {
    if i < |t| - 1 {
      FindAt(t[..|t| - 1], user, profile, i);
    }
  }

  lemma WriteValid(t: Table, row: Row)
    requires Valid(t)
    ensures Valid(Write(t, row))
  {
    match Find(t, row.user, row.profile)
    case Some(i) =>
      assert Write(t, row) == t[i := row];
    case None =>
      assert Write(t, row) == t + [row];
  }

  /**
   * Round trip: after an upsert, reading the profile by name gives back the
   * validated profile.
   */
  lemma UpsertThenGet(t: Table, user: string, data: map<string, Value>, active: bool, now: nat, p: PyConv.Parsers)
    requires PrinciplesSchema.ValidatePrinciples(data, p).Ok?
    requires |PrinciplesSchema.ValidatePrinciples(data, p).value.profileName| > 0
    ensures Upsert(t, user, data, active, now, p).Ok?
    ensures var v := PrinciplesSchema.ValidatePrinciples(data, p).value;
            Get(Upsert(t, user, data, active, now, p).value, user, Some(v.profileName), p) == Ok(Some(v))
  {
    var v := PrinciplesSchema.ValidatePrinciples(data, p).value;
    var row := Written(user, v, active, now);
    var t2 := Write(t, row);
    assert Upsert(t, user, data, active, now, p) == Ok(t2);
    SelectWritten(t, row);
    GetStored(t2, user, v, row, p);
  }

  lemma SelectWritten(t: Table, row: Row)
    requires |row.profile| > 0
    ensures Select(Write(t, row), row.user, Some(row.profile)) == Some(row)
  {
  }

  lemma GetStored(t: Table, user: string, v: PrinciplesSchema.Principles, row: Row, p: PyConv.Parsers)
    requires |v.profileName| > 0 && Select(t, user, Some(v.profileName)) == Some(row)
    requires row.json == Parsed(JObj(PrinciplesSchema.PrinciplesJson(v)))
    ensures Get(t, user, Some(v.profileName), p) == Ok(Some(v))
  {
    PrinciplesSchema.NormalisedIsFixed(v, p);
  }

  /** With no profile active, the active profile is the default one. */
  lemma NoActiveGivesDefault(t: Table, user: string, p: PyConv.Parsers)
    requires forall i :: 0 <= i < |t| ==> !IsActiveOf(t[i], user)
    ensures GetActive(t, user, p) == Ok(PrinciplesSchema.DefaultPrinciples)
  {
  }

  /**
   * After `set_active_principles` the user has at most one active profile:
   * the named one when it exists, and none otherwise; the latest-active
   * lookup then selects exactly that row.
   */
  lemma SetActiveLeavesAtMostOne(t: Table, user: string, profile: string, now: nat)
    requires Valid(t)
    ensures var (r, ok) := SetActive(t, user, profile, now);
      && (forall i :: 0 <= i < |r| && IsActiveOf(r[i], user) ==> r[i].profile == profile)
      && (forall i, j :: 0 <= i < j < |r| ==> !(IsActiveOf(r[i], user) && IsActiveOf(r[j], user)))
      && (!ok ==> LatestActive(r, user).None?)
      && (ok ==> LatestActive(r, user) == Some(r[Find(t, user, profile).value]))
  {
    var (r, ok) := SetActive(t, user, profile, now);
    if ok {
      var k := Find(t, user, profile).value;
      var latest := LatestActive(r, user);
      assert IsActiveOf(r[k], user);
      assert latest.Some?;
      var j :| 0 <= j < |r| && r[j] == latest.value;
      assert r[j].profile == profile && r[j].user == user;
      assert t[j].user == user && t[j].profile == profile;
      FindUnique(t, user, profile, j);
    }
  }

  /** Naming a profile that does not exist leaves the user with no active profile. */
  lemma FailedSetActiveLeavesNone(t: Table, user: string, profile: string, now: nat, p: PyConv.Parsers)
    requires Valid(t) && Find(t, user, profile).None?
    ensures !SetActive(t, user, profile, now).1
    ensures GetActive(SetActive(t, user, profile, now).0, user, p) == Ok(PrinciplesSchema.DefaultPrinciples)
  {
    SetActiveLeavesAtMostOne(t, user, profile, now);
  }

  /** After deleting a named profile, looking it up by name finds nothing. */
  lemma DeleteThenGet(t: Table, user: string, profile: string, p: PyConv.Parsers)
    requires |profile| > 0
    ensures Get(Delete(t, user, Some(profile)).0, user, Some(profile), p) == Ok(None)
  {
    var r := Delete(t, user, Some(profile)).0;
    if Find(r, user, profile).Some? {
      var i := Find(r, user, profile).value;
      assert Deleted(r[i], user, Some(profile));
    }
  }

  /** Listing keeps every parsable row of the user and drops the rest. */
  lemma ListKeepsParsable(t: Table, user: string, i: nat)
    requires i < |t| && t[i].user == user && t[i].json.Parsed?
    ensures EntryOf(t[i]) in List(t, user)
  {
    var rows := OfUser(t, user);
    var x := (t[i].updatedAt as real, t[i]);
    assert x in rows;
    PySeq.SortDescMembers(rows);
    var sorted := PySeq.SortDesc(rows);
    assert forall k :: 0 <= k < |sorted| ==> sorted[k] in rows;
    EntriesKeep(sorted, x);
  }

  lemma {:induction false} EntriesKeep(rows: seq<(real, Row)>, x: (real, Row))
    requires forall k :: 0 <= k < |rows| ==> rows[k].0 == rows[k].1.updatedAt as real
    requires PySeq.SortedDesc(rows)
    requires x in rows && x.1.json.Parsed?
    ensures EntryOf(x.1) in Entries(rows)
    decreases |rows|
  {
    if rows[0] != x {
      assert x in rows[1..];
      EntriesKeep(rows[1..], x);
    }
  }
}

=== FILE: principles_schema.dfy ===
/**
 * Investment principles: the position-weight rules, the drawdown rules,
 * their validation with per-field defaults, and the lenient default filling
 * used when a stored profile is read back.
 */
module PrinciplesSchema {
  import opened Wrappers
  import opened Json
  import PyConv

  datatype ThreeLow = ThreeLow(lowLeverage: bool, lowCorrelation: bool, lowConcentration: bool)

  datatype WeightManagement = WeightManagement(
    initial: real, maxNormal: real, maxExtreme: real, extremeCondition: string,
    positionMin: int, positionMax: int, marketMin: int, marketMax: int, threeLow: ThreeLow)

  datatype DrawdownControl = DrawdownControl(stopLossAvg: real, navStepTrigger: real, reduceRatioPerStep: real,
                                             annualAdjustmentMax: real)

  datatype Principles = Principles(profileName: string, version: string, lastUpdated: string,
                                   weightManagement: WeightManagement, drawdownControl: DrawdownControl)

  const ExtremeCondition: string := "分析师命中率极高且回撤受控"
  const DefaultProfileName: string := "default_investment_principles"
  const DefaultVersion: string := "1.0"
  const DefaultLastUpdated: string := "2026-01-20"

  /** `DEFAULT_THREE_LOW`. */
  const DefaultThreeLow: ThreeLow := ThreeLow(true, true, true)
  /** `DEFAULT_WEIGHT_MANAGEMENT`. */
  const DefaultWeightManagement: WeightManagement :=
    WeightManagement(0.02, 0.1, 0.2, ExtremeCondition, 5, 10, 6, 9, DefaultThreeLow)
  /** `DEFAULT_DRAWDOWN_CONTROL`. */
  const DefaultDrawdownControl: DrawdownControl := DrawdownControl(-0.128, 0.025, 0.2, 0.1)
  /** `DEFAULT_PRINCIPLES`. */
  const DefaultPrinciples: Principles :=
    Principles(DefaultProfileName, DefaultVersion, DefaultLastUpdated, DefaultWeightManagement, DefaultDrawdownControl)

  // ---------------------------------------------------------------- JSON form

  function ThreeLowJson(t: ThreeLow): (r: map<string, Value>)
    ensures "low_leverage" in r && r["low_leverage"] == JBool(t.lowLeverage)
    ensures "low_correlation" in r && r["low_correlation"] == JBool(t.lowCorrelation)
    ensures "low_concentration" in r && r["low_concentration"] == JBool(t.lowConcentration)
  {
    map["low_leverage" := JBool(t.lowLeverage), "low_correlation" := JBool(t.lowCorrelation),
        "low_concentration" := JBool(t.lowConcentration)]
  }

  function WeightManagementJson(w: WeightManagement): (r: map<string, Value>)
    ensures "single_position_initial" in r && r["single_position_initial"] == JNum(w.initial)
    ensures "single_position_max_normal" in r && r["single_position_max_normal"] == JNum(w.maxNormal)
    ensures "single_position_max_extreme" in r && r["single_position_max_extreme"] == JNum(w.maxExtreme)
    ensures "extreme_condition" in r && r["extreme_condition"] == JStr(w.extremeCondition)
    ensures "target_position_count_min" in r && r["target_position_count_min"] == PyConv.IntValue(w.positionMin)
    ensures "target_position_count_max" in r && r["target_position_count_max"] == PyConv.IntValue(w.positionMax)
    ensures "target_market_count_min" in r && r["target_market_count_min"] == PyConv.IntValue(w.marketMin)
    ensures "target_market_count_max" in r && r["target_market_count_max"] == PyConv.IntValue(w.marketMax)
    ensures "three_low_principle" in r && r["three_low_principle"] == JObj(ThreeLowJson(w.threeLow))
  {
    map["single_position_initial" := JNum(w.initial), "single_position_max_normal" := JNum(w.maxNormal),
        "single_position_max_extreme" := JNum(w.maxExtreme), "extreme_condition" := JStr(w.extremeCondition),
        "target_position_count_min" := PyConv.IntValue(w.positionMin),
        "target_position_count_max" := PyConv.IntValue(w.positionMax),
        "target_market_count_min" := PyConv.IntValue(w.marketMin),
        "target_market_count_max" := PyConv.IntValue(w.marketMax),
        "three_low_principle" := JObj(ThreeLowJson(w.threeLow))]
  }

  function DrawdownControlJson(d: DrawdownControl): (r: map<string, Value>)
    ensures "single_stock_stop_loss_avg" in r && r["single_stock_stop_loss_avg"] == JNum(d.stopLossAvg)
    ensures "portfolio_nav_step_trigger" in r && r["portfolio_nav_step_trigger"] == JNum(d.navStepTrigger)
    ensures "portfolio_reduce_ratio_per_step" in r && r["portfolio_reduce_ratio_per_step"] == JNum(d.reduceRatioPerStep)
    ensures "annual_nav_adjustment_max" in r && r["annual_nav_adjustment_max"] == JNum(d.annualAdjustmentMax)
  {
    map["single_stock_stop_loss_avg" := JNum(d.stopLossAvg), "portfolio_nav_step_trigger" := JNum(d.navStepTrigger),
        "portfolio_reduce_ratio_per_step" := JNum(d.reduceRatioPerStep),
        "annual_nav_adjustment_max" := JNum(d.annualAdjustmentMax)]
  }

  /** The dict a normalised profile is. */
  function PrinciplesJson(p: Principles): (r: map<string, Value>)
    ensures r.Keys == {"profile_name", "version", "last_updated", "weight_management", "drawdown_control"}
  {
    map["profile_name" := JStr(p.profileName), "version" := JStr(p.version), "last_updated" := JStr(p.lastUpdated),
        "weight_management" := JObj(WeightManagementJson(p.weightManagement)),
        "drawdown_control" := JObj(DrawdownControlJson(p.drawdownControl))]
  }

  // ---------------------------------------------------------------- validation

  /** `float(d.get(key, default))`. */
  function FloatOr(d: map<string, Value>, key: string, default: real, p: PyConv.Parsers): (r: Result<real, string>)
    ensures key !in d ==> r == Ok(default)
    ensures key in d ==> r == PyConv.Float(d[key], p)
  {
    PyConv.Float(GetOr(d, key, JNum(default)), p)
  }

  /** `int(d.get(key, default))`. */
  function IntOr(d: map<string, Value>, key: string, default: int, p: PyConv.Parsers): (r: Result<int, string>)
    ensures key !in d ==> r == Ok(default)
    ensures key in d ==> r == PyConv.Int(d[key], p)
  {
    PyConv.Int(GetOr(d, key, PyConv.IntValue(default)), p)
  }

  /** `bool(d.get(key, True))`: Python truthiness, true when absent. */
  function FlagOr(d: map<string, Value>, key: string): (r: bool)
    ensures key !in d ==> r
    ensures key in d ==> (r <==> Truthy(d[key]))
  {
    Truthy(GetOr(d, key, JBool(true)))
  }

  /** The three flags; a section that is not a dict has no `get` and raises. */
  function ValidateThreeLow(v: Value): (r: Result<ThreeLow, string>)
    ensures r.Ok? <==> v.JObj?
    ensures r.Ok? ==> r.value == ThreeLow(FlagOr(v.fields, "low_leverage"), FlagOr(v.fields, "low_correlation"),
                                          FlagOr(v.fields, "low_concentration"))
  {
    if !v.JObj? then Err(NoAttribute(v, "get"))
    else Ok(ThreeLow(FlagOr(v.fields, "low_leverage"), FlagOr(v.fields, "low_correlation"),
                     FlagOr(v.fields, "low_concentration")))
  }

  /**
   * `validate_weight_management(wm)`: every field converted with its own
   * default when missing (0.02, 0.06, 0.08, the condition text, 50, 70, 6, 9),
   * then the three flags, each true by default.
   */
  function ValidateWeightManagement(v: Value, p: PyConv.Parsers): (r: Result<WeightManagement, string>)
    ensures !v.JObj? ==> r == Err(NoAttribute(v, "get"))
    ensures r.Ok? ==> v.JObj? && var d := v.fields;
      && FloatOr(d, "single_position_initial", 0.02, p) == Ok(r.value.initial)
      && FloatOr(d, "single_position_max_normal", 0.06, p) == Ok(r.value.maxNormal)
      && FloatOr(d, "single_position_max_extreme", 0.08, p) == Ok(r.value.maxExtreme)
      && r.value.extremeCondition == PyStr(GetOr(d, "extreme_condition", JStr(ExtremeCondition)))
      && IntOr(d, "target_position_count_min", 50, p) == Ok(r.value.positionMin)
      && IntOr(d, "target_position_count_max", 70, p) == Ok(r.value.positionMax)
      && IntOr(d, "target_market_count_min", 6, p) == Ok(r.value.marketMin)
      && IntOr(d, "target_market_count_max", 9, p) == Ok(r.value.marketMax)
      && ValidateThreeLow(GetOr(d, "three_low_principle", JObj(map[]))) == Ok(r.value.threeLow)
    ensures v.JObj? ==> var d := v.fields;
      (r.Ok? <==> && FloatOr(d, "single_position_initial", 0.02, p).Ok?
                  && FloatOr(d, "single_position_max_normal", 0.06, p).Ok?
                  && FloatOr(d, "single_position_max_extreme", 0.08, p).Ok?
                  && IntOr(d, "target_position_count_min", 50, p).Ok?
                  && IntOr(d, "target_position_count_max", 70, p).Ok?
                  && IntOr(d, "target_market_count_min", 6, p).Ok?
                  && IntOr(d, "target_market_count_max", 9, p).Ok?
                  && ValidateThreeLow(GetOr(d, "three_low_principle", JObj(map[]))).Ok?)
  {
    if !v.JObj? then Err(NoAttribute(v, "get"))
    else
      var d := v.fields;
      var initial :- FloatOr(d, "single_position_initial", 0.02, p);
      var maxNormal :- FloatOr(d, "single_position_max_normal", 0.06, p);
      var maxExtreme :- FloatOr(d, "single_position_max_extreme", 0.08, p);
      var condition := PyStr(GetOr(d, "extreme_condition", JStr(ExtremeCondition)));
      var positionMin :- IntOr(d, "target_position_count_min", 50, p);
      var positionMax :- IntOr(d, "target_position_count_max", 70, p);
      var marketMin :- IntOr(d, "target_market_count_min", 6, p);
      var marketMax :- IntOr(d, "target_market_count_max", 9, p);
      var threeLow :- ValidateThreeLow(GetOr(d, "three_low_principle", JObj(map[])));
      Ok(WeightManagement(initial, maxNormal, maxExtreme, condition, positionMin, positionMax, marketMin, marketMax,
                          threeLow))
  }

  /** `validate_drawdown_control(dc)`: defaults −0.128, 0.025, 0.2 and 0.1. */
  function ValidateDrawdownControl(v: Value, p: PyConv.Parsers): (r: Result<DrawdownControl, string>)
    ensures !v.JObj? ==> r == Err(NoAttribute(v, "get"))
    ensures r.Ok? ==> v.JObj? && var d := v.fields;
      && FloatOr(d, "single_stock_stop_loss_avg", -0.128, p) == Ok(r.value.stopLossAvg)
      && FloatOr(d, "portfolio_nav_step_trigger", 0.025, p) == Ok(r.value.navStepTrigger)
      && FloatOr(d, "portfolio_reduce_ratio_per_step", 0.2, p) == Ok(r.value.reduceRatioPerStep)
      && FloatOr(d, "annual_nav_adjustment_max", 0.1, p) == Ok(r.value.annualAdjustmentMax)
    ensures v.JObj? ==> var d := v.fields;
      (r.Ok? <==> && FloatOr(d, "single_stock_stop_loss_avg", -0.128, p).Ok?
                  && FloatOr(d, "portfolio_nav_step_trigger", 0.025, p).Ok?
                  && FloatOr(d, "portfolio_reduce_ratio_per_step", 0.2, p).Ok?
                  && FloatOr(d, "annual_nav_adjustment_max", 0.1, p).Ok?)
  {
    if !v.JObj? then Err(NoAttribute(v, "get"))
    else
      var d := v.fields;
      var stopLoss :- FloatOr(d, "single_stock_stop_loss_avg", -0.128, p);
      var trigger :- FloatOr(d, "portfolio_nav_step_trigger", 0.025, p);
      var ratio :- FloatOr(d, "portfolio_reduce_ratio_per_step", 0.2, p);
      var annual :- FloatOr(d, "annual_nav_adjustment_max", 0.1, p);
      Ok(DrawdownControl(stopLoss, trigger, ratio, annual))
  }

  /**
   * `validate_principles(principles)`: the first missing key among
   * `profile_name`, `weight_management`, `drawdown_control` raises; version
   * defaults to "1.0" and the update date to the empty string.
   */
  function ValidatePrinciples(d: map<string, Value>, p: PyConv.Parsers): (r: Result<Principles, string>)
    ensures "profile_name" !in d ==> r == Err("缺少必填字段: profile_name")
    ensures "profile_name" in d && "weight_management" !in d ==> r == Err("缺少必填字段: weight_management")
    ensures "profile_name" in d && "weight_management" in d && "drawdown_control" !in d
            ==> r == Err("缺少必填字段: drawdown_control")
    ensures r.Ok? <==> (&& "profile_name" in d && "weight_management" in d && "drawdown_control" in d
                        && ValidateWeightManagement(d["weight_management"], p).Ok?
                        && ValidateDrawdownControl(d["drawdown_control"], p).Ok?)
    ensures r.Ok? ==> (&& r.value.profileName == PyStr(d["profile_name"])
                       && r.value.version == PyStr(GetOr(d, "version", JStr(DefaultVersion)))
                       && r.value.lastUpdated == PyStr(GetOr(d, "last_updated", JStr("")))
                       && r.value.weightManagement == ValidateWeightManagement(d["weight_management"], p).value
                       && r.value.drawdownControl == ValidateDrawdownControl(d["drawdown_control"], p).value)
  {
    if "profile_name" !in d then Err("缺少必填字段: profile_name")
    else if "weight_management" !in d then Err("缺少必填字段: weight_management")
    else if "drawdown_control" !in d then Err("缺少必填字段: drawdown_control")
    else
      var wm :- ValidateWeightManagement(d["weight_management"], p);
      var dc :- ValidateDrawdownControl(d["drawdown_control"], p);
      Ok(Principles(PyStr(d["profile_name"]), PyStr(GetOr(d, "version", JStr(DefaultVersion))),
                    PyStr(GetOr(d, "last_updated", JStr(""))), wm, dc))
  }

  /** A section that is present and validates; the default copy otherwise. */
  function SectionOr<T>(d: map<string, Value>, key: string, validated: Value -> Result<T, string>, default: T): (r: T)
    ensures key !in d ==> r == default
    ensures key in d && validated(d[key]).Ok? ==> r == validated(d[key]).value
    ensures key in d && validated(d[key]).Err? ==> r == default
  {
    if key in d && validated(d[key]).Ok? then validated(d[key]).value else default
  }

  /**
   * `fill_principles_defaults(principles)`: never fails. The names default
   * to the default profile's, and a missing section, or one whose validation
   * raises, is replaced by the default section.
   */
  function FillPrinciplesDefaults(d: map<string, Value>, p: PyConv.Parsers): (r: Principles)
    ensures r.profileName == PyStr(GetOr(d, "profile_name", JStr(DefaultProfileName)))
    ensures r.version == PyStr(GetOr(d, "version", JStr(DefaultVersion)))
    ensures r.lastUpdated == PyStr(GetOr(d, "last_updated", JStr(DefaultLastUpdated)))
    ensures ("weight_management" in d && ValidateWeightManagement(d["weight_management"], p).Ok?)
            ==> r.weightManagement == ValidateWeightManagement(d["weight_management"], p).value
    ensures !("weight_management" in d && ValidateWeightManagement(d["weight_management"], p).Ok?)
            ==> r.weightManagement == DefaultWeightManagement
    ensures ("drawdown_control" in d && ValidateDrawdownControl(d["drawdown_control"], p).Ok?)
            ==> r.drawdownControl == ValidateDrawdownControl(d["drawdown_control"], p).value
    ensures !("drawdown_control" in d && ValidateDrawdownControl(d["drawdown_control"], p).Ok?)
            ==> r.drawdownControl == DefaultDrawdownControl
  {
    Principles(PyStr(GetOr(d, "profile_name", JStr(DefaultProfileName))),
               PyStr(GetOr(d, "version", JStr(DefaultVersion))),
               PyStr(GetOr(d, "last_updated", JStr(DefaultLastUpdated))),
               SectionOr(d, "weight_management", v => ValidateWeightManagement(v, p), DefaultWeightManagement),
               SectionOr(d, "drawdown_control", v => ValidateDrawdownControl(v, p), DefaultDrawdownControl))
  }

  // ---------------------------------------------------------------- properties

  /** A normalised weight section validates to itself. */
  lemma WeightManagementOfJson(w: WeightManagement, p: PyConv.Parsers)
    ensures ValidateWeightManagement(JObj(WeightManagementJson(w)), p) == Ok(w)
  {
    var d := WeightManagementJson(w);
    assert ValidateThreeLow(d["three_low_principle"]) == Ok(w.threeLow);
  }

  /** A normalised drawdown section validates to itself. */
  lemma DrawdownControlOfJson(c: DrawdownControl, p: PyConv.Parsers)
    ensures ValidateDrawdownControl(JObj(DrawdownControlJson(c)), p) == Ok(c)
  {
  }

  /**
   * A normalised profile is a fixed point: validating it again, or filling
   * its defaults, gives it back.
   */
  lemma NormalisedIsFixed(v: Principles, p: PyConv.Parsers)
    ensures ValidatePrinciples(PrinciplesJson(v), p) == Ok(v)
    ensures FillPrinciplesDefaults(PrinciplesJson(v), p) == v
  {
    WeightManagementOfJson(v.weightManagement, p);
    DrawdownControlOfJson(v.drawdownControl, p);
  }

  /** `validate_principles` is idempotent. */
  lemma ValidateIdempotent(d: map<string, Value>, p: PyConv.Parsers)
    requires ValidatePrinciples(d, p).Ok?
    ensures ValidatePrinciples(PrinciplesJson(ValidatePrinciples(d, p).value), p) == ValidatePrinciples(d, p)
  {
    NormalisedIsFixed(ValidatePrinciples(d, p).value, p);
  }

  /**
   * On a profile that validates, filling defaults agrees with validating
   * exactly when the update date is given: validation defaults it to the
   * empty string, filling to "2026-01-20".
   */
  lemma FillAgreesWithValidate(d: map<string, Value>, p: PyConv.Parsers)
    requires ValidatePrinciples(d, p).Ok?
    ensures FillPrinciplesDefaults(d, p) == ValidatePrinciples(d, p).value <==> "last_updated" in d
  {
    if "last_updated" !in d {
      assert FillPrinciplesDefaults(d, p).lastUpdated == DefaultLastUpdated;
      assert ValidatePrinciples(d, p).value.lastUpdated == "";
    }
  }

  /** An empty dict fills to the default profile. */
  lemma FillOfNothing(p: PyConv.Parsers)
    ensures FillPrinciplesDefaults(map[], p) == DefaultPrinciples
  {
  }

  /**
   * The defaults disagree: an empty weight section validates to
   * 0.02/0.06/0.08 and 50–70 positions, not to the default section's
   * 0.02/0.1/0.2 and 5–10.
   */
  lemma EmptyWeightSectionIsNotDefault(p: PyConv.Parsers)
    ensures ValidateWeightManagement(JObj(map[]), p)
            == Ok(WeightManagement(0.02, 0.06, 0.08, ExtremeCondition, 50, 70, 6, 9, DefaultThreeLow))
    ensures ValidateWeightManagement(JObj(map[]), p).value != DefaultWeightManagement
  {
    PyConv.TruncOfInt(50);
    PyConv.TruncOfInt(70);
    PyConv.TruncOfInt(6);
    PyConv.TruncOfInt(9);
  }

  /** An empty drawdown section validates to the default section. */
  lemma EmptyDrawdownSectionIsDefault(p: PyConv.Parsers)
    ensures ValidateDrawdownControl(JObj(map[]), p) == Ok(DefaultDrawdownControl)
  {
  }
}

=== FILE: pyconv.dfy ===
/**
 * Python's conversions `float(v)`, `int(v)` and `str(v)` applied to JSON
 * values. Reading a number out of a string is Python's own parser and is
 * an input.
 */
module PyConv {
  import opened Wrappers
  import opened Json

  /** `float(s)` and `int(s)` on a string; `None` where Python raises `ValueError`. */
  datatype Parsers = Parsers(toFloat: string -> Option<real>, toInt: string -> Option<int>)

  /** `int(x)` on a float: truncation toward zero. */
  function Trunc(x: real): (r: int)
    ensures x >= 0.0 ==> r as real <= x < r as real + 1.0
    ensures x < 0.0 ==> r as real - 1.0 < x <= r as real
  {
    if x >= 0.0 then x.Floor else -((-x).Floor)
  }

  lemma TruncOfInt(k: int)
    ensures Trunc(k as real) == k
  {
  }

  /** `float(v)`: numbers and booleans convert, strings are parsed, anything else raises `TypeError`. */
  function Float(v: Value, p: Parsers): (r: Result<real, string>)
    ensures v.JNum? ==> r == Ok(v.n)
    ensures v.JBool? ==> r == Ok(if v.b then 1.0 else 0.0)
    ensures v.JStr? ==> (r.Ok? <==> p.toFloat(v.s).Some?) && (r.Ok? ==> r.value == p.toFloat(v.s).value)
    ensures v.JNull? || v.JArr? || v.JObj? ==> r.Err?
  {
    if v.JNum? then Ok(v.n)
    else if v.JBool? then Ok(if v.b then 1.0 else 0.0)
    else if v.JStr? then
      if p.toFloat(v.s).Some? then Ok(p.toFloat(v.s).value) else Err(NotFloat(v.s))
    else Err(FloatTypeError(v))
  }

  function NotFloat(s: string): string {
    "could not convert string to float: '" + s + "'"
  }

  function FloatTypeError(v: Value): string {
    "float() argument must be a string or a real number, not '" + TypeName(v) + "'"
  }

  /** `int(v)`: a number is truncated toward zero, a boolean is 0 or 1, a string is parsed, anything else raises. */
  function Int(v: Value, p: Parsers): (r: Result<int, string>)
    ensures v.JNum? ==> r == Ok(Trunc(v.n))
    ensures v.JBool? ==> r == Ok(if v.b then 1 else 0)
    ensures v.JStr? ==> (r.Ok? <==> p.toInt(v.s).Some?) && (r.Ok? ==> r.value == p.toInt(v.s).value)
    ensures v.JNull? || v.JArr? || v.JObj? ==> r.Err?
  {
    if v.JNum? then Ok(Trunc(v.n))
    else if v.JBool? then Ok(if v.b then 1 else 0)
    else if v.JStr? then
      if p.toInt(v.s).Some? then Ok(p.toInt(v.s).value) else Err(NotInt(v.s))
    else Err(IntTypeError(v))
  }

  function NotInt(s: string): string {
    "invalid literal for int() with base 10: '" + s + "'"
  }

  function IntTypeError(v: Value): string {
    "int() argument must be a string, a bytes-like object or a real number, not '" + TypeName(v) + "'"
  }

  /** A JSON number holding an integer. */
  function IntValue(k: int): (v: Value)
    ensures v.JNum? && Trunc(v.n) == k
  {
    TruncOfInt(k);
    JNum(k as real)
  }
}

=== FILE: pyseq.dfy ===
/** Python list slicing and sorting over Dafny sequences. */
module PySeq {

  /** `list(reversed(s))`. */
  function Reverse<T>(s: seq<T>): (r: seq<T>)
    ensures |r| == |s|
    ensures forall i :: 0 <= i < |s| ==> r[i] == s[|s| - 1 - i]
    decreases |s|
  {
    if |s| == 0 then [] else [s[|s| - 1]] + Reverse(s[..|s| - 1])
  }

  /** The start index Python uses for `s[k:]` (negative `k` counts from the end). */
  function SliceStart(n: nat, k: int): (r: nat)
    ensures r <= n
    ensures k >= 0 ==> r == if k <= n then k else n
    ensures k < 0 ==> r == if n + k >= 0 then n + k else 0
  {
    if k >= 0 then (if k <= n then k else n)
    else if n + k >= 0 then n + k else 0
  }

  /** `s[k:]`. */
  function From<T>(s: seq<T>, k: int): (r: seq<T>)
    ensures r == s[SliceStart(|s|, k)..]
  {
    s[SliceStart(|s|, k)..]
  }

  /** `s[:k]`. */
  function To<T>(s: seq<T>, k: int): (r: seq<T>)
    ensures r == s[..SliceStart(|s|, k)]
  {
    s[..SliceStart(|s|, k)]
  }

  /** `s[:k]` for a non-negative bound `k`: at most `k` leading elements. */
  lemma ToNonNegative<T>(s: seq<T>, k: nat)
    ensures |To(s, k)| == if k <= |s| then k else |s|
    ensures To(s, k) <= s
  {
  }

  /** `s[-k:]`: with `k > 0` the last `k` elements; with `k == 0` the whole list. */
  lemma TailShape<T>(s: seq<T>, k: int)
    ensures k > 0 ==> From(s, -k) == s[if k <= |s| then |s| - k else 0..]
    ensures k == 0 ==> From(s, -k) == s
    ensures k < 0 ==> From(s, -k) == s[if -k <= |s| then -k else |s|..]
  {
  }

  /** The elements of `s` are in non-increasing order of their key. */
  predicate SortedDesc<T>(s: seq<(real, T)>) {
    forall i, j :: 0 <= i < j < |s| ==> s[i].0 >= s[j].0
  }

  /**
   * Insert `x` after every element whose key is at least `x`'s key.
   * Inserting later elements after equal ones keeps the sort stable.
   */
  function InsertDesc<T>(x: (real, T), s: seq<(real, T)>): (r: seq<(real, T)>)
    ensures multiset(r) == multiset(s) + multiset{x}
    ensures |r| == |s| + 1
    decreases |s|
  {
    if |s| == 0 then [x]
    else if s[0].0 >= x.0 then
      var rest := InsertDesc(x, s[1..]);
      assert s == [s[0]] + s[1..];
      [s[0]] + rest
    else
      [x] + s
  }

  /** Inserting into a descending list keeps it descending. */
  lemma {:induction false} InsertDescSorted<T>(x: (real, T), s: seq<(real, T)>)
    requires SortedDesc(s)
    ensures SortedDesc(InsertDesc(x, s))
    decreases |s|
  {
    if |s| > 0 && s[0].0 >= x.0 {
      var rest := InsertDesc(x, s[1..]);
      InsertDescSorted(x, s[1..]);
      forall j | 0 <= j < |rest|
        ensures s[0].0 >= rest[j].0
      {
        assert rest[j] in multiset(rest);
        if rest[j] != x {
          assert rest[j] in multiset(s[1..]);
          var k :| 0 <= k < |s[1..]| && s[1..][k] == rest[j];
          assert s[k + 1] == rest[j];
        }
      }
      assert InsertDesc(x, s) == [s[0]] + rest;
    }
  }

  /** `sorted(s, key=..., reverse=True)` (stable, descending by key). */
  function SortDesc<T>(s: seq<(real, T)>): (r: seq<(real, T)>)
    ensures SortedDesc(r)
    ensures multiset(r) == multiset(s)
    ensures |r| == |s|
    decreases |s|
  {
    if |s| == 0 then []
    else
      assert s == s[..|s| - 1] + [s[|s| - 1]];
      InsertDescSorted(s[|s| - 1], SortDesc(s[..|s| - 1]));
      InsertDesc(s[|s| - 1], SortDesc(s[..|s| - 1]))
  }

  /** Sorting keeps exactly the elements it is given. */
  lemma SortDescMembers<T>(s: seq<(real, T)>)
    ensures forall x :: x in SortDesc(s) <==> x in s
  {
    var r := SortDesc(s);
    assert forall x :: x in r <==> x in multiset(r);
  }

  /** Reversing a list that ends in `e` puts `e` first. */
  lemma ReverseSnoc<T>(s: seq<T>, e: T)
    ensures Reverse(s + [e]) == [e] + Reverse(s)
  {
    assert (s + [e])[..|s + [e]| - 1] == s;
  }

  /**
   * `reversed((es + [e])[-k:]) == [e] + reversed(es[-(k-1):])` for `k >= 2`:
   * one more element at the end shifts the newest-first window by one.
   */
  lemma TailSnoc<T>(es: seq<T>, e: T, k: int)
    requires k >= 2
    ensures Reverse(From(es + [e], -k)) == [e] + Reverse(From(es, -(k - 1)))
  {
    var start := SliceStart(|es|, -(k - 1));
    assert SliceStart(|es| + 1, -k) == start;
    assert From(es + [e], -k) == From(es, -(k - 1)) + [e];
    ReverseSnoc(From(es, -(k - 1)), e);
  }
}

=== FILE: relationship_analyzer.dfy ===
/**
 * The report relationship analyzer: the text a report is embedded by, the
 * filtering and ordering of vector-store neighbours, the early exits
 * before the language model is asked, and the relations derived from
 * similarity alone when it is not. The vector store's answer, the report
 * lookup and JSON parsing are inputs; an exception inside
 * `find_related_reports` is caught there and gives no neighbours.
 */
module RelationshipAnalyzer {
  import opened Wrappers
  import opened Json
  import Strings
  import PySeq
  import OrderedMap

  // ---------------------------------------------------------------- embedding text

  /** `d.get(key, default)` on a value that must be a dict. */
  function DictGet(v: Value, key: string, default: Value): (r: Result<Value, string>)
    ensures r.Ok? <==> v.JObj?
    ensures v.JObj? ==> r.value == GetOr(v.fields, key, default)
  {
    if v.JObj? then Ok(GetOr(v.fields, key, default)) else Err(NoAttribute(v, "get"))
  }

  /** The first `cap` elements, as `s[:cap]`. */
  function Head<T>(s: seq<T>, cap: nat): (r: seq<T>)
    ensures |r| <= cap && r <= s
    ensures |s| <= cap ==> r == s
  {
    if |s| <= cap then s else s[..cap]
  }

  /** The texts of a list of JSON strings; none when one is not a string. */
  function Texts(vs: seq<Value>): (r: Option<seq<string>>)
    ensures r.Some? <==> forall i :: 0 <= i < |vs| ==> vs[i].JStr?
    ensures r.Some? ==> |r.value| == |vs| && forall i :: 0 <= i < |vs| ==> r.value[i] == vs[i].s
    decreases |vs|
  {
    if |vs| == 0 then Some([])
    else if !vs[0].JStr? then None
    else
      var rest := Texts(vs[1..]);
      if rest.None? then None else Some([vs[0].s] + rest.value)
  }

  /** Iterating a string: one one-character string per character. */
  function Chars(s: string): (r: seq<string>)
    ensures |r| == |s| && forall i :: 0 <= i < |s| ==> r[i] == [s[i]]
  {
    seq(|s|, i requires 0 <= i < |s| => [s[i]])
  }

  /**
   * `'; '.join(v[:cap])`: a list contributes its first `cap` strings; a
   * string contributes its first `cap` characters one by one; anything
   * else, or a non-string among the joined items, raises.
   */
  function JoinFirst(v: Value, cap: nat): (r: Result<string, string>)
    ensures v.JArr? ==> (r.Ok? <==> Texts(Head(v.items, cap)).Some?)
    ensures v.JArr? && r.Ok? ==> r.value == Strings.Join("; ", Texts(Head(v.items, cap)).value)
    ensures v.JStr? ==> r == Ok(Strings.Join("; ", Chars(Head(v.s, cap))))
    ensures !v.JArr? && !v.JStr? ==> r.Err?
  {
    match v
    case JArr(items) =>
      var t := Texts(Head(items, cap));
      if t.None? then Err("sequence item: expected str instance") else Ok(Strings.Join("; ", t.value))
    case JStr(s) =>
      Ok(Strings.Join("; ", Chars(Head(s, cap))))
    case _ => Err("'" + TypeName(v) + "' object is not subscriptable")
  }

  /**
   * The risk descriptions: `r.get('description', '')` over every warning
   * (all of them, before the cut to five), which needs each to be a dict.
   */
  function Descriptions(v: Value): (r: Result<seq<Value>, string>)
    ensures v.JArr? ==> (r.Ok? <==> forall i :: 0 <= i < |v.items| ==> v.items[i].JObj?)
    ensures v.JArr? && r.Ok? ==> (|r.value| == |v.items|
      && forall i :: 0 <= i < |v.items| ==> r.value[i] == GetOr(v.items[i].fields, "description", JStr("")))
    ensures !v.JArr? ==> (r.Ok? <==> v == JStr("") || v == JObj(map[])) && (r.Ok? ==> r.value == [])
  {
    match v
    case JArr(items) => DescriptionsOf(items)
    case JStr(s) => if |s| == 0 then Ok([]) else Err("'str' object has no attribute 'get'")
    case JObj(m) => if |m| == 0 then Ok([]) else Err("'str' object has no attribute 'get'")
    case _ => Err("'" + TypeName(v) + "' object is not iterable")
  }

  function DescriptionsOf(items: seq<Value>): (r: Result<seq<Value>, string>)
    ensures r.Ok? <==> forall i :: 0 <= i < |items| ==> items[i].JObj?
    ensures r.Ok? ==> (|r.value| == |items|
      && forall i :: 0 <= i < |items| ==> r.value[i] == GetOr(items[i].fields, "description", JStr("")))
    decreases |items|
  {
    if |items| == 0 then Ok([])
    else
      var d :- DictGet(items[0], "description", JStr(""));
      var rest := DescriptionsOf(items[1..]);
      if rest.Err? then
        assert exists k :: 0 <= k < |items[1..]| && !items[1..][k].JObj?;
        rest
      else Ok([d] + rest.value)
  }

  /** The eight labelled fields of the embedding text, before they are laid out. */
  datatype EmbeddingFields = EmbeddingFields(title: string, category: string, oneSentence: string,
                                             coreViews: string, keyDrivers: string, risks: string,
                                             action: string, holdingPeriod: string)

  /** The analysis a report carries: text that does not parse counts as an empty dict. */
  function AnalysisOf(report: map<string, Value>, loads: string -> Option<Value>): (r: Value)
    ensures "analysis_json" !in report ==> r == JObj(map[])
    ensures "analysis_json" in report && report["analysis_json"].JStr? ==>
              r == loads(report["analysis_json"].s).GetOr(JObj(map[]))
    ensures "analysis_json" in report && !report["analysis_json"].JStr? ==> r == report["analysis_json"]
  {
    var raw := GetOr(report, "analysis_json", JObj(map[]));
    if raw.JStr? then loads(raw.s).GetOr(JObj(map[])) else raw
  }

  /**
   * The fields `_prepare_embedding_text` reads: at most 10 core views, 5
   * key drivers and 5 risk descriptions, each joined with "; "; the title
   * of the analysis is preferred to the report's.
   */
  function Fields(report: map<string, Value>, loads: string -> Option<Value>): (r: Result<EmbeddingFields, string>)
    ensures r == FieldsOf(AnalysisOf(report, loads), report)
    ensures !AnalysisOf(report, loads).JObj? ==> r == Err(NoAttribute(AnalysisOf(report, loads), "get"))
  {
    FieldsOf(AnalysisOf(report, loads), report)
  }

  /** The fields, given the analysis already parsed; a non-dict analysis raises on its first lookup. */
  function FieldsOf(a: Value, report: map<string, Value>): (r: Result<EmbeddingFields, string>)
    ensures !a.JObj? ==> r == Err(NoAttribute(a, "get"))
    ensures a.JObj? && r.Ok? ==>
              && GetOr(a.fields, "text_summary", JObj(map[])).JObj?
              && JoinFirst(GetOr(GetOr(a.fields, "text_summary", JObj(map[])).fields, "core_views", JArr([])), 10)
                 == Ok(r.value.coreViews)
              && GetOr(a.fields, "summary", JObj(map[])).JObj?
              && JoinFirst(GetOr(GetOr(a.fields, "summary", JObj(map[])).fields, "key_drivers", JArr([])), 5)
                 == Ok(r.value.keyDrivers)
    ensures r.Ok? ==> r.value.category == PyStr(GetOr(report, "category", JStr("")))
    ensures a.JObj? && r.Ok? ==>
              var info := GetOr(a.fields, "report_info", JObj(map[]));
              var advice := GetOr(a.fields, "investment_advice", JObj(map[]));
              && info.JObj? && advice.JObj?
              && r.value.title == PyStr(GetOr(info.fields, "title", GetOr(report, "title", JStr(""))))
              && r.value.oneSentence
                 == PyStr(GetOr(GetOr(a.fields, "summary", JObj(map[])).fields, "one_sentence", JStr("")))
              && Descriptions(GetOr(a.fields, "risk_warnings", JArr([]))).Ok?
              && JoinFirst(JArr(Descriptions(GetOr(a.fields, "risk_warnings", JArr([]))).value), 5)
                 == Ok(r.value.risks)
              && r.value.action == PyStr(GetOr(advice.fields, "action", JStr("")))
              && r.value.holdingPeriod == PyStr(GetOr(advice.fields, "holding_period", JStr("")))
    ensures a.JObj? ==>
              var summary := GetOr(a.fields, "summary", JObj(map[]));
              var textSummary := GetOr(a.fields, "text_summary", JObj(map[]));
              var warnings := GetOr(a.fields, "risk_warnings", JArr([]));
              (r.Ok? <==>
                && GetOr(a.fields, "report_info", JObj(map[])).JObj? && summary.JObj? && textSummary.JObj?
                && JoinFirst(GetOr(textSummary.fields, "core_views", JArr([])), 10).Ok?
                && JoinFirst(GetOr(summary.fields, "key_drivers", JArr([])), 5).Ok?
                && Descriptions(warnings).Ok? && JoinFirst(JArr(Descriptions(warnings).value), 5).Ok?
                && GetOr(a.fields, "investment_advice", JObj(map[])).JObj?)
  {
    if !a.JObj? then Err(NoAttribute(a, "get"))
    else
      var info := GetOr(a.fields, "report_info", JObj(map[]));
      var summary := GetOr(a.fields, "summary", JObj(map[]));
      var textSummary := GetOr(a.fields, "text_summary", JObj(map[]));
      var warnings := GetOr(a.fields, "risk_warnings", JArr([]));
      var title :- DictGet(info, "title", GetOr(report, "title", JStr("")));
      var oneSentence :- DictGet(summary, "one_sentence", JStr(""));
      var views :- DictGet(textSummary, "core_views", JArr([]));
      var coreViews :- JoinFirst(views, 10);
      var keyDrivers :- JoinFirst(GetOr(summary.fields, "key_drivers", JArr([])), 5);
      var descriptions :- Descriptions(warnings);
      var risks :- JoinFirst(JArr(descriptions), 5);
      var advice := GetOr(a.fields, "investment_advice", JObj(map[]));
      var action :- DictGet(advice, "action", JStr(""));
      var period := GetOr(advice.fields, "holding_period", JStr(""));
      Ok(EmbeddingFields(PyStr(title), PyStr(GetOr(report, "category", JStr(""))), PyStr(oneSentence), coreViews,
                         keyDrivers, risks, PyStr(action), PyStr(period)))
  }

  /** The labelled lines, wrapped in newlines and stripped. */
  function Layout(f: EmbeddingFields): (r: string)
    ensures |r| > 0 ==> !Strings.IsSpace(r[0]) && !Strings.IsSpace(r[|r| - 1])
  {
    Strings.Strip("\n" + Strings.Join("\n", [
      "标题: " + f.title, "分类: " + f.category, "摘要: " + f.oneSentence, "核心观点: " + f.coreViews,
      "关键驱动因素: " + f.keyDrivers, "风险: " + f.risks, "投资建议: " + f.action, "时间范围: " + f.holdingPeriod
    ]) + "\n")
  }

  /** `_prepare_embedding_text(report)`. */
  function EmbeddingText(report: map<string, Value>, loads: string -> Option<Value>): (r: Result<string, string>)
    ensures r.Ok? <==> Fields(report, loads).Ok?
    ensures r.Ok? ==> r.value == Layout(Fields(report, loads).value)
  {
    var f :- Fields(report, loads);
    Ok(Layout(f))
  }

  /** Unparsable analysis text reads exactly like an empty analysis. */
  lemma UnparsableAnalysisIsEmpty(report: map<string, Value>, loads: string -> Option<Value>, text: string)
    requires loads(text).None?
    ensures EmbeddingText(report["analysis_json" := JStr(text)], loads)
            == EmbeddingText(report["analysis_json" := JObj(map[])], loads)
  {
    var r1 := report["analysis_json" := JStr(text)];
    var r2 := report["analysis_json" := JObj(map[])];
    assert AnalysisOf(r1, loads) == JObj(map[]);
    assert AnalysisOf(r2, loads) == JObj(map[]);
    assert GetOr(r1, "title", JStr("")) == GetOr(r2, "title", JStr(""));
    assert GetOr(r1, "category", JStr("")) == GetOr(r2, "category", JStr(""));
    FieldsOfSameColumns(JObj(map[]), r1, r2);
  }

  /** The fields depend on the report only through its title and category. */
  lemma FieldsOfSameColumns(a: Value, r1: map<string, Value>, r2: map<string, Value>)
    requires GetOr(r1, "title", JStr("")) == GetOr(r2, "title", JStr(""))
    requires GetOr(r1, "category", JStr("")) == GetOr(r2, "category", JStr(""))
    ensures FieldsOf(a, r1) == FieldsOf(a, r2)
  {
  }

  /** Only the first ten core views are used: later ones change nothing. */
  lemma CoreViewsCapped(views: seq<Value>, more: seq<Value>)
    requires |views| >= 10
    ensures JoinFirst(JArr(views + more), 10) == JoinFirst(JArr(views), 10)
  {
    assert Head(views + more, 10) == Head(views, 10);
  }

  // ---------------------------------------------------------------- neighbours

  /** A neighbour: its id, its similarity on a 0–100 scale and its distance. */
  datatype Related = Related(id: string, similarity: real, distance: real)

  /** `max(0, min(100, x))`. */
  function Clamp(x: real): (r: real)
    ensures 0.0 <= r <= 100.0
    ensures 0.0 <= x <= 100.0 ==> r == x
  {
    if x < 0.0 then 0.0 else if x > 100.0 then 100.0 else x
  }

  /**
   * The loop of `find_related_reports` from hit `i` on: stop at
   * `maxResults`, take a missing distance list as distance 0 (a present
   * but short one raises), skip distances of 0.6 or more.
   */
  function Scan(ids: seq<string>, distances: Option<seq<real>>, maxResults: int, i: nat)
    : (r: Result<seq<Related>, string>)
    ensures r.Ok? ==> |r.value| <= |ids| - i || i > |ids|
    ensures r.Ok? ==> forall k :: 0 <= k < |r.value| ==> (r.value[k].distance < 0.6
                                  && r.value[k].similarity == Clamp((1.0 - r.value[k].distance) * 100.0))
    ensures r.Ok? && maxResults >= i ==> |r.value| <= maxResults - i
    ensures r.Ok? && maxResults < i ==> r.value == []
    decreases |ids| - i
  {
    if i >= |ids| || i >= maxResults then Ok([])
    else if distances.Some? && i >= |distances.value| then Err("list index out of range")
    else
      var d := if distances.Some? then distances.value[i] else 0.0;
      var rest :- Scan(ids, distances, maxResults, i + 1);
      if d >= 0.6 then Ok(rest)
      else Ok([Related(ids[i], Clamp((1.0 - d) * 100.0), d)] + rest)
  }

  /** Which hits `Scan` keeps: one within the first `maxResults` whose distance is below 0.6. */
  lemma {:induction false} ScanKeeps(ids: seq<string>, distances: Option<seq<real>>, maxResults: int, i: nat, x: Related)
    requires Scan(ids, distances, maxResults, i).Ok?
    ensures x in Scan(ids, distances, maxResults, i).value <==>
              exists k :: i <= k < |ids| && k < maxResults && x.id == ids[k]
                          && (distances.Some? ==> k < |distances.value| && x.distance == distances.value[k])
                          && (distances.None? ==> x.distance == 0.0)
                          && x.distance < 0.6 && x.similarity == Clamp((1.0 - x.distance) * 100.0)
    decreases |ids| - i
  {
    if i < |ids| && i < maxResults {
      ScanKeeps(ids, distances, maxResults, i + 1, x);
    }
  }

  /**
   * `find_related_reports(new_report_id, max_results)`: nothing without a
   * vector store, for a missing report, or when anything raises; otherwise
   * the close neighbours sorted by similarity, highest first (ties keep
   * the store's order).
   */
  function FindRelated(available: bool, report: Option<map<string, Value>>, loads: string -> Option<Value>,
                       ids: seq<string>, distances: Option<seq<real>>, maxResults: int): (r: seq<Related>)
    ensures !available || report.None? ==> r == []
    ensures report.Some? && EmbeddingText(report.value, loads).Err? ==> r == []
    ensures |r| <= |ids| && (maxResults >= 0 ==> |r| <= maxResults) && (maxResults <= 0 ==> r == [])
    ensures forall k :: 0 <= k < |r| ==> 40.0 < r[k].similarity <= 100.0 && r[k].distance < 0.6
    ensures forall j, k :: 0 <= j < k < |r| ==> r[j].similarity >= r[k].similarity
    ensures available && report.Some? && EmbeddingText(report.value, loads).Ok?
            && Scan(ids, distances, maxResults, 0).Ok? ==>
              forall x :: x in r <==> x in Scan(ids, distances, maxResults, 0).value
  {
    if !available || report.None? || EmbeddingText(report.value, loads).Err? then []
    else Ranked(ids, distances, maxResults)
  }

  /** The scanned neighbours, most similar first; nothing when the scan raises. */
  function Ranked(ids: seq<string>, distances: Option<seq<real>>, maxResults: int): (r: seq<Related>)
    ensures |r| <= |ids| && (maxResults >= 0 ==> |r| <= maxResults) && (maxResults <= 0 ==> r == [])
    ensures forall k :: 0 <= k < |r| ==> 40.0 < r[k].similarity <= 100.0 && r[k].distance < 0.6
    ensures forall j, k :: 0 <= j < k < |r| ==> r[j].similarity >= r[k].similarity
    ensures Scan(ids, distances, maxResults, 0).Err? ==> r == []
    ensures Scan(ids, distances, maxResults, 0).Ok? ==>
              forall x :: x in r <==> x in Scan(ids, distances, maxResults, 0).value
  {
    var scanned := Scan(ids, distances, maxResults, 0);
    if scanned.Err? then []
    else
      var r := BySimilarity(scanned.value);
      assert forall x :: x in r ==> 40.0 < x.similarity <= 100.0 && x.distance < 0.6 by {
        forall x | x in r ensures 40.0 < x.similarity <= 100.0 && x.distance < 0.6 {
          var k :| 0 <= k < |scanned.value| && scanned.value[k] == x;
        }
      }
      r
  }

  /** `hits.sort(key=similarity, reverse=True)`: the same neighbours, most similar first. */
  function BySimilarity(hits: seq<Related>): (r: seq<Related>)
    ensures |r| == |hits|
    ensures forall x :: x in r <==> x in hits
    ensures forall j, k :: 0 <= j < k < |r| ==> r[j].similarity >= r[k].similarity
    ensures multiset(r) == multiset(hits)
  {
    var keyed := seq(|hits|, i requires 0 <= i < |hits| => (hits[i].similarity, hits[i]));
    var sorted := PySeq.SortDesc(keyed);
    var r := OrderedMap.Values(sorted);
    BySimilarityFacts(hits, keyed, sorted, r);
    r
  }

  lemma BySimilarityFacts(hits: seq<Related>, keyed: seq<(real, Related)>, sorted: seq<(real, Related)>,
                          r: seq<Related>)
    requires keyed == seq(|hits|, i requires 0 <= i < |hits| => (hits[i].similarity, hits[i]))
    requires PySeq.SortedDesc(sorted) && multiset(sorted) == multiset(keyed)
    requires r == OrderedMap.Values(sorted)
    ensures multiset(r) == multiset(hits)
    ensures forall x :: x in r <==> x in hits
    ensures forall j, k :: 0 <= j < k < |r| ==> r[j].similarity >= r[k].similarity
  {
    OrderedMap.ValuesMultiset(sorted, keyed);
    assert OrderedMap.Values(keyed) == hits;
    assert forall x :: x in r <==> x in multiset(r);
    assert forall k :: 0 <= k < |sorted| ==> sorted[k] in multiset(keyed);
    assert forall p :: p in keyed ==> p.0 == p.1.similarity;
    forall j, k | 0 <= j < k < |r| ensures r[j].similarity >= r[k].similarity {
      assert sorted[j] in keyed && sorted[k] in keyed;
    }
  }

  // ---------------------------------------------------------------- analysis

  datatype Preparation =
    | NoRelations
    | Ready(newReport: map<string, Value>, historical: seq<map<string, Value>>)

  /** `if report_data:` — a row was found and it is not an empty dict. */
  predicate Found(x: Option<map<string, Value>>) {
    x.Some? && |x.value| > 0
  }

  /** The reports the lookup finds for the candidates, in candidate order. */
  function Loaded(candidates: seq<Related>, lookup: string -> Option<map<string, Value>>)
    : (r: seq<map<string, Value>>)
    ensures |r| <= |candidates|
    ensures |r| == 0 <==> forall i :: 0 <= i < |candidates| ==> !Found(lookup(candidates[i].id))
    ensures forall x :: x in r ==> exists i :: 0 <= i < |candidates| && lookup(candidates[i].id) == Some(x)
    ensures forall x :: x in r ==> |x| > 0
    ensures forall i :: 0 <= i < |candidates| && Found(lookup(candidates[i].id)) ==>
              lookup(candidates[i].id).value in r
    decreases |candidates|
  {
    if |candidates| == 0 then []
    else
      var rest := Loaded(candidates[1..], lookup);
      var head := lookup(candidates[0].id);
      assert forall i :: 1 <= i < |candidates| ==> candidates[i] == candidates[1..][i - 1];
      if Found(head) then [head.value] + rest else rest
  }

  /** Loading a longer candidate list appends the later candidates' reports: the order is kept. */
  lemma {:induction false} LoadedAppend(a: seq<Related>, b: seq<Related>, lookup: string -> Option<map<string, Value>>)
    ensures Loaded(a + b, lookup) == Loaded(a, lookup) + Loaded(b, lookup)
    decreases |a|
  {
    if |a| > 0 {
      assert (a + b)[1..] == a[1..] + b;
      LoadedAppend(a[1..], b, lookup);
    } else {
      assert a + b == b;
    }
  }

  /**
   * The early exits of `analyze_report_relationships`: no relations when
   * there are no candidates, the new report is missing, or no candidate's
   * report loads; otherwise the material for the language model.
   */
  function Prepare(candidates: seq<Related>, newId: string, lookup: string -> Option<map<string, Value>>)
    : (r: Preparation)
    ensures r.NoRelations? <==> |candidates| == 0 || !Found(lookup(newId))
                                || forall i :: 0 <= i < |candidates| ==> !Found(lookup(candidates[i].id))
    ensures r.Ready? ==> Some(r.newReport) == lookup(newId) && r.historical == Loaded(candidates, lookup)
  {
    if |candidates| == 0 || !Found(lookup(newId)) then NoRelations
    else
      var historical := Loaded(candidates, lookup);
      if |historical| == 0 then NoRelations else Ready(lookup(newId).value, historical)
  }

  // ---------------------------------------------------------------- fallback relations

  /** A candidate as the fallback sees it; the distance may be absent. */
  datatype Candidate = Candidate(id: string, score: real, distance: Option<real>)

  /** A neighbour found by `find_related_reports` always carries its distance. */
  function CandidateOf(x: Related): Candidate {
    Candidate(x.id, x.similarity, Some(x.distance))
  }

  datatype Relation = Relation(target: string, kind: string, score: real, title: Value, category: Value, action: Value)

  /** A loaded historical report: its id, title and other columns. */
  datatype Historical = Historical(id: string, title: Value, row: map<string, Value>)

  /** The relation named by a percentage similarity, strongest first. */
  function Kind(pct: real): (r: string)
    ensures pct >= 60.0 ==> r == "验证"
    ensures 50.0 <= pct < 60.0 ==> r == "补充"
    ensures 40.0 <= pct < 50.0 ==> r == "冲突"
    ensures pct < 40.0 ==> r == "相关"
  {
    if pct >= 60.0 then "验证" else if pct >= 50.0 then "补充" else if pct >= 40.0 then "冲突" else "相关"
  }

  function Strength(kind: string): nat {
    if kind == "验证" then 3 else if kind == "补充" then 2 else if kind == "冲突" then 1 else 0
  }

  /** A more similar candidate never gets a weaker relation. */
  lemma KindMonotone(p: real, q: real)
    requires p <= q
    ensures Strength(Kind(p)) <= Strength(Kind(q))
  {
  }

  /** The first historical report with the id, if any. */
  function FirstWithId(hs: seq<Historical>, id: string): (r: Option<Historical>)
    ensures r.Some? ==> r.value in hs && r.value.id == id
    ensures r.None? <==> forall i :: 0 <= i < |hs| ==> hs[i].id != id
    ensures r.Some? ==> exists i :: 0 <= i < |hs| && hs[i] == r.value && forall j :: 0 <= j < i ==> hs[j].id != id
    decreases |hs|
  {
    if |hs| == 0 then None
    else if hs[0].id == id then Some(hs[0])
    else
      var r := FirstWithId(hs[1..], id);
      assert forall i :: 1 <= i < |hs| ==> hs[i] == hs[1..][i - 1];
      if r.Some? then
        var i :| 0 <= i < |hs[1..]| && hs[1..][i] == r.value && forall j :: 0 <= j < i ==> hs[1..][j].id != id;
        assert hs[i + 1] == r.value;
        r
      else r
  }

  /** The percentage similarity of a candidate; a missing distance is derived from the score. */
  function Percentage(c: Candidate): real {
    (1.0 - c.distance.GetOr(1.0 - c.score / 100.0)) * 100.0
  }

  /** `_generate_fallback_relations`: one relation per candidate, in candidate order. */
  function FallbackRelations(cs: seq<Candidate>, hs: seq<Historical>): (r: seq<Relation>)
    ensures |r| == |cs|
    ensures forall i :: 0 <= i < |cs| ==> r[i].target == cs[i].id && r[i].kind == Kind(Percentage(cs[i]))
                                          && r[i].score == Percentage(cs[i]) / 100.0
    ensures forall i :: 0 <= i < |cs| && FirstWithId(hs, cs[i].id).None? ==>
              r[i].title == JStr("未知报告") && r[i].category == JStr("") && r[i].action == JStr("")
    ensures forall i :: 0 <= i < |cs| && FirstWithId(hs, cs[i].id).Some? ==>
              var h := FirstWithId(hs, cs[i].id).value;
              r[i].title == h.title && r[i].category == GetOr(h.row, "category", JStr(""))
              && r[i].action == GetOr(h.row, "action", JStr(""))
  {
    seq(|cs|, i requires 0 <= i < |cs| => FallbackRelation(cs[i], hs))
  }

  function FallbackRelation(c: Candidate, hs: seq<Historical>): (r: Relation)
    ensures r.target == c.id && r.kind == Kind(Percentage(c)) && r.score == Percentage(c) / 100.0
  {
    var pct := Percentage(c);
    var h := FirstWithId(hs, c.id);
    if h.None? then Relation(c.id, Kind(pct), pct / 100.0, JStr("未知报告"), JStr(""), JStr(""))
    else Relation(c.id, Kind(pct), pct / 100.0, h.value.title, GetOr(h.value.row, "category", JStr("")),
                  GetOr(h.value.row, "action", JStr("")))
  }

  /** A missing distance is recovered from the score: the relation's score is the candidate's, rescaled. */
  lemma MissingDistanceUsesScore(c: Candidate)
    requires c.distance.None?
    ensures Percentage(c) == c.score
  {
  }

  /**
   * Neighbours found by `find_related_reports` are all closer than 0.6, so
   * the fallback never calls one of them merely related.
   */
  lemma FoundNeighboursAreNeverMerelyRelated(available: bool, report: Option<map<string, Value>>,
                                             loads: string -> Option<Value>, ids: seq<string>,
                                             distances: Option<seq<real>>, maxResults: int,
                                             hs: seq<Historical>)
    ensures var found := FindRelated(available, report, loads, ids, distances, maxResults);
      var rs := FallbackRelations(seq(|found|, i requires 0 <= i < |found| => CandidateOf(found[i])), hs);
      forall i :: 0 <= i < |rs| ==> rs[i].kind != "相关" && rs[i].score > 0.4
  {
  }
}

=== FILE: report_analyzer.dfy ===
/**
 * The report-analyzer listener: its input guards, the recovery of a JSON
 * object from model text, the mapping of an analysis onto a `reports`
 * row, the "recent reports" list of the dashboard state (as intended, and
 * as written, where it is never reached), and the result the listener
 * reports. The analysis the language model returns, JSON
 * parsing and serialisation, and the clock are inputs; notifications and
 * the relationship analysis run for their effects only and are not
 * modelled here.
 */
module ReportAnalyzer {
  import opened Wrappers
  import opened Json
  import Strings

  // ---------------------------------------------------------------- JSON in model text

  /** The first index of `c` in `s`. */
  function FirstOf(s: string, c: char): (r: Option<nat>)
    ensures r.Some? ==> r.value < |s| && s[r.value] == c && forall i :: 0 <= i < r.value ==> s[i] != c
    ensures r.None? ==> forall i :: 0 <= i < |s| ==> s[i] != c
    decreases |s|
  {
    if |s| == 0 then None
    else if s[0] == c then Some(0)
    else
      var r := FirstOf(s[1..], c);
      if r.Some? then Some(r.value + 1) else None
  }

  /** The last index of `c` in `s`. */
  function LastOf(s: string, c: char): (r: Option<nat>)
    ensures r.Some? ==> r.value < |s| && s[r.value] == c && forall i :: r.value < i < |s| ==> s[i] != c
    ensures r.None? ==> forall i :: 0 <= i < |s| ==> s[i] != c
    decreases |s|
  {
    if |s| == 0 then None
    else if s[|s| - 1] == c then Some(|s| - 1)
    else LastOf(s[..|s| - 1], c)
  }

  /** `span` sits at `a` in `text`, with no `{` before it and no `}` after it. */
  predicate OutermostAt(text: string, a: nat, span: string) {
    a + |span| <= |text| && text[a..a + |span|] == span
    && (forall i :: 0 <= i < a ==> text[i] != '{')
    && (forall i :: a + |span| <= i < |text| ==> text[i] != '}')
  }

  /**
   * What `re.search(r'\{.*\}', text, re.DOTALL)` matches: from the first
   * `{` to the last `}`, when that `}` comes after it.
   */
  function BraceSpan(text: string): (r: Option<string>)
    ensures r.Some? ==> |r.value| >= 2 && r.value[0] == '{' && r.value[|r.value| - 1] == '}'
    ensures r.Some? ==> exists a :: OutermostAt(text, a, r.value)
    ensures r.None? <==> forall i, j :: 0 <= i < j < |text| ==> !(text[i] == '{' && text[j] == '}')
  {
    var a := FirstOf(text, '{');
    var b := LastOf(text, '}');
    if a.Some? && b.Some? && a.value < b.value then
      var r := text[a.value..b.value + 1];
      assert OutermostAt(text, a.value, r);
      Some(r)
    else None
  }

  /** The answer when no JSON object is recovered. */
  function Unparsed(text: string): (r: Value)
    ensures r.JObj? && r.fields.Keys == {"error", "raw_text"} && r.fields["raw_text"] == JStr(text)
  {
    JObj(map["error" := JStr("无法解析响应"), "raw_text" := JStr(text)])
  }

  /**
   * `_parse_json_response(text)`: the parsed brace span, or the error
   * object carrying the text when there is no span or it does not parse.
   */
  function ParseResponse(text: string, loads: string -> Option<Value>): (r: Value)
    ensures BraceSpan(text).None? ==> r == Unparsed(text)
    ensures BraceSpan(text).Some? && loads(BraceSpan(text).value).None? ==> r == Unparsed(text)
    ensures BraceSpan(text).Some? && loads(BraceSpan(text).value).Some? ==> r == loads(BraceSpan(text).value).value
  {
    var span := BraceSpan(text);
    if span.None? then Unparsed(text)
    else loads(span.value).GetOr(Unparsed(text))
  }

  /** Prose around a single object, without braces of its own, is ignored. */
  lemma ObjectInProse(before: string, body: string, after: string, loads: string -> Option<Value>)
    requires forall i :: 0 <= i < |before| ==> before[i] != '{'
    requires forall i :: 0 <= i < |after| ==> after[i] != '}'
    ensures BraceSpan(before + "{" + body + "}" + after) == Some("{" + body + "}")
  {
    var t := before + "{" + body + "}" + after;
    assert t[|before|] == '{';
    assert t[|before| + |body| + 1] == '}';
    var a := FirstOf(t, '{');
    var b := LastOf(t, '}');
    assert a == Some(|before|);
    assert b == Some(|before| + |body| + 1) by {
      forall i | |before| + |body| + 1 < i < |t| ensures t[i] != '}' {
        assert t[i] == after[i - |before| - |body| - 2];
      }
    }
    assert t[|before|..|before| + |body| + 2] == "{" + body + "}";
  }

  // ---------------------------------------------------------------- guards

  /** The handler's answer; the actions and the importance score are set only when it acted. */
  datatype Outcome = Outcome(executed: bool, reason: string, reportId: Option<Value>, actions: seq<string>,
                             importance: Option<Value>)

  /** What the handler reports having done after storing a report. */
  const StoredActions: seq<string> := ["分析完成", "已存储到数据库", "已通知用户", "关联分析完成"]

  /** An outcome that did nothing. */
  function Skipped(reason: string): (r: Outcome)
    ensures !r.executed && r.reason == reason && r.reportId.None? && r.actions == [] && r.importance.None?
  {
    Outcome(false, reason, None, [], None)
  }

  /**
   * The checks before any analysis: a truthy `skip_analysis`, or content
   * that is missing or under 50 characters once stripped, end the handler;
   * content that is truthy but not text raises on `strip`.
   */
  function Guard(event: map<string, Value>): (r: Result<Option<Outcome>, string>)
    ensures HasTruthy(event, "skip_analysis") ==> r == Ok(Some(Skipped("已由 API 分析，跳过 Listener 处理")))
    ensures !HasTruthy(event, "skip_analysis") && !HasTruthy(event, "content") ==>
              r == Ok(Some(Skipped("报告内容为空或过短")))
    ensures !HasTruthy(event, "skip_analysis") && HasTruthy(event, "content") ==>
              (r.Err? <==> !event["content"].JStr?)
    ensures r == Ok(None) <==> !HasTruthy(event, "skip_analysis") && HasTruthy(event, "content")
                               && event["content"].JStr? && |Strings.Strip(event["content"].s)| >= 50
  {
    if HasTruthy(event, "skip_analysis") then Ok(Some(Skipped("已由 API 分析，跳过 Listener 处理")))
    else if !HasTruthy(event, "content") then Ok(Some(Skipped("报告内容为空或过短")))
    else
      var content := event["content"];
      if !content.JStr? then Err(NoAttribute(content, "strip"))
      else if |Strings.Strip(content.s)| < 50 then Ok(Some(Skipped("报告内容为空或过短")))
      else Ok(None)
  }

  /** Content of fifty characters or more, whatever whitespace surrounds it, passes the guard. */
  lemma LongContentPasses(event: map<string, Value>, text: string)
    requires !HasTruthy(event, "skip_analysis")
    requires |text| >= 50 && !Strings.IsSpace(text[0]) && !Strings.IsSpace(text[|text| - 1])
    ensures Guard(event["content" := JStr(" " + text + "\n")]) == Ok(None)
  {
    var padded := " " + text + "\n";
    assert padded[1..] == text + "\n";
    assert Strings.LStrip(text + "\n") == text + "\n";
    assert (text + "\n")[..|text|] == text;
    assert Strings.RStrip(text) == text;
    assert Strings.Strip(padded) == text;
  }

  // ---------------------------------------------------------------- database row

  /**
   * `'\n'.join(v)`: a list of strings, a string taken character by
   * character, or a dict's keys in iteration order (`keyOrder`); a list
   * with an item that is not text, or a value that is not iterable, raises.
   */
  function JoinLines(v: Value, keyOrder: map<string, Value> -> seq<string>): (r: Result<string, string>)
    ensures v.JArr? && (forall i :: 0 <= i < |v.items| ==> v.items[i].JStr?) ==>
              r == Ok(Strings.Join("\n", seq(|v.items|, i requires 0 <= i < |v.items| => v.items[i].s)))
    ensures v.JArr? && (exists i :: 0 <= i < |v.items| && !v.items[i].JStr?) ==> r.Err?
    ensures v.JStr? ==> r == Ok(Strings.Join("\n", seq(|v.s|, i requires 0 <= i < |v.s| => [v.s[i]])))
    ensures v.JObj? ==> r == Ok(Strings.Join("\n", keyOrder(v.fields)))
    ensures r.Err? <==> !(v.JArr? || v.JStr? || v.JObj?) || (v.JArr? && exists i :: 0 <= i < |v.items| && !v.items[i].JStr?)
  {
    match v
    case JArr(items) =>
      if forall i :: 0 <= i < |items| ==> items[i].JStr? then
        Ok(Strings.Join("\n", seq(|items|, i requires 0 <= i < |items| => items[i].s)))
      else Err("sequence item: expected str instance")
    case JStr(s) => Ok(Strings.Join("\n", seq(|s|, i requires 0 <= i < |s| => [s[i]])))
    case JObj(fields) => Ok(Strings.Join("\n", keyOrder(fields)))
    case _ => Err("can only join an iterable")
  }

  /** `d.get(key, default)` on a value that must be a dict. */
  function DictGet(v: Value, key: string, default: Value): (r: Result<Value, string>)
    ensures r.Ok? <==> v.JObj?
    ensures v.JObj? ==> r.value == GetOr(v.fields, key, default)
  {
    if v.JObj? then Ok(GetOr(v.fields, key, default)) else Err(NoAttribute(v, "get"))
  }

  /**
   * The row's id: the custom id when it is truthy, else
   * `analysis_<category with spaces as _>_<timestamp>`.
   */
  function ReportId(info: Value, customId: Value, timestamp: string): (r: Result<Value, string>)
    ensures Truthy(customId) ==> r == Ok(customId)
    ensures !Truthy(customId) && r.Ok? ==> r.value.JStr? && Strings.StartsWith(r.value.s, "analysis_")
    ensures !Truthy(customId) && !info.JObj? ==> r.Err?
    ensures !Truthy(customId) ==>
              (r.Ok? <==> info.JObj? && GetOr(info.fields, "category", JStr("unknown")).JStr?)
    ensures !Truthy(customId) && r.Ok? ==>
              r.value == JStr(GeneratedId(GetOr(info.fields, "category", JStr("unknown")).s, timestamp))
  {
    if Truthy(customId) then Ok(customId)
    else
      var category :- DictGet(info, "category", JStr("unknown"));
      if !category.JStr? then Err(NoAttribute(category, "replace"))
      else
        var id := GeneratedId(category.s, timestamp);
        assert id[..9] == "analysis_";
        Ok(JStr(id))
  }

  /** `f"analysis_{category.replace(' ', '_')}_{timestamp}"`. */
  function GeneratedId(category: string, timestamp: string): string {
    "analysis_" + Strings.ReplaceAll(category, " ", "_") + "_" + timestamp
  }

  /** A category without spaces appears in the generated id as it is. */
  lemma GeneratedIdOfPlainCategory(category: string, timestamp: string)
    requires !Strings.Contains(category, " ")
    ensures GeneratedId(category, timestamp) == "analysis_" + category + "_" + timestamp
  {
  }

  /** Two generated ids for one category differ exactly when their timestamps do. */
  lemma GeneratedIdsDiffer(category: string, t1: string, t2: string)
    ensures GeneratedId(category, t1) == GeneratedId(category, t2) <==> t1 == t2
  {
    var head := "analysis_" + Strings.ReplaceAll(category, " ", "_") + "_";
    assert GeneratedId(category, t1) == head + t1 && GeneratedId(category, t2) == head + t2;
    assert (head + t1)[|head|..] == t1 && (head + t2)[|head|..] == t2;
  }

  /** One block of the stored text: the lines of a truthy entry, or nothing. */
  function Block(t: map<string, Value>, key: string, keyOrder: map<string, Value> -> seq<string>)
    : (r: Result<seq<string>, string>)
    ensures !HasTruthy(t, key) ==> r == Ok([])
    ensures HasTruthy(t, key) ==> (r.Ok? <==> JoinLines(t[key], keyOrder).Ok?) && (r.Ok? ==> r.value == [JoinLines(t[key], keyOrder).value])
  {
    if !HasTruthy(t, key) then Ok([])
    else
      var lines :- JoinLines(t[key], keyOrder);
      Ok([lines])
  }

  /**
   * The stored text: the core views and the key facts, each one per line,
   * as blocks separated by a blank line; the whole analysis serialised
   * when neither is present.
   */
  function Content(textSummary: Value, analysis: map<string, Value>, dumps: Value -> string,
                   keyOrder: map<string, Value> -> seq<string>)
    : (r: Result<string, string>)
    ensures !textSummary.JObj? ==> r.Err?
    ensures textSummary.JObj? && !HasTruthy(textSummary.fields, "core_views") && !HasTruthy(textSummary.fields, "key_facts")
            ==> r == Ok(dumps(JObj(analysis)))
  {
    if !textSummary.JObj? then Err(NoAttribute(textSummary, "get"))
    else
      var t := textSummary.fields;
      var views :- Block(t, "core_views", keyOrder);
      var facts :- Block(t, "key_facts", keyOrder);
      var parts := views + facts;
      Ok(if |parts| > 0 then Strings.Join("\n\n", parts) else dumps(JObj(analysis)))
  }

  /** With both views and facts present and joinable, the content is the two blocks around a blank line. */
  lemma ContentOfViewsAndFacts(t: map<string, Value>, analysis: map<string, Value>, dumps: Value -> string,
                                keyOrder: map<string, Value> -> seq<string>)
    requires HasTruthy(t, "core_views") && JoinLines(t["core_views"], keyOrder).Ok?
    requires HasTruthy(t, "key_facts") && JoinLines(t["key_facts"], keyOrder).Ok?
    ensures Content(JObj(t), analysis, dumps, keyOrder)
            == Ok(JoinLines(t["core_views"], keyOrder).value + "\n\n" + JoinLines(t["key_facts"], keyOrder).value)
  {
    var parts := [JoinLines(t["core_views"], keyOrder).value] + [JoinLines(t["key_facts"], keyOrder).value];
    assert parts[1..] == [JoinLines(t["key_facts"], keyOrder).value];
  }

  /** The `reports` columns the transformed row sets. */
  const RowColumns: set<string> := {
    "report_id", "title", "report_type", "category", "date_published", "sources", "content",
    "summary_one_sentence", "sentiment", "key_drivers", "importance_score", "urgency_score",
    "reliability_score", "action", "target_allocation", "timing", "holding_period", "confidence_level",
    "analysis_json", "original_file_path", "file_size"}

  /** `d.get(key)`: a missing key reads as None. */
  function At(d: map<string, Value>, key: string): Value {
    GetOr(d, key, JNull)
  }

  /** The four sections of the analysis a row draws on. */
  datatype Sections = Sections(info: map<string, Value>, summary: map<string, Value>, metrics: map<string, Value>,
                               investment: map<string, Value>)

  /** The value of one column of the row. */
  function Column(k: string, id: Value, content: string, x: Sections, filename: Value, filePath: Value,
                  analysis: map<string, Value>): Value
  {
    match k
    case "report_id" => id
    case "title" => GetOr(x.info, "title", filename)
    case "report_type" => At(x.info, "type")
    case "category" => At(x.info, "category")
    case "date_published" => At(x.info, "date")
    case "sources" => GetOr(x.info, "sources", JArr([]))
    case "content" => JStr(content)
    case "summary_one_sentence" => At(x.summary, "one_sentence")
    case "sentiment" => At(x.summary, "sentiment")
    case "key_drivers" => GetOr(x.summary, "key_drivers", JArr([]))
    case "importance_score" => At(x.metrics, "importance_score")
    case "urgency_score" => At(x.metrics, "urgency_score")
    case "reliability_score" => At(x.metrics, "reliability_score")
    case "action" => At(x.investment, "action")
    case "target_allocation" => At(x.investment, "target_allocation")
    case "timing" => At(x.investment, "timing")
    case "holding_period" => At(x.investment, "holding_period")
    case "confidence_level" => At(x.investment, "confidence_level")
    case "analysis_json" => JObj(analysis)
    case "original_file_path" => filePath
    case _ => JNum(|content| as real)
  }

  /** The row itself, one value per column. */
  function Row(id: Value, content: string, x: Sections, filename: Value, filePath: Value,
               analysis: map<string, Value>): (r: map<string, Value>)
    ensures r.Keys == RowColumns
    ensures r["report_id"] == id && r["content"] == JStr(content) && r["file_size"] == JNum(|content| as real)
    ensures r["analysis_json"] == JObj(analysis) && r["original_file_path"] == filePath
    ensures r["title"] == GetOr(x.info, "title", filename) && r["category"] == At(x.info, "category")
    ensures r["importance_score"] == At(x.metrics, "importance_score") && r["action"] == At(x.investment, "action")
    ensures r["report_type"] == At(x.info, "type") && r["date_published"] == At(x.info, "date")
    ensures r["sources"] == GetOr(x.info, "sources", JArr([]))
    ensures r["summary_one_sentence"] == At(x.summary, "one_sentence") && r["sentiment"] == At(x.summary, "sentiment")
    ensures r["key_drivers"] == GetOr(x.summary, "key_drivers", JArr([]))
    ensures r["urgency_score"] == At(x.metrics, "urgency_score")
    ensures r["reliability_score"] == At(x.metrics, "reliability_score")
    ensures r["target_allocation"] == At(x.investment, "target_allocation") && r["timing"] == At(x.investment, "timing")
    ensures r["holding_period"] == At(x.investment, "holding_period")
    ensures r["confidence_level"] == At(x.investment, "confidence_level")
  {
    ColumnsOfInputs(id, content, x, filename, filePath, analysis);
    ColumnsOfSections(id, content, x, filename, filePath, analysis);
    ColumnsOfDetails(id, content, x, filename, filePath, analysis);
    ColumnsOfAdvice(id, content, x, filename, filePath, analysis);
    map k | k in RowColumns :: Column(k, id, content, x, filename, filePath, analysis)
  }

  lemma ColumnsOfInputs(id: Value, content: string, x: Sections, filename: Value, filePath: Value,
                        analysis: map<string, Value>)
    ensures Column("report_id", id, content, x, filename, filePath, analysis) == id
    ensures Column("content", id, content, x, filename, filePath, analysis) == JStr(content)
    ensures Column("file_size", id, content, x, filename, filePath, analysis) == JNum(|content| as real)
    ensures Column("analysis_json", id, content, x, filename, filePath, analysis) == JObj(analysis)
    ensures Column("original_file_path", id, content, x, filename, filePath, analysis) == filePath
  {
  }

  lemma ColumnsOfSections(id: Value, content: string, x: Sections, filename: Value, filePath: Value,
                          analysis: map<string, Value>)
    ensures Column("title", id, content, x, filename, filePath, analysis) == GetOr(x.info, "title", filename)
    ensures Column("category", id, content, x, filename, filePath, analysis) == At(x.info, "category")
    ensures Column("importance_score", id, content, x, filename, filePath, analysis) == At(x.metrics, "importance_score")
    ensures Column("action", id, content, x, filename, filePath, analysis) == At(x.investment, "action")
  {
  }

  lemma ColumnsOfDetails(id: Value, content: string, x: Sections, filename: Value, filePath: Value,
                         analysis: map<string, Value>)
    ensures Column("report_type", id, content, x, filename, filePath, analysis) == At(x.info, "type")
    ensures Column("date_published", id, content, x, filename, filePath, analysis) == At(x.info, "date")
    ensures Column("sources", id, content, x, filename, filePath, analysis) == GetOr(x.info, "sources", JArr([]))
    ensures Column("summary_one_sentence", id, content, x, filename, filePath, analysis) == At(x.summary, "one_sentence")
    ensures Column("sentiment", id, content, x, filename, filePath, analysis) == At(x.summary, "sentiment")
    ensures Column("key_drivers", id, content, x, filename, filePath, analysis) == GetOr(x.summary, "key_drivers", JArr([]))
  {
  }

  lemma ColumnsOfAdvice(id: Value, content: string, x: Sections, filename: Value, filePath: Value,
                        analysis: map<string, Value>)
    ensures Column("urgency_score", id, content, x, filename, filePath, analysis) == At(x.metrics, "urgency_score")
    ensures Column("reliability_score", id, content, x, filename, filePath, analysis) == At(x.metrics, "reliability_score")
    ensures Column("target_allocation", id, content, x, filename, filePath, analysis)
            == At(x.investment, "target_allocation")
    ensures Column("timing", id, content, x, filename, filePath, analysis) == At(x.investment, "timing")
    ensures Column("holding_period", id, content, x, filename, filePath, analysis) == At(x.investment, "holding_period")
    ensures Column("confidence_level", id, content, x, filename, filePath, analysis)
            == At(x.investment, "confidence_level")
  {
  }

  /**
   * `_transform_to_db_format(analysis, filename, file_path, report_id)`:
   * the row for `upsert_report`, with the whole analysis kept beside the
   * fields picked out of it and the size of the stored text.
   */
  function Transform(analysis: map<string, Value>, filename: Value, filePath: Value, customId: Value,
                     timestamp: string, dumps: Value -> string,
                     keyOrder: map<string, Value> -> seq<string>): (r: Result<map<string, Value>, string>)
    ensures r.Ok? ==> "report_id" in r.value && "title" in r.value && "content" in r.value && "file_size" in r.value
    ensures r.Ok? ==> "analysis_json" in r.value && "original_file_path" in r.value
    ensures r.Ok? ==> r.value["analysis_json"] == JObj(analysis) && r.value["original_file_path"] == filePath
    ensures r.Ok? ==> r.value["content"].JStr? && r.value["file_size"] == JNum(|r.value["content"].s| as real)
    ensures r.Ok? && Truthy(customId) ==> r.value["report_id"] == customId
    ensures r.Ok? ==> ReportId(GetOr(analysis, "report_info", JObj(map[])), customId, timestamp).Ok?
                      && r.value["report_id"] == ReportId(GetOr(analysis, "report_info", JObj(map[])), customId,
                                                          timestamp).value
    ensures r.Ok? && "report_info" !in analysis ==> r.value["title"] == filename
    ensures !GetOr(analysis, "summary", JObj(map[])).JObj? ==> r.Err?
    ensures r.Ok? ==> r.value.Keys == RowColumns
    ensures r.Ok? ==>
              var info := GetOr(analysis, "report_info", JObj(map[]));
              var metrics := GetOr(analysis, "key_metrics", JObj(map[]));
              var investment := GetOr(analysis, "investment_advice", JObj(map[]));
              info.JObj? && metrics.JObj? && investment.JObj?
              && r.value["title"] == GetOr(info.fields, "title", filename)
              && r.value["category"] == At(info.fields, "category")
              && r.value["importance_score"] == At(metrics.fields, "importance_score")
              && r.value["action"] == At(investment.fields, "action")
    ensures r.Ok? ==> Content(GetOr(analysis, "text_summary", JObj(map[])), analysis, dumps, keyOrder).Ok?
                      && r.value["content"] == JStr(Content(GetOr(analysis, "text_summary", JObj(map[])), analysis,
                                                            dumps, keyOrder).value)
  {
    var info := GetOr(analysis, "report_info", JObj(map[]));
    var summary := GetOr(analysis, "summary", JObj(map[]));
    var investment := GetOr(analysis, "investment_advice", JObj(map[]));
    var metrics := GetOr(analysis, "key_metrics", JObj(map[]));
    var id :- ReportId(info, customId, timestamp);
    var content :- Content(GetOr(analysis, "text_summary", JObj(map[])), analysis, dumps, keyOrder);
    if !info.JObj? then Err(NoAttribute(info, "get"))
    else if !summary.JObj? then Err(NoAttribute(summary, "get"))
    else if !metrics.JObj? then Err(NoAttribute(metrics, "get"))
    else if !investment.JObj? then Err(NoAttribute(investment, "get"))
    else
      Ok(Row(id, content, Sections(info.fields, summary.fields, metrics.fields, investment.fields), filename, filePath,
             analysis))
  }

  /**
   * A built row is `Row` of the report id, the rebuilt text and the four
   * sections, so every one of the 21 columns has the value `Row` states.
   */
  lemma TransformIsRow(analysis: map<string, Value>, filename: Value, filePath: Value, customId: Value,
                       timestamp: string, dumps: Value -> string, keyOrder: map<string, Value> -> seq<string>)
    requires Transform(analysis, filename, filePath, customId, timestamp, dumps, keyOrder).Ok?
    ensures var info := GetOr(analysis, "report_info", JObj(map[]));
            var summary := GetOr(analysis, "summary", JObj(map[]));
            var metrics := GetOr(analysis, "key_metrics", JObj(map[]));
            var investment := GetOr(analysis, "investment_advice", JObj(map[]));
            var content := Content(GetOr(analysis, "text_summary", JObj(map[])), analysis, dumps, keyOrder);
            && info.JObj? && summary.JObj? && metrics.JObj? && investment.JObj?
            && ReportId(info, customId, timestamp).Ok? && content.Ok?
            && Transform(analysis, filename, filePath, customId, timestamp, dumps, keyOrder).value
               == Row(ReportId(info, customId, timestamp).value, content.value,
                      Sections(info.fields, summary.fields, metrics.fields, investment.fields), filename, filePath,
                      analysis)
  {
  }

  // ---------------------------------------------------------------- dashboard

  /** The dashboard's entry for a stored row. */
  function DashboardEntry(row: map<string, Value>, filename: Value): (r: Value)
    ensures r.JObj? && r.fields.Keys == {"report_id", "title", "category", "date", "importance_score"}
  {
    JObj(map["report_id" := At(row, "report_id"), "title" := GetOr(row, "title", filename),
             "category" := At(row, "category"), "date" := At(row, "date_published"),
             "importance_score" := At(row, "importance_score")])
  }

  /**
   * The dashboard update as intended, through the context's UI-state
   * accessor (`context.ui_state`, as the watchlist monitor uses it): for a
   * non-empty dict state whose recent reports are a list, the entry goes
   * first and at most ten are kept; otherwise (including a failure, which is
   * swallowed) nothing is written. The code as written reaches for
   * `context.uiState` instead; see `DashboardStepAsWritten`.
   */
  function UpdateDashboard(state: Value, entry: Value): (r: Option<Value>)
    ensures r.Some? <==> Truthy(state) && state.JObj? && GetOr(state.fields, "recent_reports", JArr([])).JArr?
    ensures r.Some? ==> r.value.JObj? && r.value.fields.Keys == state.fields.Keys + {"recent_reports"}
    ensures r.Some? ==> forall k :: k in state.fields && k != "recent_reports" ==> r.value.fields[k] == state.fields[k]
    ensures r.Some? ==>
              var old_ := GetOr(state.fields, "recent_reports", JArr([])).items;
              var now := r.value.fields["recent_reports"];
              now.JArr? && 0 < |now.items| <= 10 && now.items[0] == entry
              && |now.items| == (if |old_| < 9 then |old_| + 1 else 10)
              && now.items[1..] == old_[..|now.items| - 1]
  {
    if !(Truthy(state) && state.JObj?) then None
    else
      var recent := GetOr(state.fields, "recent_reports", JArr([]));
      if !recent.JArr? then None
      else
        var all := [entry] + recent.items;
        var kept := if |all| <= 10 then all else all[..10];
        Some(JObj(state.fields["recent_reports" := JArr(kept)]))
  }

  /** Two updates put the newer entry first and the older second. */
  lemma NewestFirst(state: Value, e1: Value, e2: Value)
    requires UpdateDashboard(state, e1).Some?
    ensures UpdateDashboard(UpdateDashboard(state, e1).value, e2).Some?
    ensures var s2 := UpdateDashboard(UpdateDashboard(state, e1).value, e2).value.fields["recent_reports"].items;
      |s2| >= 2 && s2[0] == e2 && s2[1] == e1
  {
    var s1 := UpdateDashboard(state, e1).value;
    assert "recent_reports" in s1.fields;
    assert |s1.fields| > 0;
  }

  /**
   * The attributes a `ListenerContext` offers a listener: its constructor's
   * fields, the listener's id and name, `notify`, `add_tag`, `call_agent`,
   * the `ui_state` property and `log`. It has no `uiState` and no
   * `__getattr__`.
   */
  const ListenerContextAttributes: set<string> :=
    {"listener_config", "database", "agent_tools", "notification_callback", "ui_state_manager", "listener_id",
     "listener_name", "notify", "add_tag", "call_agent", "ui_state", "log"}

  /**
   * Step 5 as written: it reads `context.uiState`. On a context without that
   * attribute the lookup raises `AttributeError`, which the surrounding
   * `except Exception` swallows, so nothing is written whatever the state.
   */
  function DashboardStepAsWritten(attributes: set<string>, state: Value, entry: Value): (r: Option<Value>)
    ensures "uiState" !in attributes ==> r.None?
    ensures r.Some? ==> r == UpdateDashboard(state, entry)
  {
    if "uiState" in attributes then UpdateDashboard(state, entry) else None
  }

  /** Under the context the listener manager builds, the dashboard is never written. */
  lemma ListenerContextNeverWritesDashboard(state: Value, entry: Value)
    ensures DashboardStepAsWritten(ListenerContextAttributes, state, entry).None?
  {
    assert "uiState" !in ListenerContextAttributes;
  }

  /**
   * An empty dashboard shows the discrepancy: the intended update records the
   * new report, the code as written under a `ListenerContext` records nothing.
   */
  lemma DashboardEntryLostAsWritten(entry: Value)
    ensures var state := JObj(map["recent_reports" := JArr([])]);
      && UpdateDashboard(state, entry) == Some(JObj(map["recent_reports" := JArr([entry])]))
      && DashboardStepAsWritten(ListenerContextAttributes, state, entry) == None
  {
    var state := JObj(map["recent_reports" := JArr([])]);
    assert Truthy(state) by { assert "recent_reports" in state.fields; }
    assert GetOr(state.fields, "recent_reports", JArr([])) == JArr([]);
    assert [entry] + [] == [entry];
    assert state.fields["recent_reports" := JArr([entry])] == map["recent_reports" := JArr([entry])];
    ListenerContextNeverWritesDashboard(state, entry);
  }

  // ---------------------------------------------------------------- handler

  /** The listener's answer after the guards passed, given the analysis the model produced. */
  function Analyzed(event: map<string, Value>, analysis: map<string, Value>, timestamp: string,
                    dumps: Value -> string, keyOrder: map<string, Value> -> seq<string>): (r: Outcome)
    ensures "error" in analysis ==> !r.executed
    ensures r.executed <==> "error" !in analysis
                            && Transform(analysis, GetOr(event, "filename", JStr("unknown")), At(event, "file_path"),
                                         At(event, "report_id"), timestamp, dumps, keyOrder).Ok?
    ensures r.executed ==> r.reportId == Some(Transform(analysis, GetOr(event, "filename", JStr("unknown")),
                                                       At(event, "file_path"), At(event, "report_id"), timestamp,
                                                       dumps, keyOrder).value["report_id"])
    ensures r.executed ==>
              var row := Transform(analysis, GetOr(event, "filename", JStr("unknown")), At(event, "file_path"),
                                   At(event, "report_id"), timestamp, dumps, keyOrder).value;
              r.actions == StoredActions && r.importance == Some(row["importance_score"])
    ensures !r.executed ==> r.reportId.None? && r.actions == [] && r.importance.None?
  {
    var filename := GetOr(event, "filename", JStr("unknown"));
    if "error" in analysis then Skipped("AI分析失败: " + PyStr(analysis["error"]))
    else
      var row := Transform(analysis, filename, At(event, "file_path"), At(event, "report_id"), timestamp, dumps,
                           keyOrder);
      if row.Err? then Skipped("处理失败: " + row.error)
      else Outcome(true, "成功分析并存储报告: " + PyStr(filename), Some(row.value["report_id"]), StoredActions,
                   Some(At(row.value, "importance_score")))
  }

  /**
   * `handler(event_data, context)`: the guards, then the analysis. A
   * guard that raises is the listener's own exception.
   */
  function Handle(event: map<string, Value>, analysis: map<string, Value>, timestamp: string,
                  dumps: Value -> string, keyOrder: map<string, Value> -> seq<string>): (r: Result<Outcome, string>)
    ensures Guard(event).Err? <==> r.Err?
    ensures Guard(event).Ok? && Guard(event).value.Some? ==> r == Ok(Guard(event).value.value) && !r.value.executed
    ensures r.Ok? && r.value.executed ==> Guard(event) == Ok(None) && "error" !in analysis
    ensures Guard(event) == Ok(None) ==> r == Ok(Analyzed(event, analysis, timestamp, dumps, keyOrder))
  {
    var early :- Guard(event);
    if early.Some? then Ok(early.value) else Ok(Analyzed(event, analysis, timestamp, dumps, keyOrder))
  }

  /**
   * A long report that is not marked as analysed, with an analysis that
   * transforms into a row, is stored: the handler acts and reports the
   * row's id and importance.
   */
  lemma LongReportIsStored(event: map<string, Value>, text: string, analysis: map<string, Value>, timestamp: string,
                           dumps: Value -> string, keyOrder: map<string, Value> -> seq<string>)
    requires !HasTruthy(event, "skip_analysis")
    requires |text| >= 50 && !Strings.IsSpace(text[0]) && !Strings.IsSpace(text[|text| - 1])
    requires "error" !in analysis
    requires var e := event["content" := JStr(" " + text + "\n")];
             Transform(analysis, GetOr(e, "filename", JStr("unknown")), At(e, "file_path"), At(e, "report_id"),
                       timestamp, dumps, keyOrder).Ok?
    ensures var e := event["content" := JStr(" " + text + "\n")];
            var row := Transform(analysis, GetOr(e, "filename", JStr("unknown")), At(e, "file_path"),
                                 At(e, "report_id"), timestamp, dumps, keyOrder).value;
            var r := Handle(e, analysis, timestamp, dumps, keyOrder);
            r.Ok? && r.value.executed && r.value.reportId == Some(row["report_id"]) && r.value.actions == StoredActions
            && r.value.importance == Some(row["importance_score"])
  {
    LongContentPasses(event, text);
  }
}

=== FILE: report_search.dfy ===
/**
 * Report search in the database manager: the full-text query rewrite for
 * Chinese text, the conjunction of structured filters, the choice between
 * full-text and vector search, and the distance filtering of vector hits.
 * The stored rows arrive already in the store's `ORDER BY` order; what the
 * full-text index matches, and what the vector store answers, are inputs.
 */
module ReportSearch {
  import opened Wrappers
  import Strings
  import PySeq

  // ---------------------------------------------------------------- full-text rewrite

  /** A CJK unified ideograph, U+4E00 to U+9FFF. */
  predicate IsCjk(c: char) {
    '\U{4E00}' <= c <= '\U{9FFF}'
  }

  predicate HasCjk(s: string) {
    exists i :: 0 <= i < |s| && IsCjk(s[i])
  }

  /** A word with an ideograph becomes a prefix query. */
  function FtsWord(w: string): (r: string)
    ensures HasCjk(w) ==> r == w + "*"
    ensures !HasCjk(w) ==> r == w
  {
    if HasCjk(w) then w + "*" else w
  }

  function FtsWords(q: string): (r: seq<string>)
    ensures |r| == |Strings.Split(q)|
    ensures forall i :: 0 <= i < |r| ==> r[i] == FtsWord(Strings.Split(q)[i])
  {
    var words := Strings.Split(q);
    seq(|words|, i requires 0 <= i < |words| => FtsWord(words[i]))
  }

  /** A query with an ideograph has at least one word. */
  lemma CjkQueryHasWords(q: string)
    requires HasCjk(q)
    ensures |Strings.Split(q)| > 0
  {
    var i :| 0 <= i < |q| && IsCjk(q[i]);
    Strings.SplitNonEmpty(q, i);
  }

  /**
   * The `MATCH` expression `search_reports` builds: a query without
   * ideographs is used verbatim; otherwise it is split on whitespace, each
   * word with an ideograph gets a trailing `*`, and several words are
   * joined with " OR ".
   */
  function FtsQuery(q: string): (r: string)
    ensures !HasCjk(q) ==> r == q
    ensures HasCjk(q) ==> |FtsWords(q)| > 0 && r == Strings.Join(" OR ", FtsWords(q))
  {
    if !HasCjk(q) then q
    else
      var words := FtsWords(q);
      CjkQueryHasWords(q);
      if |words| > 1 then Strings.Join(" OR ", words) else words[0]
  }

  /** Dropping the added `*` gives back the word. */
  function Unstar(w: string): (r: string)
    ensures !HasCjk(w) ==> r == w
  {
    if HasCjk(w) && |w| > 0 then w[..|w| - 1] else w
  }

  /**
   * The rewrite loses nothing: with the added stars taken off, the words of
   * the `MATCH` expression are exactly the non-whitespace text of the query.
   */
  lemma FtsWordsKeepText(q: string)
    ensures var w := Strings.Split(q);
      Strings.Concat(seq(|w|, i requires 0 <= i < |w| => Unstar(FtsWord(w[i])))) == Strings.RemoveSpaces(q)
  {
    var w := Strings.Split(q);
    var u := seq(|w|, i requires 0 <= i < |w| => Unstar(FtsWord(w[i])));
    forall i | 0 <= i < |w| ensures u[i] == w[i] {
      if HasCjk(w[i]) {
        var k :| 0 <= k < |w[i]| && IsCjk(w[i][k]);
        assert HasCjk(w[i] + "*") by { assert (w[i] + "*")[k] == w[i][k]; }
        assert (w[i] + "*")[..|w[i]|] == w[i];
      }
    }
    assert u == w;
    Strings.SplitConcat(q);
  }

  // ---------------------------------------------------------------- structured filters

  /** The columns a report filter looks at; SQL NULL is `None`. */
  datatype Report = Report(id: string, category: Option<string>, action: Option<string>, importance: Option<int>,
                           published: Option<string>)

  /** One conjunct of a `WHERE` clause. */
  datatype Clause =
    | Matches(fts: string)
    | CategoryIs(category: string)
    | ActionIs(action: string)
    | ImportanceAtLeast(min: int)
    | PublishedBetween(start: string, end: string)
    | IdIn(ids: seq<string>)

  /** Python truthiness of an optional string argument. */
  predicate Given(s: Option<string>) {
    s.Some? && |s.value| > 0
  }

  datatype Filters = Filters(query: Option<string>, category: Option<string>, action: Option<string>,
                             minImportance: Option<int>, dateRange: Option<(string, string)>)

  /** Byte order of UTF-8 text, which is code-point order: SQLite's default collation. */
  predicate LexLe(a: string, b: string)
    decreases |a|
  {
    |a| == 0 || (|b| > 0 && (a[0] < b[0] || (a[0] == b[0] && LexLe(a[1..], b[1..]))))
  }

  /** What a conjunct means for a row; `fts` is the set of ids the full-text index matches. */
  predicate Holds(c: Clause, row: Report, fts: string -> set<string>) {
    match c
    case Matches(q) => row.id in fts(q)
    case CategoryIs(x) => row.category == Some(x)
    case ActionIs(x) => row.action == Some(x)
    case ImportanceAtLeast(m) => row.importance.Some? && row.importance.value >= m
    case PublishedBetween(s, e) => row.published.Some? && LexLe(s, row.published.value) && LexLe(row.published.value, e)
    case IdIn(ids) => row.id in ids
  }

  predicate AllHold(cs: seq<Clause>, row: Report, fts: string -> set<string>) {
    forall i :: 0 <= i < |cs| ==> Holds(cs[i], row, fts)
  }

  /** The position of a conjunct in `search_reports`'s fixed order. */
  function Rank(c: Clause): nat {
    match c
    case Matches(_) => 0
    case IdIn(_) => 0
    case CategoryIs(_) => 1
    case ActionIs(_) => 2
    case ImportanceAtLeast(_) => 3
    case PublishedBetween(_, _) => 4
  }

  /**
   * The conjuncts of `search_reports`, in the order query, category,
   * action, minimum importance, date range. Empty strings are not filters,
   * but a minimum importance of 0 is.
   */
  function Clauses(f: Filters): (r: seq<Clause>)
    ensures forall i, j :: 0 <= i < j < |r| ==> Rank(r[i]) < Rank(r[j])
    ensures forall i :: 0 <= i < |r| ==> !r[i].IdIn?
    ensures |r| == 0 <==> !Given(f.query) && !Given(f.category) && !Given(f.action) && f.minImportance.None?
                          && f.dateRange.None?
  {
    (if Given(f.query) then [Matches(FtsQuery(f.query.value))] else [])
    + (if Given(f.category) then [CategoryIs(f.category.value)] else [])
    + (if Given(f.action) then [ActionIs(f.action.value)] else [])
    + (if f.minImportance.Some? then [ImportanceAtLeast(f.minImportance.value)] else [])
    + (if f.dateRange.Some? then [PublishedBetween(f.dateRange.value.0, f.dateRange.value.1)] else [])
  }

  /** The filter `search_reports` means, stated directly on a row. */
  predicate Wanted(f: Filters, row: Report, fts: string -> set<string>) {
    && (Given(f.query) ==> row.id in fts(FtsQuery(f.query.value)))
    && (Given(f.category) ==> row.category == f.category)
    && (Given(f.action) ==> row.action == f.action)
    && (f.minImportance.Some? ==> row.importance.Some? && row.importance.value >= f.minImportance.value)
    && (f.dateRange.Some? ==> row.published.Some? && LexLe(f.dateRange.value.0, row.published.value)
                               && LexLe(row.published.value, f.dateRange.value.1))
  }

  /** A conjunction of two clause lists holds exactly when each does. */
  lemma AllHoldConcat(a: seq<Clause>, b: seq<Clause>, row: Report, fts: string -> set<string>)
    ensures AllHold(a + b, row, fts) <==> AllHold(a, row, fts) && AllHold(b, row, fts)
  {
    if AllHold(a, row, fts) && AllHold(b, row, fts) {
      forall i | 0 <= i < |a + b| ensures Holds((a + b)[i], row, fts) {
        if i >= |a| {
          assert (a + b)[i] == b[i - |a|];
        }
      }
    }
    if AllHold(a + b, row, fts) {
      forall i | 0 <= i < |b| ensures Holds(b[i], row, fts) {
        assert (a + b)[|a| + i] == b[i];
      }
      forall i | 0 <= i < |a| ensures Holds(a[i], row, fts) {
        assert (a + b)[i] == a[i];
      }
    }
  }

  /** The conjunction of the built clauses is exactly the intended filter. */
  lemma ClausesMeaning(f: Filters, row: Report, fts: string -> set<string>)
    ensures AllHold(Clauses(f), row, fts) <==> Wanted(f, row, fts)
  {
    var a := if Given(f.query) then [Matches(FtsQuery(f.query.value))] else [];
    var b := if Given(f.category) then [CategoryIs(f.category.value)] else [];
    var c := if Given(f.action) then [ActionIs(f.action.value)] else [];
    var d := if f.minImportance.Some? then [ImportanceAtLeast(f.minImportance.value)] else [];
    var e := if f.dateRange.Some? then [PublishedBetween(f.dateRange.value.0, f.dateRange.value.1)] else [];
    assert Clauses(f) == a + b + c + d + e;
    assert AllHold(a, row, fts) <==> (Given(f.query) ==> row.id in fts(FtsQuery(f.query.value))) by {
      if Given(f.query) { assert a[0] == Matches(FtsQuery(f.query.value)); }
    }
    assert AllHold(b, row, fts) <==> (Given(f.category) ==> row.category == f.category) by {
      if Given(f.category) { assert b[0] == CategoryIs(f.category.value); }
    }
    assert AllHold(c, row, fts) <==> (Given(f.action) ==> row.action == f.action) by {
      if Given(f.action) { assert c[0] == ActionIs(f.action.value); }
    }
    assert AllHold(d, row, fts) <==> (f.minImportance.Some? ==> (row.importance.Some?
                                         && row.importance.value >= f.minImportance.value)) by {
      if f.minImportance.Some? { assert d[0] == ImportanceAtLeast(f.minImportance.value); }
    }
    assert AllHold(e, row, fts) <==> (f.dateRange.Some? ==> (row.published.Some?
                                         && LexLe(f.dateRange.value.0, row.published.value)
                                         && LexLe(row.published.value, f.dateRange.value.1))) by {
      if f.dateRange.Some? { assert e[0] == PublishedBetween(f.dateRange.value.0, f.dateRange.value.1); }
    }
    AllHoldConcat(a + b + c + d, e, row, fts);
    AllHoldConcat(a + b + c, d, row, fts);
    AllHoldConcat(a + b, c, row, fts);
    AllHoldConcat(a, b, row, fts);
  }

  /** The rows a predicate keeps, in order. */
  function Filter(rows: seq<Report>, keep: Report -> bool): (r: seq<Report>)
    ensures |r| <= |rows|
    ensures forall x :: x in r <==> x in rows && keep(x)
    decreases |rows|
  {
    if |rows| == 0 then []
    else
      assert forall x :: x in rows <==> x == rows[0] || x in rows[1..];
      (if keep(rows[0]) then [rows[0]] else []) + Filter(rows[1..], keep)
  }

  lemma {:induction false} FilterSame(rows: seq<Report>, p: Report -> bool, q: Report -> bool)
    requires forall x :: x in rows ==> p(x) == q(x)
    ensures Filter(rows, p) == Filter(rows, q)
    decreases |rows|
  {
    if |rows| > 0 {
      assert forall x :: x in rows[1..] ==> x in rows;
      FilterSame(rows[1..], p, q);
    }
  }

  /**
   * `LIMIT limit OFFSET offset` as SQLite reads them: a negative offset is
   * zero and a negative limit means no limit.
   */
  function Window<T>(rows: seq<T>, limit: int, offset: int): (r: seq<T>)
    ensures offset >= |rows| ==> r == []
    ensures offset < |rows| ==> r <= rows[if offset < 0 then 0 else offset..]
    ensures limit >= 0 ==> |r| <= limit
    ensures limit < 0 ==> r == rows[if offset < 0 then 0 else if offset > |rows| then |rows| else offset..]
    ensures var start := if offset < 0 then 0 else if offset > |rows| then |rows| else offset;
      && |r| == (if limit < 0 || limit > |rows| - start then |rows| - start else limit)
      && forall i :: 0 <= i < |r| ==> r[i] == rows[start + i]
  {
    var start := if offset < 0 then 0 else if offset > |rows| then |rows| else offset;
    var rest := rows[start..];
    if limit < 0 || limit >= |rest| then rest else rest[..limit]
  }

  /** `SELECT * FROM reports WHERE <clauses> ... LIMIT ? OFFSET ?`. */
  function Select(rows: seq<Report>, cs: seq<Clause>, limit: int, offset: int, fts: string -> set<string>)
    : (r: seq<Report>)
    ensures forall x :: x in r ==> x in rows && AllHold(cs, x, fts)
    ensures limit >= 0 ==> |r| <= limit
    ensures r == Window(Filter(rows, x => AllHold(cs, x, fts)), limit, offset)
    ensures limit < 0 && offset <= 0 ==> forall x :: x in rows && AllHold(cs, x, fts) ==> x in r
  {
    Window(Filter(rows, x => AllHold(cs, x, fts)), limit, offset)
  }

  /**
   * `search_reports(query, category, action, min_importance, date_range,
   * limit, offset)`: the window of exactly the rows the filters want.
   */
  function SearchReports(rows: seq<Report>, f: Filters, limit: int, offset: int, fts: string -> set<string>)
    : (r: seq<Report>)
    ensures r == Window(Filter(rows, x => Wanted(f, x, fts)), limit, offset)
    ensures forall x :: x in r ==> x in rows && Wanted(f, x, fts)
  {
    forall x | x in rows ensures AllHold(Clauses(f), x, fts) == Wanted(f, x, fts) {
      ClausesMeaning(f, x, fts);
    }
    FilterSame(rows, x => AllHold(Clauses(f), x, fts), x => Wanted(f, x, fts));
    Select(rows, Clauses(f), limit, offset, fts)
  }

  /** With no filter at all the clause is `1=1`: the plain window of the table. */
  lemma NoFiltersIsWholeTable(rows: seq<Report>, limit: int, offset: int, fts: string -> set<string>)
    ensures SearchReports(rows, Filters(None, None, None, None, None), limit, offset, fts) == Window(rows, limit, offset)
  {
    FilterSame(rows, x => Wanted(Filters(None, None, None, None, None), x, fts), x => true);
    FilterAll(rows);
  }

  lemma {:induction false} FilterAll(rows: seq<Report>)
    ensures Filter(rows, x => true) == rows
    decreases |rows|
  {
    if |rows| > 0 {
      FilterAll(rows[1..]);
      assert rows == [rows[0]] + rows[1..];
    }
  }

  /** A minimum importance of 0 is a filter: unscored rows are excluded. */
  lemma ZeroImportanceCounts(rows: seq<Report>, limit: int, offset: int, fts: string -> set<string>, x: Report)
    requires x in SearchReports(rows, Filters(None, None, None, Some(0), None), limit, offset, fts)
    ensures x.importance.Some? && x.importance.value >= 0
  {
  }

  // ---------------------------------------------------------------- vector search

  /** `os.getenv('USE_CHROMADB', 'false').lower() == 'true'` with a vector store present. */
  function UseVector(hasChroma: bool, setting: Option<string>): (r: bool)
    ensures r ==> hasChroma && setting.Some?
  {
    hasChroma && Strings.Lower(setting.GetOr("false")) == "true"
  }

  /** The setting is read case-insensitively; anything else, or no store, means full text. */
  lemma UseVectorSpellings()
    ensures UseVector(true, Some("true")) && UseVector(true, Some("TRUE")) && UseVector(true, Some("True"))
    ensures !UseVector(true, None) && !UseVector(true, Some("1")) && !UseVector(true, Some("yes"))
    ensures !UseVector(false, Some("true"))
  {
    assert Strings.Lower("TRUE") == "true";
    assert Strings.Lower("True") == "true";
    assert Strings.Lower("true") == "true";
    assert Strings.Lower("false") != "true" by { assert Strings.Lower("false")[0] == 'f'; }
    assert Strings.Lower("yes") != "true";
    assert Strings.Lower("1") != "true";
  }

  /** A vector-store answer: hit ids in rank order and, when returned, their distances. */
  datatype Answer = Answer(ids: seq<string>, distances: Option<seq<real>>)

  /** The distance of hit `i`, when one was returned for it. */
  function DistanceAt(a: Answer, i: nat): (r: Option<real>)
    ensures r.Some? <==> a.distances.Some? && i < |a.distances.value|
    ensures r.Some? ==> r.value == a.distances.value[i]
  {
    if a.distances.Some? && i < |a.distances.value| then Some(a.distances.value[i]) else None
  }

  /** Close enough: no distance known, or a distance below 0.5. */
  predicate Close(d: Option<real>) {
    d.None? || d.value < 0.5
  }

  /** A returned distance below 0.5. */
  predicate Near(d: Option<real>) {
    d.Some? && d.value < 0.5
  }

  /**
   * The ranks from `i` on whose distance `keep` accepts, ascending; that
   * every such rank is there is `RanksComplete`.
   */
  function Ranks(a: Answer, i: nat, keep: Option<real> -> bool): (r: seq<nat>)
    ensures forall k :: 0 <= k < |r| ==> i <= r[k] < |a.ids| && keep(DistanceAt(a, r[k]))
    ensures forall k, l :: 0 <= k < l < |r| ==> r[k] < r[l]
    decreases |a.ids| - i
  {
    if i >= |a.ids| then []
    else
      var rest := Ranks(a, i + 1, keep);
      if keep(DistanceAt(a, i)) then [i] + rest else rest
  }

  /** Every rank from `i` on whose distance `keep` accepts is listed. */
  lemma {:induction false} RanksComplete(a: Answer, i: nat, keep: Option<real> -> bool, k: nat)
    requires i <= k < |a.ids| && keep(DistanceAt(a, k))
    ensures k in Ranks(a, i, keep)
    decreases |a.ids| - i
  {
    if k > i {
      RanksComplete(a, i + 1, keep, k);
    }
  }

  /** The hits from `i` on that are close enough, with their distances, in rank order. */
  function CloseHits(a: Answer, i: nat): (r: seq<(string, Option<real>)>)
    ensures forall k :: 0 <= k < |r| ==> Close(r[k].1)
    ensures |r| <= |a.ids| - i || i > |a.ids|
    decreases |a.ids| - i
  {
    if i >= |a.ids| then []
    else
      var d := DistanceAt(a, i);
      (if Close(d) then [(a.ids[i], d)] else []) + CloseHits(a, i + 1)
  }

  /** The close hits are the hits at exactly the close ranks, in rank order, each with its distance. */
  lemma {:induction false} CloseHitsRanks(a: Answer, i: nat)
    ensures var r := CloseHits(a, i); var ks := Ranks(a, i, Close);
      |r| == |ks| && forall k :: 0 <= k < |r| ==> r[k] == (a.ids[ks[k]], DistanceAt(a, ks[k]))
    decreases |a.ids| - i
  {
    if i < |a.ids| {
      CloseHitsRanks(a, i + 1);
      var rest := CloseHits(a, i + 1);
      var ks := Ranks(a, i + 1, Close);
      if Close(DistanceAt(a, i)) {
        assert CloseHits(a, i) == [(a.ids[i], DistanceAt(a, i))] + rest;
        assert Ranks(a, i, Close) == [i] + ks;
      } else {
        assert CloseHits(a, i) == rest;
        assert Ranks(a, i, Close) == ks;
      }
    }
  }

  function Take<T>(s: seq<T>, limit: int): (r: seq<T>)
    ensures limit <= 0 ==> r == []
    ensures limit > 0 ==> r == s[..if limit < |s| then limit else |s|]
  {
    if limit <= 0 then [] else if limit < |s| then s[..limit] else s
  }

  /**
   * The purely semantic path of `_chroma_search_reports`: a blank query
   * gives nothing; otherwise hits are taken in rank order, skipping those
   * whose distance is 0.5 or more, until `limit` are collected.
   */
  method SemanticHits(query: string, limit: int, a: Answer) returns (r: seq<(string, Option<real>)>)
    ensures |Strings.Strip(query)| == 0 ==> r == []
    ensures |Strings.Strip(query)| > 0 ==> r == Take(CloseHits(a, 0), limit)
    ensures forall k :: 0 <= k < |r| ==> Close(r[k].1)
    ensures |r| <= |a.ids| && (limit >= 0 ==> |r| <= limit)
  {
    if |Strings.Strip(query)| == 0 {
      return [];
    }
    r := CollectClose(a, limit);
  }

  /** The scan of `_chroma_search_reports`: close hits in rank order, stopping at `limit`. */
  method CollectClose(a: Answer, limit: int) returns (r: seq<(string, Option<real>)>)
    ensures r == Take(CloseHits(a, 0), limit)
    ensures forall k :: 0 <= k < |r| ==> Close(r[k].1)
    ensures |r| <= |a.ids| && (limit >= 0 ==> |r| <= limit)
  {
    r := [];
    var i := 0;
    while i < |a.ids| && |r| < limit
      invariant 0 <= i <= |a.ids|
      invariant r + Scan(a, i, limit - |r|) == Scan(a, 0, limit)
      decreases |a.ids| - i
    {
      var d := DistanceAt(a, i);
      if Close(d) {
        r := r + [(a.ids[i], d)];
      }
      i := i + 1;
    }
    ScanIsTake(a, 0, limit);
    TakeCloseHits(a, limit);
  }

  /** The scan itself: the close hits from `i` on, at most `n` of them. */
  function Scan(a: Answer, i: nat, n: int): (r: seq<(string, Option<real>)>)
    decreases |a.ids| - i
  {
    if i >= |a.ids| || n <= 0 then []
    else
      var d := DistanceAt(a, i);
      if Close(d) then [(a.ids[i], d)] + Scan(a, i + 1, n - 1) else Scan(a, i + 1, n)
  }

  /** Stopping at `n` is taking the first `n` of all the close hits. */
  lemma {:induction false} ScanIsTake(a: Answer, i: nat, n: int)
    ensures Scan(a, i, n) == Take(CloseHits(a, i), n)
    decreases |a.ids| - i
  {
    if i < |a.ids| && n > 0 {
      var d := DistanceAt(a, i);
      if Close(d) {
        assert CloseHits(a, i) == [(a.ids[i], d)] + CloseHits(a, i + 1);
        assert Scan(a, i, n) == [(a.ids[i], d)] + Scan(a, i + 1, n - 1);
        ScanIsTake(a, i + 1, n - 1);
        TakeCons((a.ids[i], d), CloseHits(a, i + 1), n);
      } else {
        assert CloseHits(a, i) == CloseHits(a, i + 1);
        ScanIsTake(a, i + 1, n);
      }
    }
  }

  lemma TakeCons<T>(h: T, rest: seq<T>, n: int)
    requires n > 0
    ensures Take([h] + rest, n) == [h] + Take(rest, n - 1)
  {
    if n - 1 < |rest| {
      assert ([h] + rest)[..n] == [h] + rest[..n - 1];
    }
  }

  /** What is collected is close, and there is no more of it than hits or than the limit. */
  lemma TakeCloseHits(a: Answer, limit: int)
    ensures var r := Take(CloseHits(a, 0), limit);
      (forall k :: 0 <= k < |r| ==> Close(r[k].1)) && |r| <= |a.ids| && (limit >= 0 ==> |r| <= limit)
  {
    var all := CloseHits(a, 0);
    var r := Take(all, limit);
    assert forall k :: 0 <= k < |r| ==> r[k] == all[k];
  }

  /**
   * The candidate ids of the hybrid path: with a query, the hits with a
   * returned distance below 0.5 (all hits when no distances came back),
   * cut to `limit`; without one, every id the store lists.
   */
  function Candidates(query: Option<string>, limit: int, a: Answer, listed: seq<string>): (r: seq<string>)
    ensures !Given(query) ==> r == listed
    ensures Given(query) && a.distances.None? ==> r == PySeq.To(a.ids, limit)
    ensures Given(query) ==> forall x :: x in r ==> x in a.ids
    ensures Given(query) && a.distances.Some? ==>
              forall x :: x in r ==> exists i :: 0 <= i < |a.ids| && a.ids[i] == x && DistanceAt(a, i).Some?
                                                 && DistanceAt(a, i).value < 0.5
    ensures Given(query) && a.distances.Some? ==> r == PySeq.To(Nearby(a, 0), limit)
  {
    if !Given(query) then listed
    else if a.distances.None? then PrefixMembers(a.ids, limit); PySeq.To(a.ids, limit)
    else PrefixMembers(Nearby(a, 0), limit); PySeq.To(Nearby(a, 0), limit)
  }

  lemma PrefixMembers<T>(s: seq<T>, k: int)
    ensures forall x :: x in PySeq.To(s, k) ==> x in s
  {
    var n := PySeq.SliceStart(|s|, k);
    assert forall i :: 0 <= i < n ==> s[..n][i] == s[i];
  }

  /** The hits from `i` on whose returned distance is below 0.5. */
  function Nearby(a: Answer, i: nat): (r: seq<string>)
    ensures forall x :: x in r ==> exists k :: i <= k < |a.ids| && a.ids[k] == x && DistanceAt(a, k).Some?
                                               && DistanceAt(a, k).value < 0.5
    decreases |a.ids| - i
  {
    if i >= |a.ids| then []
    else
      var d := DistanceAt(a, i);
      (if d.Some? && d.value < 0.5 then [a.ids[i]] else []) + Nearby(a, i + 1)
  }

  /** No close hit is dropped: each one is among the close hits with its distance. */
  lemma CloseHitsComplete(a: Answer, k: nat)
    requires k < |a.ids| && Close(DistanceAt(a, k))
    ensures (a.ids[k], DistanceAt(a, k)) in CloseHits(a, 0)
  {
    RanksComplete(a, 0, Close, k);
    CloseHitsRanks(a, 0);
    var ks := Ranks(a, 0, Close);
    var j :| 0 <= j < |ks| && ks[j] == k;
    assert CloseHits(a, 0)[j] == (a.ids[k], DistanceAt(a, k));
  }

  /** No near hit is dropped: every id ranked with a distance below 0.5 is among the candidates before the cut. */
  lemma NearbyComplete(a: Answer, k: nat)
    requires k < |a.ids| && Near(DistanceAt(a, k))
    ensures a.ids[k] in Nearby(a, 0)
  {
    RanksComplete(a, 0, Near, k);
    NearbyRanks(a, 0);
    var ks := Ranks(a, 0, Near);
    var j :| 0 <= j < |ks| && ks[j] == k;
    assert Nearby(a, 0)[j] == a.ids[k];
  }

  /** The near hits are the ids at exactly the ranks with a distance below 0.5, in rank order. */
  lemma {:induction false} NearbyRanks(a: Answer, i: nat)
    ensures var r := Nearby(a, i); var ks := Ranks(a, i, Near);
      |r| == |ks| && forall k :: 0 <= k < |r| ==> r[k] == a.ids[ks[k]]
    decreases |a.ids| - i
  {
    if i < |a.ids| {
      NearbyRanks(a, i + 1);
      var rest := Nearby(a, i + 1);
      var ks := Ranks(a, i + 1, Near);
      if Near(DistanceAt(a, i)) {
        assert Nearby(a, i) == [a.ids[i]] + rest;
        assert Ranks(a, i, Near) == [i] + ks;
      } else {
        assert Nearby(a, i) == rest;
        assert Ranks(a, i, Near) == ks;
      }
    }
  }

  /**
   * The hybrid path's clauses: an id constraint only when there are
   * candidates, then category, action and minimum importance.
   */
  function HybridClauses(candidates: seq<string>, category: Option<string>, action: Option<string>,
                         minImportance: Option<int>): (r: seq<Clause>)
    ensures (exists i :: 0 <= i < |r| && r[i].IdIn?) <==> |candidates| > 0
    ensures |candidates| == 0 ==> r == Clauses(Filters(None, category, action, minImportance, None))
  {
    var structured := Clauses(Filters(None, category, action, minImportance, None));
    if |candidates| > 0 then
      var r := [IdIn(candidates)] + structured;
      assert r[0].IdIn?;
      r
    else structured
  }

  /**
   * The hybrid path: with no candidates the id constraint disappears and
   * the structured filters alone select, so the search silently widens to
   * every row that passes them.
   */
  lemma NoCandidatesDropsIdFilter(rows: seq<Report>, category: Option<string>, action: Option<string>,
                                  minImportance: Option<int>, limit: int, offset: int, fts: string -> set<string>)
    ensures Select(rows, HybridClauses([], category, action, minImportance), limit, offset, fts)
            == SearchReports(rows, Filters(None, category, action, minImportance, None), limit, offset, fts)
  {
  }

  /** With candidates, every row the hybrid path returns is one of them. */
  lemma HybridRowsAreCandidates(rows: seq<Report>, candidates: seq<string>, category: Option<string>,
                                action: Option<string>, minImportance: Option<int>, limit: int, offset: int,
                                fts: string -> set<string>, x: Report)
    requires |candidates| > 0
    requires x in Select(rows, HybridClauses(candidates, category, action, minImportance), limit, offset, fts)
    ensures x.id in candidates
  {
    assert Holds(HybridClauses(candidates, category, action, minImportance)[0], x, fts);
  }

  /** Only a non-empty query with no category, no action and no non-zero importance is purely semantic. */
  predicate PurelySemantic(query: Option<string>, category: Option<string>, action: Option<string>,
                           minImportance: Option<int>) {
    Given(query) && !(Given(category) || Given(action) || (minImportance.Some? && minImportance.value != 0))
  }

  datatype Found = Rows(rows: seq<Report>) | Hits(hits: seq<(string, Option<real>)>)

  /**
   * `smart_search_reports(...)`: the vector path when a store is present
   * and enabled, split into the purely semantic and the hybrid search;
   * the full-text search otherwise.
   */
  method SmartSearch(hasChroma: bool, setting: Option<string>, query: Option<string>, category: Option<string>,
                     action: Option<string>, minImportance: Option<int>, limit: int, offset: int,
                     rows: seq<Report>, fts: string -> set<string>, answer: Answer, listed: seq<string>)
    returns (r: Found)
    ensures !UseVector(hasChroma, setting) ==>
              r == Rows(SearchReports(rows, Filters(query, category, action, minImportance, None), limit, offset, fts))
    ensures UseVector(hasChroma, setting) && PurelySemantic(query, category, action, minImportance) ==>
              r.Hits? && (|Strings.Strip(query.value)| > 0 ==> r.hits == Take(CloseHits(answer, 0), limit))
    ensures (UseVector(hasChroma, setting) && PurelySemantic(query, category, action, minImportance)
             && |Strings.Strip(query.value)| == 0) ==> r == Hits([])
    ensures UseVector(hasChroma, setting) && !PurelySemantic(query, category, action, minImportance) ==>
              r == Rows(Select(rows, HybridClauses(Candidates(query, limit, answer, listed), category, action,
                                                   minImportance), limit, offset, fts))
  {
    if !UseVector(hasChroma, setting) {
      return Rows(SearchReports(rows, Filters(query, category, action, minImportance, None), limit, offset, fts));
    }
    if PurelySemantic(query, category, action, minImportance) {
      var hits := SemanticHits(query.value, limit, answer);
      return Hits(hits);
    }
    var candidates := Candidates(query, limit, answer, listed);
    return Rows(Select(rows, HybridClauses(candidates, category, action, minImportance), limit, offset, fts));
  }

  /**
   * The full-text fallback of `smart_search_reports` as written: it passes
   * `limit` and `offset` by position into `search_reports`, where they land
   * in `date_range` and `limit`. A non-zero `limit` is truthy, so
   * `date_range[0]` is taken of an integer and raises; a zero `limit` skips
   * the date filter and returns `offset` rows from the start.
   */
  function FallbackAsWritten(rows: seq<Report>, query: Option<string>, category: Option<string>,
                             action: Option<string>, minImportance: Option<int>, limit: int, offset: int,
                             fts: string -> set<string>): (r: Result<seq<Report>, string>)
    ensures limit != 0 <==> r.Err?
    ensures limit == 0 ==> r == Ok(SearchReports(rows, Filters(query, category, action, minImportance, None), offset, 0, fts))
  {
    if limit != 0 then Err("TypeError: 'int' object is not subscriptable")
    else Ok(SearchReports(rows, Filters(query, category, action, minImportance, None), offset, 0, fts))
  }

  /** `smart_search_reports(...)` as written: the vector paths of `SmartSearch`, the positional fallback. */
  method SmartSearchAsWritten(hasChroma: bool, setting: Option<string>, query: Option<string>, category: Option<string>,
                              action: Option<string>, minImportance: Option<int>, limit: int, offset: int,
                              rows: seq<Report>, fts: string -> set<string>, answer: Answer, listed: seq<string>)
    returns (r: Result<Found, string>)
    ensures !UseVector(hasChroma, setting) ==>
              (r.Err? <==> limit != 0)
              && (limit == 0 ==> r == Ok(Rows(SearchReports(rows, Filters(query, category, action, minImportance, None),
                                                            offset, 0, fts))))
    ensures UseVector(hasChroma, setting) ==> r.Ok?
  {
    if !UseVector(hasChroma, setting) {
      var found := FallbackAsWritten(rows, query, category, action, minImportance, limit, offset, fts);
      if found.Err? {
        return Err(found.error);
      }
      return Ok(Rows(found.value));
    }
    var f := SmartSearch(hasChroma, setting, query, category, action, minImportance, limit, offset, rows, fts,
                         answer, listed);
    return Ok(f);
  }

  /**
   * The default call of the full-text fallback raises as written, where
   * the keyword call returns the one stored report.
   */
  lemma FallbackDefaultRaises(x: Report, fts: string -> set<string>)
    ensures FallbackAsWritten([x], None, None, None, None, 30, 0, fts).Err?
    ensures SearchReports([x], Filters(None, None, None, None, None), 30, 0, fts) == [x]
  {
    NoFiltersIsWholeTable([x], 30, 0, fts);
  }

  /** With a zero limit the fallback as written ignores the offset and returns `offset` rows instead of none. */
  lemma FallbackZeroLimitReturnsOffsetRows(x: Report, y: Report, fts: string -> set<string>)
    ensures FallbackAsWritten([x, y], None, None, None, None, 0, 1, fts) == Ok([x])
    ensures SearchReports([x, y], Filters(None, None, None, None, None), 0, 1, fts) == []
  {
    NoFiltersIsWholeTable([x, y], 1, 0, fts);
    NoFiltersIsWholeTable([x, y], 0, 1, fts);
    assert Window([x, y], 1, 0) == [x];
  }

  /**
   * The two vector paths disagree on hits without a returned distance:
   * the semantic path keeps them, the hybrid path drops them.
   */
  lemma MissingDistanceKeptOnlyBySemantic(id: string)
    ensures CloseHits(Answer([id], Some([])), 0) == [(id, None)]
    ensures Nearby(Answer([id], Some([])), 0) == []
  {
    assert CloseHits(Answer([id], Some([])), 1) == [];
  }
}

=== FILE: report_summary.dfy ===
/**
 * The report analyzer's text summary without a language model: the
 * report is stripped of whitespace, cut into sentences at Chinese and
 * Latin sentence punctuation, and sentences (or windows of long ones) with
 * judgement words, numbers or framework words are kept, de-duplicated and
 * capped. Where the number pattern first matches in a sentence is an
 * input: the regular expression itself is not modelled.
 */
module ReportSummary {
  import Strings
  import PySeq
  import opened Wrappers

  /** The sentence ends `。！？;；`. */
  predicate IsDelimiter(c: char) {
    c == '。' || c == '！' || c == '？' || c == ';' || c == '；'
  }

  predicate NoDelimiter(s: string) {
    forall i :: 0 <= i < |s| ==> !IsDelimiter(s[i])
  }

  /** Text without whitespace or sentence ends: what every extracted item is made of. */
  predicate Clean(s: string) {
    Strings.NoSpace(s) && NoDelimiter(s)
  }

  /** `s[a:b]` for non-negative bounds. */
  function PySlice(s: string, a: nat, b: nat): (r: string)
    ensures a < b && a < |s| ==> r == s[a..if b < |s| then b else |s|]
    ensures |r| <= |s|
    ensures Clean(s) ==> Clean(r)
  {
    if a >= b || a >= |s| then "" else s[a..if b < |s| then b else |s|]
  }

  /** The length of the delimiter-free run that starts `s`. */
  function PieceEnd(s: string): (k: nat)
    ensures k <= |s|
    ensures forall i :: 0 <= i < k ==> !IsDelimiter(s[i])
    ensures k < |s| ==> IsDelimiter(s[k])
    decreases |s|
  {
    if |s| == 0 || IsDelimiter(s[0]) then 0 else 1 + PieceEnd(s[1..])
  }

  /** `re.split(r'[。！？;；]', s)`: the pieces between sentence ends, empty ones included. */
  function Pieces(s: string): (r: seq<string>)
    ensures |r| > 0
    ensures forall i :: 0 <= i < |r| ==> NoDelimiter(r[i])
    ensures Strings.NoSpace(s) ==> forall i :: 0 <= i < |r| ==> Strings.NoSpace(r[i])
    decreases |s|
  {
    var k := PieceEnd(s);
    if k == |s| then [s]
    else
      var rest := Pieces(s[k + 1..]);
      assert Strings.NoSpace(s) ==> Strings.NoSpace(s[k + 1..]);
      [s[..k]] + rest
  }

  function RemoveDelimiters(s: string): (r: string)
    decreases |s|
  {
    if |s| == 0 then "" else (if IsDelimiter(s[0]) then "" else [s[0]]) + RemoveDelimiters(s[1..])
  }

  /** Splitting loses only the sentence ends: the pieces put together are the text without them. */
  lemma {:induction false} PiecesConcat(s: string)
    ensures Strings.Concat(Pieces(s)) == RemoveDelimiters(s)
    decreases |s|
  {
    var k := PieceEnd(s);
    PrefixWithoutDelimiters(s, k);
    if k < |s| {
      PiecesConcat(s[k + 1..]);
      RemoveDelimitersAppend(s[..k], s[k..]);
      assert s == s[..k] + s[k..];
      assert s[k..][1..] == s[k + 1..];
      assert RemoveDelimiters(s[k..]) == RemoveDelimiters(s[k + 1..]);
    } else {
      assert s[..k] == s;
    }
  }

  lemma {:induction false} PrefixWithoutDelimiters(s: string, k: nat)
    requires k <= |s| && forall i :: 0 <= i < k ==> !IsDelimiter(s[i])
    ensures RemoveDelimiters(s[..k]) == s[..k]
    decreases k
  {
    if k > 0 {
      assert s[..k][1..] == s[1..][..k - 1];
      PrefixWithoutDelimiters(s[1..], k - 1);
    }
  }

  lemma {:induction false} RemoveDelimitersAppend(a: string, b: string)
    ensures RemoveDelimiters(a + b) == RemoveDelimiters(a) + RemoveDelimiters(b)
    decreases |a|
  {
    if |a| == 0 {
      assert a + b == b;
    } else {
      assert (a + b)[0] == a[0];
      assert (a + b)[1..] == a[1..] + b;
      RemoveDelimitersAppend(a[1..], b);
    }
  }

  /** Stripping text that has no whitespace changes nothing. */
  lemma StripNoSpace(s: string)
    requires Strings.NoSpace(s)
    ensures Strings.Strip(s) == s
  {
    assert Strings.LStrip(s) == s;
  }

  /** The pieces longer than ten characters, stripped. */
  function LongPieces(ps: seq<string>): (r: seq<string>)
    requires forall i :: 0 <= i < |ps| ==> Clean(ps[i])
    ensures forall i :: 0 <= i < |r| ==> |r[i]| > 10 && Clean(r[i])
    ensures forall x :: x in r <==> x in ps && |x| > 10
    decreases |ps|
  {
    if |ps| == 0 then []
    else
      assert Clean(ps[0]);
      StripNoSpace(ps[0]);
      assert forall x :: x in ps <==> x == ps[0] || x in ps[1..];
      (if |Strings.Strip(ps[0])| > 10 then [Strings.Strip(ps[0])] else []) + LongPieces(ps[1..])
  }

  /** The sentences of a report: whitespace removed, split at sentence ends, short ones dropped. */
  function Sentences(text: string): (r: seq<string>)
    ensures forall i :: 0 <= i < |r| ==> |r[i]| > 10 && Clean(r[i])
    ensures forall x :: x in r <==> x in Pieces(Strings.RemoveSpaces(Strings.Strip(text))) && |x| > 10
  {
    LongPieces(Pieces(Strings.RemoveSpaces(Strings.Strip(text))))
  }

  // ---------------------------------------------------------------- keyword windows

  const JudgementWords: seq<string> := ["应当", "需要", "建议", "可以", "不会", "会", "将", "必然", "预期", "判断",
                                         "认为", "看好", "看空", "应该", "能够", "可能"]

  const FrameworkWords: seq<string> := ["因素", "框架", "方法", "逻辑", "模型", "维度", "特征", "原则", "策略", "机制",
                                         "驱动", "角度", "方面"]

  predicate ShortWords(ws: seq<string>) {
    forall i :: 0 <= i < |ws| ==> |ws[i]| <= 100
  }

  predicate HasWord(s: string, ws: seq<string>) {
    exists i :: 0 <= i < |ws| && Strings.Contains(s, ws[i])
  }

  /** A window of 50 characters before and 100 from the first occurrence of `w`, which it contains. */
  function WordWindow(s: string, w: string): (r: string)
    requires Strings.Contains(s, w) && |w| <= 100
    ensures var i := Strings.Find(s, w);
      r == s[(if i >= 50 then i - 50 else 0)..(if i + 100 < |s| then i + 100 else |s|)]
    ensures Strings.Contains(r, w)
    ensures Clean(s) ==> Clean(r)
    ensures |r| <= 150
  {
    var idx := Strings.Find(s, w);
    var start := if idx >= 50 then idx - 50 else 0;
    var r := PySlice(s, start, idx + 100);
    Strings.OccursInSlice(s, w, idx, start, if idx + 100 < |s| then idx + 100 else |s|);
    r
  }

  /** A word whose window in `s` is kept: it occurs, and its window is longer than 20 characters. */
  predicate Qualifies(s: string, w: string) {
    |w| <= 100 && Strings.Contains(s, w) && |WordWindow(s, w)| > 20
  }

  /**
   * The window of a long sentence: for the words in list order, the window
   * around the first that occurs, passing over windows of 20 characters
   * or fewer.
   */
  function Window(s: string, ws: seq<string>): (r: Option<string>)
    requires ShortWords(ws)
    ensures r.Some? <==> exists i :: 0 <= i < |ws| && Qualifies(s, ws[i])
    ensures r.Some? ==> exists i :: 0 <= i < |ws| && Qualifies(s, ws[i]) && r.value == WordWindow(s, ws[i])
                                   && forall j :: 0 <= j < i ==> !Qualifies(s, ws[j])
    ensures r.Some? ==> 20 < |r.value| <= 150 && HasWord(r.value, ws)
    ensures r.Some? && Clean(s) ==> Clean(r.value)
  {
    var q := w => Qualifies(s, w);
    match FirstIndex(ws, q, 0)
    case None =>
      assert forall j :: 0 <= j < |ws| ==> !q(ws[j]);
      None
    case Some(i) =>
      assert q(ws[i]) && forall j :: 0 <= j < i ==> !q(ws[j]);
      var r := WordWindow(s, ws[i]);
      assert Strings.Contains(r, ws[i]);
      Some(r)
  }

  /** The position of the first word, from `k` on, that satisfies `p`. */
  function FirstIndex(ws: seq<string>, p: string -> bool, k: nat): (r: Option<nat>)
    requires k <= |ws|
    ensures r.Some? ==> k <= r.value < |ws| && p(ws[r.value]) && forall j :: k <= j < r.value ==> !p(ws[j])
    ensures r.None? ==> forall j :: k <= j < |ws| ==> !p(ws[j])
    decreases |ws| - k
  {
    if k == |ws| then None
    else if p(ws[k]) then Some(k)
    else FirstIndex(ws, p, k + 1)
  }

  /**
   * What a sentence contributes to the views or the framework: itself when
   * it has a listed word and is 21 to 150 characters long, a window when
   * it is longer, nothing otherwise.
   */
  function WordItem(s: string, ws: seq<string>): (r: Option<string>)
    requires ShortWords(ws)
    ensures r.Some? ==> 20 < |r.value| <= 150 && HasWord(r.value, ws)
    ensures r.Some? && Clean(s) ==> Clean(r.value)
    ensures 20 < |s| <= 150 && HasWord(s, ws) ==> r == Some(s)
    ensures |s| > 150 && HasWord(s, ws) ==> r == Window(s, ws)
    ensures !HasWord(s, ws) || |s| <= 20 ==> r.None?
  {
    if |s| > 20 && HasWord(s, ws) then (if |s| <= 150 then Some(s) else Window(s, ws)) else None
  }

  /**
   * What a sentence contributes to the key facts, given where the number
   * pattern first matches in it: itself when it is 16 to 150 characters
   * long, else the window of 40 characters before and 110 from the match
   * when that is longer than 15.
   */
  function FactItem(s: string, numberAt: Option<nat>): (r: Option<string>)
    ensures r.Some? ==> numberAt.Some? && 15 < |r.value| <= 150
    ensures r.Some? && Clean(s) ==> Clean(r.value)
    ensures numberAt.Some? && 15 < |s| <= 150 ==> r == Some(s)
    ensures numberAt.None? || |s| <= 15 ==> r.None?
    ensures numberAt.Some? && |s| > 150 ==>
              var m := numberAt.value;
              var f := PySlice(s, if m >= 40 then m - 40 else 0, m + 110);
              r == if |f| > 15 then Some(f) else None
  {
    if numberAt.Some? && |s| > 15 then
      if |s| <= 150 then Some(s)
      else
        var m := numberAt.value;
        var f := PySlice(s, if m >= 40 then m - 40 else 0, m + 110);
        if |f| > 15 then Some(f) else None
    else None
  }

  predicate NoDuplicates(s: seq<string>) {
    forall i, j :: 0 <= i < j < |s| ==> s[i] != s[j]
  }

  /** The position of the first occurrence of `x`. */
  function IndexOf(items: seq<string>, x: string): (k: nat)
    requires x in items
    ensures k < |items| && items[k] == x
    ensures forall j :: 0 <= j < k ==> items[j] != x
    decreases |items|
  {
    if items[0] == x then 0
    else
      var k := IndexOf(items[1..], x);
      assert forall j :: 1 <= j < |items| ==> items[j] == items[1..][j - 1];
      1 + k
  }

  /** `deduplicate`: first occurrences of the items longer than ten characters, in order. */
  function Dedup(items: seq<string>, seen: set<string>): (r: seq<string>)
    ensures NoDuplicates(r)
    ensures forall x :: x in r <==> x in items && x !in seen && |x| > 10
    decreases |items|
  {
    if |items| == 0 then []
    else
      var x := items[0];
      assert forall y :: y in items <==> y == x || y in items[1..];
      if x !in seen && |x| > 10 then [x] + Dedup(items[1..], seen + {x})
      else Dedup(items[1..], seen)
  }

  /** The items of `r` appear in the order of their first occurrences in `items`. */
  predicate FirstOccurrenceOrder(items: seq<string>, r: seq<string>) {
    (forall x :: x in r ==> x in items)
    && forall i, j :: 0 <= i < j < |r| ==> IndexOf(items, r[i]) < IndexOf(items, r[j])
  }

  /** `deduplicate` keeps the order of first occurrences. */
  lemma {:induction false} DedupOrder(items: seq<string>, seen: set<string>)
    ensures FirstOccurrenceOrder(items, Dedup(items, seen))
    decreases |items|
  {
    if |items| > 0 {
      var x := items[0];
      if x !in seen && |x| > 10 {
        DedupOrder(items[1..], seen + {x});
        KeepFirst(items, seen);
      } else {
        DedupOrder(items[1..], seen);
        SkipFirst(items, seen);
      }
    }
  }

  lemma KeepFirst(items: seq<string>, seen: set<string>)
    requires |items| > 0 && items[0] !in seen && |items[0]| > 10
    requires FirstOccurrenceOrder(items[1..], Dedup(items[1..], seen + {items[0]}))
    ensures FirstOccurrenceOrder(items, Dedup(items, seen))
  {
    var x := items[0];
    var rest := Dedup(items[1..], seen + {x});
    var r := Dedup(items, seen);
    assert r == [x] + rest;
    forall i, j | 0 <= i < j < |r| ensures IndexOf(items, r[i]) < IndexOf(items, r[j]) {
      assert r[j] == rest[j - 1] && r[j] != x;
      assert IndexOf(items, r[j]) == 1 + IndexOf(items[1..], r[j]);
      if i > 0 {
        assert r[i] == rest[i - 1] && r[i] != x;
        assert IndexOf(items, r[i]) == 1 + IndexOf(items[1..], r[i]);
        assert IndexOf(items[1..], rest[i - 1]) < IndexOf(items[1..], rest[j - 1]);
      } else {
        assert r[0] == items[0];
      }
    }
  }

  lemma SkipFirst(items: seq<string>, seen: set<string>)
    requires |items| > 0 && (items[0] in seen || |items[0]| <= 10)
    requires FirstOccurrenceOrder(items[1..], Dedup(items[1..], seen))
    ensures FirstOccurrenceOrder(items, Dedup(items, seen))
  {
    var r := Dedup(items, seen);
    assert r == Dedup(items[1..], seen);
    forall x | x in r ensures x in items && x != items[0] {
      assert x in items[1..];
    }
    forall i, j | 0 <= i < j < |r| ensures IndexOf(items, r[i]) < IndexOf(items, r[j]) {
      IndexOfTail(items, r[i]);
      IndexOfTail(items, r[j]);
    }
  }

  lemma IndexOfTail(items: seq<string>, x: string)
    requires x in items && x != items[0]
    ensures x in items[1..] && IndexOf(items, x) == 1 + IndexOf(items[1..], x)
  {
  }

  /** The items that sentences contribute under `pick`, in sentence order. */
  function Collect(ss: seq<string>, pick: string -> Option<string>): (r: seq<string>)
    ensures forall x :: x in r ==> exists i :: 0 <= i < |ss| && pick(ss[i]) == Some(x)
    ensures forall i :: 0 <= i < |ss| && pick(ss[i]).Some? ==> pick(ss[i]).value in r
    decreases |ss|
  {
    if |ss| == 0 then []
    else
      var rest := Collect(ss[1..], pick);
      assert forall i :: 1 <= i < |ss| ==> ss[i] == ss[1..][i - 1];
      (if pick(ss[0]).Some? then [pick(ss[0]).value] else []) + rest
  }

  function Min(a: nat, b: nat): nat {
    if a <= b then a else b
  }

  datatype TextSummary = TextSummary(coreViews: seq<string>, keyFacts: seq<string>, framework: seq<string>)

  /** `items[:k]`: a prefix of at most `k` items, without duplicates if the list has none; an item left out means it is full. */
  lemma Capped(items: seq<string>, k: nat)
    ensures var c := PySeq.To(items, k);
      c <= items && |c| == Min(k, |items|) && (NoDuplicates(items) ==> NoDuplicates(c))
      && forall x :: x in items ==> x in c || |c| == k
  {
    PySeq.ToNonNegative(items, k);
    if NoDuplicates(items) {
      PrefixNoDuplicates(items, k);
    }
    var c := PySeq.To(items, k);
    forall x | x in items && |c| < k ensures x in c {
      assert c == items;
    }
  }

  /** A prefix of a list without duplicates has none. */
  lemma PrefixNoDuplicates(s: seq<string>, k: int)
    requires NoDuplicates(s)
    ensures NoDuplicates(PySeq.To(s, k)) && forall x :: x in PySeq.To(s, k) ==> x in s
  {
    var n := PySeq.SliceStart(|s|, k);
    assert forall i :: 0 <= i < n ==> s[..n][i] == s[i];
  }

  /** The core-view contribution of a sentence. */
  function ViewItem(s: string): (r: Option<string>)
    ensures r.Some? ==> 20 < |r.value| <= 150 && HasWord(r.value, JudgementWords)
    ensures r.Some? && Clean(s) ==> Clean(r.value)
  {
    assert ShortWords(JudgementWords);
    WordItem(s, JudgementWords)
  }

  /** The framework contribution of a sentence. */
  function FrameworkItem(s: string): (r: Option<string>)
    ensures r.Some? ==> 20 < |r.value| <= 150 && HasWord(r.value, FrameworkWords)
    ensures r.Some? && Clean(s) ==> Clean(r.value)
  {
    assert ShortWords(FrameworkWords);
    WordItem(s, FrameworkWords)
  }

  /** The de-duplicated core views of clean sentences, before the cap. */
  function Views(ss: seq<string>): (r: seq<string>)
    requires forall i :: 0 <= i < |ss| ==> Clean(ss[i])
    ensures NoDuplicates(r)
    ensures forall x :: x in r <==> exists i :: 0 <= i < |ss| && ViewItem(ss[i]) == Some(x)
    ensures forall x :: x in r ==> 20 < |x| <= 150 && HasWord(x, JudgementWords) && Clean(x)
  {
    Dedup(Collect(ss, ViewItem), {})
  }

  /** The de-duplicated framework items of clean sentences, before the cap. */
  function Framework(ss: seq<string>): (r: seq<string>)
    requires forall i :: 0 <= i < |ss| ==> Clean(ss[i])
    ensures NoDuplicates(r)
    ensures forall x :: x in r <==> exists i :: 0 <= i < |ss| && FrameworkItem(ss[i]) == Some(x)
    ensures forall x :: x in r ==> 20 < |x| <= 150 && HasWord(x, FrameworkWords) && Clean(x)
  {
    Dedup(Collect(ss, FrameworkItem), {})
  }

  /** The de-duplicated key facts of clean sentences, before the cap. */
  function Facts(ss: seq<string>, numberAt: string -> Option<nat>): (r: seq<string>)
    requires forall i :: 0 <= i < |ss| ==> Clean(ss[i])
    ensures NoDuplicates(r)
    ensures forall x :: x in r <==> exists i :: 0 <= i < |ss| && FactItem(ss[i], numberAt(ss[i])) == Some(x)
    ensures forall x :: x in r ==> 15 < |x| <= 150 && Clean(x)
  {
    var pick := s => FactItem(s, numberAt(s));
    var c := Collect(ss, pick);
    assert forall x :: x in c ==> 15 < |x| <= 150 && Clean(x) by {
      forall x | x in c ensures 15 < |x| <= 150 && Clean(x) {
        var i :| 0 <= i < |ss| && pick(ss[i]) == Some(x);
      }
    }
    Dedup(c, {})
  }

  /** The first fifteen views, covering every view sentence unless the cap is reached. */
  function TopViews(ss: seq<string>): (r: seq<string>)
    requires forall i :: 0 <= i < |ss| ==> Clean(ss[i])
    ensures |r| == Min(15, |Views(ss)|) && r <= Views(ss) && NoDuplicates(r)
    ensures forall x :: x in r ==> 20 < |x| <= 150 && HasWord(x, JudgementWords) && Clean(x)
    ensures forall i :: 0 <= i < |ss| && ViewItem(ss[i]).Some? ==> ViewItem(ss[i]).value in r || |r| == 15
  {
    Capped(Views(ss), 15);
    PySeq.To(Views(ss), 15)
  }

  /** The first twenty key facts, covering every fact sentence unless the cap is reached. */
  function TopFacts(ss: seq<string>, numberAt: string -> Option<nat>): (r: seq<string>)
    requires forall i :: 0 <= i < |ss| ==> Clean(ss[i])
    ensures |r| == Min(20, |Facts(ss, numberAt)|) && r <= Facts(ss, numberAt) && NoDuplicates(r)
    ensures forall x :: x in r ==> 15 < |x| <= 150 && Clean(x)
    ensures forall i :: 0 <= i < |ss| && FactItem(ss[i], numberAt(ss[i])).Some? ==>
      FactItem(ss[i], numberAt(ss[i])).value in r || |r| == 20
  {
    Capped(Facts(ss, numberAt), 20);
    PySeq.To(Facts(ss, numberAt), 20)
  }

  /** The first twelve framework items, covering every framework sentence unless the cap is reached. */
  function TopFramework(ss: seq<string>): (r: seq<string>)
    requires forall i :: 0 <= i < |ss| ==> Clean(ss[i])
    ensures |r| == Min(12, |Framework(ss)|) && r <= Framework(ss) && NoDuplicates(r)
    ensures forall x :: x in r ==> 20 < |x| <= 150 && HasWord(x, FrameworkWords) && Clean(x)
    ensures forall i :: 0 <= i < |ss| && FrameworkItem(ss[i]).Some? ==> FrameworkItem(ss[i]).value in r || |r| == 12
  {
    Capped(Framework(ss), 12);
    PySeq.To(Framework(ss), 12)
  }

  /**
   * Each list of `r` is a prefix of the de-duplicated items of `ss`, as long
   * as its cap allows, and holds every item some sentence yields unless the
   * cap is reached.
   */
  predicate DrawnFrom(r: TextSummary, ss: seq<string>, numberAt: string -> Option<nat>)
    requires forall i :: 0 <= i < |ss| ==> Clean(ss[i])
  {
    && r.coreViews <= Views(ss) && r.keyFacts <= Facts(ss, numberAt) && r.framework <= Framework(ss)
    && |r.coreViews| == Min(15, |Views(ss)|) && |r.keyFacts| == Min(20, |Facts(ss, numberAt)|)
    && |r.framework| == Min(12, |Framework(ss)|)
    && (forall i :: 0 <= i < |ss| && ViewItem(ss[i]).Some? ==> ViewItem(ss[i]).value in r.coreViews || |r.coreViews| == 15)
    && (forall i :: 0 <= i < |ss| && FactItem(ss[i], numberAt(ss[i])).Some? ==>
          FactItem(ss[i], numberAt(ss[i])).value in r.keyFacts || |r.keyFacts| == 20)
    && (forall i :: 0 <= i < |ss| && FrameworkItem(ss[i]).Some? ==>
          FrameworkItem(ss[i]).value in r.framework || |r.framework| == 12)
  }

  /**
   * `_extract_text_summary(report_text)`: at most 15 core views, 20 key
   * facts and 12 framework items, each list without duplicates, each item
   * free of whitespace and sentence ends; every view carries a judgement
   * word and every framework item a framework word.
   */
  function ExtractTextSummary(text: string, numberAt: string -> Option<nat>): (r: TextSummary)
    ensures |r.coreViews| <= 15 && |r.keyFacts| <= 20 && |r.framework| <= 12
    ensures NoDuplicates(r.coreViews) && NoDuplicates(r.keyFacts) && NoDuplicates(r.framework)
    ensures forall x :: x in r.coreViews ==> 20 < |x| <= 150 && HasWord(x, JudgementWords) && Clean(x)
    ensures forall x :: x in r.framework ==> 20 < |x| <= 150 && HasWord(x, FrameworkWords) && Clean(x)
    ensures forall x :: x in r.keyFacts ==> 15 < |x| <= 150 && Clean(x)
    ensures DrawnFrom(r, Sentences(text), numberAt)
  {
    var ss := Sentences(text);
    TextSummary(TopViews(ss), TopFacts(ss, numberAt), TopFramework(ss))
  }
}

=== FILE: search_session.dfy ===
/**
 * A search session: one query is classified, then answered from the local
 * report database or from the web, streaming the provider's text to the
 * socket that opened the session. The provider's conversation id is tracked
 * so that the next query resumes it. Classification, the database search
 * and the provider's reply are inputs.
 */
module SearchSession {
  import opened Wrappers
  import opened Json
  import Strings
  import PySeq
  import AiClient
  import MessageTypes

  datatype State = State(
    /** The WebSocket the session was created for; every reply goes there. */
    socket: MessageTypes.ClientId,
    sessionId: string,
    /** The provider conversation to resume. */
    resumeId: Option<string>)

  /** The search service's answers for one query. */
  datatype Inputs = Inputs(
    /** `classify_intent(query)`, or the text of its exception. */
    classification: Result<map<string, Value>, string>,
    /** `smart_search_reports(query, limit)`, or the text of its exception. */
    results: Result<seq<map<string, Value>>, string>,
    reply: AiClient.Reply)

  /** What handling one query leaves: the session, the messages sent to its socket, and the provider query made. */
  datatype Handled = Handled(state: State, out: seq<MessageTypes.WSMessage>, query: Option<AiClient.Query>)

  const Apology: string := "抱歉，未找到相关的金融报告。请尝试使用其他关键词搜索。"
  const LocalSystemPrompt: string := "你是一个专业的金融分析师。请优先使用本地报告数据库回答问题，给出具体、有数据支撑的投资建议。"
  const WebSystemPrompt: string := "你是一个通用的AI助手。请通过网络搜索回答用户的问题。"
  const LocalFailure: string := "本地数据库搜索失败"
  const WebFailure: string := "网络搜索失败"

  // ---------------------------------------------------------------- intent

  /** `_classify_intent`: the service's answer, or intent `GENERAL` with confidence 0.0 when it raises. */
  function IntentData(c: Result<map<string, Value>, string>): (r: map<string, Value>)
    ensures c.Ok? ==> r == c.value
    ensures c.Err? ==> r == map["intent" := JStr("GENERAL"), "reason" := JStr(c.error), "confidence" := JNum(0.0)]
  {
    match c
    case Ok(d) => d
    case Err(e) => map["intent" := JStr("GENERAL"), "reason" := JStr(e), "confidence" := JNum(0.0)]
  }

  /** Only the `FINANCE` intent goes to the local search; a missing intent counts as `GENERAL`. */
  predicate RoutesLocal(d: map<string, Value>) {
    GetOr(d, "intent", JStr("GENERAL")) == JStr("FINANCE")
  }

  function ResumeValue(r: Option<string>): (v: Value)
    ensures r.Some? ==> v == JStr(r.value)
    ensures r.None? ==> v == JNull
  {
    if r.Some? then JStr(r.value) else JNull
  }

  function LocalOptions(resume: Option<string>): map<string, Value> {
    map["system_prompt" := JStr(LocalSystemPrompt),
        "allowed_tools" := JArr([JStr("mcp__reports__search_reports"), JStr("mcp__reports__read_report")]),
        "max_turns" := JNum(10.0), "resume" := ResumeValue(resume)]
  }

  function WebOptions(resume: Option<string>): map<string, Value> {
    map["system_prompt" := JStr(WebSystemPrompt), "allowed_tools" := JArr([JStr("WebSearch"), JStr("WebFetch")]),
        "mcp_servers" := JObj(map[]), "max_turns" := JNum(10.0), "resume" := ResumeValue(resume)]
  }

  // ---------------------------------------------------------------- streaming

  /** A truthy provider conversation id. */
  predicate NonEmpty(id: Option<string>) {
    id.Some? && |id.value| > 0
  }

  /** The streaming loop's variables; `failure` is set when processing a message raised. */
  datatype Progress = Progress(resume: Option<string>, cost: real, duration: int, out: seq<MessageTypes.WSMessage>,
                               failure: Option<string>)

  /** A block that is streamed: a dict of type `text` with truthy text. */
  predicate ChunkBlock(b: Value) {
    b.JObj? && GetOr(b.fields, "type", JNull) == JStr("text") && Truthy(GetOr(b.fields, "text", JStr("")))
  }

  /** The chunk a streamed block sends: its `text`. */
  function BlockText(b: Value): Value
    requires b.JObj?
  {
    GetOr(b.fields, "text", JStr(""))
  }

  /** The chunks of a block list when nothing raises: the text of every streamed block, in order. */
  function ChunkTexts(bs: seq<Value>): (r: seq<MessageTypes.WSMessage>)
    ensures |r| <= |bs|
    decreases |bs|
  {
    if |bs| == 0 then []
    else if ChunkBlock(bs[0]) then [MessageTypes.SearchChunk(BlockText(bs[0]))] + ChunkTexts(bs[1..])
    else ChunkTexts(bs[1..])
  }

  /** Chunking a concatenation of block lists chunks each part. */
  lemma {:induction false} ChunkTextsAppend(a: seq<Value>, b: seq<Value>)
    ensures ChunkTexts(a + b) == ChunkTexts(a) + ChunkTexts(b)
    decreases |a|
  {
    if |a| > 0 {
      assert (a + b)[1..] == a[1..] + b;
      ChunkTextsAppend(a[1..], b);
    } else {
      assert a + b == b;
    }
  }

  /** Every chunk is the truthy text of some streamed block, and a list without streamed blocks sends nothing. */
  lemma {:induction false} ChunkTextsSound(bs: seq<Value>)
    ensures forall i :: 0 <= i < |ChunkTexts(bs)| ==>
      exists j :: 0 <= j < |bs| && ChunkBlock(bs[j]) && ChunkTexts(bs)[i] == MessageTypes.SearchChunk(BlockText(bs[j]))
    ensures ChunkTexts(bs) == [] <==> forall j :: 0 <= j < |bs| ==> !ChunkBlock(bs[j])
    decreases |bs|
  {
    if |bs| > 0 {
      ChunkTextsSound(bs[1..]);
      var r := ChunkTexts(bs);
      var rest := ChunkTexts(bs[1..]);
      assert forall j :: 1 <= j < |bs| ==> bs[j] == bs[1..][j - 1];
      if ChunkBlock(bs[0]) {
        assert r == [MessageTypes.SearchChunk(BlockText(bs[0]))] + rest;
        forall i | 0 <= i < |r|
          ensures exists j :: 0 <= j < |bs| && ChunkBlock(bs[j]) && r[i] == MessageTypes.SearchChunk(BlockText(bs[j]))
        {
          if i == 0 {
            assert ChunkBlock(bs[0]) && r[0] == MessageTypes.SearchChunk(BlockText(bs[0]));
          } else {
            assert r[i] == rest[i - 1];
            var j :| 0 <= j < |bs[1..]| && ChunkBlock(bs[1..][j]) && rest[i - 1] == MessageTypes.SearchChunk(BlockText(bs[1..][j]));
            assert bs[j + 1] == bs[1..][j];
            assert ChunkBlock(bs[j + 1]) && r[i] == MessageTypes.SearchChunk(BlockText(bs[j + 1]));
          }
        }
        assert r != [] && ChunkBlock(bs[0]);
      } else {
        assert r == rest;
        assert (rest == []) <==> forall j :: 0 <= j < |bs| ==> !ChunkBlock(bs[j]) by {
          if rest != [] {
            assert exists j :: 0 <= j < |bs[1..]| && ChunkBlock(bs[1..][j]);
            var j :| 0 <= j < |bs[1..]| && ChunkBlock(bs[1..][j]);
            assert ChunkBlock(bs[j + 1]);
          }
        }
        forall i | 0 <= i < |r|
          ensures exists j :: 0 <= j < |bs| && ChunkBlock(bs[j]) && r[i] == MessageTypes.SearchChunk(BlockText(bs[j]))
        {
          var j :| 0 <= j < |bs[1..]| && ChunkBlock(bs[1..][j]) && rest[i] == MessageTypes.SearchChunk(BlockText(bs[1..][j]));
          assert bs[j + 1] == bs[1..][j];
          assert ChunkBlock(bs[j + 1]) && r[i] == MessageTypes.SearchChunk(BlockText(bs[j + 1]));
        }
      }
    } else {
      assert |ChunkTexts(bs)| == 0;
    }
  }

  /**
   * The chunks of an assistant block list. The local search skips a block
   * that is not a dict; the web search (`strict`) calls `.get` on it, which
   * raises and ends the stream.
   */
  function BlockChunks(bs: seq<Value>, strict: bool): (r: (seq<MessageTypes.WSMessage>, Option<string>))
    ensures !strict ==> r.1.None?
    ensures forall i :: 0 <= i < |r.0| ==> r.0[i].SearchChunk? && Truthy(r.0[i].chunk)
    ensures r.1.None? && (forall i :: 0 <= i < |bs| ==> ChunkBlock(bs[i])) ==> |r.0| == |bs|
    ensures r.1.Some? ==> strict && exists i :: 0 <= i < |bs| && !bs[i].JObj?
    ensures strict && (forall i :: 0 <= i < |bs| ==> bs[i].JObj?) ==> r.1.None?
  {
    if |bs| == 0 then ([], None)
    else
      var b := bs[0];
      if !b.JObj? && strict then ([], Some(NoAttribute(b, "get")))
      else
        var rest := BlockChunks(bs[1..], strict);
        assert rest.1.Some? ==> exists i :: 0 <= i < |bs| && !bs[i].JObj? by {
          if rest.1.Some? {
            var i :| 0 <= i < |bs[1..]| && !bs[1..][i].JObj?;
            assert !bs[i + 1].JObj?;
          }
        }
        if ChunkBlock(b) then ([MessageTypes.SearchChunk(BlockText(b))] + rest.0, rest.1)
        else rest
  }

  /** The number of leading dict blocks: the position of the first non-dict block, or the length. */
  function DictPrefix(bs: seq<Value>): (k: nat)
    ensures k <= |bs|
    ensures forall j :: 0 <= j < k ==> bs[j].JObj?
    ensures k < |bs| ==> !bs[k].JObj?
    decreases |bs|
  {
    if |bs| == 0 || !bs[0].JObj? then 0
    else
      var k := DictPrefix(bs[1..]);
      assert forall j :: 1 <= j < k + 1 ==> bs[j] == bs[1..][j - 1];
      k + 1
  }

  /**
   * The chunks of a block list are the texts of its streamed blocks; the
   * web search stops at the first block that is not a dict, having sent the
   * chunks before it, and reports the `AttributeError`.
   */
  lemma {:induction false} BlockChunksTexts(bs: seq<Value>, strict: bool)
    ensures var k := if strict then DictPrefix(bs) else |bs|;
      BlockChunks(bs, strict).0 == ChunkTexts(bs[..k])
    ensures BlockChunks(bs, strict).1 ==
      if strict && DictPrefix(bs) < |bs| then Some(NoAttribute(bs[DictPrefix(bs)], "get")) else None
    decreases |bs|
  {
    if |bs| > 0 {
      assert bs[..|bs|] == bs;
      if bs[0].JObj? || !strict {
        BlockChunksTexts(bs[1..], strict);
        var k := if strict then DictPrefix(bs[1..]) else |bs[1..]|;
        assert bs[..k + 1] == [bs[0]] + bs[1..][..k];
        assert bs[..k + 1][1..] == bs[1..][..k];
      } else {
        assert bs[..0] == [];
      }
    }
  }

  /** One streamed message: ids from system and result messages are kept, text is streamed, costs are noted. */
  function Consume(p: Progress, m: AiClient.Msg, strict: bool): (r: Progress)
    requires p.failure.None?
    ensures r.resume == if (m.System? || m.Result?) && NonEmpty(m.sessionId) then m.sessionId else p.resume
    ensures !strict ==> r.failure.None?
    ensures |p.out| <= |r.out| && r.out[..|p.out|] == p.out
    ensures m.Assistant? && m.body.AText? ==> r.out == p.out + [MessageTypes.SearchChunk(JStr(m.body.text))] && r.failure.None?
    ensures m.Assistant? && m.body.ABlocks? ==>
      r.out == p.out + BlockChunks(m.body.blocks, strict).0 && r.failure == BlockChunks(m.body.blocks, strict).1
    ensures !m.Assistant? ==> r.out == p.out && r.failure.None?
    ensures m.Result? ==> r.cost == m.totalCostUsd && r.duration == m.durationMs
    ensures !m.Result? ==> r.cost == p.cost && r.duration == p.duration
  {
    match m
    case System(_, sid, _) => if NonEmpty(sid) then p.(resume := sid) else p
    case Assistant(AText(t)) => p.(out := p.out + [MessageTypes.SearchChunk(JStr(t))])
    case Assistant(ABlocks(bs)) =>
      var (cs, err) := BlockChunks(bs, strict);
      p.(out := p.out + cs, failure := err)
    case Result(_, _, cost, duration, _, sid) =>
      p.(cost := cost, duration := duration, resume := if NonEmpty(sid) then sid else p.resume)
    case User(_) => p
  }

  /** The streaming loop: every message in order, until one raises. */
  function Drain(p: Progress, ms: seq<AiClient.Msg>, strict: bool): (r: Progress)
    ensures p.failure.Some? ==> r == p
    ensures !strict && p.failure.None? ==> r.failure.None?
    ensures |p.out| <= |r.out| && r.out[..|p.out|] == p.out
    decreases |ms|
  {
    if |ms| == 0 || p.failure.Some? then p
    else Drain(Consume(p, ms[0], strict), ms[1..], strict)
  }

  /** The chunks one provider message streams when nothing raises: an assistant's text, or its blocks' texts. */
  function MsgChunks(m: AiClient.Msg): seq<MessageTypes.WSMessage> {
    match m
    case Assistant(AText(t)) => [MessageTypes.SearchChunk(JStr(t))]
    case Assistant(ABlocks(bs)) => ChunkTexts(bs)
    case _ => []
  }

  /** The chunks of a whole stream, message by message. */
  function StreamChunks(ms: seq<AiClient.Msg>): seq<MessageTypes.WSMessage>
    decreases |ms|
  {
    if |ms| == 0 then [] else MsgChunks(ms[0]) + StreamChunks(ms[1..])
  }

  /**
   * The local search streams exactly the assistant texts and the texts of
   * the dict `text` blocks with truthy text, in the order received, after
   * what was already sent.
   */
  lemma {:induction false} DrainChunks(p: Progress, ms: seq<AiClient.Msg>)
    requires p.failure.None?
    ensures Drain(p, ms, false).out == p.out + StreamChunks(ms)
    decreases |ms|
  {
    if |ms| > 0 {
      var q := Consume(p, ms[0], false);
      ConsumeChunks(p, ms[0]);
      DrainChunks(q, ms[1..]);
      assert StreamChunks(ms) == MsgChunks(ms[0]) + StreamChunks(ms[1..]);
    }
  }

  lemma ConsumeChunks(p: Progress, m: AiClient.Msg)
    requires p.failure.None?
    ensures Consume(p, m, false).out == p.out + MsgChunks(m)
  {
    if m.Assistant? && m.body.ABlocks? {
      BlockChunksTexts(m.body.blocks, false);
      assert m.body.blocks[..|m.body.blocks|] == m.body.blocks;
    }
  }

  /** The id of the last system or result message with a non-empty id. */
  function LastSessionId(ms: seq<AiClient.Msg>): (r: Option<string>)
    ensures r.Some? ==> exists i :: (0 <= i < |ms| && (ms[i].System? || ms[i].Result?) && ms[i].sessionId == r
      && NonEmpty(r))
  {
    if |ms| == 0 then None
    else
      var rest := LastSessionId(ms[1..]);
      if rest.Some? then
        var i :| 0 <= i < |ms[1..]| && (ms[1..][i].System? || ms[1..][i].Result?) && ms[1..][i].sessionId == rest && NonEmpty(rest);
        assert ms[i + 1] == ms[1..][i];
        rest
      else if (ms[0].System? || ms[0].Result?) && NonEmpty(ms[0].sessionId) then ms[0].sessionId
      else None
  }

  /**
   * A stream that is processed to the end leaves as resume id the last
   * non-empty id of a system or result message, or the previous one.
   */
  lemma {:induction false} DrainResume(p: Progress, ms: seq<AiClient.Msg>)
    requires p.failure.None?
    ensures Drain(p, ms, false).resume == if LastSessionId(ms).Some? then LastSessionId(ms) else p.resume
    decreases |ms|
  {
    if |ms| > 0 {
      DrainResume(Consume(p, ms[0], false), ms[1..]);
    }
  }

  /** The last message of a search: the first failure, or `search_complete` with cost, duration and the current resume id. */
  function Finish(p: Progress, reply: AiClient.Reply, where: string): (r: MessageTypes.WSMessage)
    ensures p.failure.None? && reply.failure.None? ==> r == MessageTypes.SearchComplete(p.cost, p.duration, p.resume)
    ensures p.failure.Some? ==> r == MessageTypes.SearchError(p.failure.value, where)
    ensures p.failure.None? && reply.failure.Some? ==> r == MessageTypes.SearchError(reply.failure.value, where)
  {
    if p.failure.Some? then MessageTypes.SearchError(p.failure.value, where)
    else if reply.failure.Some? then MessageTypes.SearchError(reply.failure.value, where)
    else MessageTypes.SearchComplete(p.cost, p.duration, p.resume)
  }

  // ---------------------------------------------------------------- local search

  /** The text of the `TypeError` that `', '.join(v)` raises, if any. */
  function JoinError(v: Value): (r: Option<string>)
    ensures v.JStr? || v.JObj? ==> r.None?
    ensures v.JArr? ==> (r.None? <==> forall i :: 0 <= i < |v.items| ==> v.items[i].JStr?)
  {
    match v
    case JStr(_) => None
    case JObj(_) => None
    case JArr(items) => FirstNonString(items, 0)
    case _ => Some("can only join an iterable")
  }

  function FirstNonString(items: seq<Value>, k: nat): (r: Option<string>)
    requires k <= |items|
    ensures r.None? <==> forall i :: k <= i < |items| ==> items[i].JStr?
    decreases |items| - k
  {
    if k == |items| then None
    else if !items[k].JStr? then
      Some("sequence item " + Strings.NatToString(k) + ": expected str instance, " + TypeName(items[k]) + " found")
    else FirstNonString(items, k + 1)
  }

  /** The error building one report's lines of the prompt raises: its title is read first, then its drivers joined. */
  function ReportError(r: map<string, Value>): Option<string> {
    if "title" !in r then Some("'title'") else JoinError(GetOr(r, "key_drivers", JArr([])))
  }

  function FirstReportError(top: seq<map<string, Value>>): (r: Option<string>)
    ensures r.None? <==> forall i :: 0 <= i < |top| ==> ReportError(top[i]).None?
  {
    if |top| == 0 then None
    else if ReportError(top[0]).Some? then ReportError(top[0])
    else
      var r := FirstReportError(top[1..]);
      assert forall i :: 1 <= i < |top| ==> top[i] == top[1..][i - 1];
      r
  }

  /**
   * The error building the prompt raises: the report ids of the top results
   * are collected first, then each report's lines are formatted in order.
   */
  function PromptError(top: seq<map<string, Value>>): (r: Option<string>)
    ensures (exists i :: 0 <= i < |top| && "report_id" !in top[i]) ==> r == Some("'report_id'")
    ensures r.None? <==> forall i :: 0 <= i < |top| ==> "report_id" in top[i] && ReportError(top[i]).None?
  {
    if exists i :: 0 <= i < |top| && "report_id" !in top[i] then Some("'report_id'") else FirstReportError(top)
  }

  /** The results that enter the prompt: the first three. */
  function Top(rs: seq<map<string, Value>>): (r: seq<map<string, Value>>)
    ensures |r| == if |rs| < 3 then |rs| else 3
    ensures r == rs[..|r|]
  {
    PySeq.ToNonNegative(rs, 3);
    PySeq.To(rs, 3)
  }

  /** The status announcing how many reports were found. */
  function Analyzing(n: nat): MessageTypes.WSMessage {
    MessageTypes.SearchStatus("analyzing", "找到 " + Strings.NatToString(n) + " 条相关报告，正在分析...")
  }

  /**
   * `_search_local`: an empty result answers with one apology chunk and a
   * zero `search_complete` without calling the provider; otherwise the top
   * three results make the prompt and the answer is streamed.
   */
  function SearchLocal(s: State, question: string, results: Result<seq<map<string, Value>>, string>, reply: AiClient.Reply)
    : (r: Handled)
    ensures r.state.socket == s.socket && r.state.sessionId == s.sessionId
    ensures |r.out| >= 2 && r.out[0] == MessageTypes.SearchStatus("searching_local", "正在搜索本地数据库...")
    ensures results.Ok? && |results.value| == 0 ==> (r.query.None? && r.state == s
      && r.out[1..] == [MessageTypes.SearchChunk(JStr(Apology)), MessageTypes.SearchComplete(0.0, 0, s.resumeId)])
    ensures r.query.Some? ==> (results.Ok? && |results.value| > 0
      && r.query.value == AiClient.Query(AiClient.ReportPrompt(question, Top(results.value)), LocalOptions(s.resumeId)))
    ensures results.Ok? && |results.value| > 0 && PromptError(Top(results.value)).None? ==> r.query.Some?
    ensures r.query.Some? ==> r.state.resumeId == Drain(Progress(s.resumeId, 0.0, 0, [], None), reply.msgs, false).resume
    ensures results.Err? ==> (r.query.None? && r.state == s
      && r.out[1..] == [MessageTypes.SearchError(results.error, LocalFailure)])
    ensures (results.Ok? && |results.value| > 0 && PromptError(Top(results.value)).Some?) ==>
      (r.query.None? && r.state == s
       && r.out[1..] == [Analyzing(|results.value|), MessageTypes.SearchError(PromptError(Top(results.value)).value, LocalFailure)])
    ensures r.query.Some? ==> var p := Drain(Progress(s.resumeId, 0.0, 0, [], None), reply.msgs, false);
      r.out[1..] == [Analyzing(|results.value|)] + p.out + [Finish(p, reply, LocalFailure)]
  {
    var status := MessageTypes.SearchStatus("searching_local", "正在搜索本地数据库...");
    match results
    case Err(e) => Handled(s, [status, MessageTypes.SearchError(e, LocalFailure)], None)
    case Ok(rs) =>
      if |rs| == 0 then
        Handled(s, [status, MessageTypes.SearchChunk(JStr(Apology)), MessageTypes.SearchComplete(0.0, 0, s.resumeId)], None)
      else
        var analyzing := Analyzing(|rs|);
        var top := Top(rs);
        match PromptError(top)
        case Some(e) => Handled(s, [status, analyzing, MessageTypes.SearchError(e, LocalFailure)], None)
        case None =>
          var p := Drain(Progress(s.resumeId, 0.0, 0, [], None), reply.msgs, false);
          var tail := [analyzing] + p.out + [Finish(p, reply, LocalFailure)];
          assert ([status] + tail)[1..] == tail;
          Handled(s.(resumeId := p.resume), [status] + tail,
            Some(AiClient.Query(AiClient.ReportPrompt(question, top), LocalOptions(s.resumeId))))
  }

  /** Results beyond the third never reach the provider: lists that agree on their first three and their length ask the same. */
  lemma LocalUsesTopThree(s: State, question: string, rs1: seq<map<string, Value>>, rs2: seq<map<string, Value>>,
                          reply: AiClient.Reply)
    requires |rs1| == |rs2| && Top(rs1) == Top(rs2)
    ensures SearchLocal(s, question, Ok(rs1), reply) == SearchLocal(s, question, Ok(rs2), reply)
  {
  }

  // ---------------------------------------------------------------- web search

  /** `_search_web_stream`: the query goes to the provider with web tools only; its text is streamed. */
  function SearchWeb(s: State, question: string, reply: AiClient.Reply): (r: Handled)
    ensures r.state.socket == s.socket && r.state.sessionId == s.sessionId
    ensures r.query == Some(AiClient.Query(AiClient.Text(question), WebOptions(s.resumeId)))
    ensures |r.out| >= 2 && r.out[0] == MessageTypes.SearchStatus("searching_web", "正在进行网络搜索...")
    ensures r.state.resumeId == Drain(Progress(s.resumeId, 0.0, 0, [], None), reply.msgs, true).resume
    ensures var p := Drain(Progress(s.resumeId, 0.0, 0, [], None), reply.msgs, true);
      r.out[1..] == p.out + [Finish(p, reply, WebFailure)]
  {
    var p := Drain(Progress(s.resumeId, 0.0, 0, [], None), reply.msgs, true);
    var head := [MessageTypes.SearchStatus("searching_web", "正在进行网络搜索...")];
    var tail := p.out + [Finish(p, reply, WebFailure)];
    assert (head + tail)[1..] == tail;
    Handled(s.(resumeId := p.resume), head + tail, Some(AiClient.Query(AiClient.Text(question), WebOptions(s.resumeId))))
  }

  // ---------------------------------------------------------------- handle_query

  /**
   * `handle_query(query, limit)`: a status message, the intent message, then
   * the local search for `FINANCE` and the web search for anything else.
   * (The limit only reaches the database search, whose answer is an input.)
   */
  function HandleQuery(s: State, question: string, inputs: Inputs): (r: Handled)
    ensures r.state.socket == s.socket && r.state.sessionId == s.sessionId
    ensures |r.out| >= 4
    ensures r.out[0] == MessageTypes.SearchStatus("recognizing_intent", "正在识别查询意图...")
    ensures r.out[1] == MessageTypes.SearchIntent(GetOr(IntentData(inputs.classification), "intent", JStr("")),
      GetOr(IntentData(inputs.classification), "reason", JStr("")),
      GetOr(IntentData(inputs.classification), "confidence", JNum(0.0)))
    ensures RoutesLocal(IntentData(inputs.classification)) ==>
      (Handled(r.state, r.out[2..], r.query) == SearchLocal(s, question, inputs.results, inputs.reply))
    ensures !RoutesLocal(IntentData(inputs.classification)) ==>
      (Handled(r.state, r.out[2..], r.query) == SearchWeb(s, question, inputs.reply))
    ensures r.query.Some? ==> r.query.value.options["resume"] == ResumeValue(s.resumeId)
  {
    var d := IntentData(inputs.classification);
    var head := [MessageTypes.SearchStatus("recognizing_intent", "正在识别查询意图..."),
      MessageTypes.SearchIntent(GetOr(d, "intent", JStr("")), GetOr(d, "reason", JStr("")), GetOr(d, "confidence", JNum(0.0)))];
    var h := if RoutesLocal(d) then SearchLocal(s, question, inputs.results, inputs.reply) else SearchWeb(s, question, inputs.reply);
    assert (head + h.out)[2..] == h.out;
    Handled(h.state, head + h.out, h.query)
  }

  /** A failed classification is answered from the web, and the intent message reports `GENERAL` with confidence 0.0. */
  lemma ClassificationFailureGoesToWeb(s: State, question: string, inputs: Inputs)
    requires inputs.classification.Err?
    ensures var r := HandleQuery(s, question, inputs);
      r.out[1] == MessageTypes.SearchIntent(JStr("GENERAL"), JStr(inputs.classification.error), JNum(0.0))
      && r.query == Some(AiClient.Query(AiClient.Text(question), WebOptions(s.resumeId)))
  {
  }

  /**
   * The conversation id a query's stream reports is what the next query
   * resumes: after a local answer streamed to the end, the next query
   * carries the last non-empty id of a system or result message.
   */
  lemma NextQueryResumes(s: State, question: string, inputs: Inputs, question2: string, inputs2: Inputs)
    requires RoutesLocal(IntentData(inputs.classification))
    requires HandleQuery(s, question, inputs).query.Some?
    requires HandleQuery(HandleQuery(s, question, inputs).state, question2, inputs2).query.Some?
    ensures HandleQuery(HandleQuery(s, question, inputs).state, question2, inputs2).query.value.options["resume"]
      == ResumeValue(if LastSessionId(inputs.reply.msgs).Some? then LastSessionId(inputs.reply.msgs) else s.resumeId)
  {
    DrainResume(Progress(s.resumeId, 0.0, 0, [], None), inputs.reply.msgs);
  }
}

=== FILE: session.dfy ===
/**
 * One conversation session: its turn counter, busy flag, continuation token
 * and subscribers, the translation of provider messages into client
 * messages, and the fan-out to subscribers. A turn runs to completion before
 * the next one starts (the query lock), so it is modelled as one sequential
 * step over the provider's reply.
 */
module Session {
  import opened Wrappers
  import opened Json
  import Strings
  import AiClient
  import MessageTypes

  type ClientId = MessageTypes.ClientId

  datatype State = State(
    id: string,
    /** The provider's conversation id, kept to resume the conversation. */
    sdkSessionId: Option<string>,
    /** `_is_querying`. */
    querying: bool,
    subscribers: set<ClientId>,
    messageCount: nat)

  /** `Session(session_id)`: no token, idle, nobody subscribed, no message yet. */
  function New(id: string): (r: State)
    ensures r.id == id && r.sdkSessionId.None? && !r.querying && r.subscribers == {} && r.messageCount == 0
  {
    State(id, None, false, {}, 0)
  }

  /** A continuation token is held: `sdk_session_id` is truthy. */
  predicate HoldsToken(s: State) {
    s.sdkSessionId.Some? && |s.sdkSessionId.value| > 0
  }

  // ------------------------------------------------------------ subscribers

  /**
   * `subscribe(client)`: the client joins and is sent the session's current
   * count and busy flag. (Binding `client.session_id` is the router's part.)
   */
  function Subscribe(s: State, c: ClientId): (r: (State, MessageTypes.Outgoing))
    ensures r.0.subscribers == s.subscribers + {c}
    ensures r.0 == s.(subscribers := r.0.subscribers)
    ensures r.1.to == {c} && r.1.msg == MessageTypes.SessionInfo(s.id, s.messageCount, s.querying)
  {
    (s.(subscribers := s.subscribers + {c}),
     MessageTypes.Outgoing({c}, MessageTypes.SessionInfo(s.id, s.messageCount, s.querying)))
  }

  /** `unsubscribe(client)`: a discard, so an absent client changes nothing. */
  function Unsubscribe(s: State, c: ClientId): (r: State)
    ensures c !in r.subscribers
    ensures forall d :: d != c ==> (d in r.subscribers <==> d in s.subscribers)
    ensures c !in s.subscribers ==> r == s
    ensures r == s.(subscribers := r.subscribers)
  {
    s.(subscribers := s.subscribers - {c})
  }

  /** `has_subscribers()`. */
  predicate HasSubscribers(s: State) {
    |s.subscribers| > 0
  }

  /** `cleanup()`: every subscriber is dropped. */
  function Cleanup(s: State): (r: State)
    ensures !HasSubscribers(r)
    ensures r == s.(subscribers := r.subscribers)
  {
    s.(subscribers := {})
  }

  /** Subscribing then unsubscribing a newcomer restores the session; and a session has subscribers iff someone is in it. */
  lemma SubscribeUnsubscribe(s: State, c: ClientId)
    requires c !in s.subscribers
    ensures Unsubscribe(Subscribe(s, c).0, c) == s
    ensures HasSubscribers(Subscribe(s, c).0)
    ensures HasSubscribers(s) <==> exists d :: d in s.subscribers
  {
    assert s.subscribers + {c} - {c} == s.subscribers;
    if HasSubscribers(s) {
      var d :| d in s.subscribers;
    }
  }

  /** `end_conversation()`: the token and the busy flag are cleared; nothing else changes. */
  function EndConversation(s: State): (r: State)
    ensures !HoldsToken(r) && !r.querying
    ensures r.id == s.id && r.subscribers == s.subscribers && r.messageCount == s.messageCount
  {
    s.(sdkSessionId := None, querying := false)
  }

  // -------------------------------------------------------------- broadcast

  /**
   * `_broadcast(message)`: a send is started for every subscriber whose
   * `send_text` can be called; a subscriber whose call raises at once (the
   * `broken` clients) gets nothing and is dropped. A send that fails later is
   * swallowed and its subscriber stays.
   */
  function Broadcast(s: State, msg: MessageTypes.WSMessage, broken: set<ClientId>): (r: (State, MessageTypes.Outgoing))
    ensures r.0.subscribers == s.subscribers - broken
    ensures r.0 == s.(subscribers := r.0.subscribers)
    ensures r.1.msg == msg
    ensures forall c :: c in r.1.to <==> c in s.subscribers && c !in broken
  {
    (s.(subscribers := s.subscribers - broken), MessageTypes.Outgoing(s.subscribers - broken, msg))
  }

  /** Only a send that raises at once loses a subscriber: every other subscriber is still there, however its send ends. */
  lemma FailedSendsKeepSubscribers(s: State, msg: MessageTypes.WSMessage, broken: set<ClientId>, c: ClientId)
    requires c in s.subscribers
    ensures c in Broadcast(s, msg, broken).0.subscribers <==> c !in broken
    ensures c !in broken ==> c in Broadcast(s, msg, broken).1.to
  {
  }

  /** Broadcasts in order; each one works on the subscribers the previous one left. */
  function BroadcastAll(s: State, msgs: seq<MessageTypes.WSMessage>, broken: set<ClientId>)
    : (r: (State, seq<MessageTypes.Outgoing>))
    ensures |r.1| == |msgs|
    ensures forall i :: 0 <= i < |msgs| ==> r.1[i].msg == msgs[i]
    ensures r.0 == s.(subscribers := r.0.subscribers)
    ensures |msgs| > 0 ==> r.0.subscribers == s.subscribers - broken
    ensures |msgs| == 0 ==> r.0 == s
    decreases |msgs|
  {
    if |msgs| == 0 then (s, [])
    else
      var (s1, o) := Broadcast(s, msgs[0], broken);
      var (s2, os) := BroadcastAll(s1, msgs[1..], broken);
      assert s1.subscribers - broken == s1.subscribers;
      (s2, [o] + os)
  }

  /** `_broadcast_error(error)`: an error message carrying the session id. */
  function BroadcastError(s: State, error: string, broken: set<ClientId>): (r: (State, MessageTypes.Outgoing))
    ensures r == Broadcast(s, MessageTypes.ErrorMessage(error, Some(s.id)), broken)
  {
    Broadcast(s, MessageTypes.ErrorMessage(error, Some(s.id)), broken)
  }

  // ------------------------------------------------------------ translation

  /** The markers that identify a user message carrying a tool object's text. */
  const ToolMarkers: seq<string> := ["ToolResultBlock", "ToolUseBlock", "tool_use_id"]

  predicate ShowsTool(text: string) {
    exists i :: 0 <= i < |ToolMarkers| && Strings.Contains(text, ToolMarkers[i])
  }

  /** A dict block whose `type` is `text`. */
  predicate IsTextBlock(b: Value) {
    b.JObj? && GetOr(b.fields, "type", JNull) == JStr("text")
  }

  /** The assistant messages of a block list: one per dict block of type `text`, in order. */
  function TextMessages(id: string, blocks: seq<Value>): (r: seq<MessageTypes.WSMessage>)
    ensures |r| <= |blocks|
    ensures forall i :: 0 <= i < |r| ==> r[i].AssistantMessage? && r[i].sessionId == id
    ensures forall i :: 0 <= i < |r| ==>
              (exists j :: 0 <= j < |blocks| && IsTextBlock(blocks[j])
                 && r[i] == MessageTypes.AssistantMessage(GetOr(blocks[j].fields, "text", JStr("")), id))
    ensures r == [] <==> forall j :: 0 <= j < |blocks| ==> !IsTextBlock(blocks[j])
  {
    if |blocks| == 0 then []
    else
      var rest := TextMessages(id, blocks[1..]);
      assert forall j :: 1 <= j < |blocks| ==> blocks[j] == blocks[1..][j - 1];
      var b := blocks[0];
      if IsTextBlock(b) then
        [MessageTypes.AssistantMessage(GetOr(b.fields, "text", JStr("")), id)] + rest
      else rest
  }

  /** A block list translates block by block: the translation of a concatenation is the concatenation of translations. */
  lemma {:induction false} TextMessagesAppend(id: string, a: seq<Value>, b: seq<Value>)
    ensures TextMessages(id, a + b) == TextMessages(id, a) + TextMessages(id, b)
  {
    if |a| > 0 {
      assert (a + b)[1..] == a[1..] + b;
      TextMessagesAppend(id, a[1..], b);
    } else {
      assert a + b == b;
    }
  }

  /** A single block yields one message when it is a dict `text` block, and nothing otherwise (tool blocks, non-dicts). */
  lemma TextMessagesOne(id: string, b: Value)
    ensures TextMessages(id, [b]) == if b.JObj? && GetOr(b.fields, "type", JNull) == JStr("text")
      then [MessageTypes.AssistantMessage(GetOr(b.fields, "text", JStr("")), id)] else []
  {
    assert [b][1..] == [];
  }

  /**
   * `_broadcast_to_subscribers`' translation of one provider message into
   * the client messages it broadcasts.
   */
  function Translate(id: string, m: AiClient.Msg): (r: seq<MessageTypes.WSMessage>)
    ensures m.Assistant? && m.body.AText? ==> r == [MessageTypes.AssistantMessage(JStr(m.body.text), id)]
    ensures m.Assistant? && m.body.ABlocks? ==> r == TextMessages(id, m.body.blocks)
    ensures m.Result? && m.subtype == "success" ==>
      r == [MessageTypes.ResultMessage(true, m.result, m.totalCostUsd, m.durationMs, None, id)]
    ensures m.Result? && m.subtype != "success" ==> r == [MessageTypes.ResultMessage(false, JNull, 0.0, 0, Some(m.subtype), id)]
    ensures m.System? ==> r == [MessageTypes.SystemMessage(m.subtype, id, m.data)]
    ensures m.User? ==> (r == [] <==> ShowsTool(m.text))
    ensures m.User? && !ShowsTool(m.text) ==> r == [MessageTypes.UserMessage(m.text, id)]
    ensures forall i :: 0 <= i < |r| ==> !r[i].ErrorMessage?
  {
    match m
    case Assistant(AText(t)) => [MessageTypes.AssistantMessage(JStr(t), id)]
    case Assistant(ABlocks(bs)) => TextMessages(id, bs)
    case Result(subtype, result, cost, duration, _, _) =>
      if subtype == "success" then [MessageTypes.ResultMessage(true, result, cost, duration, None, id)]
      else [MessageTypes.ResultMessage(false, JNull, 0.0, 0, Some(subtype), id)]
    case System(subtype, _, data) => [MessageTypes.SystemMessage(subtype, id, data)]
    case User(t) => if ShowsTool(t) then [] else [MessageTypes.UserMessage(t, id)]
  }

  /** The client messages a stream of provider messages is translated into, message by message. */
  function Translations(id: string, ms: seq<AiClient.Msg>): seq<MessageTypes.WSMessage>
    decreases |ms|
  {
    if |ms| == 0 then [] else Translate(id, ms[0]) + Translations(id, ms[1..])
  }

  /** A stream translates piece by piece: the translation of a concatenation is the concatenation of translations. */
  lemma {:induction false} TranslationsAppend(id: string, a: seq<AiClient.Msg>, b: seq<AiClient.Msg>)
    ensures Translations(id, a + b) == Translations(id, a) + Translations(id, b)
    decreases |a|
  {
    if |a| > 0 {
      assert (a + b)[1..] == a[1..] + b;
      TranslationsAppend(id, a[1..], b);
    } else {
      assert a + b == b;
    }
  }

  /** The messages of a sequence of sends, in order. */
  function Msgs(out: seq<MessageTypes.Outgoing>): (r: seq<MessageTypes.WSMessage>)
    ensures |r| == |out| && forall i :: 0 <= i < |out| ==> r[i] == out[i].msg
  {
    seq(|out|, i requires 0 <= i < |out| => out[i].msg)
  }

  lemma MsgsAppend(a: seq<MessageTypes.Outgoing>, b: seq<MessageTypes.Outgoing>)
    ensures Msgs(a + b) == Msgs(a) + Msgs(b)
  {
  }

  // ------------------------------------------------------------------ turns

  /** The message that carries a new continuation token: `system`/`init` with a non-empty id. */
  predicate CarriesToken(m: AiClient.Msg) {
    m.System? && m.subtype == "init" && m.sessionId.Some? && |m.sessionId.value| > 0
  }

  /** One streamed message: its translation is broadcast, then an `init` message's id is kept. */
  function Step(s: State, m: AiClient.Msg, broken: set<ClientId>): (r: (State, seq<MessageTypes.Outgoing>))
    ensures r.0.sdkSessionId == if CarriesToken(m) then m.sessionId else s.sdkSessionId
    ensures r.0.id == s.id && r.0.querying == s.querying && r.0.messageCount == s.messageCount
    ensures r.0.subscribers <= s.subscribers
    ensures |r.1| == |Translate(s.id, m)|
    ensures forall i :: 0 <= i < |r.1| ==> r.1[i].msg == Translate(s.id, m)[i]
    ensures Msgs(r.1) == Translate(s.id, m)
  {
    var (s1, out) := BroadcastAll(s, Translate(s.id, m), broken);
    (if CarriesToken(m) then s1.(sdkSessionId := m.sessionId) else s1, out)
  }

  function Steps(s: State, ms: seq<AiClient.Msg>, broken: set<ClientId>): (r: (State, seq<MessageTypes.Outgoing>))
    ensures r.0.id == s.id && r.0.querying == s.querying && r.0.messageCount == s.messageCount
    ensures r.0.subscribers <= s.subscribers
    ensures forall i :: 0 <= i < |r.1| ==> !r.1[i].msg.ErrorMessage?
    ensures Msgs(r.1) == Translations(s.id, ms)
    decreases |ms|
  {
    if |ms| == 0 then (s, [])
    else
      var (s1, o1) := Step(s, ms[0], broken);
      var (s2, o2) := Steps(s1, ms[1..], broken);
      MsgsAppend(o1, o2);
      (s2, o1 + o2)
  }

  /** The id of the last token-carrying message, if any. */
  function LastToken(ms: seq<AiClient.Msg>): (r: Option<string>)
    ensures r.Some? ==> exists i :: 0 <= i < |ms| && CarriesToken(ms[i]) && ms[i].sessionId == r
    ensures r.None? <==> forall i :: 0 <= i < |ms| ==> !CarriesToken(ms[i])
  {
    if |ms| == 0 then None
    else
      var last := ms[|ms| - 1];
      if CarriesToken(last) then last.sessionId
      else
        var r := LastToken(ms[..|ms| - 1]);
        assert forall i :: 0 <= i < |ms| - 1 ==> ms[..|ms| - 1][i] == ms[i];
        r
  }

  lemma {:induction false} StepsSnoc(s: State, ms: seq<AiClient.Msg>, m: AiClient.Msg, broken: set<ClientId>)
    ensures Steps(s, ms + [m], broken).0 == Step(Steps(s, ms, broken).0, m, broken).0
    decreases |ms|
  {
    if |ms| > 0 {
      assert (ms + [m])[1..] == ms[1..] + [m];
      StepsSnoc(Step(s, ms[0], broken).0, ms[1..], m, broken);
    } else {
      assert Steps(Step(s, m, broken).0, [], broken).0 == Step(s, m, broken).0;
    }
  }

  /**
   * After streaming, the token is the id of the last `system`/`init`
   * message with a non-empty id, or the old token when there was none:
   * results and other messages never change it.
   */
  lemma {:induction false} TokenAfterSteps(s: State, ms: seq<AiClient.Msg>, broken: set<ClientId>)
    ensures Steps(s, ms, broken).0.sdkSessionId == if LastToken(ms).Some? then LastToken(ms) else s.sdkSessionId
  {
    if |ms| > 0 {
      var init := ms[..|ms| - 1];
      assert init + [ms[|ms| - 1]] == ms;
      StepsSnoc(s, init, ms[|ms| - 1], broken);
      TokenAfterSteps(s, init, broken);
    }
  }

  const PortfolioPrompt: string :=
    "你是一个专业的私人财富管理顾问。当用户询问组合是否合规或检查持仓风险时，请优先使用 audit-portfolio 技能进行审计。请输出结构化的审计结论。"

  /**
   * The options of a turn: `resume` when a token is held; for the
   * `PORTFOLIO` intent the system prompt is replaced and the default tool
   * list passed explicitly.
   */
  function TurnOptions(s: State, intent: Value, defaultTools: Value): (r: map<string, Value>)
    ensures "resume" in r <==> HoldsToken(s)
    ensures HoldsToken(s) ==> r["resume"] == JStr(s.sdkSessionId.value)
    ensures intent == JStr("PORTFOLIO") ==> r.Keys == (if HoldsToken(s) then {"resume"} else {}) + {"system_prompt", "allowed_tools"}
    ensures intent != JStr("PORTFOLIO") ==> r.Keys <= {"resume"}
    ensures intent == JStr("PORTFOLIO") ==> r["system_prompt"] == JStr(PortfolioPrompt) && r["allowed_tools"] == defaultTools
  {
    var base: map<string, Value> := if HoldsToken(s) then map["resume" := JStr(s.sdkSessionId.value)] else map[];
    if intent == JStr("PORTFOLIO") then base["system_prompt" := JStr(PortfolioPrompt)]["allowed_tools" := defaultTools]
    else base
  }

  /** Marking the session busy does not change a turn's options: they read only the token. */
  lemma TurnOptionsOfBusy(s: State, intent: Value, defaultTools: Value)
    ensures TurnOptions(s.(querying := true, messageCount := s.messageCount + 1), intent, defaultTools)
            == TurnOptions(s, intent, defaultTools)
  {
  }

  /** What a turn leaves behind: the session, the messages sent, and the query made (none when classification failed). */
  datatype Turn = Turn(state: State, out: seq<MessageTypes.Outgoing>, query: Option<AiClient.Query>)

  /** The error broadcast of a failed turn. */
  function FailureText(e: string): string {
    "查询失败: " + e
  }

  /**
   * `add_user_message(content)`: the count goes up and the session is busy;
   * the intent is classified (its failure ends the turn), the provider is
   * queried and every message streamed; a failure is broadcast as one error
   * and the session is idle again in every case.
   */
  function AddUserMessage(s: State, content: string, intent: Result<map<string, Value>, string>, reply: AiClient.Reply,
                          defaultTools: Value, broken: set<ClientId>): (r: Turn)
    ensures r.state.messageCount == s.messageCount + 1
    ensures !r.state.querying
    ensures r.state.id == s.id && r.state.subscribers <= s.subscribers
    ensures intent.Err? <==> r.query.None?
    ensures r.query.Some? ==> r.query.value.prompt == AiClient.Text(content)
    ensures r.query.Some? ==> ("resume" in r.query.value.options <==> HoldsToken(s))
    ensures r.query.Some? ==> r.query.value.options == TurnOptions(s, GetOr(intent.value, "intent", JStr("GENERAL")), defaultTools)
    ensures intent.Err? ==> Msgs(r.out) == [MessageTypes.ErrorMessage(FailureText(intent.error), Some(s.id))]
    ensures intent.Ok? && reply.failure.None? ==> Msgs(r.out) == Translations(s.id, reply.msgs)
    ensures intent.Ok? && reply.failure.Some? ==>
      Msgs(r.out) == Translations(s.id, reply.msgs) + [MessageTypes.ErrorMessage(FailureText(reply.failure.value), Some(s.id))]
  {
    var busy := s.(querying := true, messageCount := s.messageCount + 1);
    match intent
    case Err(e) =>
      var (s1, o) := BroadcastError(busy, FailureText(e), broken);
      Turn(s1.(querying := false), [o], None)
    case Ok(d) =>
      var options := TurnOptions(busy, GetOr(d, "intent", JStr("GENERAL")), defaultTools);
      TurnOptionsOfBusy(s, GetOr(d, "intent", JStr("GENERAL")), defaultTools);
      var (s1, out) := Steps(busy, reply.msgs, broken);
      match reply.failure
      case None => Turn(s1.(querying := false), out, Some(AiClient.Query(AiClient.Text(content), options)))
      case Some(e) =>
        var (s2, o) := BroadcastError(s1, FailureText(e), broken);
        MsgsAppend(out, [o]);
        Turn(s2.(querying := false), out + [o], Some(AiClient.Query(AiClient.Text(content), options)))
  }

  /** While the reply streams the session is busy with the new count, and it is idle afterwards. */
  lemma BusyDuringTurn(s: State, ms: seq<AiClient.Msg>, k: nat, broken: set<ClientId>)
    requires k <= |ms|
    ensures Steps(s.(querying := true, messageCount := s.messageCount + 1), ms[..k], broken).0.querying
    ensures Steps(s.(querying := true, messageCount := s.messageCount + 1), ms[..k], broken).0.messageCount
      == s.messageCount + 1
  {
  }

  /**
   * A failed query is not re-raised: it yields exactly one error broadcast,
   * the last message of the turn, carrying the session id.
   */
  lemma FailureBroadcastOnce(s: State, content: string, intent: Result<map<string, Value>, string>, reply: AiClient.Reply,
                             defaultTools: Value, broken: set<ClientId>)
    requires intent.Err? || reply.failure.Some?
    ensures var t := AddUserMessage(s, content, intent, reply, defaultTools, broken);
      |t.out| > 0 && t.out[|t.out| - 1].msg.ErrorMessage? && t.out[|t.out| - 1].msg.session == Some(s.id)
      && (intent.Err? ==> t.out[|t.out| - 1].msg.error == FailureText(intent.error))
      && (intent.Ok? ==> t.out[|t.out| - 1].msg.error == FailureText(reply.failure.value))
      && forall i :: 0 <= i < |t.out| - 1 ==> !t.out[i].msg.ErrorMessage?
  {
  }

  /** A successful query broadcasts no error at all. */
  lemma SuccessHasNoError(s: State, content: string, d: map<string, Value>, reply: AiClient.Reply, defaultTools: Value,
                          broken: set<ClientId>)
    requires reply.failure.None?
    ensures var t := AddUserMessage(s, content, Ok(d), reply, defaultTools, broken);
      forall i :: 0 <= i < |t.out| ==> !t.out[i].msg.ErrorMessage?
  {
  }

  /**
   * The provider resumes the held conversation exactly when a token is held,
   * and otherwise starts a fresh one (the session's client uses the default
   * options, whose `resume` is `None`).
   */
  lemma TurnResumesIffToken(s: State, content: string, d: map<string, Value>, reply: AiClient.Reply, defaultTools: Value,
                            broken: set<ClientId>, cwd: string, prompt: string, mcp: AiClient.OptValue, tools: seq<string>)
    ensures var q := AddUserMessage(s, content, Ok(d), reply, defaultTools, broken).query.value;
      var defaults := AiClient.DefaultOptions(cwd, prompt, mcp, tools);
      AiClient.AgentOptionsOf(defaults, AiClient.StreamOptions(defaults, q.options)).resume
        == if HoldsToken(s) then JStr(s.sdkSessionId.value) else JNull
  {
    var q := AddUserMessage(s, content, Ok(d), reply, defaultTools, broken).query.value;
    AiClient.ResumeFromCaller(cwd, prompt, mcp, tools, q.options);
  }

  /**
   * After a turn the token is the one the last `system`/`init` message
   * carried, or the old one; a failed classification keeps it.
   */
  lemma TurnToken(s: State, content: string, intent: Result<map<string, Value>, string>, reply: AiClient.Reply,
                  defaultTools: Value, broken: set<ClientId>)
    ensures AddUserMessage(s, content, intent, reply, defaultTools, broken).state.sdkSessionId
      == if intent.Ok? && LastToken(reply.msgs).Some? then LastToken(reply.msgs) else s.sdkSessionId
  {
    var busy := s.(querying := true, messageCount := s.messageCount + 1);
    if intent.Ok? {
      TokenAfterSteps(busy, reply.msgs, broken);
    }
  }
}

=== FILE: strings.dfy ===
/** The Python `str` operations the model relies on, over `seq<char>`. */
module Strings {

  /** Characters that Python's `str.isspace()` and the regex class `\s` accept. */
  predicate IsSpace(c: char) {
    c == ' ' || c == '\t' || c == '\n' || c == '\r' || c == '\U{000B}' || c == '\U{000C}'
    || ('\U{001C}' <= c <= '\U{001F}') || c == '\U{0085}' || c == '\U{00A0}' || c == '\U{1680}'
    || ('\U{2000}' <= c <= '\U{200A}') || c == '\U{2028}' || c == '\U{2029}' || c == '\U{202F}'
    || c == '\U{205F}' || c == '\U{3000}'
  }

  predicate NoSpace(s: string) {
    forall i :: 0 <= i < |s| ==> !IsSpace(s[i])
  }

  /** `re.sub(r'\s+', '', s)`: the string with every whitespace character removed. */
  function RemoveSpaces(s: string): (r: string)
    ensures NoSpace(r)
    ensures |r| <= |s|
    ensures NoSpace(s) ==> r == s
  {
    if |s| == 0 then ""
    else if IsSpace(s[0]) then RemoveSpaces(s[1..])
    else [s[0]] + RemoveSpaces(s[1..])
  }

  lemma RemoveSpacesIdempotent(s: string)
    ensures RemoveSpaces(RemoveSpaces(s)) == RemoveSpaces(s)
  {
  }

  /** `re.sub(r'\s+', '', a + b)` distributes over concatenation. */
  lemma {:induction false} RemoveSpacesAppend(a: string, b: string)
    ensures RemoveSpaces(a + b) == RemoveSpaces(a) + RemoveSpaces(b)
    decreases |a|
  {
    if |a| == 0 {
      assert a + b == b;
    } else {
      assert (a + b)[0] == a[0];
      assert (a + b)[1..] == a[1..] + b;
      RemoveSpacesAppend(a[1..], b);
    }
  }

  /** `s.lstrip()`. */
  function LStrip(s: string): (r: string)
    ensures |r| <= |s|
    ensures r == s[|s| - |r|..]
    ensures |r| > 0 ==> !IsSpace(r[0])
    ensures forall i :: 0 <= i < |s| - |r| ==> IsSpace(s[i])
  {
    if |s| > 0 && IsSpace(s[0]) then LStrip(s[1..]) else s
  }

  /** `s.rstrip()`. */
  function RStrip(s: string): (r: string)
    ensures |r| <= |s|
    ensures r == s[..|r|]
    ensures |r| > 0 ==> !IsSpace(r[|r| - 1])
    ensures forall i :: |r| <= i < |s| ==> IsSpace(s[i])
  {
    if |s| > 0 && IsSpace(s[|s| - 1]) then RStrip(s[..|s| - 1]) else s
  }

  /** `s.strip()`: neither end of the result is whitespace. */
  function Strip(s: string): (r: string)
    ensures |r| <= |s|
    ensures |r| > 0 ==> !IsSpace(r[0]) && !IsSpace(r[|r| - 1])
  {
    RStrip(LStrip(s))
  }

  /** A string of whitespace only strips to the empty string, and only such a string does. */
  lemma StripEmptyIff(s: string)
    ensures |Strip(s)| == 0 <==> forall i :: 0 <= i < |s| ==> IsSpace(s[i])
  {
    var l := LStrip(s);
    if |Strip(s)| == 0 {
      assert |l| == 0;
    } else {
      var r := Strip(s);
      assert r == l[..|r|];
      assert l == s[|s| - |l|..];
      assert !IsSpace(s[|s| - |l|]);
    }
  }

  /** `t` occurs in `s` starting at index `i`. */
  predicate OccursAt(s: string, t: string, i: int) {
    0 <= i && i + |t| <= |s| && s[i..i + |t|] == t
  }

  /** `t in s`. */
  predicate Contains(s: string, t: string) {
    exists i | 0 <= i <= |s| :: OccursAt(s, t, i)
  }

  /** An occurrence inside a slice is an occurrence in the slice, shifted. */
  lemma OccursInSlice(s: string, t: string, i: nat, a: nat, b: nat)
    requires OccursAt(s, t, i) && a <= i && i + |t| <= b <= |s|
    ensures OccursAt(s[a..b], t, i - a)
  {
    var w := s[a..b][i - a..i - a + |t|];
    forall k | 0 <= k < |t|
      ensures w[k] == t[k]
    {
      assert w[k] == s[i + k] == s[i..i + |t|][k];
    }
    assert w == t;
  }

  function FindFrom(s: string, t: string, k: nat): (r: int)
    ensures r == -1 || (k <= r && OccursAt(s, t, r))
    ensures r == -1 ==> forall j :: k <= j ==> !OccursAt(s, t, j)
    ensures r >= 0 ==> forall j :: k <= j < r ==> !OccursAt(s, t, j)
    decreases |s| - k
  {
    if k + |t| > |s| then -1
    else if s[k..k + |t|] == t then k
    else FindFrom(s, t, k + 1)
  }

  /** `s.find(t)`: the first occurrence of `t` in `s`, or -1 when there is none. */
  function Find(s: string, t: string): (r: int)
    ensures r == -1 <==> !Contains(s, t)
    ensures r >= 0 ==> OccursAt(s, t, r)
    ensures r >= 0 ==> forall j :: 0 <= j < r ==> !OccursAt(s, t, j)
  {
    FindFrom(s, t, 0)
  }

  /** `s.startswith(p)`. */
  predicate StartsWith(s: string, p: string) {
    |p| <= |s| && s[..|p|] == p
  }

  /** `s.endswith(p)`. */
  predicate EndsWith(s: string, p: string) {
    |p| <= |s| && s[|s| - |p|..] == p
  }

  /** `sep.join(parts)`. */
  function Join(sep: string, parts: seq<string>): (r: string)
    ensures |parts| == 0 ==> r == ""
    ensures |parts| == 1 ==> r == parts[0]
    decreases |parts|
  {
    if |parts| == 0 then ""
    else if |parts| == 1 then parts[0]
    else parts[0] + sep + Join(sep, parts[1..])
  }

  /** `str(n)` for a non-negative integer. */
  function NatToString(n: nat): (r: string)
    ensures |r| > 0
    ensures forall i :: 0 <= i < |r| ==> '0' <= r[i] <= '9'
    decreases n
  {
    var d := [(('0' as int) + n % 10) as char];
    if n < 10 then d else NatToString(n / 10) + d
  }

  predicate IsHexDigit(c: char) {
    '0' <= c <= '9' || 'a' <= c <= 'f'
  }

  /** `hex(n)[2:]`: lower-case hexadecimal digits without a prefix. */
  function NatToHex(n: nat): (r: string)
    ensures |r| > 0
    ensures forall i :: 0 <= i < |r| ==> IsHexDigit(r[i])
    decreases n
  {
    var d := n % 16;
    var c := if d < 10 then (('0' as int) + d) as char else (('a' as int) + d - 10) as char;
    if n < 16 then [c] else NatToHex(n / 16) + [c]
  }

  /** `str(n)` for any integer. */
  function IntToString(n: int): (r: string)
    ensures |r| > 0
  {
    if n < 0 then "-" + NatToString(-n) else NatToString(n)
  }

  /** `s.replace(pat, rep)`: every non-overlapping occurrence, scanning left to right. */
  function ReplaceAll(s: string, pat: string, rep: string): (r: string)
    requires |pat| > 0
    ensures !Contains(s, pat) ==> r == s
    decreases |s|
  {
    if |s| == 0 then ""
    else if StartsWith(s, pat) then
      assert OccursAt(s, pat, 0);
      rep + ReplaceAll(s[|pat|..], pat, rep)
    else
      assert !Contains(s, pat) ==> !Contains(s[1..], pat) by {
        if Contains(s[1..], pat) {
          var i :| 0 <= i <= |s[1..]| && OccursAt(s[1..], pat, i);
          assert s[i + 1..i + 1 + |pat|] == s[1..][i..i + |pat|];
          assert OccursAt(s, pat, i + 1);
        }
      }
      [s[0]] + ReplaceAll(s[1..], pat, rep)
  }

  /** The concatenation of `parts`, `''.join(parts)`. */
  function Concat(parts: seq<string>): (r: string)
    decreases |parts|
  {
    if |parts| == 0 then "" else parts[0] + Concat(parts[1..])
  }

  /** The length of the run of non-whitespace characters that starts `s`. */
  function WordEnd(s: string): (k: nat)
    ensures k <= |s| && NoSpace(s[..k])
    ensures k < |s| ==> IsSpace(s[k])
    decreases |s|
  {
    if |s| == 0 || IsSpace(s[0]) then 0
    else
      var k := WordEnd(s[1..]) + 1;
      assert s[..k] == [s[0]] + s[1..][..k - 1];
      k
  }

  /**
   * `s.split()`: the maximal runs of non-whitespace characters, in order.
   * No word is empty or holds whitespace, and together they hold exactly
   * the non-whitespace characters of `s`.
   */
  function Split(s: string): (r: seq<string>)
    ensures forall i :: 0 <= i < |r| ==> |r[i]| > 0 && NoSpace(r[i])
    decreases |s|
  {
    if |s| == 0 then []
    else if IsSpace(s[0]) then Split(s[1..])
    else
      var k := WordEnd(s);
      [s[..k]] + Split(s[k..])
  }

  lemma {:induction false} SplitConcat(s: string)
    ensures Concat(Split(s)) == RemoveSpaces(s)
    decreases |s|
  {
    if |s| == 0 {
    } else if IsSpace(s[0]) {
      SplitConcat(s[1..]);
    } else {
      var k := WordEnd(s);
      SplitConcat(s[k..]);
      assert s == s[..k] + s[k..];
      RemoveSpacesAppend(s[..k], s[k..]);
      assert [s[..k]] + Split(s[k..]) == Split(s);
    }
  }

  /** A string with a non-whitespace character splits into at least one word. */
  lemma SplitNonEmpty(s: string, i: nat)
    requires i < |s| && !IsSpace(s[i])
    ensures |Split(s)| > 0
  {
    SplitConcat(s);
    assert s == s[..i] + s[i..];
    RemoveSpacesAppend(s[..i], s[i..]);
    assert s[i..] == [s[i]] + s[i + 1..];
    RemoveSpacesAppend([s[i]], s[i + 1..]);
  }

  /** `c.lower()` on the ASCII letters; every other character is kept. */
  function LowerChar(c: char): (r: char)
    ensures 'A' <= c <= 'Z' ==> r as int == c as int + 32
    ensures !('A' <= c <= 'Z') ==> r == c
  {
    if 'A' <= c <= 'Z' then (c as int + 32) as char else c
  }

  /** `s.lower()`, ASCII letters only. */
  function Lower(s: string): (r: string)
    ensures |r| == |s| && forall i :: 0 <= i < |s| ==> r[i] == LowerChar(s[i])
  {
    seq(|s|, i requires 0 <= i < |s| => LowerChar(s[i]))
  }
}

=== FILE: ui_state_manager.dfy ===
/**
 * The UI-state registry: state templates loaded from plugin files, state
 * reads that fall back to a template's initial state, writes that persist,
 * audit and notify every subscribed callback, and lazy initialisation.
 * Python's `None` is the JSON `null` throughout.
 */
module UIStateManager {
  import opened Wrappers
  import opened Json
  import OrderedMap
  import Plugins
  import MessageTypes
  import LogWriter
  import DatabaseManager

  /** A subscribed callback, by identity. */
  type Callback = nat

  datatype State = State(
    templates: OrderedMap.Dict<string, MessageTypes.UIStateTemplate>,
    callbacks: set<Callback>,
    db: DatabaseManager.UIStateStore,
    logs: LogWriter.LogDir)

  /** One call `callback(state_id, data)` made by a notification. */
  datatype Notice = Notice(callback: Callback, stateId: string, data: Value)

  /**
   * The day, the time and the serialiser of one write: the audit file is
   * `<date>.jsonl`, `dumps` is `json.dumps`, and `logWritable` is false
   * when appending to the audit file fails.
   */
  datatype Env = Env(date: string, timestamp: string, dumps: Value -> string, logWritable: bool)

  // ------------------------------------------------------------- templates

  /**
   * `_load_template`: a module whose `config` is a dict with `id` and
   * `initialState` becomes a template; the name defaults to the id and the
   * description to `''`. No `handler` is needed.
   */
  function Contribution(e: Plugins.Entry): (r: Option<(string, MessageTypes.UIStateTemplate)>)
    ensures r.Some? <==> (e.loaded.Some? && e.loaded.value.config.Some? && e.loaded.value.config.value.DictConfig?
      && "id" in e.loaded.value.config.value.fields && "initialState" in e.loaded.value.config.value.fields
      && e.loaded.value.config.value.fields["id"].JStr?)
    ensures r.Some? ==> var f := e.loaded.value.config.value.fields;
      r.value.0 == r.value.1.id && f["id"] == JStr(r.value.0)
      && r.value.1.initialState == f["initialState"]
      && r.value.1.name == GetOr(f, "name", f["id"])
      && r.value.1.description == GetOr(f, "description", JStr(""))
  {
    match e.loaded
    case None => None
    case Some(m) =>
      match m.config
      case Some(DictConfig(f)) =>
        if "id" in f && "initialState" in f && f["id"].JStr? then
          var t := MessageTypes.UIStateTemplate(f["id"].s, GetOr(f, "name", f["id"]),
            GetOr(f, "description", JStr("")), f["initialState"]);
          Some((t.id, t))
        else None
      case _ => None
  }

  /** What the loader takes from one directory entry: public scripts only. */
  function Keep(e: Plugins.Entry): (r: Option<(string, MessageTypes.UIStateTemplate)>)
    ensures r.Some? ==> Plugins.PublicScript(e.name) && r.value.0 == r.value.1.id
    ensures !Plugins.PublicScript(e.name) ==> r.None?
  {
    if Plugins.PublicScript(e.name) then Contribution(e) else None
  }

  /**
   * `load_all_templates`: the templates are cleared and every public `.py`
   * file is loaded in listing order; states, callbacks and logs are kept.
   */
  function LoadAll(s: State, dir: Plugins.Directory): (r: State)
    ensures r.callbacks == s.callbacks && r.db == s.db && r.logs == s.logs
    ensures OrderedMap.UniqueKeys(r.templates)
    ensures forall i :: 0 <= i < |r.templates| ==> r.templates[i].1.id == r.templates[i].0
    ensures !dir.Listed? ==> r.templates == []
  {
    s.(templates := Plugins.Load(dir, Keep))
  }

  /** A state id maps to the template of the last file declaring it. */
  lemma LoadAllLastWins(s: State, es: seq<Plugins.Entry>, id: string)
    ensures OrderedMap.Get(LoadAll(s, Plugins.Listed(es)).templates, id).None? <==> Plugins.NoneFor(es, Keep, id)
    ensures OrderedMap.Get(LoadAll(s, Plugins.Listed(es)).templates, id).Some? ==>
      exists j :: Plugins.LastFor(es, Keep, id, OrderedMap.Get(LoadAll(s, Plugins.Listed(es)).templates, id).value, j)
  {
    Plugins.LoadLastWins(es, Keep, id);
  }

  // ----------------------------------------------------------------- states

  /** The template's `initialState`, or `None` without a template. */
  function Fallback(s: State, id: string): Value {
    match OrderedMap.Get(s.templates, id)
    case Some(t) => t.initialState
    case None => JNull
  }

  /**
   * `get_state(state_id)`: the stored value when there is one and it is
   * not `None`, else the template's initial state, else `None`; a failing
   * database also gives `None`.
   */
  function GetState(s: State, id: string): (r: Value)
    ensures s.db.fault.Some? ==> r == JNull
    ensures s.db.fault.None? && id in s.db.rows && s.db.rows[id].Stored? && s.db.rows[id].v != JNull ==>
      r == s.db.rows[id].v
    ensures s.db.fault.None? && (id !in s.db.rows || s.db.rows[id] in {DatabaseManager.Undecodable, DatabaseManager.Stored(JNull)}) ==>
      r == Fallback(s, id)
    ensures r != JNull && !OrderedMap.Has(s.templates, id) ==> id in s.db.rows
  {
    match DatabaseManager.GetUIState(s.db, id)
    case Err(_) => JNull
    case Ok(v) => if v != JNull then v else Fallback(s, id)
  }

  /** The calls one notification makes: every subscribed callback, each with `(state_id, data)`. */
  function Notices(callbacks: set<Callback>, id: string, data: Value): (r: set<Notice>)
    ensures forall n :: n in r <==> n.callback in callbacks && n.stateId == id && n.data == data
  {
    set c | c in callbacks :: Notice(c, id, data)
  }

  /** The audit entry of a write, `dataSize` being the length of the serialised state. */
  function LogEntry(env: Env, id: string, data: Value): MessageTypes.UIStateLogEntry {
    MessageTypes.UIStateLogEntry(env.timestamp, id, "update", |env.dumps(data)|)
  }

  /**
   * `set_state(state_id, data)`: persist, append one audit line (a failing
   * append is swallowed), then call every callback (a raising callback does
   * not stop the rest). A persistence failure is re-raised before anything
   * is logged or notified.
   */
  function SetState(s: State, id: string, data: Value, env: Env): (r: Result<(State, set<Notice>), string>)
    ensures r.Err? <==> s.db.fault.Some?
    ensures r.Err? ==> r.error == s.db.fault.value
    ensures r.Ok? ==> r.value.0.templates == s.templates && r.value.0.callbacks == s.callbacks
    ensures r.Ok? ==> forall n :: n in r.value.1 <==> n.callback in s.callbacks && n.stateId == id && n.data == data
    ensures r.Ok? && env.logWritable ==>
      LogWriter.LinesOf(r.value.0.logs, LogWriter.FileName(env.date))
        == LogWriter.LinesOf(s.logs, LogWriter.FileName(env.date)) + [LogWriter.Record(JObj(LogEntry(env, id, data).ToJson()))]
    ensures r.Ok? && !env.logWritable ==> r.value.0.logs == s.logs
  {
    match DatabaseManager.SetUIState(s.db, id, data)
    case Err(e) => Err(e)
    case Ok(db) =>
      var logs := LogWriter.AppendLog(s.logs, env.date, JObj(LogEntry(env, id, data).ToJson()), env.logWritable);
      Ok((s.(db := db, logs := logs), Notices(s.callbacks, id, data)))
  }

  /**
   * A written state is read back, except that writing `None` exposes the
   * template's initial state again; other states are unchanged.
   */
  lemma SetThenGet(s: State, id: string, data: Value, env: Env, other: string)
    requires SetState(s, id, data, env).Ok?
    ensures GetState(SetState(s, id, data, env).value.0, id) == if data != JNull then data else Fallback(s, id)
    ensures other != id ==> GetState(SetState(s, id, data, env).value.0, other) == GetState(s, other)
  {
    DatabaseManager.SetThenGetUIState(s.db, id, data, other);
  }

  /**
   * `initialize_state_if_needed(state_id)`: nothing happens when a state is
   * already visible or there is no template; otherwise the template's
   * initial state is written and the answer is true, false when that write
   * raises. The flag comes back with the new state and the notifications.
   */
  function InitializeIfNeeded(s: State, id: string, env: Env): (r: (State, bool, set<Notice>))
    ensures r.1 <==> GetState(s, id) == JNull && OrderedMap.Has(s.templates, id) && s.db.fault.None?
    ensures !r.1 ==> r.0 == s && r.2 == {}
    ensures r.1 ==> r.0.templates == s.templates && r.0.callbacks == s.callbacks
    ensures r.1 ==> forall n :: n in r.2 <==> n.callback in s.callbacks && n.stateId == id && n.data == Fallback(s, id)
  {
    if GetState(s, id) != JNull then (s, false, {})
    else
      match OrderedMap.Get(s.templates, id)
      case None => (s, false, {})
      case Some(t) =>
        match SetState(s, id, t.initialState, env)
        case Err(_) => (s, false, {})
        case Ok((s', notices)) => (s', true, notices)
  }

  /**
   * Because reads fall back to the template, initialisation can only
   * succeed when the template's initial state is itself `None`, and then it
   * succeeds again on every later call: the state never becomes visible.
   */
  lemma InitializeOnlyNullRepeats(s: State, id: string, env: Env, env': Env)
    requires InitializeIfNeeded(s, id, env).1
    ensures OrderedMap.Has(s.templates, id) && Fallback(s, id) == JNull
    ensures InitializeIfNeeded(InitializeIfNeeded(s, id, env).0, id, env').1
  {
    var t := OrderedMap.Get(s.templates, id).value;
    var s' := InitializeIfNeeded(s, id, env).0;
    assert SetState(s, id, t.initialState, env).Ok?;
    SetThenGet(s, id, t.initialState, env, id);
  }

  // ------------------------------------------------------------ subscribers

  /** `on_state_update(callback)`: the callback is added; the others stay. */
  function OnStateUpdate(s: State, c: Callback): (r: State)
    ensures c in r.callbacks
    ensures forall c' :: c' != c ==> (c' in r.callbacks <==> c' in s.callbacks)
    ensures r.templates == s.templates && r.db == s.db && r.logs == s.logs
  {
    s.(callbacks := s.callbacks + {c})
  }

  /** The function `on_state_update` returns: discards its callback, a no-op when it is gone. */
  function Unsubscribe(s: State, c: Callback): (r: State)
    ensures c !in r.callbacks
    ensures forall c' :: c' != c ==> (c' in r.callbacks <==> c' in s.callbacks)
    ensures r.templates == s.templates && r.db == s.db && r.logs == s.logs
  {
    s.(callbacks := s.callbacks - {c})
  }

  /**
   * A subscribed callback hears every successful write; after its
   * unsubscribe function runs it hears none, and the other callbacks are
   * unaffected.
   */
  lemma SubscriptionControlsNotices(s: State, c: Callback, id: string, data: Value, env: Env)
    requires s.db.fault.None?
    ensures Notice(c, id, data) in SetState(OnStateUpdate(s, c), id, data, env).value.1
    ensures Notice(c, id, data) !in SetState(Unsubscribe(OnStateUpdate(s, c), c), id, data, env).value.1
    ensures c !in s.callbacks ==> Unsubscribe(OnStateUpdate(s, c), c) == s
  {
    if c !in s.callbacks {
      assert s.callbacks + {c} - {c} == s.callbacks;
    }
  }
}

=== FILE: watchlist_monitor.dfy ===
/**
 * The watchlist-monitor listener: when a report is imported it looks for
 * the names on the user's active watchlist in the report text (ignoring
 * whitespace), composes one notification for the matches, and appends an
 * alert to the `watchlist_tracker` dashboard state, which keeps the last
 * fifty. The watchlist lookup, the stored tracker state and the clock are
 * inputs; logging is not modelled.
 */
module WatchlistMonitor {
  import opened Wrappers
  import opened Json
  import Strings
  import WatchlistRepo

  // ---------------------------------------------------------------- helpers

  /**
   * `_extract_context(content, target, L)`: the whitespace-free content
   * around the first occurrence of the whitespace-free target, `L`
   * characters either side, with `...` marking each side that was cut;
   * empty when the target does not occur.
   */
  function ExtractContext(content: string, target: string, L: nat): (r: string)
    ensures var cc := Strings.RemoveSpaces(content); var ct := Strings.RemoveSpaces(target);
      (!Strings.Contains(cc, ct) ==> r == "")
      && (Strings.Contains(cc, ct) ==> Strings.Contains(r, ct) && |r| <= |ct| + 2 * L + 6)
    ensures var cc := Strings.RemoveSpaces(content); var ct := Strings.RemoveSpaces(target);
      Strings.Find(cc, ct) >= 0 ==> r == Framed(cc, ct, Strings.Find(cc, ct), L)
  {
    Around(Strings.RemoveSpaces(content), Strings.RemoveSpaces(target), L)
  }

  /** The context of `ct` in `cc`, both already without whitespace. */
  function Around(cc: string, ct: string, L: nat): (r: string)
    ensures !Strings.Contains(cc, ct) ==> r == ""
    ensures Strings.Contains(cc, ct) ==> Strings.Contains(r, ct) && |r| <= |ct| + 2 * L + 6
    ensures Strings.Find(cc, ct) >= 0 ==> r == Framed(cc, ct, Strings.Find(cc, ct), L)
  {
    var i := Strings.Find(cc, ct);
    if i == -1 then ""
    else
      FramedContains(cc, ct, i, L);
      Framed(cc, ct, i, L)
  }

  /** The framed window holds the target and is at most `2L + 6` longer. */
  lemma FramedContains(cc: string, ct: string, i: nat, L: nat)
    requires Strings.OccursAt(cc, ct, i)
    ensures Strings.Contains(Framed(cc, ct, i, L), ct) && |Framed(cc, ct, i, L)| <= |ct| + 2 * L + 6
  {
    var start := if i > L then i - L else 0;
    var end := if i + |ct| + L < |cc| then i + |ct| + L else |cc|;
    var pre := if i > L then "..." else "";
    var post := if i + |ct| + L < |cc| then "..." else "";
    Strings.OccursInSlice(cc, ct, i, start, end);
    ContainsPadded(pre, cc[start..end], post, ct);
  }

  lemma ContainsPadded(a: string, s: string, b: string, t: string)
    requires exists k :: Strings.OccursAt(s, t, k)
    ensures Strings.Contains(a + s + b, t)
  {
    var k :| Strings.OccursAt(s, t, k);
    assert (a + s + b)[|a| + k..|a| + k + |t|] == s[k..k + |t|];
    assert Strings.OccursAt(a + s + b, t, |a| + k);
  }

  /**
   * The target's first occurrence sits in the context after the opening
   * mark and exactly `min(i, L)` characters of the content before it.
   */
  lemma {:induction false} ContextHoldsFirstOccurrence(content: string, target: string, L: nat)
    requires Strings.Contains(Strings.RemoveSpaces(content), Strings.RemoveSpaces(target))
    ensures var cc := Strings.RemoveSpaces(content); var ct := Strings.RemoveSpaces(target);
      var i := Strings.Find(cc, ct);
      var r := ExtractContext(content, target, L);
      Strings.OccursAt(r, ct, if i > L then 3 + L else i)
      && (i > L ==> r[3..3 + L] == cc[i - L..i])
      && (i <= L ==> r[..i] == cc[..i])
  {
    AroundHoldsFirstOccurrence(Strings.RemoveSpaces(content), Strings.RemoveSpaces(target), L);
  }

  lemma AroundHoldsFirstOccurrence(cc: string, ct: string, L: nat)
    requires Strings.Contains(cc, ct)
    ensures var i := Strings.Find(cc, ct);
      var r := Around(cc, ct, L);
      Strings.OccursAt(r, ct, if i > L then 3 + L else i)
      && (i > L ==> r[3..3 + L] == cc[i - L..i])
      && (i <= L ==> r[..i] == cc[..i])
  {
    FramedOccurrence(cc, ct, Strings.Find(cc, ct), L);
  }

  /**
   * The framed window around an occurrence at `i`: `L` characters of
   * content either side (fewer at an end), preceded by `...` when the start
   * was cut and followed by `...` when the end was.
   */
  function Framed(cc: string, ct: string, i: nat, L: nat): string
    requires Strings.OccursAt(cc, ct, i)
  {
    var start := if i > L then i - L else 0;
    var end := if i + |ct| + L < |cc| then i + |ct| + L else |cc|;
    (if i > L then "..." else "") + cc[start..end] + (if i + |ct| + L < |cc| then "..." else "")
  }

  lemma FramedOccurrence(cc: string, ct: string, i: nat, L: nat)
    requires Strings.OccursAt(cc, ct, i)
    ensures var r := Framed(cc, ct, i, L);
      Strings.OccursAt(r, ct, if i > L then 3 + L else i)
      && (i > L ==> r[3..3 + L] == cc[i - L..i])
      && (i <= L ==> r[..i] == cc[..i])
  {
    var start := if i > L then i - L else 0;
    var end := if i + |ct| + L < |cc| then i + |ct| + L else |cc|;
    var pre := if i > L then "..." else "";
    var post := if i + |ct| + L < |cc| then "..." else "";
    var core := cc[start..end];
    var r := Framed(cc, ct, i, L);
    assert r == pre + core + post;
    Strings.OccursInSlice(cc, ct, i, start, end);
    PaddedSlice(pre, core, post, i - start, |ct|);
    PaddedSlice(pre, core, post, 0, i - start);
    SlicePrefix(cc, start, end, i - start);
  }

  lemma SlicePrefix(s: string, a: nat, b: nat, k: nat)
    requires a + k <= b <= |s|
    ensures s[a..b][..k] == s[a..a + k]
  {
    assert forall j :: 0 <= j < k ==> s[a..b][..k][j] == s[a + j];
  }

  /** A slice of the middle of `a + s + b`, shifted past `a`. */
  lemma PaddedSlice(a: string, s: string, b: string, k: nat, n: nat)
    requires k + n <= |s|
    ensures (a + s + b)[|a| + k..|a| + k + n] == s[k..k + n]
  {
    var w := a + s + b;
    assert w[|a|..|a| + |s|] == s;
    assert w[|a| + k..|a| + k + n] == w[|a|..|a| + |s|][k..k + n];
  }

  /** Short content around the target comes back whole, without marks. */
  lemma ShortContentWhole(content: string, target: string, L: nat)
    requires Strings.NoSpace(content) && Strings.NoSpace(target)
    requires Strings.Contains(content, target) && |content| <= L
    ensures ExtractContext(content, target, L) == content
  {
    var i := Strings.Find(content, target);
    assert content[0..|content|] == content;
  }

  /**
   * `_get_type_text(target_type)`: the Chinese name of the four known
   * types, `标的` for anything else; a list or dict cannot be a dict key
   * and raises.
   */
  function TypeText(kind: Value): (r: Result<string, string>)
    ensures r.Err? <==> kind.JArr? || kind.JObj?
    ensures kind == JStr("stock") ==> r == Ok("股票")
    ensures kind == JStr("etf") ==> r == Ok("ETF")
    ensures kind == JStr("index") ==> r == Ok("指数")
    ensures kind == JStr("industry") ==> r == Ok("行业")
    ensures r.Ok? && !(kind in {JStr("stock"), JStr("etf"), JStr("index"), JStr("industry")}) ==> r == Ok("标的")
  {
    match kind
    case JArr(_) => Err("unhashable type: 'list'")
    case JObj(_) => Err("unhashable type: 'dict'")
    case JStr(s) =>
      Ok(if s == "stock" then "股票" else if s == "etf" then "ETF" else if s == "index" then "指数"
         else if s == "industry" then "行业" else "标的")
    case _ => Ok("标的")
  }

  // ---------------------------------------------------------------- matching

  /** An item is mentioned when its name, without whitespace, occurs in the whitespace-free content. */
  predicate Mentioned(cleanContent: string, item: WatchlistRepo.Read) {
    item.name.JStr? && Strings.Contains(cleanContent, Strings.RemoveSpaces(item.name.s))
  }

  /** The positions, from `k` on, of the items that are mentioned, in watchlist order. */
  function MentionedFrom(cc: string, items: seq<WatchlistRepo.Read>, k: nat): (r: seq<nat>)
    requires k <= |items|
    ensures forall j :: j in r <==> k <= j < |items| && Mentioned(cc, items[j])
    ensures forall a, b :: 0 <= a < b < |r| ==> r[a] < r[b]
    decreases |items| - k
  {
    if k == |items| then []
    else
      var rest := MentionedFrom(cc, items, k + 1);
      var here: seq<nat> := if Mentioned(cc, items[k]) then [k] else [];
      forall b | 0 <= b < |rest|
        ensures k < rest[b]
      {
        assert rest[b] in rest;
      }
      assert forall j :: j in here + rest <==> j in here || j in rest;
      here + rest
  }

  /**
   * The matching loop: the positions of the mentioned items. Content or a
   * name that is not text makes the whitespace removal raise.
   */
  function Matches(content: Value, items: seq<WatchlistRepo.Read>): (r: Result<seq<nat>, string>)
    requires |items| > 0
    ensures r.Err? <==> !content.JStr? || exists j :: 0 <= j < |items| && !items[j].name.JStr?
    ensures r.Ok? ==> forall j :: j in r.value <==> 0 <= j < |items| && Mentioned(Strings.RemoveSpaces(content.s), items[j])
    ensures r.Ok? ==> forall a, b :: 0 <= a < b < |r.value| ==> r.value[a] < r.value[b]
    ensures r.Ok? ==> content.JStr? && forall a :: 0 <= a < |r.value| ==> r.value[a] < |items| && items[r.value[a]].name.JStr?
  {
    if !content.JStr? then Err(TypeError("expected string or bytes-like object"))
    else if exists j :: 0 <= j < |items| && !items[j].name.JStr? then Err(TypeError("expected string or bytes-like object"))
    else
      var found := MentionedFrom(Strings.RemoveSpaces(content.s), items, 0);
      assert forall a :: 0 <= a < |found| ==> found[a] in found;
      Ok(found)
  }

  /** The listener acts exactly when some item on the watchlist is mentioned. */
  lemma ActsIffMentioned(content: Value, items: seq<WatchlistRepo.Read>)
    requires |items| > 0 && Matches(content, items).Ok?
    ensures |Matches(content, items).value| > 0
            <==> exists j :: 0 <= j < |items| && Mentioned(Strings.RemoveSpaces(content.s), items[j])
  {
    var found := Matches(content, items).value;
    if |found| > 0 {
      assert found[0] in found;
    } else {
      forall j | 0 <= j < |items|
        ensures !Mentioned(Strings.RemoveSpaces(content.s), items[j])
      {
        assert j !in found;
      }
    }
  }

  function TypeError(msg: string): string {
    "TypeError: " + msg
  }

  /** A name made only of whitespace is mentioned in any report. */
  lemma BlankNameAlwaysMentioned(content: string, item: WatchlistRepo.Read)
    requires item.name.JStr? && Strings.RemoveSpaces(item.name.s) == ""
    ensures Mentioned(Strings.RemoveSpaces(content), item)
  {
    assert Strings.OccursAt(Strings.RemoveSpaces(content), "", 0);
  }

  // ---------------------------------------------------------------- notification

  /**
   * The names part of a multi-match message: the first three names joined
   * by `、`, followed by ` 等 N 个标的` when there are more than three.
   */
  function NamesText(names: seq<string>): (r: string)
    ensures |names| <= 3 ==> r == Strings.Join("、", names)
    ensures |names| > 3 ==> Strings.StartsWith(r, Strings.Join("、", names[..3]))
                            && Strings.EndsWith(r, " 等 " + Strings.NatToString(|names|) + " 个标的")
    ensures |names| > 3 ==> r == Strings.Join("、", names[..3]) + " 等 " + Strings.NatToString(|names|) + " 个标的"
  {
    if |names| <= 3 then Strings.Join("、", names)
    else
      var head := Strings.Join("、", names[..3]);
      var tail := " 等 " + Strings.NatToString(|names|) + " 个标的";
      assert (head + tail)[..|head|] == head;
      assert (head + tail)[|head + tail| - |tail|..] == tail;
      head + tail
  }

  /**
   * The notification text for the matched items (at least one). With one
   * match the type is named; a type that cannot be looked up makes the
   * notification fail, which the listener only logs.
   */
  function Notification(matched: seq<WatchlistRepo.Read>, title: Value): (r: Option<string>)
    requires |matched| > 0 && forall j :: 0 <= j < |matched| ==> matched[j].name.JStr?
    ensures |matched| > 1 ==> r.Some?
    ensures |matched| == 1 ==> (r.Some? <==> TypeText(matched[0].kind).Ok?)
    ensures |matched| > 1 ==> r == Some("您关注的 " + NamesText(Names(matched)) + " 出现在新报告《" + PyStr(title) + "》中！")
    ensures |matched| == 1 && r.Some? ==>
              r.value == "您关注的" + TypeText(matched[0].kind).value + " " + matched[0].name.s + " 出现在新报告《" + PyStr(title) + "》中！"
  {
    if |matched| == 1 then
      var t := TypeText(matched[0].kind);
      if t.Err? then None
      else Some("您关注的" + t.value + " " + matched[0].name.s + " 出现在新报告《" + PyStr(title) + "》中！")
    else Some("您关注的 " + NamesText(Names(matched)) + " 出现在新报告《" + PyStr(title) + "》中！")
  }

  function Names(matched: seq<WatchlistRepo.Read>): (r: seq<string>)
    requires forall j :: 0 <= j < |matched| ==> matched[j].name.JStr?
    ensures |r| == |matched| && forall j :: 0 <= j < |r| ==> r[j] == matched[j].name.s
  {
    seq(|matched|, j requires 0 <= j < |matched| => matched[j].name.s)
  }

  // ---------------------------------------------------------------- tracker

  /** What one mention records: the item, and the context its name appears in. */
  function Detail(item: WatchlistRepo.Read, content: string, title: Value): (r: Value)
    requires item.name.JStr?
    ensures r.JObj? && r.fields.Keys == {"id", "name", "type", "context", "report_title"}
    ensures r.fields["context"] == JStr(ExtractContext(content, item.name.s, 50))
    ensures r.fields["id"] == JNum(item.id as real) && r.fields["name"] == item.name && r.fields["type"] == item.kind
    ensures r.fields["report_title"] == title
  {
    JObj(map["id" := JNum(item.id as real), "name" := item.name, "type" := item.kind,
             "context" := JStr(ExtractContext(content, item.name.s, 50)), "report_title" := title])
  }

  const AlertsKept := 50

  /**
   * The tracker update: an empty state is initialised (and replaced by an
   * empty tracker if it is still empty); the alert is appended to the
   * `alerts` list, of which the last fifty are kept. A state that is not a
   * dict, or alerts that are not a list, make the update fail, which the
   * listener only logs.
   */
  function UpdateTracker(state: Value, initialised: Value, alert: Value, now: string): (r: Option<Value>)
    ensures var s := Effective(state, initialised);
      r.Some? <==> s.JObj? && GetOr(s.fields, "alerts", JArr([])).JArr?
    ensures r.Some? ==>
              var s := Effective(state, initialised);
              var before := GetOr(s.fields, "alerts", JArr([])).items;
              r.value.JObj? && r.value.fields.Keys == s.fields.Keys + {"alerts", "last_updated"}
              && r.value.fields["last_updated"] == JStr(now)
              && (forall k :: k in s.fields && k != "alerts" && k != "last_updated" ==> r.value.fields[k] == s.fields[k])
              && r.value.fields["alerts"] == JArr(Recent(before + [alert]))
  {
    var s := Effective(state, initialised);
    if !s.JObj? then None
    else
      var alerts := GetOr(s.fields, "alerts", JArr([]));
      if !alerts.JArr? then None
      else Some(JObj(Record(s.fields, alerts.items, alert, now)))
  }

  /** The tracker fields after one alert: the alerts extended and trimmed, the time stamped, the rest kept. */
  function Record(fields: map<string, Value>, before: seq<Value>, alert: Value, now: string): (r: map<string, Value>)
    ensures r.Keys == fields.Keys + {"alerts", "last_updated"}
    ensures r["last_updated"] == JStr(now) && r["alerts"] == JArr(Recent(before + [alert]))
    ensures forall k :: k in fields && k != "alerts" && k != "last_updated" ==> r[k] == fields[k]
  {
    fields["alerts" := JArr(Recent(before + [alert]))]["last_updated" := JStr(now)]
  }

  /** The state the update works on: the stored one, else the initialised one, else an empty tracker. */
  function Effective(state: Value, initialised: Value): (r: Value)
    ensures Truthy(state) ==> r == state
    ensures !Truthy(state) && Truthy(initialised) ==> r == initialised
    ensures !Truthy(state) && !Truthy(initialised) ==> r == JObj(map["alerts" := JArr([]), "last_updated" := JNull])
  {
    if Truthy(state) then state
    else if Truthy(initialised) then initialised
    else JObj(map["alerts" := JArr([]), "last_updated" := JNull])
  }

  /** `xs[-50:]`: the last fifty, in order. */
  function Recent(xs: seq<Value>): (r: seq<Value>)
    ensures |r| == if |xs| < AlertsKept then |xs| else AlertsKept
    ensures r == xs[|xs| - |r|..]
  {
    if |xs| <= AlertsKept then xs else xs[|xs| - AlertsKept..]
  }

  /** Every update leaves at most fifty alerts, the newest last. */
  lemma UpdateKeepsNewest(state: Value, initialised: Value, alert: Value, now: string)
    requires UpdateTracker(state, initialised, alert, now).Some?
    ensures var a := UpdateTracker(state, initialised, alert, now).value.fields["alerts"].items;
      0 < |a| <= AlertsKept && a[|a| - 1] == alert
  {
  }

  /** A tracker that already holds fifty alerts drops its oldest one for the new one. */
  lemma FullTrackerDropsOldest(tracker: map<string, Value>, alerts: seq<Value>, alert: Value, now: string)
    requires "alerts" in tracker && tracker["alerts"] == JArr(alerts) && |alerts| == AlertsKept
    ensures UpdateTracker(JObj(tracker), JNull, alert, now).Some?
    ensures UpdateTracker(JObj(tracker), JNull, alert, now).value.fields["alerts"] == JArr(alerts[1..] + [alert])
  {
    assert Truthy(JObj(tracker)) by { assert tracker["alerts"] == JArr(alerts); }
    assert GetOr(tracker, "alerts", JArr([])) == JArr(alerts);
    var xs := alerts + [alert];
    assert Recent(xs) == xs[1..];
    assert xs[1..] == alerts[1..] + [alert];
  }

  // ---------------------------------------------------------------- handler

  /** The watchlist as the database returned it, or the error it raised. */
  datatype Lookup = LookupFailed(error: string) | Listed(items: seq<WatchlistRepo.Read>)

  datatype Outcome = Outcome(executed: bool, reason: string, mentioned: seq<Value>, notification: Option<string>,
                             tracker: Option<Value>)

  /**
   * `handler(event_data, context)`: no watchlist, a failed lookup or no
   * match ends the handler unexecuted; otherwise the mentions are reported,
   * notified and recorded. The tracker state before and after
   * initialisation and the two clock readings are inputs.
   */
  function Handle(event: map<string, Value>, lookup: Lookup, state: Value, initialised: Value,
                  alertTime: string, now: string): (r: Result<Outcome, string>)
    ensures lookup.LookupFailed? ==> r == Ok(Outcome(false, "获取关注列表失败: " + lookup.error, [], None, None))
    ensures lookup.Listed? && |lookup.items| == 0 ==> r == Ok(Outcome(false, "用户暂无关注项", [], None, None))
    ensures lookup.Listed? && |lookup.items| > 0 ==>
              (r.Err? <==> Matches(GetOr(event, "content", JStr("")), lookup.items).Err?)
    ensures r.Ok? && r.value.executed ==>
              lookup.Listed? && |lookup.items| > 0
              && var m := Matches(GetOr(event, "content", JStr("")), lookup.items);
                 m.Ok? && |r.value.mentioned| == |m.value| > 0
                 && r.value.reason == "检测到 " + Strings.NatToString(|m.value|) + " 个关注标的"
    ensures r.Ok? && lookup.Listed? && |lookup.items| > 0 ==>
              (r.value.executed <==> |Matches(GetOr(event, "content", JStr("")), lookup.items).value| > 0)
    ensures r.Ok? && !r.value.executed ==> r.value.notification.None? && r.value.tracker.None?
    ensures lookup.Listed? && |lookup.items| > 0 && Matches(GetOr(event, "content", JStr("")), lookup.items) == Ok([])
            ==> r == Ok(Outcome(false, "未检测到关注标的", [], None, None))
    ensures r.Ok? && r.value.executed ==>
              var m := Matches(GetOr(event, "content", JStr("")), lookup.items).value;
              var title := GetOr(event, "title", JStr("未知标题"));
              r.value.notification == Notification(Matched(lookup.items, m), title)
              && r.value.tracker == UpdateTracker(state, initialised, Alert(event, title, r.value.mentioned, alertTime), now)
              && forall j :: 0 <= j < |m| ==>
                   r.value.mentioned[j] == Detail(lookup.items[m[j]], GetOr(event, "content", JStr("")).s, title)
  {
    var title := GetOr(event, "title", JStr("未知标题"));
    var content := GetOr(event, "content", JStr(""));
    match lookup
    case LookupFailed(e) => Ok(Outcome(false, "获取关注列表失败: " + e, [], None, None))
    case Listed(items) =>
      if |items| == 0 then Ok(Outcome(false, "用户暂无关注项", [], None, None))
      else
        var found :- Matches(content, items);
        if |found| == 0 then Ok(Outcome(false, "未检测到关注标的", [], None, None))
        else Ok(Mention(event, items, found, content.s, title, state, initialised, alertTime, now))
  }

  /**
   * Text content that mentions none of the (textual) watchlist names ends
   * the handler unexecuted with the no-match reason.
   */
  lemma NoMentionNoAlert(event: map<string, Value>, items: seq<WatchlistRepo.Read>, state: Value, initialised: Value,
                         alertTime: string, now: string)
    requires |items| > 0 && forall j :: 0 <= j < |items| ==> items[j].name.JStr?
    requires GetOr(event, "content", JStr("")).JStr?
    requires forall j :: 0 <= j < |items| ==>
               !Mentioned(Strings.RemoveSpaces(GetOr(event, "content", JStr("")).s), items[j])
    ensures Handle(event, Listed(items), state, initialised, alertTime, now)
            == Ok(Outcome(false, "未检测到关注标的", [], None, None))
  {
    var content := GetOr(event, "content", JStr(""));
    ActsIffMentioned(content, items);
    assert Matches(content, items).value == [];
  }

  /**
   * An item whose name the content mentions is reported: the handler acts
   * and its mention details include the item's own.
   */
  lemma MentionIsReported(event: map<string, Value>, items: seq<WatchlistRepo.Read>, state: Value, initialised: Value,
                          alertTime: string, now: string, j: nat)
    requires j < |items| && forall i :: 0 <= i < |items| ==> items[i].name.JStr?
    requires GetOr(event, "content", JStr("")).JStr?
    requires Mentioned(Strings.RemoveSpaces(GetOr(event, "content", JStr("")).s), items[j])
    ensures var r := Handle(event, Listed(items), state, initialised, alertTime, now);
            var content := GetOr(event, "content", JStr("")).s;
            r.Ok? && r.value.executed
            && Detail(items[j], content, GetOr(event, "title", JStr("未知标题"))) in r.value.mentioned
  {
    var content := GetOr(event, "content", JStr(""));
    var m := Matches(content, items).value;
    assert j in m;
    var k :| 0 <= k < |m| && m[k] == j;
    var r := Handle(event, Listed(items), state, initialised, alertTime, now);
    assert r.value.mentioned[k] == Detail(items[j], content.s, GetOr(event, "title", JStr("未知标题")));
  }

  /** The watchlist items at the matched positions, in order. */
  function Matched(items: seq<WatchlistRepo.Read>, found: seq<nat>): (r: seq<WatchlistRepo.Read>)
    requires forall j :: 0 <= j < |found| ==> found[j] < |items|
    ensures |r| == |found| && forall j :: 0 <= j < |found| ==> r[j] == items[found[j]]
  {
    seq(|found|, j requires 0 <= j < |found| => items[found[j]])
  }

  /** The alert appended to the tracker: when, which report, its title, the mention details and their count. */
  function Alert(event: map<string, Value>, title: Value, details: seq<Value>, alertTime: string): (r: Value)
    ensures r.JObj? && r.fields.Keys == {"date", "report_id", "report_title", "items", "count"}
    ensures r.fields["date"] == JStr(alertTime) && r.fields["report_title"] == title
    ensures r.fields["report_id"] == (if "report_id" in event then event["report_id"] else JStr("unknown"))
    ensures r.fields["items"] == JArr(details) && r.fields["count"] == JNum(|details| as real)
  {
    JObj(map["date" := JStr(alertTime), "report_id" := GetOr(event, "report_id", JStr("unknown")),
             "report_title" := title, "items" := JArr(details), "count" := JNum(|details| as real)])
  }

  /** The executed branch: the details, the notification and the tracker update for the matched positions. */
  function Mention(event: map<string, Value>, items: seq<WatchlistRepo.Read>, found: seq<nat>, content: string,
                   title: Value, state: Value, initialised: Value, alertTime: string, now: string): (r: Outcome)
    requires |found| > 0
    requires forall j :: 0 <= j < |found| ==> found[j] < |items| && items[found[j]].name.JStr?
    ensures r.executed && |r.mentioned| == |found|
    ensures r.reason == "检测到 " + Strings.NatToString(|found|) + " 个关注标的"
    ensures forall j :: 0 <= j < |found| ==> r.mentioned[j] == Detail(items[found[j]], content, title)
    ensures r.notification == Notification(Matched(items, found), title)
    ensures r.tracker == UpdateTracker(state, initialised, Alert(event, title, r.mentioned, alertTime), now)
  {
    var matched := Matched(items, found);
    var details := seq(|found|, j requires 0 <= j < |found| => Detail(matched[j], content, title));
    Outcome(true, "检测到 " + Strings.NatToString(|found|) + " 个关注标的", details, Notification(matched, title),
            UpdateTracker(state, initialised, Alert(event, title, details, alertTime), now))
  }
}

=== FILE: watchlist_repo.dfy ===
/**
 * The watchlist table: items per user with a type, a status, free notes and
 * optional alert conditions kept as JSON text.
 */
module WatchlistRepo {
  import opened Wrappers
  import opened Json
  import PySeq

  /**
   * The `alert_conditions` column: SQL NULL, JSON text written by the
   * repository (which parses back to the value), or raw text written as given.
   */
  datatype Conditions = NoConditions | Dumped(value: Value) | Raw(text: string)

  datatype Item = Item(id: nat, user: Value, name: Value, kind: Value, conditions: Conditions, notes: Value,
                       status: Value, createdAt: nat)

  /** `watchlist`, in storage order. */
  type Table = seq<Item>

  /** An item as read back: `alert_conditions` decoded. */
  datatype Read = Read(id: nat, user: Value, name: Value, kind: Value, conditions: Value, notes: Value, status: Value,
                       createdAt: nat)

  /** Reading JSON text; `None` where `json.loads` raises. */
  type Loads = string -> Option<Value>

  const UpdatableFields: set<string> := {"target_name", "target_type", "alert_conditions", "status", "notes"}

  // ---------------------------------------------------------------- reads

  /**
   * Decoding on read: truthy text is parsed and becomes null when it does
   * not parse; null and empty text stay as they are.
   */
  function DecodeConditions(c: Conditions, loads: Loads): (r: Value)
    ensures c.NoConditions? ==> r == JNull
    ensures c.Dumped? ==> r == c.value
    ensures c.Raw? && |c.text| == 0 ==> r == JStr("")
    ensures c.Raw? && |c.text| > 0 ==> r == loads(c.text).GetOr(JNull)
  {
    match c
    case NoConditions => JNull
    case Dumped(v) => v
    case Raw(s) => if |s| == 0 then JStr(s) else loads(s).GetOr(JNull)
  }

  function ReadItem(i: Item, loads: Loads): (r: Read)
    ensures r.id == i.id && r.user == i.user && r.name == i.name && r.kind == i.kind && r.notes == i.notes
    ensures r.status == i.status && r.createdAt == i.createdAt && r.conditions == DecodeConditions(i.conditions, loads)
  {
    Read(i.id, i.user, i.name, i.kind, DecodeConditions(i.conditions, loads), i.notes, i.status, i.createdAt)
  }

  /** The rows passing `keep`, as (created_at, row) pairs in storage order. */
  function Matching(t: Table, keep: Item -> bool): (r: seq<(real, Item)>)
    ensures forall x :: x in r <==> x.1 in t && keep(x.1) && x.0 == x.1.createdAt as real
    decreases |t|
  {
    if |t| == 0 then []
    else
      var rest := Matching(t[1..], keep);
      assert forall x :: x in t <==> x == t[0] || x in t[1..];
      if keep(t[0]) then [(t[0].createdAt as real, t[0])] + rest else rest
  }

  /** Every pair's row, decoded, in order. */
  function ReadAll(rows: seq<(real, Item)>, loads: Loads): (r: seq<Read>)
    ensures |r| == |rows| && forall k :: 0 <= k < |rows| ==> r[k] == ReadItem(rows[k].1, loads)
  {
    seq(|rows|, k requires 0 <= k < |rows| => ReadItem(rows[k].1, loads))
  }

  /** `SELECT ... WHERE <keep> ORDER BY created_at DESC`, decoded. */
  function Query(t: Table, keep: Item -> bool, loads: Loads): (r: seq<Read>)
    ensures forall x :: x in r <==> exists i :: i in t && keep(i) && x == ReadItem(i, loads)
    ensures forall a, b :: 0 <= a < b < |r| ==> r[a].createdAt >= r[b].createdAt
  {
    var r := ReadAll(PySeq.SortDesc(Matching(t, keep)), loads);
    QueryFacts(t, keep, loads, r);
    r
  }

  lemma QueryFacts(t: Table, keep: Item -> bool, loads: Loads, r: seq<Read>)
    requires r == ReadAll(PySeq.SortDesc(Matching(t, keep)), loads)
    ensures && (forall x :: x in r <==> exists i :: i in t && keep(i) && x == ReadItem(i, loads))
      && (forall a, b :: 0 <= a < b < |r| ==> r[a].createdAt >= r[b].createdAt)
  {
    var rows := Matching(t, keep);
    var sorted := PySeq.SortDesc(rows);
    PySeq.SortDescMembers(rows);
    QueryMembers(t, keep, loads, rows, sorted, r);
    QueryOrder(rows, sorted, loads, r);
  }

  lemma QueryMembers(t: Table, keep: Item -> bool, loads: Loads, rows: seq<(real, Item)>, sorted: seq<(real, Item)>,
                     r: seq<Read>)
    requires rows == Matching(t, keep) && (forall x :: x in sorted <==> x in rows)
    requires r == ReadAll(sorted, loads)
    ensures forall x :: x in r <==> exists i :: i in t && keep(i) && x == ReadItem(i, loads)
  {
    forall x | x in r ensures exists i :: i in t && keep(i) && x == ReadItem(i, loads) {
      var k :| 0 <= k < |r| && r[k] == x;
      assert sorted[k] in rows;
    }
    forall i | i in t && keep(i) ensures ReadItem(i, loads) in r {
      var x := (i.createdAt as real, i);
      assert x in rows;
      var k :| 0 <= k < |sorted| && sorted[k] == x;
      assert r[k] == ReadItem(i, loads);
    }
  }

  lemma QueryOrder(rows: seq<(real, Item)>, sorted: seq<(real, Item)>, loads: Loads, r: seq<Read>)
    requires forall x :: x in rows ==> x.0 == x.1.createdAt as real
    requires (forall x :: x in sorted <==> x in rows) && PySeq.SortedDesc(sorted)
    requires r == ReadAll(sorted, loads)
    ensures forall a, b :: 0 <= a < b < |r| ==> r[a].createdAt >= r[b].createdAt
  {
    forall k | 0 <= k < |sorted| ensures sorted[k].0 == sorted[k].1.createdAt as real {
      assert sorted[k] in rows;
    }
  }

  predicate OfList(i: Item, user: Value, status: Value) {
    i.user == user && i.status == status
  }

  /** `get_list(user_id, status)`: exactly the user's items with that status, newest first. */
  function GetList(t: Table, user: Value, status: Value, loads: Loads): (r: seq<Read>)
    ensures forall x :: x in r <==> exists i :: i in t && OfList(i, user, status) && x == ReadItem(i, loads)
    ensures forall a, b :: 0 <= a < b < |r| ==> r[a].createdAt >= r[b].createdAt
  {
    Query(t, i => OfList(i, user, status), loads)
  }

  /** `get_by_type(target_type, user_id, status)`: the list further restricted to one type. */
  function GetByType(t: Table, kind: Value, user: Value, status: Value, loads: Loads): (r: seq<Read>)
    ensures forall x :: x in r <==> exists i :: i in t && OfList(i, user, status) && i.kind == kind && x == ReadItem(i, loads)
    ensures forall a, b :: 0 <= a < b < |r| ==> r[a].createdAt >= r[b].createdAt
  {
    Query(t, i => OfList(i, user, status) && i.kind == kind, loads)
  }

  /** `get_item(item_id)`: the item with that id, decoded. */
  function GetItem(t: Table, id: nat, loads: Loads): (r: Option<Read>)
    ensures r.None? <==> forall k :: 0 <= k < |t| ==> t[k].id != id
    ensures r.Some? ==> exists k :: 0 <= k < |t| && t[k].id == id && r.value == ReadItem(t[k], loads)
    decreases |t|
  {
    if |t| == 0 then None
    else if t[0].id == id then Some(ReadItem(t[0], loads))
    else
      var rest := GetItem(t[1..], id, loads);
      assert forall k :: 1 <= k < |t| ==> t[k] == t[1..][k - 1];
      rest
  }

  // ---------------------------------------------------------------- writes

  function MaxId(t: Table): (r: nat)
    ensures forall k :: 0 <= k < |t| ==> t[k].id <= r
    decreases |t|
  {
    if |t| == 0 then 0
    else
      var rest := MaxId(t[1..]);
      assert forall k :: 1 <= k < |t| ==> t[k] == t[1..][k - 1];
      if t[0].id > rest then t[0].id else rest
  }

  /** The stored form of given conditions: JSON text only when truthy. */
  function StoreConditions(conditions: Value): (r: Conditions)
    ensures Truthy(conditions) ==> r == Dumped(conditions)
    ensures !Truthy(conditions) ==> r == NoConditions
  {
    if Truthy(conditions) then Dumped(conditions) else NoConditions
  }

  /**
   * `add_item(target_name, target_type, user_id, alert_conditions, notes)`:
   * a new active row whose id exceeds every stored id; the id is returned.
   */
  function AddItem(t: Table, name: Value, kind: Value, user: Value, conditions: Value, notes: Value, now: nat)
    : (r: (Table, nat))
    ensures forall k :: 0 <= k < |t| ==> t[k].id < r.1
    ensures r.0 == t + [Item(r.1, user, name, kind, StoreConditions(conditions), notes, JStr("active"), now)]
  {
    var id := MaxId(t) + 1;
    (t + [Item(id, user, name, kind, StoreConditions(conditions), notes, JStr("active"), now)], id)
  }

  /** One update field applied to a row, as the `SET key = ?` clause does. */
  function SetField(i: Item, key: string, v: Value): (r: Item)
    requires key in UpdatableFields
    ensures r.id == i.id && r.user == i.user && r.createdAt == i.createdAt
  {
    if key == "target_name" then i.(name := v)
    else if key == "target_type" then i.(kind := v)
    else if key == "status" then i.(status := v)
    else if key == "notes" then i.(notes := v)
    else i.(conditions := if v.JObj? then Dumped(v) else if v.JStr? then Raw(v.s) else if v.JNull? then NoConditions
                          else Dumped(v))
  }

  /** The row after an update: every whitelisted key given replaces its column. */
  function Updated(i: Item, updates: map<string, Value>): (r: Item)
    ensures r.id == i.id && r.user == i.user && r.createdAt == i.createdAt
    ensures "target_name" in updates ==> r.name == updates["target_name"]
    ensures "target_name" !in updates ==> r.name == i.name
    ensures "target_type" in updates ==> r.kind == updates["target_type"]
    ensures "target_type" !in updates ==> r.kind == i.kind
    ensures "status" in updates ==> r.status == updates["status"]
    ensures "status" !in updates ==> r.status == i.status
    ensures "notes" in updates ==> r.notes == updates["notes"]
    ensures "notes" !in updates ==> r.notes == i.notes
    ensures "alert_conditions" !in updates ==> r.conditions == i.conditions
    ensures "alert_conditions" in updates && updates["alert_conditions"].JObj?
            ==> r.conditions == Dumped(updates["alert_conditions"])
    ensures "alert_conditions" in updates && updates["alert_conditions"].JStr?
            ==> r.conditions == Raw(updates["alert_conditions"].s)
    ensures "alert_conditions" in updates && updates["alert_conditions"].JNull? ==> r.conditions == NoConditions
  {
    var a := if "target_name" in updates then SetField(i, "target_name", updates["target_name"]) else i;
    var b := if "target_type" in updates then SetField(a, "target_type", updates["target_type"]) else a;
    var c := if "alert_conditions" in updates then SetField(b, "alert_conditions", updates["alert_conditions"]) else b;
    var d := if "status" in updates then SetField(c, "status", updates["status"]) else c;
    if "notes" in updates then SetField(d, "notes", updates["notes"]) else d
  }

  /**
   * `update_item(item_id, updates)`: false, with nothing written, exactly
   * when no whitelisted key is given; otherwise the rows with that id are
   * updated and the answer is true, whether or not such a row exists.
   */
  function UpdateItem(t: Table, id: nat, updates: map<string, Value>): (r: (Table, bool))
    ensures !r.1 <==> updates.Keys * UpdatableFields == {}
    ensures !r.1 ==> r.0 == t
    ensures |r.0| == |t|
    ensures r.1 ==> forall k :: 0 <= k < |t| ==> r.0[k] == if t[k].id == id then Updated(t[k], updates) else t[k]
  {
    if updates.Keys * UpdatableFields == {} then (t, false)
    else (seq(|t|, k requires 0 <= k < |t| => if t[k].id == id then Updated(t[k], updates) else t[k]), true)
  }

  /** `remove_item(item_id)`: a soft delete that marks the row inactive; always true. */
  function RemoveItem(t: Table, id: nat): (r: (Table, bool))
    ensures r.1 && |r.0| == |t|
    ensures forall k :: 0 <= k < |t| ==> r.0[k] == if t[k].id == id then t[k].(status := JStr("inactive")) else t[k]
  {
    (seq(|t|, k requires 0 <= k < |t| => if t[k].id == id then t[k].(status := JStr("inactive")) else t[k]), true)
  }

  /** `delete_item(item_id)`: removes the rows with that id; always true. */
  function DeleteItem(t: Table, id: nat): (r: (Table, bool))
    ensures r.1
    ensures forall i :: i in r.0 <==> i in t && i.id != id
    decreases |t|
  {
    if |t| == 0 then ([], true)
    else
      var rest := DeleteItem(t[1..], id).0;
      assert forall x :: x in t <==> x == t[0] || x in t[1..];
      (if t[0].id == id then rest else [t[0]] + rest, true)
  }

  // ---------------------------------------------------------------- properties

  /** An added item is listed, for its user and the active status, with its conditions decoded back. */
  lemma AddThenList(t: Table, name: Value, kind: Value, user: Value, conditions: Value, notes: Value, now: nat,
                    loads: Loads)
    ensures var (t', id) := AddItem(t, name, kind, user, conditions, notes, now);
      && GetItem(t', id, loads).Some?
      && GetItem(t', id, loads).value.conditions == (if Truthy(conditions) then conditions else JNull)
      && Read(id, user, name, kind, if Truthy(conditions) then conditions else JNull, notes, JStr("active"), now)
         in GetList(t', user, JStr("active"), loads)
  {
    var (t', id) := AddItem(t, name, kind, user, conditions, notes, now);
    var item := t'[|t|];
    assert item in t' && OfList(item, user, JStr("active"));
    assert ReadItem(item, loads) in GetList(t', user, JStr("active"), loads);
    var g := GetItem(t', id, loads);
    assert g.Some?;
    var k :| 0 <= k < |t'| && t'[k].id == id && g.value == ReadItem(t'[k], loads);
    assert k == |t|;
  }

  /** A soft-deleted item leaves the active list and appears in the inactive one. */
  lemma RemoveThenList(t: Table, id: nat, user: Value, loads: Loads)
    ensures forall x :: x in GetList(RemoveItem(t, id).0, user, JStr("active"), loads) ==> x.id != id
    ensures forall k :: 0 <= k < |t| && t[k].id == id && t[k].user == user ==>
              ReadItem(t[k].(status := JStr("inactive")), loads) in GetList(RemoveItem(t, id).0, user, JStr("inactive"), loads)
  {
    var r := RemoveItem(t, id).0;
    forall k | 0 <= k < |t| && t[k].id == id && t[k].user == user
      ensures ReadItem(t[k].(status := JStr("inactive")), loads) in GetList(r, user, JStr("inactive"), loads)
    {
      assert r[k] in r && OfList(r[k], user, JStr("inactive"));
    }
    forall x | x in GetList(r, user, JStr("active"), loads) ensures x.id != id {
      var i :| i in r && OfList(i, user, JStr("active")) && x == ReadItem(i, loads);
      var k :| 0 <= k < |r| && r[k] == i;
    }
  }

  /** After a hard delete the item cannot be read. */
  lemma DeleteThenGet(t: Table, id: nat, loads: Loads)
    ensures GetItem(DeleteItem(t, id).0, id, loads).None?
  {
    var r := DeleteItem(t, id).0;
    forall k | 0 <= k < |r| ensures r[k].id != id {
      assert r[k] in r;
    }
  }
}

=== FILE: websocket_handler.dfy ===
/**
 * The WebSocket router: the connected clients, the chat sessions and the
 * search sessions, the dispatch of inbound messages, and the fan-out of
 * server-initiated updates. A client's `session_id` attribute (the session
 * it is bound to) is the `bound` map; a client without the attribute, or
 * with it set to `None`, is absent from it.
 */
module WebSocketHandler {
  import opened Wrappers
  import opened Json
  import Strings
  import OrderedMap
  import AiClient
  import MessageTypes
  import Session
  import SearchSession

  type ClientId = MessageTypes.ClientId

  datatype Router = Router(
    sessions: OrderedMap.Dict<string, Session.State>,
    /** The connected clients under their generated ids, in connection order. */
    clients: OrderedMap.Dict<string, ClientId>,
    bound: map<ClientId, string>,
    searches: map<string, SearchSession.State>)

  /** Every session and search session is stored under its own id. */
  predicate Valid(r: Router) {
    OrderedMap.UniqueKeys(r.sessions) && OrderedMap.UniqueKeys(r.clients)
    && (forall i :: 0 <= i < |r.sessions| ==> r.sessions[i].1.id == r.sessions[i].0)
    && (forall k :: k in r.searches ==> r.searches[k].sessionId == k)
  }

  /** The router a handler starts with: nothing connected, no session. */
  function Empty(): (r: Router)
    ensures Valid(r)
  {
    Router([], [], map[], map[])
  }

  /** A direct reply to one client. */
  function Reply(c: ClientId, msg: MessageTypes.WSMessage): MessageTypes.Outgoing {
    MessageTypes.Outgoing({c}, msg)
  }

  // ---------------------------------------------------------------- ids

  /** `f"{ms}-{hex(us % 1000000)[2:]}"`, the shape of client ids and (after `session-`) of session ids. */
  function Stamp(ms: nat, us: nat): (r: string)
    ensures |r| > 2
  {
    Strings.NatToString(ms) + "-" + Strings.NatToHex(us % 1000000)
  }

  /** `_generate_session_id()`, from the clock in milliseconds and microseconds. */
  function GeneratedId(ms: nat, us: nat): (r: string)
    ensures Strings.StartsWith(r, "session-") && |r| > 8
  {
    "session-" + Stamp(ms, us)
  }

  /**
   * `_get_or_create_session(session_id)`: a truthy known id gives its
   * session unchanged; otherwise a generated session is stored under the
   * requested id, or under `generated` when none was requested.
   */
  function GetOrCreate(r: Router, requested: Option<string>, generated: string): (res: (Router, string))
    requires Valid(r)
    ensures Valid(res.0)
    ensures OrderedMap.Has(res.0.sessions, res.1)
    ensures requested.Some? && |requested.value| > 0 ==> res.1 == requested.value
    ensures (requested.None? || |requested.value| == 0) ==> res.1 == generated
    ensures requested.Some? && |requested.value| > 0 && OrderedMap.Has(r.sessions, requested.value) ==> res.0 == r
    ensures !(requested.Some? && |requested.value| > 0 && OrderedMap.Has(r.sessions, requested.value)) ==>
      OrderedMap.Get(res.0.sessions, res.1) == Some(Session.New(res.1))
    ensures forall k :: k != res.1 ==> OrderedMap.Get(res.0.sessions, k) == OrderedMap.Get(r.sessions, k)
    ensures res.0.clients == r.clients && res.0.bound == r.bound && res.0.searches == r.searches
  {
    if requested.Some? && |requested.value| > 0 && OrderedMap.Has(r.sessions, requested.value) then (r, requested.value)
    else
      var id := if requested.Some? && |requested.value| > 0 then requested.value else generated;
      (StoreSession(r, id, Session.New(id)), id)
  }

  /** Storing a session under its own id keeps the router valid. */
  function StoreSession(r: Router, id: string, s: Session.State): (res: Router)
    requires Valid(r) && s.id == id
    ensures Valid(res)
    ensures OrderedMap.Get(res.sessions, id) == Some(s)
    ensures forall k :: k != id ==> OrderedMap.Get(res.sessions, k) == OrderedMap.Get(r.sessions, k)
    ensures forall k :: OrderedMap.Has(res.sessions, k) <==> OrderedMap.Has(r.sessions, k) || k == id
    ensures res == r.(sessions := res.sessions)
  {
    var d := OrderedMap.Put(r.sessions, id, s);
    assert forall j :: 0 <= j < |d| ==> d[j].1.id == d[j].0 by {
      forall j | 0 <= j < |d| ensures d[j].1.id == d[j].0 {
        assert d[j] in r.sessions || d[j] == (id, s);
        if d[j] in r.sessions {
          var i :| 0 <= i < |r.sessions| && r.sessions[i] == d[j];
        }
      }
    }
    r.(sessions := d)
  }

  /** A session once created is reused: asking for the same id again changes nothing. */
  lemma GetOrCreateIdempotent(r: Router, requested: Option<string>, generated: string, generated2: string)
    requires Valid(r)
    requires requested.Some? && |requested.value| > 0
    ensures var (r1, k) := GetOrCreate(r, requested, generated);
      GetOrCreate(r1, requested, generated2) == (r1, k)
  {
  }

  // ---------------------------------------------------------------- reports

  /** The fields of a report that clients are sent. */
  const ReportFields: set<string> := {"id", "report_id", "title", "category", "summary_one_sentence", "key_drivers",
    "date_published", "importance_score", "action", "content", "sentiment", "sources"}

  /** One report reduced to the list fields, a missing field being `None`. */
  function Simplify(report: map<string, Value>): (r: map<string, Value>)
    ensures r.Keys == ReportFields
    ensures forall k :: k in r ==> r[k] == GetOr(report, k, JNull)
  {
    map k | k in ReportFields :: GetOr(report, k, JNull)
  }

  /** `_get_recent_reports()`: the simplified reports, or none when the database raises. */
  function RecentReports(found: Result<seq<map<string, Value>>, string>): (r: seq<Value>)
    ensures found.Err? ==> r == []
    ensures found.Ok? ==> |r| == |found.value|
    ensures found.Ok? ==> forall i :: 0 <= i < |r| ==> r[i] == JObj(Simplify(found.value[i]))
  {
    match found
    case Err(_) => []
    case Ok(rs) => seq(|rs|, i requires 0 <= i < |rs| => JObj(Simplify(rs[i])))
  }

  /** The template summaries sent on connection: id, name and description. */
  function TemplateSummaries(ts: seq<MessageTypes.UIStateTemplate>): (r: seq<Value>)
    ensures |r| == |ts|
    ensures forall i :: 0 <= i < |ts| ==> r[i] == JObj(map["id" := JStr(ts[i].id), "name" := ts[i].name,
      "description" := ts[i].description])
  {
    seq(|ts|, i requires 0 <= i < |ts| => JObj(map["id" := JStr(ts[i].id), "name" := ts[i].name,
      "description" := ts[i].description]))
  }

  // ---------------------------------------------------------------- connections

  /**
   * `on_open(ws)`: the client is stored under its generated id and is sent
   * the session ids, the recent reports and, when a UI-state manager is
   * configured, its template summaries.
   */
  function OnOpen(r: Router, c: ClientId, ms: nat, us: nat, reports: Result<seq<map<string, Value>>, string>,
                  templates: Option<seq<MessageTypes.UIStateTemplate>>): (res: (Router, seq<MessageTypes.Outgoing>))
    requires Valid(r)
    ensures Valid(res.0)
    ensures OrderedMap.Get(res.0.clients, Stamp(ms, us)) == Some(c)
    ensures res.0.sessions == r.sessions && res.0.bound == r.bound && res.0.searches == r.searches
    ensures forall o :: o in res.1 ==> o.to == {c}
    ensures |res.1| == if templates.Some? then 3 else 2
    ensures res.1[0].msg == MessageTypes.Connected(OrderedMap.Keys(r.sessions))
    ensures res.1[1].msg == MessageTypes.ReportsUpdate(RecentReports(reports))
    ensures templates.Some? ==> res.1[2].msg == MessageTypes.UIStateTemplates(TemplateSummaries(templates.value))
  {
    var r1 := r.(clients := OrderedMap.Put(r.clients, Stamp(ms, us), c));
    var out := [Reply(c, MessageTypes.Connected(OrderedMap.Keys(r.sessions))),
                Reply(c, MessageTypes.ReportsUpdate(RecentReports(reports)))];
    (r1, if templates.Some? then out + [Reply(c, MessageTypes.UIStateTemplates(TemplateSummaries(templates.value)))] else out)
  }

  /** The id under which a client is stored first, if any. */
  function FirstKeyOf(d: OrderedMap.Dict<string, ClientId>, c: ClientId): (r: Option<string>)
    ensures r.Some? ==> exists i :: 0 <= i < |d| && d[i] == (r.value, c) && forall j :: 0 <= j < i ==> d[j].1 != c
    ensures r.None? <==> forall i :: 0 <= i < |d| ==> d[i].1 != c
  {
    if |d| == 0 then None
    else if d[0].1 == c then Some(d[0].0)
    else
      var rest := FirstKeyOf(d[1..], c);
      if rest.Some? then
        var i :| 0 <= i < |d[1..]| && d[1..][i] == (rest.value, c) && forall j :: 0 <= j < i ==> d[1..][j].1 != c;
        assert d[i + 1] == (rest.value, c);
        assert forall j :: 0 <= j < i + 1 ==> d[j].1 != c by {
          forall j | 0 <= j < i + 1 ensures d[j].1 != c {
            if j > 0 { assert d[j] == d[1..][j - 1]; }
          }
        }
        rest
      else
        assert forall i :: 0 <= i < |d| ==> d[i].1 != c by {
          forall i | 0 <= i < |d| ensures d[i].1 != c {
            if i > 0 { assert d[i] == d[1..][i - 1]; }
          }
        }
        None
  }

  /**
   * `on_close(ws)`: a bound client leaves its chat session (if it still
   * exists) and the search session of the same id is dropped; then the
   * first entry of the client list holding the client is removed. The
   * binding itself is left as it was.
   */
  function OnClose(r: Router, c: ClientId): (res: Router)
    requires Valid(r)
    ensures Valid(res)
    ensures res.bound == r.bound
    ensures c in r.bound && |r.bound[c]| > 0 ==> r.bound[c] !in res.searches
    ensures forall k :: k in res.searches <==> k in r.searches && !(c in r.bound && r.bound[c] == k && |k| > 0)
    ensures forall k :: k in res.searches ==> res.searches[k] == r.searches[k]
    ensures c in r.bound && |r.bound[c]| > 0 && OrderedMap.Has(r.sessions, r.bound[c]) ==>
      OrderedMap.Get(res.sessions, r.bound[c]) == Some(Session.Unsubscribe(OrderedMap.Get(r.sessions, r.bound[c]).value, c))
    ensures forall k :: OrderedMap.Has(res.sessions, k) <==> OrderedMap.Has(r.sessions, k)
    ensures forall k :: !(c in r.bound && r.bound[c] == k) ==> OrderedMap.Get(res.sessions, k) == OrderedMap.Get(r.sessions, k)
    ensures FirstKeyOf(r.clients, c).Some? && |FirstKeyOf(r.clients, c).value| > 0 ==>
      res.clients == OrderedMap.Remove(r.clients, FirstKeyOf(r.clients, c).value)
    ensures (FirstKeyOf(r.clients, c).None? || |FirstKeyOf(r.clients, c).value| == 0) ==> res.clients == r.clients
  {
    var r1 :=
      if c in r.bound && |r.bound[c]| > 0 then
        var id := r.bound[c];
        var r0 := if OrderedMap.Has(r.sessions, id) then StoreSession(r, id, Session.Unsubscribe(OrderedMap.Get(r.sessions, id).value, c))
                  else r;
        r0.(searches := r0.searches - {id})
      else r;
    match FirstKeyOf(r1.clients, c)
    case Some(k) => if |k| > 0 then r1.(clients := OrderedMap.Remove(r1.clients, k)) else r1
    case None => r1
  }

  /** A client that connects and then disconnects leaves no entry behind, as long as it was not connected already. */
  lemma OpenThenClose(r: Router, c: ClientId, ms: nat, us: nat, reports: Result<seq<map<string, Value>>, string>,
                      templates: Option<seq<MessageTypes.UIStateTemplate>>)
    requires Valid(r)
    requires forall i :: 0 <= i < |r.clients| ==> r.clients[i].1 != c
    requires !OrderedMap.Has(r.clients, Stamp(ms, us))
    requires c !in r.bound
    ensures OnClose(OnOpen(r, c, ms, us, reports, templates).0, c).clients == r.clients
    ensures OnClose(OnOpen(r, c, ms, us, reports, templates).0, c).sessions == r.sessions
  {
    var d := OnOpen(r, c, ms, us, reports, templates).0.clients;
    assert d == r.clients + [(Stamp(ms, us), c)];
    assert FirstKeyOf(d, c) == Some(Stamp(ms, us)) by {
      var k := FirstKeyOf(d, c);
      assert d[|r.clients|].1 == c;
      var i :| 0 <= i < |d| && d[i] == (k.value, c) && forall j :: 0 <= j < i ==> d[j].1 != c;
      assert i == |r.clients|;
    }
    RemoveLast(r.clients, Stamp(ms, us), c);
  }

  lemma {:induction false} RemoveLast(d: OrderedMap.Dict<string, ClientId>, k: string, c: ClientId)
    requires OrderedMap.UniqueKeys(d + [(k, c)])
    requires !OrderedMap.Has(d, k)
    ensures OrderedMap.Remove(d + [(k, c)], k) == d
    decreases |d|
  {
    if |d| > 0 {
      assert (d + [(k, c)])[1..] == d[1..] + [(k, c)];
      assert d[0].0 != k;
      assert OrderedMap.UniqueKeys(d[1..] + [(k, c)]) by {
        forall i, j | 0 <= i < j < |d[1..] + [(k, c)]| ensures (d[1..] + [(k, c)])[i].0 != (d[1..] + [(k, c)])[j].0 {
          assert (d[1..] + [(k, c)])[i] == (d + [(k, c)])[i + 1];
          assert (d[1..] + [(k, c)])[j] == (d + [(k, c)])[j + 1];
        }
      }
      RemoveLast(d[1..], k, c);
    }
  }

  // ---------------------------------------------------------------- inbound

  /**
   * An inbound frame: unparsable (not JSON, or not an object) or the fields
   * the handlers read. Absent and `None` ids are `None`.
   */
  datatype Inbound =
    | Unparsable
    | Inbound(kind: Value, sessionId: Option<string>, content: string, newConversation: Value, query: string,
              searchSessionId: Option<string>)

  /**
   * What the handlers need from outside: the clock for generated ids, the
   * database's recent reports, the chat turn's classification and reply,
   * the default tool list, the clients whose send raises at once, and the
   * search service's answers (`None` when no search service is configured).
   */
  datatype Env = Env(ms: nat, us: nat, reports: Result<seq<map<string, Value>>, string>,
                     intent: Result<map<string, Value>, string>, reply: AiClient.Reply, defaultTools: Value,
                     broken: set<ClientId>, search: Option<SearchSession.Inputs>)

  const Failed: string := "Failed to process message"

  /** A truthy id. */
  predicate Named(id: Option<string>) {
    id.Some? && |id.value| > 0
  }

  /**
   * `_handle_chat_message`: the session is found or created, the sender is
   * subscribed and bound to it unless already bound to it (it does not leave
   * a previous session), and the turn runs. `end_conversation` is not a
   * coroutine, so awaiting it raises after the reset: with a truthy
   * `newConversation` the turn never runs and the generic error is sent.
   */
  function Chat(r: Router, c: ClientId, m: Inbound, env: Env): (res: (Router, seq<MessageTypes.Outgoing>))
    requires Valid(r) && m.Inbound?
    ensures Valid(res.0)
    ensures var key := if Named(m.sessionId) then m.sessionId.value else GeneratedId(env.ms, env.us);
      && res.0.bound == r.bound[c := key]
      && OrderedMap.Has(res.0.sessions, key)
      && (!(c in r.bound && r.bound[c] == key) && Truthy(m.newConversation) ==>
          c in OrderedMap.Get(res.0.sessions, key).value.subscribers)
      && (Truthy(m.newConversation) ==>
          (|res.1| > 0 && res.1[|res.1| - 1] == Reply(c, MessageTypes.ErrorMessage(Failed, None))
           && !Session.HoldsToken(OrderedMap.Get(res.0.sessions, key).value)))
      && (!Truthy(m.newConversation) ==>
          (OrderedMap.Get(res.0.sessions, key).value.messageCount
           == (if OrderedMap.Has(r.sessions, key) && Named(m.sessionId) then OrderedMap.Get(r.sessions, key).value.messageCount else 0) + 1))
      && forall k :: k != key ==> OrderedMap.Get(res.0.sessions, k) == OrderedMap.Get(r.sessions, k)
    ensures res.0.clients == r.clients && res.0.searches == r.searches
    ensures !Truthy(m.newConversation) ==>
      var (_, key, joined, pre) := JoinChat(r, c, m.sessionId, GeneratedId(env.ms, env.us));
      var t := Session.AddUserMessage(joined, m.content, env.intent, env.reply, env.defaultTools, env.broken);
      res.1 == pre + t.out && OrderedMap.Get(res.0.sessions, key) == Some(t.state)
  {
    var (r2, key, s1, pre) := JoinChat(r, c, m.sessionId, GeneratedId(env.ms, env.us));
    if Truthy(m.newConversation) then
      (StoreSession(r2, key, Session.EndConversation(s1)), pre + [Reply(c, MessageTypes.ErrorMessage(Failed, None))])
    else
      var t := Session.AddUserMessage(s1, m.content, env.intent, env.reply, env.defaultTools, env.broken);
      (StoreSession(r2, key, t.state), pre + t.out)
  }

  /**
   * The first half of `_handle_chat_message`: the session found or created,
   * the sender bound to it, and the session as it is once the sender is
   * subscribed (with the subscription's message), before the turn.
   */
  function JoinChat(r: Router, c: ClientId, sid: Option<string>, generated: string)
    : (res: (Router, string, Session.State, seq<MessageTypes.Outgoing>))
    requires Valid(r)
    ensures Valid(res.0) && OrderedMap.Has(res.0.sessions, res.1) && res.2.id == res.1
    ensures res.1 == if Named(sid) then sid.value else generated
    ensures res.0.bound == r.bound[c := res.1]
    ensures !(c in r.bound && r.bound[c] == res.1) ==> c in res.2.subscribers
    ensures res.2.messageCount
            == (if OrderedMap.Has(r.sessions, res.1) && Named(sid) then OrderedMap.Get(r.sessions, res.1).value.messageCount else 0)
    ensures forall k :: k != res.1 ==> OrderedMap.Get(res.0.sessions, k) == OrderedMap.Get(r.sessions, k)
    ensures res.0.clients == r.clients && res.0.searches == r.searches
  {
    var (r1, key) := GetOrCreate(r, sid, generated);
    var s := OrderedMap.Get(r1.sessions, key).value;
    var joined := Session.Subscribe(s, c);
    var (s1, pre) := if c in r.bound && r.bound[c] == key then (s, []) else (joined.0, [joined.1]);
    (r1.(bound := r.bound[c := key]), key, s1, pre)
  }

  /**
   * Chatting in another session moves the sender's binding there but does
   * not take it out of the session it was subscribed to before, unlike a
   * `subscribe` request.
   */
  lemma ChatKeepsOldSubscription(r: Router, c: ClientId, m: Inbound, env: Env, previous: string)
    requires Valid(r) && m.Inbound? && Named(m.sessionId) && m.sessionId.value != previous
    requires OrderedMap.Has(r.sessions, previous) && c in OrderedMap.Get(r.sessions, previous).value.subscribers
    ensures Chat(r, c, m, env).0.bound[c] == m.sessionId.value
    ensures c in OrderedMap.Get(Chat(r, c, m, env).0.sessions, previous).value.subscribers
  {
  }

  /**
   * `_handle_subscribe`: a missing id and an unknown session are answered
   * with an error. Otherwise the client leaves the different session it is
   * bound to (if that still exists), joins the requested one, is bound to it
   * and is sent the session's info and the confirmation.
   */
  function SubscribeTo(r: Router, c: ClientId, sid: Option<string>): (res: (Router, seq<MessageTypes.Outgoing>))
    requires Valid(r)
    ensures Valid(res.0)
    ensures !Named(sid) ==> res == (r, [Reply(c, MessageTypes.ErrorMessage("Missing sessionId", None))])
    ensures Named(sid) && !OrderedMap.Has(r.sessions, sid.value) ==>
      res == (r, [Reply(c, MessageTypes.ErrorMessage("Session not found", None))])
    ensures Named(sid) && OrderedMap.Has(r.sessions, sid.value) ==> var id := sid.value;
      && res.0.bound == r.bound[c := id]
      && OrderedMap.Has(res.0.sessions, id)
      && OrderedMap.Get(res.0.sessions, id).value.subscribers == OrderedMap.Get(r.sessions, id).value.subscribers + {c}
      && (c in r.bound && |r.bound[c]| > 0 && r.bound[c] != id && OrderedMap.Has(r.sessions, r.bound[c]) ==>
          (OrderedMap.Has(res.0.sessions, r.bound[c]) && c !in OrderedMap.Get(res.0.sessions, r.bound[c]).value.subscribers))
      && (forall k :: k != id && !(c in r.bound && k == r.bound[c]) ==>
          OrderedMap.Get(res.0.sessions, k) == OrderedMap.Get(r.sessions, k))
      && res.1 == [Reply(c, MessageTypes.SessionInfo(id, OrderedMap.Get(r.sessions, id).value.messageCount,
                                                     OrderedMap.Get(r.sessions, id).value.querying)),
                   Reply(c, MessageTypes.Subscribed(id))]
    ensures res.0.clients == r.clients && res.0.searches == r.searches
    ensures forall k :: OrderedMap.Has(res.0.sessions, k) <==> OrderedMap.Has(r.sessions, k)
  {
    if !Named(sid) then (r, [Reply(c, MessageTypes.ErrorMessage("Missing sessionId", None))])
    else if !OrderedMap.Has(r.sessions, sid.value) then (r, [Reply(c, MessageTypes.ErrorMessage("Session not found", None))])
    else
      var id := sid.value;
      var r1 := LeaveBound(r, c, id);
      var (s, info) := Session.Subscribe(OrderedMap.Get(r1.sessions, id).value, c);
      (StoreSession(r1, id, s).(bound := r.bound[c := id]), [info, Reply(c, MessageTypes.Subscribed(id))])
  }

  /** The client leaves the session it is bound to, when that is a different one that still exists. */
  function LeaveBound(r: Router, c: ClientId, id: string): (res: Router)
    requires Valid(r)
    ensures Valid(res)
    ensures res == r.(sessions := res.sessions)
    ensures OrderedMap.Get(res.sessions, id) == OrderedMap.Get(r.sessions, id)
    ensures c in r.bound && |r.bound[c]| > 0 && r.bound[c] != id && OrderedMap.Has(r.sessions, r.bound[c]) ==>
      (OrderedMap.Has(res.sessions, r.bound[c]) && c !in OrderedMap.Get(res.sessions, r.bound[c]).value.subscribers)
    ensures forall k :: !(c in r.bound && k == r.bound[c]) ==> OrderedMap.Get(res.sessions, k) == OrderedMap.Get(r.sessions, k)
    ensures forall k :: OrderedMap.Has(res.sessions, k) <==> OrderedMap.Has(r.sessions, k)
  {
    if c in r.bound && |r.bound[c]| > 0 && r.bound[c] != id && OrderedMap.Has(r.sessions, r.bound[c])
    then StoreSession(r, r.bound[c], Session.Unsubscribe(OrderedMap.Get(r.sessions, r.bound[c]).value, c))
    else r
  }

  /**
   * `_handle_unsubscribe`: a missing id or an unknown session is ignored.
   * Otherwise the client leaves that session, its binding is cleared
   * (whatever session it named) and the confirmation is sent.
   */
  function UnsubscribeFrom(r: Router, c: ClientId, sid: Option<string>): (res: (Router, seq<MessageTypes.Outgoing>))
    requires Valid(r)
    ensures Valid(res.0)
    ensures !Named(sid) || !OrderedMap.Has(r.sessions, sid.value) ==> res == (r, [])
    ensures Named(sid) && OrderedMap.Has(r.sessions, sid.value) ==> var id := sid.value;
      && c !in res.0.bound
      && OrderedMap.Get(res.0.sessions, id) == Some(Session.Unsubscribe(OrderedMap.Get(r.sessions, id).value, c))
      && (forall k :: k != id ==> OrderedMap.Get(res.0.sessions, k) == OrderedMap.Get(r.sessions, k))
      && res.1 == [Reply(c, MessageTypes.Unsubscribed(id))]
    ensures forall d :: d != c ==> (d in res.0.bound <==> d in r.bound) && (d in r.bound ==> res.0.bound[d] == r.bound[d])
    ensures res.0.clients == r.clients && res.0.searches == r.searches
  {
    if !Named(sid) || !OrderedMap.Has(r.sessions, sid.value) then (r, [])
    else
      var id := sid.value;
      (StoreSession(r, id, Session.Unsubscribe(OrderedMap.Get(r.sessions, id).value, c)).(bound := r.bound - {c}),
       [Reply(c, MessageTypes.Unsubscribed(id))])
  }

  /** Subscribing to a session and then unsubscribing from it leaves the client out of it and unbound. */
  lemma SubscribeThenUnsubscribe(r: Router, c: ClientId, id: string)
    requires Valid(r) && |id| > 0 && OrderedMap.Has(r.sessions, id)
    ensures var r1 := SubscribeTo(r, c, Some(id)).0;
      var r2 := UnsubscribeFrom(r1, c, Some(id)).0;
      && c in OrderedMap.Get(r1.sessions, id).value.subscribers && r1.bound[c] == id
      && c !in OrderedMap.Get(r2.sessions, id).value.subscribers && c !in r2.bound
  {
  }

  /**
   * Unsubscribing from a session other than the bound one clears the
   * binding all the same, while the client stays subscribed to the session
   * it was bound to; closing the connection then leaves it there.
   */
  lemma UnsubscribeOtherForgetsBinding(r: Router, c: ClientId, other: string)
    requires Valid(r) && c in r.bound && |other| > 0 && other != r.bound[c] && OrderedMap.Has(r.sessions, other)
    requires OrderedMap.Has(r.sessions, r.bound[c]) && c in OrderedMap.Get(r.sessions, r.bound[c]).value.subscribers
    ensures var r1 := UnsubscribeFrom(r, c, Some(other)).0;
      && c !in r1.bound
      && c in OrderedMap.Get(OnClose(r1, c).sessions, r.bound[c]).value.subscribers
  {
  }

  /** `_handle_subscribe_report_analysis`: a confirmation, or an error without a session id; nothing is recorded. */
  function SubscribeReportAnalysis(c: ClientId, sid: Option<string>): (r: seq<MessageTypes.Outgoing>)
    ensures Named(sid) ==> r == [Reply(c, MessageTypes.SubscribedReportAnalysis(sid.value))]
    ensures !Named(sid) ==>
      r == [Reply(c, MessageTypes.ErrorMessage("Missing sessionId for report analysis subscription", None))]
  {
    if Named(sid) then [Reply(c, MessageTypes.SubscribedReportAnalysis(sid.value))]
    else [Reply(c, MessageTypes.ErrorMessage("Missing sessionId for report analysis subscription", None))]
  }

  /** `_handle_unsubscribe_report_analysis`: a confirmation, or silence without a session id. */
  function UnsubscribeReportAnalysis(c: ClientId, sid: Option<string>): (r: seq<MessageTypes.Outgoing>)
    ensures Named(sid) <==> |r| == 1
    ensures Named(sid) ==> r == [Reply(c, MessageTypes.UnsubscribedReportAnalysis(sid.value))]
  {
    if Named(sid) then [Reply(c, MessageTypes.UnsubscribedReportAnalysis(sid.value))] else []
  }

  // ---------------------------------------------------------------- search

  /** A search session created for a client-supplied id resumes that id; a generated `session-` id resumes nothing. */
  function ResumeFor(id: string): (r: Option<string>)
    ensures r.Some? <==> |id| > 0 && !Strings.StartsWith(id, "session-")
    ensures r.Some? ==> r.value == id
  {
    if |id| > 0 && !Strings.StartsWith(id, "session-") then Some(id) else None
  }

  /** Every message addressed to one socket. */
  function ToSocket(socket: ClientId, msgs: seq<MessageTypes.WSMessage>): (r: seq<MessageTypes.Outgoing>)
    ensures |r| == |msgs|
    ensures forall i :: 0 <= i < |r| ==> r[i] == MessageTypes.Outgoing({socket}, msgs[i])
  {
    seq(|msgs|, i requires 0 <= i < |msgs| => MessageTypes.Outgoing({socket}, msgs[i]))
  }

  /** The search session id of a request: the client's, or a generated one. */
  function SearchId(m: Inbound, env: Env): string
    requires m.Inbound?
  {
    if Named(m.searchSessionId) then m.searchSessionId.value else GeneratedId(env.ms, env.us)
  }

  /** The search session a request is handled by: the stored one, or a new one for this client. */
  function SearchFor(r: Router, c: ClientId, id: string): (s: SearchSession.State)
    requires Valid(r)
    ensures s.sessionId == id
    ensures id !in r.searches ==> s == SearchSession.State(c, id, ResumeFor(id))
  {
    if id in r.searches then r.searches[id] else SearchSession.State(c, id, ResumeFor(id))
  }

  /**
   * `_handle_search_message`: without a search service, or with an empty
   * query, an error is sent to the requester. Otherwise the search session
   * of the requested (or a generated) id handles the query, its messages go
   * to the socket that session was created for, and the session is stored.
   */
  function Search(r: Router, c: ClientId, m: Inbound, env: Env): (res: (Router, seq<MessageTypes.Outgoing>))
    requires Valid(r) && m.Inbound?
    ensures Valid(res.0)
    ensures env.search.None? ==>
      res == (r, [Reply(c, MessageTypes.SearchError("Search service not available", "搜索服务未初始化"))])
    ensures env.search.Some? && |m.query| == 0 ==>
      res == (r, [Reply(c, MessageTypes.SearchError("Query is required", "查询语句不能为空"))])
    ensures env.search.Some? && |m.query| > 0 ==> var id := SearchId(m, env);
      var h := SearchSession.HandleQuery(SearchFor(r, c, id), m.query, env.search.value);
      && id in res.0.searches && res.0.searches[id] == h.state
      && res.1 == ToSocket(SearchFor(r, c, id).socket, h.out)
      && (forall k :: k != id ==> (k in res.0.searches <==> k in r.searches))
    ensures res.0.sessions == r.sessions && res.0.clients == r.clients && res.0.bound == r.bound
  {
    match env.search
    case None => (r, [Reply(c, MessageTypes.SearchError("Search service not available", "搜索服务未初始化"))])
    case Some(inputs) =>
      if |m.query| == 0 then (r, [Reply(c, MessageTypes.SearchError("Query is required", "查询语句不能为空"))])
      else
        var id := SearchId(m, env);
        var ss := SearchFor(r, c, id);
        var h := SearchSession.HandleQuery(ss, m.query, inputs);
        (r.(searches := r.searches[id := h.state]), ToSocket(ss.socket, h.out))
  }

  /**
   * A first search under a client-supplied id that does not look generated
   * asks the provider to resume that id: this is how a client continues a
   * conversation across reconnections.
   */
  lemma FirstSearchResumesClientId(r: Router, c: ClientId, m: Inbound, env: Env)
    requires Valid(r) && m.Inbound? && env.search.Some? && |m.query| > 0
    requires Named(m.searchSessionId) && m.searchSessionId.value !in r.searches
    requires !Strings.StartsWith(m.searchSessionId.value, "session-")
    ensures var h := SearchSession.HandleQuery(SearchFor(r, c, m.searchSessionId.value), m.query, env.search.value);
      h.query.Some? ==> h.query.value.options["resume"] == JStr(m.searchSessionId.value)
  {
  }

  /** Once created, a search session answers on its creator's socket, whoever sends the next query. */
  lemma SearchRepliesToCreator(r: Router, c: ClientId, m: Inbound, env: Env, c2: ClientId, m2: Inbound, env2: Env)
    requires Valid(r) && m.Inbound? && m2.Inbound? && env.search.Some? && env2.search.Some?
    requires |m.query| > 0 && |m2.query| > 0
    requires Named(m.searchSessionId) && m2.searchSessionId == m.searchSessionId
    requires m.searchSessionId.value !in r.searches
    ensures forall o :: o in Search(Search(r, c, m, env).0, c2, m2, env2).1 ==> o.to == {c}
  {
    var r1 := Search(r, c, m, env).0;
    assert SearchFor(r1, c2, m.searchSessionId.value).socket == c;
  }

  // ---------------------------------------------------------------- dispatch

  /**
   * `on_message(ws, message)`: the frame is dispatched on its `type`; an
   * unknown type is answered with an error naming it, and a frame that
   * cannot be handled with the generic error.
   */
  function OnMessage(r: Router, c: ClientId, m: Inbound, env: Env): (res: (Router, seq<MessageTypes.Outgoing>))
    requires Valid(r)
    ensures Valid(res.0)
    ensures res.0.clients == r.clients
    ensures m.Unparsable? ==> res == (r, [Reply(c, MessageTypes.ErrorMessage(Failed, None))])
    ensures m.Inbound? && m.kind == JStr("chat") ==> res == Chat(r, c, m, env)
    ensures m.Inbound? && m.kind == JStr("subscribe") ==> res == SubscribeTo(r, c, m.sessionId)
    ensures m.Inbound? && m.kind == JStr("unsubscribe") ==> res == UnsubscribeFrom(r, c, m.sessionId)
    ensures m.Inbound? && m.kind == JStr("request_reports") ==>
      res == (r, [Reply(c, MessageTypes.ReportsUpdate(RecentReports(env.reports)))])
    ensures m.Inbound? && m.kind == JStr("subscribe_report_analysis") ==> res == (r, SubscribeReportAnalysis(c, m.sessionId))
    ensures m.Inbound? && m.kind == JStr("unsubscribe_report_analysis") ==> res == (r, UnsubscribeReportAnalysis(c, m.sessionId))
    ensures m.Inbound? && m.kind == JStr("search") ==> res == Search(r, c, m, env)
    ensures m.Inbound? && !Known(m.kind) ==>
      res == (r, [Reply(c, MessageTypes.ErrorMessage("Unknown message type: " + PyStr(m.kind), None))])
  {
    match m
    case Unparsable => (r, Answer(c, m, env))
    case Inbound(kind, sid, _, _, _, _) =>
      if kind == JStr("chat") then Chat(r, c, m, env)
      else if kind == JStr("subscribe") then SubscribeTo(r, c, sid)
      else if kind == JStr("unsubscribe") then UnsubscribeFrom(r, c, sid)
      else if kind == JStr("search") then Search(r, c, m, env)
      else (r, Answer(c, m, env))
  }

  /** The seven message types the router handles. */
  predicate Known(kind: Value) {
    kind in {JStr("chat"), JStr("subscribe"), JStr("unsubscribe"), JStr("request_reports"),
             JStr("subscribe_report_analysis"), JStr("unsubscribe_report_analysis"), JStr("search")}
  }

  /** Only chat, subscribe, unsubscribe and search change the router; every other frame gets replies only, all to the sender. */
  lemma ReadOnlyMessages(r: Router, c: ClientId, m: Inbound, env: Env)
    requires Valid(r)
    requires m.Unparsable? || !(m.kind in {JStr("chat"), JStr("subscribe"), JStr("unsubscribe"), JStr("search")})
    ensures OnMessage(r, c, m, env).0 == r
    ensures forall o :: o in OnMessage(r, c, m, env).1 ==> o.to == {c}
  {
  }

  /** The replies to a frame that leaves the router alone, all addressed to the sender. */
  function Answer(c: ClientId, m: Inbound, env: Env): (r: seq<MessageTypes.Outgoing>)
    requires m.Unparsable? || !(m.kind in {JStr("chat"), JStr("subscribe"), JStr("unsubscribe"), JStr("search")})
    ensures forall o :: o in r ==> o.to == {c}
  {
    match m
    case Unparsable => [Reply(c, MessageTypes.ErrorMessage(Failed, None))]
    case Inbound(kind, sid, _, _, _, _) =>
      if kind == JStr("request_reports") then [Reply(c, MessageTypes.ReportsUpdate(RecentReports(env.reports)))]
      else if kind == JStr("subscribe_report_analysis") then SubscribeReportAnalysis(c, sid)
      else if kind == JStr("unsubscribe_report_analysis") then UnsubscribeReportAnalysis(c, sid)
      else [Reply(c, MessageTypes.ErrorMessage("Unknown message type: " + PyStr(kind), None))]
  }

  // ---------------------------------------------------------------- fan-out

  /** The connected clients. */
  function ConnectedClients(r: Router): (s: set<ClientId>)
    ensures forall c :: c in s <==> exists i :: 0 <= i < |r.clients| && r.clients[i].1 == c
  {
    set i | 0 <= i < |r.clients| :: r.clients[i].1
  }

  /**
   * The clients a scoped update reaches: with a truthy session id, the
   * connected clients bound to it; otherwise every connected client.
   */
  function Recipients(r: Router, scope: Option<string>): (s: set<ClientId>)
    ensures s <= ConnectedClients(r)
    ensures !Named(scope) ==> s == ConnectedClients(r)
    ensures Named(scope) ==> forall c :: c in s <==> c in ConnectedClients(r) && c in r.bound && r.bound[c] == scope.value
  {
    if Named(scope) then set c | c in ConnectedClients(r) && c in r.bound && r.bound[c] == scope.value
    else ConnectedClients(r)
  }

  /** `_broadcast_reports_update`: the recent reports to every client; a failing send is skipped. */
  function BroadcastReports(r: Router, reports: Result<seq<map<string, Value>>, string>): (o: MessageTypes.Outgoing)
    ensures o.to == ConnectedClients(r) && o.msg == MessageTypes.ReportsUpdate(RecentReports(reports))
  {
    MessageTypes.Outgoing(ConnectedClients(r), MessageTypes.ReportsUpdate(RecentReports(reports)))
  }

  /** `_broadcast_ui_state_update`, run for every UI-state write: the new state to every client. */
  function BroadcastUIState(r: Router, stateId: string, data: Value): (o: MessageTypes.Outgoing)
    ensures o.to == ConnectedClients(r) && o.msg == MessageTypes.UIStateUpdate(stateId, data)
  {
    MessageTypes.Outgoing(ConnectedClients(r), MessageTypes.UIStateUpdate(stateId, data))
  }

  /** `broadcast_report_analysis`: to the clients of the session, or to all; the message carries the session id or `""`. */
  function BroadcastReportAnalysis(r: Router, reportId: string, title: string, analysis: Value, timestamp: string,
                                   scope: Option<string>): (o: MessageTypes.Outgoing)
    ensures o.to == Recipients(r, scope)
    ensures o.msg == MessageTypes.ReportAnalysisUpdate(reportId, title, analysis, timestamp,
      if Named(scope) then scope.value else "")
  {
    MessageTypes.Outgoing(Recipients(r, scope),
      MessageTypes.ReportAnalysisUpdate(reportId, title, analysis, timestamp, if Named(scope) then scope.value else ""))
  }

  /** `broadcast_alert`: to the clients of the session, or to all; the message carries the session id or `""`. */
  function BroadcastAlert(r: Router, alertId: string, title: string, message: string, severity: string, data: Value,
                          timestamp: string, scope: Option<string>): (o: MessageTypes.Outgoing)
    ensures o.to == Recipients(r, scope)
    ensures o.msg == MessageTypes.AlertTriggered(alertId, title, message, severity, data, timestamp,
      if Named(scope) then scope.value else "")
  {
    MessageTypes.Outgoing(Recipients(r, scope),
      MessageTypes.AlertTriggered(alertId, title, message, severity, data, timestamp, if Named(scope) then scope.value else ""))
  }

  /** A connected client that subscribes to a session receives the updates scoped to it. */
  lemma SubscriberReceivesScoped(r: Router, c: ClientId, id: string)
    requires Valid(r) && |id| > 0 && OrderedMap.Has(r.sessions, id) && c in ConnectedClients(r)
    ensures c in Recipients(SubscribeTo(r, c, Some(id)).0, Some(id))
  {
  }

  // ---------------------------------------------------------------- sweep

  /**
   * One step of `_cleanup_empty_sessions` after its grace period, for a
   * session that had `hadSubscribers` when the sweep looked at it: a
   * session without subscribers then and now is deleted. When the id is
   * gone by then, `del` raises and the sweep ends (`Err`).
   */
  function SweepOne(r: Router, id: string, hadSubscribers: bool): (res: Result<Router, string>)
    requires Valid(r)
    ensures res.Ok? ==> Valid(res.value)
    ensures res.Err? <==> !hadSubscribers && !OrderedMap.Has(r.sessions, id)
    ensures res.Ok? ==> (!OrderedMap.Has(res.value.sessions, id) <==>
      (!hadSubscribers && !Session.HasSubscribers(OrderedMap.Get(r.sessions, id).value)) || !OrderedMap.Has(r.sessions, id))
    ensures res.Ok? ==> forall k :: k != id ==> OrderedMap.Get(res.value.sessions, k) == OrderedMap.Get(r.sessions, k)
    ensures res.Ok? ==> res.value == r.(sessions := res.value.sessions)
  {
    if hadSubscribers then Ok(r)
    else if !OrderedMap.Has(r.sessions, id) then Err("'" + id + "'")
    else if Session.HasSubscribers(OrderedMap.Get(r.sessions, id).value) then Ok(r)
    else Ok(RemoveSession(r, id))
  }

  function RemoveSession(r: Router, id: string): (res: Router)
    requires Valid(r)
    ensures Valid(res)
    ensures !OrderedMap.Has(res.sessions, id)
    ensures forall k :: k != id ==> OrderedMap.Get(res.sessions, k) == OrderedMap.Get(r.sessions, k)
    ensures res == r.(sessions := res.sessions)
  {
    var d := OrderedMap.Remove(r.sessions, id);
    assert forall j :: 0 <= j < |d| ==> d[j].1.id == d[j].0 by {
      forall j | 0 <= j < |d| ensures d[j].1.id == d[j].0 {
        var i :| 0 <= i < |r.sessions| && r.sessions[i] == d[j];
      }
    }
    RemoveGet(r.sessions, id);
    r.(sessions := d)
  }

  lemma RemoveGet(d: OrderedMap.Dict<string, Session.State>, id: string)
    requires OrderedMap.UniqueKeys(d)
    ensures forall k :: k != id ==> OrderedMap.Get(OrderedMap.Remove(d, id), k) == OrderedMap.Get(d, k)
  {
    var e := OrderedMap.Remove(d, id);
    forall k | k != id ensures OrderedMap.Get(e, k) == OrderedMap.Get(d, k) {
      if OrderedMap.Has(d, k) {
        var v := OrderedMap.Get(e, k).value;
        var i :| 0 <= i < |e| && e[i] == (k, v);
        assert e[i] in d;
        var j :| 0 <= j < |d| && d[j] == e[i];
        OrderedMap.GetUnique(d, j);
      }
    }
  }

  /** A client that is subscribed when the grace period ends keeps its session. */
  lemma SweepKeepsSubscribed(r: Router, id: string, hadSubscribers: bool, c: ClientId)
    requires Valid(r) && OrderedMap.Has(r.sessions, id) && c in OrderedMap.Get(r.sessions, id).value.subscribers
    ensures SweepOne(r, id, hadSubscribers) == Ok(r)
  {
  }
}

=== FILE: wrappers.dfy ===
/** Failure-compatible wrappers shared by every module of the model. */
module Wrappers {

  /** Python's `Optional[T]`: `None` or a present value. */
  datatype Option<+T> = None | Some(value: T) {

    /** The value when present, otherwise the given default (`x if x is not None else d`). */
    function GetOr(default: T): T {
      match this
      case Some(v) => v
      case None => default
    }
  }

  /** The outcome of a call that may raise: the value, or the text of the exception. */
  datatype Result<+T, +E> = Ok(value: T) | Err(error: E) {

    /** An exception propagates through `:-`. */
    predicate IsFailure() {
      Err?
    }

    function PropagateFailure<U>(): Result<U, E>
      requires Err?
    {
      Err(error)
    }

    function Extract(): T
      requires Ok?
    {
      value
    }
  }
}
